=== FILE: README.md ===
# Portfolio manager core, modelled in Dafny

This project models the core of a personal portfolio manager. The core has four parts:

- A Python back end keeps transactions, securities, prices, company valuations, users and external trading platforms in database tables. It recalculates holdings for a date by replaying the transaction ledger into moving-average positions.
- Two CSV loaders and two web-scraper variants feed in security prices and private-company valuations.
- A command-line start-up picks the environment file and serves the single-page app.
- A React front end supplies small pure helpers: field registries, the transaction-type dictionary, the numeric column filter of the external-platforms list, and a telemetry queue in local storage.

Every store is a map or an insertion-ordered dictionary. Every operation is a pure function that returns the new store together with its result. Errors the source raises are `Result` values. Anything the model cannot see is a parameter:

- clock readings and generated ids, as functions of the call's index;
- Python's `float()` and `strptime`;
- the JavaScript engine's number conversion and locale formatting;
- local storage and the JSON engine.

Modules and the source they follow:

| module | source |
|---|---|
| `Holdings` | `source_code/crud/holding_crud_operations.py` (`recalc_for_date`) |
| `Transactions` | `source_code/crud/transaction_crud_operations.py` |
| `SecurityPrices` | `source_code/crud/security_price_crud_operations.py` |
| `CompanyValuations` | `source_code/crud/company_valuations_crud_operations.py` |
| `Securities` | `source_code/crud/security_crud_operations.py` |
| `Users` | `source_code/crud/user_crud_operations.py` |
| `ExternalPlatforms` | `source_code/crud/external_platform_crud_operations.py` |
| `KeyedStore` | `source_code/crud/base.py` |
| `PriceLoader` | `source_code/utils/security_price_loader.py` |
| `ValuationsLoader` | `source_code/utils/company_valuations_loader.py` |
| `ForgeScraper` | `source_code/utils/forgeglobal_scraper.py` and `forgeglobal_scraper_new.py` (one member where the code is identical, one per version where it differs) |
| `Cli` | `main.py` |
| `Fields`, `Dictionaries` | `src/models/fields.js`, `src/models/dictionaries.js` |
| `PlatformFilter` | `src/pages/external_platforms/ExternalPlatformsList.jsx` |
| `Telemetry` | `src/utils/telemetry.js` |
| `Results`, `Text`, `Dates`, `Money`, `Dicts`, `Seqs`, `Scan`, `Js` | shared support |

The support modules provide these building blocks:

- `Text`: ASCII strip, case mapping and whitespace collapsing.
- `Money`: half-even decimal rounding on exact reals, standing in for Python's `round`.
- `Dicts`: insertion-ordered dictionaries.
- `Scan`: a leftmost-match search, the way `re.search` scans.

`_get_last_page` and `_norm_text` are the same in both scrapers, so one member models both.

## Model

| member | source | states |
|---|---|---|
| Holdings.KindOf | source_code/crud/holding_crud_operations.py:186-198 | a row is a buy exactly when its upper-cased type text is "B" or "BUY", a sell exactly when it is "S" or "SELL"; a missing type reads as "None" and is ignored |
| Holdings.Apply | source_code/crud/holding_crud_operations.py:188-206 | a buy adds the quantity and makes quantity times average equal the old cost plus quantity times price; a sell subtracts and keeps the average while the quantity stays positive; either resets the average to 0 once the quantity is not positive; any other kind changes nothing |
| Holdings.ReplayPerKey | source_code/crud/holding_crud_operations.py:176-206 | the aggregation keeps keys apart: a key is present iff some ledger row has it, its position is its own rows replayed in ledger order, and its last transaction is its last row's price and date |
| Holdings.ReplayKeys | source_code/crud/holding_crud_operations.py:176-181 | the aggregated keys are exactly the (portfolio, security) pairs occurring in the ledger, ignored rows included |
| Holdings.BlendThenSellExample | source_code/crud/holding_crud_operations.py:184-203 | BUY 10 @ 10, BUY 10 @ 20, SELL 15 leaves quantity 5 at average cost 15 |
| Holdings.ExactCloseRestartsCost | source_code/crud/holding_crud_operations.py:188-203 | selling exactly the held quantity and then buying starts a fresh average at the new buy's price |
| Holdings.OversoldThenBuyExample | source_code/crud/holding_crud_operations.py:198-203 | an over-sell is not clamped: BUY 10 @ 10, SELL 15, BUY 10 @ 30 leaves 5 at average 60 |
| Holdings.BuyThenBuy | source_code/crud/holding_crud_operations.py:188-197 | two buys in a row, each leaving a positive quantity, give the quantity-weighted average of the old cost and both purchases |
| Holdings.BuysCommute | source_code/crud/holding_crud_operations.py:188-197 | two buys give the same quantity and average in either order while each keeps the quantity positive |
| Holdings.BuysGiveWeightedAverage | source_code/crud/holding_crud_operations.py:188-197 | for a run of positive buys the quantity is the total bought and quantity times average is the total paid |
| Holdings.PartialSellKeepsAverage | source_code/crud/holding_crud_operations.py:198-203 | a partial sell keeps the average and lowers the cost basis by quantity times average |
| Holdings.IgnoredRowOnlyMovesLastTx | source_code/crud/holding_crud_operations.py:184-206 | a row of unknown type leaves every position as it was (a new key gets an empty one) but still becomes its key's last transaction |
| Holdings.OwnedBy | source_code/crud/holding_crud_operations.py:168-173 | the allowed portfolios are exactly those with a row whose owner equals the user id |
| Holdings.OwnershipFilterBeforeAggregation | source_code/crud/holding_crud_operations.py:168-174 | with a user id, a key of an owned portfolio aggregates exactly as without the filter, and a key of any other portfolio is absent |
| Holdings.LaterTransactionsIgnored | source_code/crud/holding_crud_operations.py:158-166 | transactions dated after the target date do not change the ledger that is replayed |
| Holdings.KeysInOrder | source_code/crud/holding_crud_operations.py:176-181 | the keys in first-appearance order, each once, exactly the keys of the ledger |
| Holdings.Survivors | source_code/crud/holding_crud_operations.py:208 | the surviving positions are the keys with positive quantity, each once, quantity rounded to 6 places, average unrounded |
| Holdings.SurvivorsAreOpenPositions | source_code/crud/holding_crud_operations.py:208 | a key becomes a position iff its aggregated quantity is positive, and no key appears twice |
| Holdings.LatestPrice | source_code/crud/holding_crud_operations.py:225-229 | the chosen price row is the security's row dated on or before the target that sorts last by (date, id); none when no such row exists |
| Holdings.ResolvePrice | source_code/crud/holding_crud_operations.py:225-240 | when the security has a price row on or before the target, the price and date come from a row that no other such row follows by date then price id; else the key's last transaction price and date if that price is positive; else price 0 with no date |
| Holdings.Value | source_code/crud/holding_crud_operations.py:241-244 | market value and cost are the products rounded to cents; the gain is their difference; the percentage is 0 when the cost is 0 and otherwise gain over cost times 100 rounded to 4 places |
| Holdings.DeleteDate | source_code/crud/holding_crud_operations.py:215-218 | the delete removes exactly the rows of the target date, keeps every other row and reports how many it removed |
| Holdings.InsertAll | source_code/crud/holding_crud_operations.py:247-253 | existing rows are never overwritten (ON CONFLICT DO NOTHING) and every added row is one of the built rows under its own id |
| Holdings.RecalcForDate | source_code/crud/holding_crud_operations.py:147-256 | deleted counts the target date's old rows, inserted counts the surviving positions, and rows of other dates are untouched |
| Holdings.InsertFresh | source_code/crud/holding_crud_operations.py:247-254 | rows with distinct, unused ids are all inserted and nothing else is added |
| Holdings.ReplaceDate | source_code/crud/holding_crud_operations.py:215-255 | after delete-then-insert the target date holds exactly the built rows |
| Holdings.SnapshotReplacesDate | source_code/crud/holding_crud_operations.py:215-256 | with fresh clock ids the target date afterwards holds exactly one new row per surviving position, and their number is inserted |
| Holdings.RecalcRepeatCounts | source_code/crud/holding_crud_operations.py:147-256 | a second run with the same inputs deletes what the first inserted and inserts as many again |
| Transactions.NormalizeType | source_code/crud/transaction_crud_operations.py:13-28 | a success is always a stored code ("B" or "S"); a failure is always a ValueError |
| Transactions.NormalizeTypeCases | source_code/crud/transaction_crud_operations.py:16-28 | None or blank gives "B"; a code after strip and upper-casing gives itself; "buy"/"sell" in any case give "B"/"S"; exactly the other inputs fail |
| Transactions.NormalizeIdempotent | source_code/crud/transaction_crud_operations.py:13-28 | normalising a normalised type returns it unchanged |
| Transactions.CodeIsNormal | source_code/crud/transaction_crud_operations.py:21-23 | a stored code normalises to itself |
| Transactions.StoredTypeIsRecognised | source_code/crud/transaction_crud_operations.py:62 | every normalised type is replayed by the holdings aggregation as a buy or a sell, never ignored |
| Transactions.SavedTransactionsAreReplayed | source_code/crud/transaction_crud_operations.py:56-75 | a saved transaction, read back as a ledger row, is never an ignored row |
| Transactions.Build | source_code/crud/transaction_crud_operations.py:52-75 | the record carries the input's fields, the normalised type, the given id and created == updated == now; it fails iff the type is invalid |
| Transactions.Save | source_code/crud/transaction_crud_operations.py:52-116 | an invalid type fails before anything is written; otherwise the returned record carries the input, the normalised type and both timestamps `now`, and the store holds it under its id, keeping an existing row's creation time on conflict and leaving other rows unchanged |
| Transactions.SaveMany | source_code/crud/transaction_crud_operations.py:37-41 | a successful batch returns one result per item |
| Transactions.SaveManyStoresEveryItem | source_code/crud/transaction_crud_operations.py:37-41 | result i of a successful batch is the record built from item i under its id, with its type normalised |
| Transactions.SaveManyWritesEveryItem | source_code/crud/transaction_crud_operations.py:37-41 | with distinct ids, after a successful batch the store holds every item under its id, as its save built it |
| Transactions.SaveManyFailsIffInvalid | source_code/crud/transaction_crud_operations.py:37-41 | the batch fails exactly when some item's type is invalid |
| Transactions.Update | source_code/crud/transaction_crud_operations.py:135-185 | a missing row is a KeyError, checked before the type; otherwise the row keeps its id and creation time, takes the input's fields and the new update time |
| Transactions.Delete | source_code/crud/transaction_crud_operations.py:187-192 | true iff the row existed; it is absent afterwards and every other row is kept unchanged |
| Transactions.SaveThenDeleteRestores | source_code/crud/transaction_crud_operations.py:52-116 | saving a valid item under a fresh id and deleting that id gives back the original store, and the delete reports a row |
| Cli.AfterPrefix | main.py:22-23 | the value is what follows the prefix, so prefix plus value gives the argument back |
| Cli.SpacedValue | main.py:17-20 | there is a value iff the flag occurs and is not the last argument, and it is the argument after the first occurrence |
| Cli.CliEnv | main.py:15-26 | the argument after the first "--env" if there is one; otherwise the text after the first "--env="; otherwise none |
| Cli.TrailingEnvFlagFallsThrough | main.py:17-23 | a trailing "--env" with no value falls through to the first "--env=" argument |
| Cli.CliDbPass | main.py:29-47 | "--db-pass v" first, then "--db-password v", then the first "=" form of either, else none |
| Cli.SpacedDbPassWins | main.py:32-35 | the spaced "--db-pass" form wins over an "=" form even when that comes first |
| Cli.WithDbPass | main.py:87-91 | a non-empty command-line password replaces DB_PASS in the environment; otherwise the environment is unchanged |
| Cli.SelectedEnv | main.py:49 | the command-line value if non-empty, else APP_ENV if non-empty, else "test"; never empty |
| Cli.EnvFileName | main.py:50 | ".env." followed by the environment name, lower-cased |
| Cli.EnvFileNameIgnoresCase | main.py:50 | environment names that differ only in letter case choose the same file |
| Cli.FirstExisting | main.py:55-59 | the working-directory file if it exists, else the application-directory file if it exists, else none |
| Cli.ResolveEnv | main.py:49-70 | the selected environment if its file exists in either place; otherwise "test" with .env.test if that exists |
| Cli.DistPath | main.py:172 | os.path.join("dist", p): an absolute path stands alone, a relative one goes under "dist/" |
| Cli.ServeSpa | main.py:166-175 | 404 exactly for the api/, docs and openapi.json prefixes; an existing dist file is served; anything else gets index.html |
| Cli.RelativePathGetsDistPrefix | main.py:172-174 | an existing relative path is served as the text "dist/" followed by the path |
| Cli.ParentSegmentPassesThrough | main.py:172-174 | a path starting with "../" is not normalised: when "dist/../…" is a file it is served, outside dist |
| Cli.AbsolutePathLeavesDist | main.py:172-174 | a path starting with "/" is served as it stands, outside dist |
| CompanyValuations.KeyIds | source_code/crud/company_valuations_crud_operations.py:38-42 | the rows the lookup finds are exactly those with the item's company, date and source; an item without a company finds none |
| CompanyValuations.Save | source_code/crud/company_valuations_crud_operations.py:36-132 | an existing (company, date, source) row is updated in place, keeps its id and takes the item's figures and the new update time; otherwise a new record with every input field and created == updated == now is written |
| CompanyValuations.UpsertKeepsIdentity | source_code/crud/company_valuations_crud_operations.py:45-71 | the upsert path adds no row and leaves the sector, date, source, company and creation time of the row it updates unchanged |
| CompanyValuations.NoCompanyAlwaysInserts | source_code/crud/company_valuations_crud_operations.py:38-42 | an item without a company never matches (NULL = NULL is not true) and always creates a record |
| CompanyValuations.SaveStoresItsKey | source_code/crud/company_valuations_crud_operations.py:36-132 | after a save the item's company, date and source are stored, and at most the given id was added |
| CompanyValuations.SaveKeepsRowsFor | source_code/crud/company_valuations_crud_operations.py:36-132 | a save under an unused id keeps every stored company, date and source |
| CompanyValuations.SaveKeepsUniqueKeys | source_code/crud/company_valuations_crud_operations.py:36-132 | save never creates a second row for a (company, date, source) key |
| CompanyValuations.SaveMany | source_code/crud/company_valuations_crud_operations.py:134-138 | one result per item, in order, each carrying its item's key and figures |
| CompanyValuations.SaveManyKeepsUniqueKeys | source_code/crud/company_valuations_crud_operations.py:134-138 | a batch keeps (company, date, source) keys unique |
| CompanyValuations.Update | source_code/crud/company_valuations_crud_operations.py:153-188 | a missing id is a KeyError; otherwise every column except the id and the creation time is replaced |
| CompanyValuations.Delete | source_code/crud/company_valuations_crud_operations.py:190-195 | true iff the row existed; it is absent afterwards and every other row is unchanged |
| CompanyValuations.SaveThenDeleteRestores | source_code/crud/company_valuations_crud_operations.py:73-132 | deleting the record a save just created under a fresh id restores the store |
| KeyedStore.FirstIdField | source_code/crud/base.py:28-30 | the index found is the first field from the start position whose name ends in "_id"; none when no later field does |
| KeyedStore.DetectPkField | source_code/crud/base.py:25-32 | the first field ending in "_id", otherwise the first field; none only for a model without fields |
| KeyedStore.Empty | source_code/crud/base.py:22 | a new store is empty and well formed |
| KeyedStore.Get | source_code/crud/base.py:44-46 | the stored item for a present key, none for an absent one |
| KeyedStore.Save | source_code/crud/base.py:38-42 | get of the item's key returns the item, every other key is unchanged, and a new key goes to the end of the iteration order |
| KeyedStore.Update | source_code/crud/base.py:48-53 | a KeyError iff the key is absent; otherwise only that entry is replaced and the order is kept |
| KeyedStore.Delete | source_code/crud/base.py:55-57 | true iff the key was present; it is absent afterwards and every other key is unchanged |
| KeyedStore.ListAll | source_code/crud/base.py:59-61 | exactly the stored items, one per key, in insertion order |
| KeyedStore.CrudUpdate | source_code/crud/base.py:82-87 | a ValueError when the body's key differs from the path key, before the store is consulted; otherwise the store's update |
| KeyedStore.SaveDeleteRoundTrip | source_code/crud/base.py:38-57 | saving an item under a new key and deleting that key gives back the original store, order included |
| KeyedStore.SaveIdempotent | source_code/crud/base.py:38-42 | saving the same item twice equals saving it once |
| ExternalPlatforms.ValidateType | source_code/crud/external_platform_crud_operations.py:20-22 | succeeds exactly for the three allowed platform types of source_code/models/models.py:64 and otherwise is a ValueError |
| ExternalPlatforms.ValidateTypeIsCaseSensitive | source_code/models/models.py:64 | the comparison is exact: "Trading Platform" passes and "trading platform" fails |
| ExternalPlatforms.Save | source_code/crud/external_platform_crud_operations.py:24-48 | an invalid type fails with nothing written; otherwise the record copies name and type, has created == updated == now, and an id conflict keeps the old creation time |
| ExternalPlatforms.SaveMany | source_code/crud/external_platform_crud_operations.py:88-92 | a successful batch returns, in order, one record per item built from that item |
| ExternalPlatforms.SaveManyFailsIffInvalid | source_code/crud/external_platform_crud_operations.py:88-92 | the batch fails exactly when some item's type is not allowed |
| ExternalPlatforms.Update | source_code/crud/external_platform_crud_operations.py:60-79 | a missing id is a KeyError checked before the type, then an invalid type is a ValueError; otherwise name, type and update time change and the creation time stays |
| ExternalPlatforms.WritesKeepTypesAllowed | source_code/crud/external_platform_crud_operations.py:24-79 | a store whose platforms all have allowed types keeps that property through save and update |
| ExternalPlatforms.Delete | source_code/crud/external_platform_crud_operations.py:81-86 | true iff a row was removed; every other row is unchanged |
| Users.HashOf | source_code/crud/user_crud_operations.py:26 | the stored hash is the input password exactly when that password is present and non-empty, otherwise none |
| Users.InsertAt | source_code/crud/user_crud_operations.py:39-44 | Python's list.insert within bounds: the new element at index i, earlier elements unchanged, later ones shifted by one |
| Users.InsertColumnsAligned | source_code/crud/user_crud_operations.py:36-44 | the column and value lists have equal length and each value is the user's value of the column at the same position |
| Users.InsertColumnsLayout | source_code/crud/user_crud_operations.py:36-44 | the columns are id and names, then email when present, then password_hash when present, then the two timestamps; so email is at index 3 and the hash at 4 after an email, else at 3 |
| Users.ConflictAssignments | source_code/crud/user_crud_operations.py:46-54 | the conflict update always sets first_name, last_name and last_updated_ts, sets email and password_hash exactly when present, and never the id or creation time |
| Users.ConflictOrderWithoutEmail | source_code/crud/user_crud_operations.py:53-54 | without an email, the password_hash assignment is appended after last_updated_ts |
| Users.Save | source_code/crud/user_crud_operations.py:21-64 | the returned user is built from the input with the new id and now; a new id is inserted; on an id conflict only the assigned columns change |
| Users.SaveMany | source_code/crud/user_crud_operations.py:110-114 | one saved user per item, in order, each built from its item |
| Users.Update | source_code/crud/user_crud_operations.py:76-100 | a missing user is a KeyError; otherwise names, email and update time are replaced and the hash becomes the new password if one is given, else stays |
| Users.UpdateWithoutPasswordKeepsHash | source_code/crud/user_crud_operations.py:84 | an update without a password (absent or empty) keeps the stored hash |
| Users.EmptyPasswordStoresNoHash | source_code/crud/user_crud_operations.py:26-44 | an empty password gives no hash and no password_hash column |
| Users.Delete | source_code/crud/user_crud_operations.py:102-107 | true iff a row was removed; every other row is unchanged |
| Securities.Save | source_code/crud/security_crud_operations.py:29-62 | the stored row has the currency upper-cased, keeps an existing row's creation time on an id conflict, and leaves every other row alone; the returned object carries the currency as given |
| Securities.SaveMany | source_code/crud/security_crud_operations.py:65-77 | every item is saved, one result per item in order, even when its ticker already exists |
| Securities.SaveManyStoresEveryItem | source_code/crud/security_crud_operations.py:73-76 | with distinct ids every item of the batch ends up stored under its own id with its ticker, existing tickers included |
| Securities.Update | source_code/crud/security_crud_operations.py:89-117 | a missing id is a KeyError; otherwise the row takes the body's ticker, names, upper-cased currency and privacy flag and keeps its id and creation time |
| Securities.TickerIds | source_code/crud/security_crud_operations.py:136 | the matched rows are exactly those whose ticker equals the given one ignoring case |
| Securities.LowerTickers | source_code/crud/security_crud_operations.py:161-164 | the known tickers are the lower-cased tickers of the stored rows |
| Securities.UpdateByTicker | source_code/crud/security_crud_operations.py:126-154 | a KeyError iff no ticker matches ignoring case; otherwise every matching row takes the names, upper-cased currency and privacy flag, no ticker or id changes, and the row returned is a matching row as updated |
| Securities.UpdateByTickerKeepsKeys | source_code/crud/security_crud_operations.py:126-154 | updating by ticker keeps the ids, the set of tickers and ticker uniqueness |
| Securities.SaveManyWithUpsert | source_code/crud/security_crud_operations.py:156-178 | a successful batch returns one result per item, in order; result i has item i's ticker ignoring case, and is item i's update (its names, upper-cased currency, privacy flag and time) when that ticker was in the store or earlier in the batch, and item i's fresh save under its own id otherwise |
| Securities.UpsertUpdateKeepsSeen | source_code/crud/security_crud_operations.py:166-171 | a ticker already known (ignoring case) updates its row without failing and adds no row |
| Securities.UpsertSaveCase | source_code/crud/security_crud_operations.py:172-176 | an unseen ticker is created under its fresh id and added to the seen set |
| Securities.UpsertKeepsTickersUnique | source_code/crud/security_crud_operations.py:156-178 | with fresh ids the batch never fails, keeps tickers unique ignoring case (so a repeated ticker in the batch becomes an update), keeps every existing row, and afterwards knows every ticker of the batch |
| SecurityPrices.KeyIds | source_code/crud/security_price_crud_operations.py:89-92 | the lookup finds exactly the rows with the item's (security, source, date) key |
| SecurityPrices.Save | source_code/crud/security_price_crud_operations.py:87-161 | an existing row with the natural key has its price, market cap, notes, currency and update time overwritten and keeps its id; otherwise a new row with created == updated == now is written under the new id |
| SecurityPrices.SaveStoresItem | source_code/crud/security_price_crud_operations.py:87-161 | after save the item's key is stored under the returned id with the item's price |
| SecurityPrices.SaveUpdatesInPlace | source_code/crud/security_price_crud_operations.py:94-117 | the upsert path adds no row, and the rewritten row keeps its id and creation time |
| SecurityPrices.SaveKeepsUniqueKeys | source_code/crud/security_price_crud_operations.py:84-161 | save keeps at most one row per natural key |
| SecurityPrices.SaveTwiceUpdates | source_code/crud/security_price_crud_operations.py:84-117 | saving the same key twice updates the row the first save wrote, with the second price |
| SecurityPrices.SaveMany | source_code/crud/security_price_crud_operations.py:164-168 | one result per item, in order, each with its item's key and price |
| SecurityPrices.SaveManyKeepsUniqueKeys | source_code/crud/security_price_crud_operations.py:164-168 | a batch keeps at most one row per natural key |
| SecurityPrices.Update | source_code/crud/security_price_crud_operations.py:180-213 | a missing id is a KeyError; otherwise every column except the id and creation time is overwritten |
| SecurityPrices.UpdateCanDuplicateKey | source_code/crud/security_price_crud_operations.py:186-209 | update ignores the natural key, so it can leave two rows with the same key |
| SecurityPrices.Delete | source_code/crud/security_price_crud_operations.py:215-220 | true iff a row was removed; every other row is unchanged |
| SecurityPrices.ListIds | source_code/crud/security_price_crud_operations.py:35-63 | the listed ids are exactly the joined rows passing every supplied filter, each once, ordered by price date, then the security's ticker, name and id, then the price id |
| SecurityPrices.ListByRange | source_code/crud/security_price_crud_operations.py:35-67 | every listed row passes the supplied filters, every passing row is listed, there are exactly as many rows as passing stored rows (each once when rows sit under their own ids), and rows ascend by price date, then ticker, name and security id |
| SecurityPrices.NoFilterListsJoinedRows | source_code/crud/security_price_crud_operations.py:53-63 | with no argument supplied no condition is added, and every row whose security exists is listed |
| SecurityPrices.OrphanRowsNeverListed | source_code/crud/security_price_crud_operations.py:58-61 | the inner join never lists a row whose security is missing |
| SecurityPrices.TickerFilterNormalised | source_code/crud/security_price_crud_operations.py:49-51 | the ticker argument is stripped and upper-cased, so an already normalised argument selects the same rows |
| Fields.GetOrderedFields | src/models/fields.js:121-125 | an unknown model name throws; otherwise the registered definition list is returned unchanged |
| Fields.FormFields | src/models/fields.js:130-135 | the kept fields are exactly those that are neither read-only nor date-time |
| Fields.FormFieldsCounts | src/models/fields.js:130-135 | each form field is kept as often as the registry lists it, and every other field zero times |
| Fields.FormFieldsKeepOrder | src/models/fields.js:130-135 | the kept fields appear in registry order |
| Fields.FormFieldsIdempotent | src/models/fields.js:130-135 | filtering the form fields again changes nothing |
| Fields.FormFieldsForAction | src/models/fields.js:128-136 | whatever the action, exactly the registered fields that are neither read-only nor date-time, in registry order and with their multiplicity; an unknown model throws |
| Fields.Labelize | src/models/fields.js:139-141 | same length, no underscore left, every underscore a space, and the first character of every word upper-cased, all else unchanged |
| Fields.LabelizeIdempotent | src/models/fields.js:139-141 | a label is its own label |
| Fields.DefaultValueForType | src/models/fields.js:143-147 | false exactly for "boolean", "" for every other type |
| Fields.CoerceValue | src/models/fields.js:149-155 | "" and null/undefined give null; an integer field truncates a finite number and converts anything else without truncating; a number field converts; a boolean field takes the truthiness; other types pass through |
| Fields.DefaultCoercesToEmpty | src/models/fields.js:143-155 | a type's default value coerces to null, or to false for a boolean |
| Fields.CoerceIntegerIdempotent | src/models/fields.js:151 | coercing an already coerced integer again changes nothing |
| Fields.RenderCell | src/models/fields.js:159-187 | null/undefined show "-"; a date-time field shows the locale date-time of a valid date and String(value) otherwise; a date field shows an ISO YYYY-MM-DD string verbatim, else the locale date of a valid date, else String(value); a number field shows the locale form of a finite number, else String(value); elsewhere booleans show Yes/No, a transaction_type field shows its label, and anything else String(value) |
| Fields.RenderCellKinds | src/models/fields.js:159-187 | the locale date-time, locale date and locale number forms arise exactly for a valid date in a date-time field, a valid non-ISO date in a date field and a finite number in a number field; a type label only in a transaction_type field |
| Fields.RenderCellShowsOptionLabel | src/models/fields.js:185 | in a transaction_type field, each type option's code is shown as that option's label |
| Dictionaries.OptionsOf | src/models/dictionaries.js:9 | one {code, label} option per dictionary entry, in the same order |
| Dictionaries.TypeOptions | src/models/dictionaries.js:4-9 | the options are exactly B/Buy then S/Sell |
| Dictionaries.TypeLabel | src/models/dictionaries.js:11-15 | "-" for a missing or empty code; the label of the upper-cased code when it has a non-empty one; otherwise the code unchanged |
| Dictionaries.TypeLabelIgnoresCase | src/models/dictionaries.js:13-14 | a code and its upper-case form get the same label ("b" shows "Buy") |
| Dictionaries.OptionsShowTheirLabels | src/models/dictionaries.js:9-14 | every option offered in a form is displayed with its own label |
| Dictionaries.UnknownCodeShownVerbatim | src/models/dictionaries.js:14 | a code without an entry is shown as given, not upper-cased |
| PlatformFilter.LeadingNumber | src/pages/external_platforms/ExternalPlatformsList.jsx:37 | the number group matches exactly when the text starts with a digit, or with '-' and a digit |
| PlatformFilter.UnsignedNumber | src/pages/external_platforms/ExternalPlatformsList.jsx:37 | the unsigned part matches exactly when the text starts with a digit |
| PlatformFilter.SignedValue | src/pages/external_platforms/ExternalPlatformsList.jsx:37-40 | without a sign the number is the unsigned number; a leading '-' negates it, so "-12" reads as -12 |
| PlatformFilter.UnsignedInteger | src/pages/external_platforms/ExternalPlatformsList.jsx:37-40 | digits not continued by a digit or by '.' and a digit read as their integer value |
| PlatformFilter.UnsignedDecimal | src/pages/external_platforms/ExternalPlatformsList.jsx:37-40 | digits, '.' and digits read as the whole part plus the decimal fraction, so "1.25" reads as 1 + 0.25 |
| PlatformFilter.DigitRunStopsAt | src/pages/external_platforms/ExternalPlatformsList.jsx:37 | the `\d+` group takes exactly the digits before the first non-digit |
| PlatformFilter.MatchOp | src/pages/external_platforms/ExternalPlatformsList.jsx:37 | the pattern with a fixed operator only matches when that operator starts the filter |
| PlatformFilter.Try | src/pages/external_platforms/ExternalPlatformsList.jsx:37 | an alternative that matches wins; one that does not falls through to the later ones |
| PlatformFilter.OperatorMatch | src/pages/external_platforms/ExternalPlatformsList.jsx:37 | a match names an operator at the start of the filter and that operator's number |
| PlatformFilter.OperatorMatchFailsIffNoAlternative | src/pages/external_platforms/ExternalPlatformsList.jsx:37 | there is no match exactly when no operator alternative matches |
| PlatformFilter.EqualsSignStopsShortOperators | src/pages/external_platforms/ExternalPlatformsList.jsx:37 | after "<=" or ">=" the single-character "<" and ">" alternatives cannot match |
| PlatformFilter.OperatorIsLongestPrefix | src/pages/external_platforms/ExternalPlatformsList.jsx:37 | "<=" and ">=" are never read as "<" or ">" |
| PlatformFilter.CompareNumberWithOp | src/pages/external_platforms/ExternalPlatformsList.jsx:33-51 | an empty filter accepts everything; an empty value fails every non-empty filter |
| PlatformFilter.UnmatchedFilterIsSubstring | src/pages/external_platforms/ExternalPlatformsList.jsx:50 | a filter with no operator and number is a case-insensitive substring test on the value's text |
| PlatformFilter.NotANumberNeverMatches | src/pages/external_platforms/ExternalPlatformsList.jsx:41-42 | a value that is not a number never passes an operator filter |
| PlatformFilter.DigitsAreLeadingNumber | src/pages/external_platforms/ExternalPlatformsList.jsx:37-40 | a run of digits reads as its decimal value |
| PlatformFilter.SymbolThenDigits | src/pages/external_platforms/ExternalPlatformsList.jsx:37-40 | an operator's symbol followed by digits matches that operator with the digits' value |
| PlatformFilter.SymbolThenDigitsSelects | src/pages/external_platforms/ExternalPlatformsList.jsx:37-40 | such a filter selects that operator, whatever its position among the alternatives |
| PlatformFilter.FilterTextHasNoSpace | src/pages/external_platforms/ExternalPlatformsList.jsx:36 | trimming such a filter leaves it unchanged |
| PlatformFilter.OperatorFilterCompares | src/pages/external_platforms/ExternalPlatformsList.jsx:33-49 | a filter "op digits" on a numeric value gives exactly value op number |
| PlatformFilter.MatchedTextCompares | src/pages/external_platforms/ExternalPlatformsList.jsx:38-49 | a matched operator decides the text comparison |
| PlatformFilter.MatchedFilterCompares | src/pages/external_platforms/ExternalPlatformsList.jsx:34-49 | for non-empty filter and value, a matched operator decides the whole comparison |
| PlatformFilter.LessAndAtLeastAreComplementary | src/pages/external_platforms/ExternalPlatformsList.jsx:44-47 | for a numeric value exactly one of "<n" and ">=n" passes |
| PlatformFilter.KeepMatching | src/pages/external_platforms/ExternalPlatformsList.jsx:55-84 | the kept rows are exactly the rows every field's filter accepts, each as often as it occurs in the list, never more rows than given |
| PlatformFilter.KeepMatchingConcat | src/pages/external_platforms/ExternalPlatformsList.jsx:55-84 | filtering a list split in two is filtering each part in turn, so kept rows keep their order |
| PlatformFilter.FilteredRows | src/pages/external_platforms/ExternalPlatformsList.jsx:53-85 | every row while no filter value is truthy; otherwise the field-by-field filter of the rows: exactly the rows every field's filter accepts, in order and with their multiplicity |
| PlatformFilter.KeepMatchingAll | src/pages/external_platforms/ExternalPlatformsList.jsx:55-84 | when every row matches, the filter keeps the whole list in order |
| PlatformFilter.ShortcutAgreesWithFilter | src/pages/external_platforms/ExternalPlatformsList.jsx:54-58 | when every filter value is empty the shortcut and the full filter give the same rows |
| Telemetry.Normalize | src/utils/telemetry.js:57-61 | an object becomes a prefix of its JSON text of at most 500 characters, and fails exactly when it has no JSON text; every other value is kept |
| Telemetry.SanitizeEntries | src/utils/telemetry.js:53-63 | fails exactly when a key that is not banned holds an object with no JSON text; otherwise the recorded keys are exactly the input's keys that are not banned, and no recorded value is an object |
| Telemetry.SanitizeProps | src/utils/telemetry.js:50-64 | a falsy input gives no properties; otherwise it fails exactly when a non-banned key holds an object with no JSON text, and else gives exactly the non-banned keys, case-insensitively, with objects flattened |
| Telemetry.SanitizeKeepsDistinctKeys | src/utils/telemetry.js:53-63 | when sanitising succeeds, the sanitised properties keep distinct keys |
| Telemetry.SanitizeGet | src/utils/telemetry.js:55-61 | when sanitising succeeds, a banned key reads as absent and any other key reads as its normalised value |
| Telemetry.SanitizeIdempotent | src/utils/telemetry.js:50-64 | when sanitising succeeds, sanitising the result again gives the same result |
| Telemetry.SafeGetQueue | src/utils/telemetry.js:8-17 | no events when storage throws or the item is missing or empty; a non-empty result is exactly the array the item parses to |
| Telemetry.SafeSetQueue | src/utils/telemetry.js:19-25 | storage that throws, because it is unavailable or because the text exceeds its room (a quota error), is left alone; otherwise the item becomes the queue's JSON cut to at most 200000 characters |
| Telemetry.QuotaKeepsQueue | src/utils/telemetry.js:19-25 | a write dropped for lack of room leaves the queue read afterwards as it was |
| Telemetry.SetThenGet | src/utils/telemetry.js:8-25 | a queue whose JSON fits under the cap and in the storage's room and parses back is read back unchanged |
| Telemetry.TruncationLosesQueue | src/utils/telemetry.js:8-25 | a queue cut at the cap into text that is not an array is lost at the next read |
| Telemetry.Push | src/utils/telemetry.js:42-43 | the event ends the queue, at most one oldest event is dropped, and a queue within 1000 stays within 1000 |
| Telemetry.PushAllKeepsNewest | src/utils/telemetry.js:41-44 | events tracked one after another leave exactly the newest 1000 in order |
| Telemetry.TrackEvent | src/utils/telemetry.js:27-48 | tracking never makes unavailable storage available or the reverse; when sanitising the properties throws, the error is swallowed and the storage is unchanged |
| Telemetry.TrackEventPushes | src/utils/telemetry.js:27-44 | when the properties can be sanitised and the queue's JSON fits the cap and the storage's room and parses back, tracking pushes the sanitised event onto the queue that was read |
| Telemetry.FlushTelemetry | src/utils/telemetry.js:67-75 | true for an empty queue, false without an uploader, otherwise the uploader's verdict; storage changes only on success, and then to the empty queue |
| Telemetry.FlushEmptiesQueue | src/utils/telemetry.js:69-74 | after a successful flush the queue reads back empty |
| PriceLoader.NormalizeHeaderShape | source_code/utils/security_price_loader.py:36-37 | the result has no spaces and no upper-case letters, no surrounding whitespace, and is empty exactly when the header is missing or blank |
| PriceLoader.NormalizeHeaderIdempotent | source_code/utils/security_price_loader.py:36-37 | a normalised header normalises to itself |
| PriceLoader.LookupReadsLastMatchingColumn | source_code/utils/security_price_loader.py:42-44 | among columns whose headers normalise alike the last one is read; a key no header matches reads nothing |
| PriceLoader.GetRowVal | source_code/utils/security_price_loader.py:40-47 | the value of the first key that finds a cell, else "" |
| PriceLoader.ParseFloat | source_code/utils/security_price_loader.py:73-81 | blank text and nan/na/null/none in any case give no number; otherwise float() of the stripped text without commas |
| PriceLoader.WholeOrNone | source_code/utils/security_price_loader.py:141-145 | a volume or adjusted close is kept exactly when it is a whole number |
| PriceLoader.FirstParse | source_code/utils/security_price_loader.py:61-65 | no date exactly when every format fails; otherwise the result of the first format that succeeds |
| PriceLoader.ParseDate | source_code/utils/security_price_loader.py:50-70 | blank text gives no date; the first succeeding format wins; failing all, the first ten characters are read as YYYY-MM-DD |
| PriceLoader.TickerEntries | source_code/utils/security_price_loader.py:88-91 | at most one ticker assignment per security |
| PriceLoader.TickerEntriesMembers | source_code/utils/security_price_loader.py:84-92 | every assignment maps an eligible security's upper-cased, stripped ticker to it, and every eligible security is assigned |
| PriceLoader.TickerMapLastWins | source_code/utils/security_price_loader.py:84-92 | a ticker maps to the last eligible security carrying it; private ones only when included |
| PriceLoader.TickerMapHasEveryTicker | source_code/utils/security_price_loader.py:84-92 | every eligible security's ticker resolves |
| PriceLoader.PriceCurrency | source_code/utils/security_price_loader.py:158 | the security's currency upper-cased when it has one, else the default upper-cased |
| PriceLoader.ReadRow | source_code/utils/security_price_loader.py:130-177 | a row is bad data exactly when its date, ticker or close is missing or invalid; unknown exactly when its ticker does not resolve; otherwise a price keyed by security, source and date whose price is the close, with non-whole volume and adjusted close dropped |
| PriceLoader.AcceptedPairs | source_code/utils/security_price_loader.py:175-176 | there are no accepted prices exactly when no row is accepted |
| PriceLoader.UnknownTickers | source_code/utils/security_price_loader.py:152-155 | every row with an unknown ticker contributes its ticker |
| PriceLoader.TallyOf | source_code/utils/security_price_loader.py:109-177 | every row read lands in exactly one of prepared, unknown and bad; the keyed prices are the accepted ones under last-write-wins |
| PriceLoader.DedupKeepsLastInFirstOrder | source_code/utils/security_price_loader.py:113-179 | each natural key keeps the price of its last accepted row, keys stay in first-seen order, and there are never more prices than prepared rows |
| PriceLoader.DedupNoLarger | source_code/utils/security_price_loader.py:176-179 | de-duplication never adds prices |
| PriceLoader.DuplicateRowsKeepSecond | source_code/utils/security_price_loader.py:175-177 | two accepted rows for the same key count as two prepared but keep only the second price |
| PriceLoader.Classify | source_code/utils/security_price_loader.py:130 | one outcome per data row, lines numbered from 2 |
| PriceLoader.ToPriceInput | source_code/utils/security_price_loader.py:160-175 | the stored price carries the row's natural key |
| PriceLoader.ToPriceInputs | source_code/utils/security_price_loader.py:198-200 | one store input per de-duplicated price, in order |
| PriceLoader.First20 | source_code/utils/security_price_loader.py:214 | at most the first twenty bad-data entries, all of them when there are no more |
| PriceLoader.Report | source_code/utils/security_price_loader.py:179-215 | nothing is written and all counts are zero when no price survived; otherwise 0 < total = inserted <= prepared <= read, nothing updated, at most 20 bad rows reported |
| PriceLoader.Load | source_code/utils/security_price_loader.py:95-219 | a file without headers reads nothing and writes nothing; otherwise every data row is counted as read, and the counts obey the report's bounds |
| PriceLoader.LoadUpsertsIffSomeRowAccepted | source_code/utils/security_price_loader.py:179-204 | the store is written exactly when some row is accepted |
| PriceLoader.LoadKeepsUniqueKeys | source_code/utils/security_price_loader.py:193-204 | a load never puts a second price under a natural key |
| ValuationsLoader.ValidateHeaders | source_code/utils/company_valuations_loader.py:171-187 | true exactly when a header row exists and some header, lower-cased and stripped, is "company" |
| ValuationsLoader.ValidateHeadersIgnoresCase | source_code/utils/company_valuations_loader.py:177 | upper-casing the headers does not change the verdict |
| ValuationsLoader.CellPairs | source_code/utils/company_valuations_loader.py:76-83 | one cell per header name, None past the end of a short line |
| ValuationsLoader.ReaderRow | source_code/utils/company_valuations_loader.py:76-83 | a row overflows exactly when its line is longer than the header row, and its keys are distinct |
| ValuationsLoader.ReaderRowCells | source_code/utils/company_valuations_loader.py:76-83 | the row's keys are the header names in first-seen order, and a name reads the cell under its last occurrence |
| ValuationsLoader.GetCsvValue | source_code/utils/company_valuations_loader.py:280-292 | the lookup fails only in a row with extra cells, and then with AttributeError |
| ValuationsLoader.GetCsvValueReads | source_code/utils/company_valuations_loader.py:280-292 | the exact key's cell first; else the first key equal ignoring case; else "" (the error in an overflowing row); a missing cell reads "" |
| ValuationsLoader.StrippedOrNone | source_code/utils/company_valuations_loader.py:268-276 | None exactly for an empty cell, otherwise the stripped text |
| ValuationsLoader.BlankCellIsStoredEmpty | source_code/utils/company_valuations_loader.py:268-276 | a cell of spaces only is stored as "" rather than None |
| ValuationsLoader.AmountToken | source_code/utils/company_valuations_loader.py:307 | the amount token is a prefix of the text with the amount's shape |
| ValuationsLoader.AmountTokenIsLongest | source_code/utils/company_valuations_loader.py:307 | no longer prefix has the amount's shape |
| ValuationsLoader.GroupStart | source_code/utils/company_valuations_loader.py:307-316 | the amount group starts at a digit or comma |
| ValuationsLoader.PercMatchOfParts | source_code/utils/company_valuations_loader.py:327 | a parenthesised run of digits, dots and signs closed by "%)" matches, and the group is exactly that run |
| ValuationsLoader.PriceGroupIsFirstAmountChar | source_code/utils/company_valuations_loader.py:307 | the price pattern matches exactly when the text has a digit or comma, and its group starts at the first one |
| ValuationsLoader.PriceOf | source_code/utils/company_valuations_loader.py:306-313 | the price is the amount at the first digit or comma, none when the text has neither |
| ValuationsLoader.ChangeOf | source_code/utils/company_valuations_loader.py:315-324 | no change when no sign is followed by an amount |
| ValuationsLoader.PercOf | source_code/utils/company_valuations_loader.py:326-333 | the percentage is float() of the run inside the first "(...%)", none when there is no such group |
| ValuationsLoader.ParseForgePrice | source_code/utils/company_valuations_loader.py:294-335 | (None, None, None) for blank text or "--"; otherwise the price, change and percentage of the stripped text |
| ValuationsLoader.ChangeOfReadsFirstSignedAmount | source_code/utils/company_valuations_loader.py:316-323 | the change is read at the first sign followed by an amount, and is negated for '-' |
| ValuationsLoader.NoSignNoChange | source_code/utils/company_valuations_loader.py:316-318 | a text without '+' or '-' has no change |
| ValuationsLoader.NoPercentNoPercentage | source_code/utils/company_valuations_loader.py:327-328 | a text without '%' has no percentage |
| ValuationsLoader.CleanNumber | source_code/utils/company_valuations_loader.py:343 | the cleaned text has no commas or dollar signs and is no longer than the input |
| ValuationsLoader.ParseFloat | source_code/utils/company_valuations_loader.py:337-348 | None for blank text and "--"; otherwise float() of the text stripped of whitespace, commas and dollar signs |
| ValuationsLoader.ParseFloatIgnoresDollar | source_code/utils/company_valuations_loader.py:343-346 | a leading dollar sign makes no difference to a plain number |
| ValuationsLoader.BaseName | source_code/utils/company_valuations_loader.py:194 | the base name has no '/', ends the path, and follows the path's last '/' |
| ValuationsLoader.DateAt | source_code/utils/company_valuations_loader.py:200-224 | a date is produced only when it is a valid calendar date |
| ValuationsLoader.ForgeDate | source_code/utils/company_valuations_loader.py:196-205 | a date only from a valid forge_companies_YYYYMMDD_HHMMSS.csv match; none when no such name occurs |
| ValuationsLoader.FallbackDate | source_code/utils/company_valuations_loader.py:216-224 | a fallback match yields only valid calendar dates |
| ValuationsLoader.FirstMatchDate | source_code/utils/company_valuations_loader.py:214-224 | a date only from a match of the pattern, and only a valid calendar date |
| ValuationsLoader.TryFallbacks | source_code/utils/company_valuations_loader.py:207-224 | only valid dates, and none when no fallback pattern occurs |
| ValuationsLoader.FallbackPreference | source_code/utils/company_valuations_loader.py:207-224 | the dashed pattern's first match decides when it parses, then the underscored one's, then the eight-digit one's |
| ValuationsLoader.ExtractDate | source_code/utils/company_valuations_loader.py:189-228 | the forge-style date when it parses; else the first fallback that parses; today exactly when neither yields a date |
| ValuationsLoader.FallbackNeedsDigit | source_code/utils/company_valuations_loader.py:209-211 | every fallback pattern starts with a digit |
| ValuationsLoader.ForgeNameNeedsDigit | source_code/utils/company_valuations_loader.py:197 | the forge pattern's date group starts with a digit |
| ValuationsLoader.NoDigitsMeansToday | source_code/utils/company_valuations_loader.py:189-228 | a base name without a digit yields today |
| ValuationsLoader.BaseNameAfterSlash | source_code/utils/company_valuations_loader.py:194 | the base name of dir/name is name |
| ValuationsLoader.ForgeNameAtStart | source_code/utils/company_valuations_loader.py:197 | a forge_companies name with eight and six digits matches at its start |
| ValuationsLoader.ForgeFileNameGivesItsDate | source_code/utils/company_valuations_loader.py:196-203 | dir/forge_companies_YYYYMMDD_HHMMSS.csv yields the date YYYYMMDD when the calendar has it |
| ValuationsLoader.ParseCsvRow | source_code/utils/company_valuations_loader.py:230-278 | a blank company skips the row; otherwise every column is read without error and the valuation has the stripped company, the given date and source, and the whole row as JSON; only a row with extra cells can fail |
| ValuationsLoader.ParseCsvRowReadsCells | source_code/utils/company_valuations_loader.py:247-276 | a parsed valuation has price, change and percentage split from the "forge price1" cell, the price per share parsed as a number, and the sector and other text cells stripped, empty ones None |
| ValuationsLoader.ReadCells | source_code/utils/company_valuations_loader.py:247-256 | the columns are read in order and the reading fails exactly when some lookup raises; otherwise one cell per column, each the lookup's text |
| ValuationsLoader.ParseRows | source_code/utils/company_valuations_loader.py:83-86 | one parse outcome per row, in order |
| ValuationsLoader.LoadRows | source_code/utils/company_valuations_loader.py:82-101 | each row adds to exactly one of loaded, skipped and errors, and one line number is recorded per error |
| ValuationsLoader.LoadRowsRecordsFailedLines | source_code/utils/company_valuations_loader.py:82-101 | the recorded line numbers are, in increasing order, exactly those of the failed rows, counting the header as line 1 |
| ValuationsLoader.LoadRowsWithoutValuations | source_code/utils/company_valuations_loader.py:86-94 | with no valuation parsed nothing is saved and nothing loaded |
| ValuationsLoader.LoadRowsAllValuations | source_code/utils/company_valuations_loader.py:86-91 | when every row parses to a valuation every row is loaded |
| ValuationsLoader.LoadRowsWithoutFailures | source_code/utils/company_valuations_loader.py:85-101 | when no row raises no error is counted |
| ValuationsLoader.LoadRowsKeepsUniqueKeys | source_code/utils/company_valuations_loader.py:89 | loading never creates a second row for a company, date and source |
| ValuationsLoader.LoadRowsStoresEveryValuation | source_code/utils/company_valuations_loader.py:86-91 | with unused, distinct ids every row that parsed to a valuation has its company, date and source stored afterwards, nothing stored before is lost, and rows are added only under the given ids |
| ValuationsLoader.ReaderRows | source_code/utils/company_valuations_loader.py:76-83 | one reader row per line after the header, in order |
| ValuationsLoader.LoadCsvFile | source_code/utils/company_valuations_loader.py:44-107 | fails with RuntimeError exactly when the headers lack "company"; uses the given date, else the file name's; every line is counted once |
| ValuationsLoader.LoadCsvFileStoresEveryValuation | source_code/utils/company_valuations_loader.py:80-91 | with unused, distinct ids every line that parses to a valuation has its company stored under the file's date and source, and nothing stored before is lost |
| ValuationsLoader.NoLongLinesNoErrors | source_code/utils/company_valuations_loader.py:83-101 | a file with no line longer than its header row has no failed rows |
| ForgeScraper.Lowered | source_code/utils/forgeglobal_scraper.py:540 | one stripped, lower-cased header per raw header |
| ForgeScraper.NormalizeHeadersOld | source_code/utils/forgeglobal_scraper.py:531-555 | the headers from the offset on, with the offset at most the header count; the offset is the first "company" column when there is one, else 2 for the trade-metrics/last-funding pair, else 0 |
| ForgeScraper.NormalizeHeadersNew | source_code/utils/forgeglobal_scraper_new.py:245-264 | the same as the original: the headers from the offset on; the first "company" column, else 2 for the trade-metrics/last-funding pair, else 0 |
| ForgeScraper.NormalizeHeadersOldIsNew | source_code/utils/forgeglobal_scraper.py:542-544 | the original scraper's extra first-column test changes no result |
| ForgeScraper.NormalizeHeadersSettles | source_code/utils/forgeglobal_scraper_new.py:256-259 | once the headers start at the company column, normalising again drops nothing |
| ForgeScraper.PageNumber | source_code/utils/forgeglobal_scraper.py:485-498 | a page number is found only in an href containing "?page="; after the first "?page=" it is found exactly when a digit follows, and it is the value of the longest run of digits there |
| ForgeScraper.LastPage | source_code/utils/forgeglobal_scraper.py:475-505 | at least 1; no link's page number exceeds it; it is 1 or some link's page number |
| ForgeScraper.NormText | source_code/utils/forgeglobal_scraper.py:729-733 | missing text gives ""; otherwise the result is whitespace-collapsed and has the same words, in the same order, as the input |
| ForgeScraper.NormTextIdempotent | source_code/utils/forgeglobal_scraper.py:729-733 | normalising text twice is normalising it once |
| ForgeScraper.NumberLen | source_code/utils/forgeglobal_scraper.py:596 | a number token is non-empty and made of digits, commas and points |
| ForgeScraper.SignedEnd | source_code/utils/forgeglobal_scraper.py:603 | a signed number ends after its sign, and its text after the sign is whitespace, digits, commas and points |
| ForgeScraper.PercNumberEnd | source_code/utils/forgeglobal_scraper.py:599 | a percentage number is non-empty and made of digits and points |
| ForgeScraper.PercDigits | source_code/utils/forgeglobal_scraper.py:599 | the digits of a percentage start after only signs and whitespace |
| ForgeScraper.PriceStart | source_code/utils/forgeglobal_scraper.py:596 | the price group starts at a digit with no digit skipped before it |
| ForgeScraper.NumberText | source_code/utils/forgeglobal_scraper.py:596 | the number text is non-empty and made of digits, commas and points |
| ForgeScraper.Price | source_code/utils/forgeglobal_scraper.py:596-597 | "" when nothing matches; the price has only digits and points |
| ForgeScraper.PriceIsFirstMatch | source_code/utils/forgeglobal_scraper.py:596-597 | the price is the number of the leftmost price match, commas removed |
| ForgeScraper.PriceIsFirstNumber | source_code/utils/forgeglobal_scraper.py:596-597 | the price is the number starting at the first digit of the text, commas removed |
| ForgeScraper.ChangeFrom | source_code/utils/forgeglobal_scraper.py:601-611 | a non-empty change is the text of a signed number from the given position on that is not followed by '%', spaces and commas removed; in collapsed text it is a sign followed by digits and points |
| ForgeScraper.ChangeFromIsFirst | source_code/utils/forgeglobal_scraper.py:601-611 | the change is the first such signed number, every earlier one being followed by '%', and it is "" exactly when every signed number is followed by '%' |
| ForgeScraper.SkipPercentMatch | source_code/utils/forgeglobal_scraper.py:603-607 | skipping a percentage match skips no signed number that the loop would take |
| ForgeScraper.NoSignedMatchInside | source_code/utils/forgeglobal_scraper.py:603 | no signed number starts inside another, so the iteration visits every signed number |
| ForgeScraper.SignedTextNotEmpty | source_code/utils/forgeglobal_scraper.py:611 | a matched signed number keeps its sign once spaces and commas are removed |
| ForgeScraper.SignedTextShape | source_code/utils/forgeglobal_scraper.py:611 | in collapsed text a signed number without spaces and commas is its sign followed by digits and points |
| ForgeScraper.ChangeWithoutPercent | source_code/utils/forgeglobal_scraper.py:603-611 | without a '%' the change is exactly the first signed number |
| ForgeScraper.NoSignNoChange | source_code/utils/forgeglobal_scraper.py:603-611 | a text without '+' or '-' has no change |
| ForgeScraper.PercText | source_code/utils/forgeglobal_scraper.py:599 | a matched percentage in collapsed text holds only signs, spaces, digits and points |
| ForgeScraper.Percent | source_code/utils/forgeglobal_scraper.py:598-600 | "" when no number is followed by '%'; in collapsed text only signs, digits and points |
| ForgeScraper.PercentIsFirstMatch | source_code/utils/forgeglobal_scraper.py:598-600 | the percentage is the leftmost number followed by '%', with its sign and spaces removed |
| ForgeScraper.PercentShape | source_code/utils/forgeglobal_scraper.py:600 | removing spaces from a percentage match leaves only signs, digits and points |
| ForgeScraper.NoPercentNoPercentage | source_code/utils/forgeglobal_scraper.py:599-600 | a text without '%' has no percentage |
| ForgeScraper.NoDigitNoNumbers | source_code/utils/forgeglobal_scraper.py:592-612 | a text without digits has no price, change or percentage |
| ForgeScraper.ParseForgePrice | source_code/utils/forgeglobal_scraper.py:586-612 | three empty strings for empty text; otherwise the price, change and percentage read from the whitespace-collapsed text; a price without commas or '$', a change that starts with its sign, a percentage without '%' or spaces |
| ForgeScraper.ForgePriceColumn | source_code/utils/forgeglobal_scraper.py:562-571 | the exact "Forge Price 1" key when present, else the first key that reads so after strip and lower-case; none exactly when no key does |
| ForgeScraper.NotCompositeByLength | source_code/utils/forgeglobal_scraper.py:569 | a trimmed key of a length other than 13 is not the composite column |
| ForgeScraper.SplitKeysAreNotComposite | source_code/utils/forgeglobal_scraper.py:569-578 | none of the three split keys can be taken for the composite column |
| ForgeScraper.WithParts | source_code/utils/forgeglobal_scraper.py:576-578 | the three split keys hold the parts and every other key keeps its value |
| ForgeScraper.SplitColumn | source_code/utils/forgeglobal_scraper.py:576-583 | splitting keeps the keys distinct |
| ForgeScraper.PostprocessRow | source_code/utils/forgeglobal_scraper.py:557-584 | a row without the composite column is unchanged; keys stay distinct |
| ForgeScraper.SplitColumnReads | source_code/utils/forgeglobal_scraper.py:576-583 | the split removes the composite key, writes the three parts and keeps every other key's value |
| ForgeScraper.PostprocessRowReads | source_code/utils/forgeglobal_scraper.py:557-584 | after post-processing the composite key is gone, the split keys hold the parts of its stripped text, and other keys are untouched |
| ForgeScraper.ForgePriceKeyNotSplit | source_code/utils/forgeglobal_scraper.py:562-581 | the composite column found is none of the split keys |
| ForgeScraper.Fit | source_code/utils/forgeglobal_scraper.py:654-658 | exactly n values: the row's values padded with "" or cut |
| ForgeScraper.AlignOld | source_code/utils/forgeglobal_scraper.py:635-658 | exactly one value per header, leading empty cells dropped; a row with a non-empty cell has a non-empty first value |
| ForgeScraper.AlignNew | source_code/utils/forgeglobal_scraper_new.py:340-357 | exactly one value per header; the first skip cells are dropped only when the row has more than skip cells |
| ForgeScraper.Zip | source_code/utils/forgeglobal_scraper.py:659 | one (header, value) pair per column |
| ForgeScraper.RowObject | source_code/utils/forgeglobal_scraper.py:659 | the row object's keys are distinct |
| ForgeScraper.RowObjectReadsColumns | source_code/utils/forgeglobal_scraper.py:659 | with distinct headers each header reads the value in its column, and the keys are the headers in order |
| ForgeScraper.DistinctFirstSeen | source_code/utils/forgeglobal_scraper.py:741-747 | distinct keys are their own first-seen order |
| ForgeScraper.MapRows | source_code/utils/forgeglobal_scraper.py:626-634 | at most one object per row; with no row skipped, one object per row in order |
| ForgeScraper.MapRowsOfKept | source_code/utils/forgeglobal_scraper.py:626-662 | the objects are those of the rows with cells, one each, in the order of the rows |
| ForgeScraper.ExtractRowsOld | source_code/utils/forgeglobal_scraper.py:614-663 | one object per row with cells, in row order, each aligned without offset and post-processed |
| ForgeScraper.ExtractRowsNew | source_code/utils/forgeglobal_scraper_new.py:323-362 | one object per row with cells, in row order, each aligned with the offset applied and post-processed |
| ForgeScraper.AlignVersionsAgree | source_code/utils/forgeglobal_scraper_new.py:350-357 | the two scrapers align a row alike when it does not start with an empty cell and the offset drops nothing |
| ForgeScraper.AllKeys | source_code/utils/forgeglobal_scraper.py:743-744 | a key is listed exactly when some row has it |
| ForgeScraper.WriteCsv | source_code/utils/forgeglobal_scraper.py:736-760 | RuntimeError for no rows, FileNotFoundError for a path without a directory part, and no other failure; otherwise distinct headers that are exactly the union of the rows' keys, written to the given path or the default time-stamped name |
| ForgeScraper.DefaultPathHasDirectory | source_code/utils/forgeglobal_scraper.py:750-754 | without an explicit path only the empty batch fails, since the default name lies under "samples" |
| ForgeScraper.WriteCsvHeaderOrder | source_code/utils/forgeglobal_scraper.py:741-747 | headers appear in the order their keys are first met, row by row |
| ForgeScraper.DefaultFileDateIsReadBack | source_code/utils/forgeglobal_scraper.py:749-752 | a file under the default name is dated by the valuations loader with the day of its timestamp |
| ForgeScraper.NextUserAgent | source_code/utils/forgeglobal_scraper.py:246-251 | with rotation the index advances, wrapping after the fifth, and the agent at the new index is answered; without rotation the first agent and the index unchanged |
| ForgeScraper.Rotate | source_code/utils/forgeglobal_scraper.py:248-249 | the index after k rotating calls is a valid index |
| ForgeScraper.RotateIsModular | source_code/utils/forgeglobal_scraper.py:248-250 | k rotating calls move the index by k places modulo five |
| Money.RoundHalfEven | source_code/crud/holding_crud_operations.py:241-244 | the result is within one half of the value, strictly unless the value lies halfway between two integers, and is even in that case; an integer is kept |
| Money.RoundTo | source_code/crud/holding_crud_operations.py:241-244 | the rounded amount lies on the decimal grid of the given places and within half a unit of the last place of the amount (which fixes it unless the amount lies halfway between two grid points) |
| Money.RoundTieToEven | source_code/crud/holding_crud_operations.py:241-244 | an amount halfway between two grid points rounds to the even one |
| Money.RoundIdempotent | source_code/crud/holding_crud_operations.py:241-244 | rounding a rounded amount again changes nothing |
| Seqs.Filter | source_code/crud/holding_crud_operations.py:168-174 | the owner filter keeps only ledger rows that pass it, never adding rows |
| Seqs.FilterCounts | source_code/crud/holding_crud_operations.py:168-174 | every row that passes the filter is kept as often as it occurs in the ledger, and no other row is kept |
| Seqs.FilterConcat | source_code/crud/holding_crud_operations.py:168-174 | filtering a ledger split in two is filtering each part in turn, so kept rows keep their ledger order |
| SecurityPrices.Sort | source_code/crud/security_price_crud_operations.py:63 | the result holds the same ids, as many, ascending by price date, ticker, name and security id, with the price id breaking the remaining ties |
| SecurityPrices.KeyLtTransitive | source_code/crud/security_price_crud_operations.py:63 | the column-by-column `ORDER BY` comparison is transitive |
| SecurityPrices.KeyLtTotal | source_code/crud/security_price_crud_operations.py:63 | any two different sort keys are ordered one way or the other |
| SecurityPrices.NormalizeTickerIdempotent | source_code/crud/security_price_crud_operations.py:51 | a ticker filter already stripped and upper-cased is normalised to itself |

## Left out

- Database I/O: SQL text, connections and `fetch_data`/`execute_query` are not modelled. Query results are inputs, and each table is a map.
- Holdings recalculation: the delete and the inserts run without a transaction in the source, and the model applies them in sequence. No atomicity is claimed.
- The `RuntimeError` raised when an update or delete affects no row: in a map-based store the statement always affects the row it found, so this branch cannot arise.
- The `RLock` of `base.py`: it only concerns concurrency.
- HTTP route handlers, password hashing, the PBKDF2/HMAC calls and `domain_utils.py` id generation: these are foreign code. Ids and clock readings are parameters.
- Money.RoundTo: rounds half-even on exact decimals. Python's `round` on binary floats can differ by float representation error, and that difference is not modelled. Its own contract leaves the tie case to `Money.RoundTieToEven`.
- `float()`, `strptime`, `int()`, JavaScript `Number()`, `Date`, `toLocaleString` and `JSON.parse`/`JSON.stringify`: these are parameters with no definition of their own.
- Non-ASCII digits and whitespace: `str.isdigit`, regex `\d` and `\s` also accept them in Python, but the model reads digits as ASCII 0-9 and whitespace as ASCII white space.
- Text.IsSpace: the separators U+001C to U+001F are not whitespace in the model. Python's `str.strip`, `str.split` and regex `\s` treat them as whitespace, while JavaScript's `trim` does not. One predicate serves both languages, so a Python text that starts or ends with one of them is stripped less here than in the source.
- Telemetry.Normalize, Telemetry.SafeSetQueue: the cuts to 500 characters (telemetry.js:58) and to 200000 characters (telemetry.js:21) count characters in the model. JavaScript's `slice` counts UTF-16 code units. So for JSON text with characters outside the Basic Multilingual Plane, the source keeps fewer characters, and it can cut a surrogate pair in half.
- Cli.ServeSpa: the model does not promise that a served file lies inside `dist`. Like `os.path.join`, it leaves ".." segments in place, so "../x" is looked up as "dist/../x" (Cli.ParentSegmentPassesThrough). Whether the HTTP client or the router removes such segments before the handler runs is outside the model.
- Holdings.KindOf, Transactions.NormalizeType, Cli.EnvFileName, Dictionaries.TypeLabel, PlatformFilter.CompareNumberWithOp, Telemetry.SanitizeProps, Securities.Save, Securities.Update, Securities.UpdateByTicker, Securities.TickerIds, Securities.LowerTickers, Securities.SaveManyWithUpsert, SecurityPrices.ListIds, SecurityPrices.ListByRange, PriceLoader.NormalizeHeaderShape, PriceLoader.TickerEntriesMembers, PriceLoader.PriceCurrency, ValuationsLoader.ValidateHeaders, ValuationsLoader.GetCsvValue, ValuationsLoader.ForgeDate, ForgeScraper.Lowered, ForgeScraper.ForgePriceColumn: case mapping is ASCII only. This holds for every case mapping in the model, since all of them go through Text.Upper and Text.Lower. Python's `lower`/`upper` and JavaScript's `toLowerCase`/`toUpperCase` also map non-ASCII letters, such as 'É', the long s, the Kelvin sign and the dotted capital I, and the model does not. So a ticker, header or type code that differs only in such letters compares differently here.
- SecurityPrices.ListByRange, SecurityPrices.ListIds, SecurityPrices.Sort: text columns compare by character code, not by the database's collation. Rows equal in all four ORDER BY columns are ordered by price id, where SQL leaves their order unspecified.
- Floating point: prices, amounts and quantities are exact reals or decimals. Binary rounding of Python floats and JavaScript numbers is not modelled.
- CompanyValuations.Save: the key lookup uses `LIMIT 1` with no `ORDER BY`, which returns whichever matching row the database yields first. The model takes the row with the least id, which is one admissible answer.
- SecurityPrices.Save: the natural-key lookup also uses `LIMIT 1` with no `ORDER BY`. The least id stands in for it in the same way.
- Securities.UpdateByTicker: the row returned after a multi-row update is the one with the least id, which is again one admissible answer.
- Telemetry.SafeSetQueue: the storage quota is a room per stored item, not a total over every key of the origin.
- ForgeScraper.PageNumber: digits are ASCII 0-9, where Python's `isdigit` also accepts other Unicode digits.
- Browser automation in both scrapers is external and nondeterministic, so it is not modelled. This covers `run`, `_extract_headers`, `_wait_for_table`, `_dismiss_overlays`, `_go_to_next_page`, captcha handling, human-like delays and `main`. Cell texts and hrefs are inputs.
- ForgeScraper.LastPage: the fallback to 1 when the locator itself throws is not modelled. Only the href loop is.
- ForgeScraper.ExtractRowsOld: the original scraper decrements `skip_cols` and then never uses it, because the drop is commented out. The model applies no offset.
- The valuations loader's `load_directory`, `auto_discover_and_load`, `print_summary` and `main`: these are file-system listing and console output.
- ValuationsLoader.LoadRows: only the reader's `AttributeError` on a line longer than its header row fails a row. Exceptions from the input model's validation or from the store are not modelled.
- ValuationsLoader.LoadCsvFile: the missing-file `FileNotFoundError` is left out, because the file's lines are an input.
- PriceLoader.Load: `SecurityPriceCRUD` has no `batch_upsert`, so the per-row fallback always runs. Every save in it is counted as inserted, since the modelled store has no failure mode.
- PriceLoader.Load: the "Missing headers" entry is reported as the `MissingHeaders` status. Unknown tickers are reported as a set, not as a sorted list.
- Telemetry.TrackEvent: its own contract says only that storage availability is preserved and that nothing is recorded when sanitising throws. Its effect on the queue is stated by `Telemetry.TrackEventPushes`, under the condition that the queue's JSON text fits and parses back.
- Telemetry: `console.debug` and the `import.meta` mode check are not modelled. The uploader is a synchronous function returning a boolean rather than an async function returning any truthy value.
- React rendering, charts and page components other than the external-platforms filter are UI. The locale branches of `renderCell` are parameters.
- Test scripts and the mock database fixtures are not modelled.
- `table_generator.py` is not part of this model.

=== FILE: cli.dfy ===
/** Start-up decisions of the API server: the environment and database
    password read from the command line, the `.env` file chosen from them,
    and which response the single-page-app fallback route gives. The file
    system is a predicate on paths; the process environment is a map. */
module Cli {
  import opened Results
  import opened Text
  import opened Seqs
  import opened Scan

  // ---------------------------------------------------------------------
  // Command-line options

  /** `arg.split("=", 1)[1]` for an argument that starts with `flag` and
      `flag` has no '=' of its own: everything after the first '='. */
  function AfterPrefix(arg: string, prefix: string): (v: string)
    requires StartsWith(arg, prefix)
    ensures prefix + v == arg
  {
    arg[|prefix|..]
  }

  predicate EnvAssignAt(argv: seq<string>, i: nat) {
    i < |argv| && StartsWith(argv[i], "--env=")
  }

  /** The value following the first occurrence of the exact argument `flag`,
      if the flag is not the last argument. */
  function SpacedValue(argv: seq<string>, flag: string): (v: Option<string>)
    ensures v.Some? <==> flag in argv && IndexOf(argv, flag) + 1 < |argv|
    ensures v.Some? ==> v.value == argv[IndexOf(argv, flag) + 1]
  {
    if flag in argv && IndexOf(argv, flag) + 1 < |argv| then Some(argv[IndexOf(argv, flag) + 1]) else None
  }

  /** `_get_cli_env`: the argument after the first "--env" when there is one;
      otherwise the value of the first "--env=" argument; otherwise none. */
  function CliEnv(argv: seq<string>): (r: Option<string>)
    ensures SpacedValue(argv, "--env").Some? ==> r == SpacedValue(argv, "--env")
    ensures SpacedValue(argv, "--env").None? ==>
      (r.None? <==> forall i :: 0 <= i < |argv| ==> !EnvAssignAt(argv, i))
    ensures SpacedValue(argv, "--env").None? && r.Some? ==>
      exists i :: 0 <= i < |argv| && EnvAssignAt(argv, i) && "--env=" + r.value == argv[i]
                  && forall j :: 0 <= j < i ==> !EnvAssignAt(argv, j)
  {
    var spaced := SpacedValue(argv, "--env");
    if spaced.Some? then spaced
    else
      match Search(argv, EnvAssignAt)
      case None => None
      case Some(i) => Some(AfterPrefix(argv[i], "--env="))
  }

  /** A trailing "--env" with nothing after it does not stop the search: the
      first "--env=" argument still counts. */
  lemma TrailingEnvFlagFallsThrough(argv: seq<string>, i: nat, v: string)
    requires |argv| > 0 && argv[|argv| - 1] == "--env"
    requires forall j :: 0 <= j < |argv| - 1 ==> argv[j] != "--env"
    requires i < |argv| && argv[i] == "--env=" + v
    requires forall j :: 0 <= j < i ==> !EnvAssignAt(argv, j)
    ensures CliEnv(argv) == Some(v)
  {
    assert IndexOf(argv, "--env") == |argv| - 1;
    assert (argv[i])[..6] == "--env=";
    SearchFindsFirst(argv, EnvAssignAt, i);
  }

  predicate DbPassAssignAt(argv: seq<string>, i: nat) {
    i < |argv| && (StartsWith(argv[i], "--db-pass=") || StartsWith(argv[i], "--db-password="))
  }

  /** `_get_cli_db_pass`: "--db-pass <v>" first, then "--db-password <v>",
      then the first argument of the form "--db-pass=<v>" or
      "--db-password=<v>". */
  function CliDbPass(argv: seq<string>): (r: Option<string>)
    ensures SpacedValue(argv, "--db-pass").Some? ==> r == SpacedValue(argv, "--db-pass")
    ensures SpacedValue(argv, "--db-pass").None? && SpacedValue(argv, "--db-password").Some? ==>
      r == SpacedValue(argv, "--db-password")
    ensures SpacedValue(argv, "--db-pass").None? && SpacedValue(argv, "--db-password").None? ==>
      (r.None? <==> forall i :: 0 <= i < |argv| ==> !DbPassAssignAt(argv, i))
    ensures SpacedValue(argv, "--db-pass").None? && SpacedValue(argv, "--db-password").None? && r.Some? ==>
      exists i :: 0 <= i < |argv| && DbPassAssignAt(argv, i)
                  && (argv[i] == "--db-pass=" + r.value || argv[i] == "--db-password=" + r.value)
                  && forall j :: 0 <= j < i ==> !DbPassAssignAt(argv, j)
  {
    var spaced := SpacedValue(argv, "--db-pass");
    if spaced.Some? then spaced
    else
      var long := SpacedValue(argv, "--db-password");
      if long.Some? then long
      else
        match Search(argv, DbPassAssignAt)
        case None => None
        case Some(i) =>
          if StartsWith(argv[i], "--db-pass=") then Some(AfterPrefix(argv[i], "--db-pass="))
          else Some(AfterPrefix(argv[i], "--db-password="))
  }

  /** The spaced form wins over an "=" form even when the "=" form comes
      first on the command line. */
  lemma SpacedDbPassWins(argv: seq<string>, i: nat)
    requires i + 1 < |argv| && argv[i] == "--db-pass"
    requires forall j :: 0 <= j < i ==> argv[j] != "--db-pass"
    ensures CliDbPass(argv) == Some(argv[i + 1])
  {
    assert IndexOf(argv, "--db-pass") == i;
  }

  /** The process environment after the command line is read: a non-empty
      CLI password overrides `DB_PASS`. */
  function WithDbPass(env: map<string, string>, argv: seq<string>): (r: map<string, string>)
    ensures CliDbPass(argv).Some? && CliDbPass(argv).value != "" ==> r == env["DB_PASS" := CliDbPass(argv).value]
    ensures CliDbPass(argv).None? || CliDbPass(argv).value == "" ==> r == env
  {
    var v := CliDbPass(argv);
    if v.Some? && v.value != "" then env["DB_PASS" := v.value] else env
  }

  // ---------------------------------------------------------------------
  // The environment file

  /** Python's `a or b` on optional strings: an empty string counts as
      missing. */
  predicate Given(v: Option<string>) { v.Some? && v.value != "" }

  /** `_get_cli_env(sys.argv) or os.environ.get("APP_ENV") or "test"` */
  function SelectedEnv(argv: seq<string>, appEnv: Option<string>): (env: string)
    ensures env != ""
    ensures Given(CliEnv(argv)) ==> env == CliEnv(argv).value
    ensures !Given(CliEnv(argv)) && Given(appEnv) ==> env == appEnv.value
    ensures !Given(CliEnv(argv)) && !Given(appEnv) ==> env == "test"
  {
    var cli := CliEnv(argv);
    if Given(cli) then cli.value else if Given(appEnv) then appEnv.value else "test"
  }

  /** `f".env.{env}".lower()` */
  function EnvFileName(env: string): (name: string)
    ensures |name| == 5 + |env|
    ensures name[..5] == ".env."
    ensures forall i :: 0 <= i < |env| ==> name[5 + i] == LowerChar(env[i])
  {
    LowerConcat(".env.", env);
    Lower(".env." + env)
  }

  /** `Path / name` */
  function Join(dir: string, name: string): string {
    dir + "/" + name
  }

  /** The first of the two candidate places (working directory, then the
      application directory) where the file exists. */
  function FirstExisting(cwd: string, appDir: string, name: string, isFile: string -> bool): (p: Option<string>)
    ensures p.Some? ==> isFile(p.value) && (p.value == Join(cwd, name) || p.value == Join(appDir, name))
    ensures p.None? <==> !isFile(Join(cwd, name)) && !isFile(Join(appDir, name))
    ensures isFile(Join(cwd, name)) ==> p == Some(Join(cwd, name))
  {
    if isFile(Join(cwd, name)) then Some(Join(cwd, name))
    else if isFile(Join(appDir, name)) then Some(Join(appDir, name))
    else None
  }

  datatype EnvChoice = EnvChoice(env: string, path: Option<string>)

  /** The environment finally used and the file loaded: the selected
      environment if its file exists in either place; otherwise "test" with
      `.env.test`, if that exists; otherwise no file. */
  function ResolveEnv(argv: seq<string>, appEnv: Option<string>, cwd: string, appDir: string, isFile: string -> bool): (c: EnvChoice)
    ensures var sel := SelectedEnv(argv, appEnv);
            FirstExisting(cwd, appDir, EnvFileName(sel), isFile).Some? ==>
              c == EnvChoice(sel, FirstExisting(cwd, appDir, EnvFileName(sel), isFile))
    ensures var sel := SelectedEnv(argv, appEnv);
            FirstExisting(cwd, appDir, EnvFileName(sel), isFile).None? ==>
              c == EnvChoice("test", FirstExisting(cwd, appDir, ".env.test", isFile))
    ensures c.path.Some? ==> isFile(c.path.value)
  {
    var sel := SelectedEnv(argv, appEnv);
    var found := FirstExisting(cwd, appDir, EnvFileName(sel), isFile);
    if found.Some? then EnvChoice(sel, found)
    else EnvChoice("test", FirstExisting(cwd, appDir, ".env.test", isFile))
  }

  /** Upper-case letters in the environment name do not matter for the file
      chosen. */
  lemma EnvFileNameIgnoresCase(a: string, b: string)
    requires |a| == |b| && forall i :: 0 <= i < |a| ==> LowerChar(a[i]) == LowerChar(b[i])
    ensures EnvFileName(a) == EnvFileName(b)
  {
  }

  // ---------------------------------------------------------------------
  // The single-page-app fallback route

  datatype SpaResponse = NotFound | ServeFile(path: string) | ServeIndex

  /** Paths the fallback leaves to the API and documentation routes. */
  predicate Reserved(fullPath: string) {
    StartsWith(fullPath, "api/") || StartsWith(fullPath, "docs") || StartsWith(fullPath, "openapi.json")
  }

  /** `os.path.join("dist", full_path)`: an absolute second part replaces
      the first. */
  function DistPath(fullPath: string): (p: string)
    ensures StartsWith(fullPath, "/") ==> p == fullPath
    ensures !StartsWith(fullPath, "/") ==> p == "dist/" + fullPath
  {
    if StartsWith(fullPath, "/") then fullPath else "dist/" + fullPath
  }

  /** `serve_index_spa`: 404 for the reserved prefixes, an existing file
      under `dist` as itself, and `dist/index.html` for everything else. */
  function ServeSpa(fullPath: string, isFile: string -> bool): (r: SpaResponse)
    ensures r == NotFound <==> Reserved(fullPath)
    ensures r.ServeFile? <==> !Reserved(fullPath) && isFile(DistPath(fullPath))
    ensures r.ServeFile? ==> r.path == DistPath(fullPath) && isFile(r.path)
  {
    if Reserved(fullPath) then NotFound
    else if isFile(DistPath(fullPath)) then ServeFile(DistPath(fullPath))
    else ServeIndex
  }

  /** A relative path is looked up under the textual prefix "dist/". The
      prefix is not a containment guarantee: see `ParentSegmentPassesThrough`. */
  lemma RelativePathGetsDistPrefix(fullPath: string, isFile: string -> bool)
    requires !StartsWith(fullPath, "/")
    ensures ServeSpa(fullPath, isFile).ServeFile? ==> ServeSpa(fullPath, isFile).path == "dist/" + fullPath
    ensures ServeSpa(fullPath, isFile).ServeFile? ==> StartsWith(ServeSpa(fullPath, isFile).path, "dist/")
  {
    var p := "dist/" + fullPath;
    assert p[..5] == "dist/";
  }

  /** `os.path.join` does not normalise: "../x" is looked up as
      "dist/../x", which names a file outside `dist`. */
  lemma ParentSegmentPassesThrough(rest: string, isFile: string -> bool)
    requires isFile("dist/../" + rest)
    ensures ServeSpa("../" + rest, isFile) == ServeFile("dist/../" + rest)
  {
    var q := "../" + rest;
    assert q[0] == '.';
    assert !StartsWith(q, "/") && !StartsWith(q, "api/") && !StartsWith(q, "docs") && !StartsWith(q, "openapi.json");
    assert "dist/" + q == "dist/../" + rest;
  }

  /** A path beginning with '/' is looked up as it stands, outside `dist`,
      because `os.path.join` drops "dist" before an absolute part. */
  lemma AbsolutePathLeavesDist(fullPath: string, isFile: string -> bool)
    requires StartsWith(fullPath, "/") && isFile(fullPath)
    ensures ServeSpa(fullPath, isFile) == ServeFile(fullPath)
  {
    assert !StartsWith(fullPath, "api/") && !StartsWith(fullPath, "docs") && !StartsWith(fullPath, "openapi.json") by {
      assert fullPath[0] == '/';
    }
  }
}

=== FILE: company_valuations.dfy ===
/** The company valuation store of `CompanyValuationCRUD`: an upsert on
    (company, as-of date, price source), a full-row `update`, `delete` and
    `save_many`. */
module CompanyValuations {
  import opened Results
  import Dates
  import opened Seqs

  /** The nine columns the upsert path overwrites. */
  datatype Figures = Figures(
    price: Option<real>, changeAmt: Option<real>, changePerc: Option<real>,
    lastMatchedPrice: Option<string>, shareClass: Option<string>, postMoneyValuation: Option<string>,
    pricePerShare: Option<real>, amountRaised: Option<string>, rawDataJson: Option<string>)

  /** `CompanyValuationDtlInput` */
  datatype ValuationInput = ValuationInput(
    asOf: Dates.Date, source: string, company: Option<string>, sector: Option<string>, figures: Figures)

  /** `CompanyValuationDtl` */
  datatype Valuation = Valuation(
    id: int, asOf: Dates.Date, source: string, company: Option<string>, sector: Option<string>,
    figures: Figures, createdTs: int, updatedTs: int)

  type ValuationStore = map<int, Valuation>

  /** The lookup `company = %s AND as_of_date = %s AND price_source = %s`. A
      missing company is SQL NULL, and `NULL = NULL` is not true, so an item
      without a company matches no row. */
  predicate SameKey(v: Valuation, item: ValuationInput) {
    item.company.Some? && v.company == item.company && v.asOf == item.asOf && v.source == item.source
  }

  function KeyIds(store: ValuationStore, item: ValuationInput): (ids: set<int>)
    ensures forall id :: id in ids <==> id in store && SameKey(store[id], item)
  {
    set id | id in store && SameKey(store[id], item)
  }

  /** No two rows with a company share company, date and source. */
  ghost predicate UniqueKeys(store: ValuationStore) {
    forall a, b :: a in store && b in store && store[a].company.Some?
      && store[a].company == store[b].company && store[a].asOf == store[b].asOf && store[a].source == store[b].source
      ==> a == b
  }

  /** The record `save` builds for a new key: every input field, and `now`
      as both timestamps. */
  function Fresh(item: ValuationInput, id: int, now: int): Valuation {
    Valuation(id, item.asOf, item.source, item.company, item.sector, item.figures, now, now)
  }

  /** `save`: a row with the same company, date and source (the least id
      standing in for the row `LIMIT 1` returns) takes the item's figures and
      `now` as update time; everything else about it stays. Otherwise a new
      record is written under `id`; on an id conflict the old row keeps its
      creation time while the object returned carries `now`. */
  function Save(store: ValuationStore, item: ValuationInput, id: int, now: int): (r: (ValuationStore, Valuation))
    ensures forall e :: e in store && SameKey(store[e], item) ==>
      r.1.id in store && SameKey(store[r.1.id], item) && r.1.id <= e
      && r.1 == store[r.1.id].(id := r.1.id, figures := item.figures, updatedTs := now)
      && r.0 == store[r.1.id := r.1]
    ensures (forall e :: e in store ==> !SameKey(store[e], item)) ==>
      r.1 == Fresh(item, id, now)
      && r.0 == store[id := if id in store then r.1.(createdTs := store[id].createdTs) else r.1]
  {
    var ids := KeyIds(store, item);
    if exists e :: e in ids then
      var first := MinOf(ids);
      var row := store[first].(id := first, figures := item.figures, updatedTs := now);
      (store[first := row], row)
    else
      var row := Fresh(item, id, now);
      var stored := if id in store then row.(createdTs := store[id].createdTs) else row;
      (store[id := stored], row)
  }

  /** The upsert path adds no row and leaves the sector, date, source,
      company and creation time of the row it updates alone. */
  lemma UpsertKeepsIdentity(store: ValuationStore, item: ValuationInput, id: int, now: int, e: int)
    requires e in store && SameKey(store[e], item)
    ensures Save(store, item, id, now).0.Keys == store.Keys
    ensures var k := Save(store, item, id, now).1.id;
            var row := Save(store, item, id, now).0[k];
            k in store && row.sector == store[k].sector && row.asOf == store[k].asOf
            && row.source == store[k].source && row.company == store[k].company
            && row.createdTs == store[k].createdTs && row.figures == item.figures
  {
  }

  /** An item without a company always creates a record. */
  lemma NoCompanyAlwaysInserts(store: ValuationStore, item: ValuationInput, id: int, now: int)
    requires item.company.None?
    ensures Save(store, item, id, now).1 == Fresh(item, id, now)
    ensures id in Save(store, item, id, now).0
  {
  }

  /** `save` never creates a second row for a (company, date, source) key. */
  lemma SaveKeepsUniqueKeys(store: ValuationStore, item: ValuationInput, id: int, now: int)
    requires UniqueKeys(store)
    ensures UniqueKeys(Save(store, item, id, now).0)
  {
    var s := Save(store, item, id, now).0;
    if exists e :: e in store && SameKey(store[e], item) {
      var e :| e in store && SameKey(store[e], item);
      assert s.Keys == store.Keys;
      assert forall k :: k in s ==> s[k].company == store[k].company && s[k].asOf == store[k].asOf
                                    && s[k].source == store[k].source;
    } else {
      forall a, b | a in s && b in s && s[a].company.Some?
        && s[a].company == s[b].company && s[a].asOf == s[b].asOf && s[a].source == s[b].source
        ensures a == b
      {
        if a != id && b != id {
          assert s[a] == store[a] && s[b] == store[b];
        }
      }
    }
  }

  /** Some row carries company `c`, date `d` and source `src`. */
  ghost predicate HasRowFor(store: ValuationStore, c: Option<string>, d: Dates.Date, src: string) {
    exists id :: id in store && store[id].company == c && store[id].asOf == d && store[id].source == src
  }

  /** After a save the item's company, date and source are stored, and at
      most the id given was added. */
  lemma SaveStoresItsKey(store: ValuationStore, item: ValuationInput, id: int, now: int)
    ensures HasRowFor(Save(store, item, id, now).0, item.company, item.asOf, item.source)
    ensures Save(store, item, id, now).0.Keys <= store.Keys + {id}
  {
    var r := Save(store, item, id, now);
    if exists e :: e in store && SameKey(store[e], item) {
      var e :| e in store && SameKey(store[e], item);
      assert r.0[r.1.id].company == item.company;
    } else {
      assert r.0[id].company == item.company;
    }
  }

  /** A save under an unused id keeps every stored company, date and source:
      the upsert path changes only figures and times, and the insert path
      overwrites nothing. */
  lemma SaveKeepsRowsFor(store: ValuationStore, item: ValuationInput, id: int, now: int, c: Option<string>, d: Dates.Date, src: string)
    requires id !in store && HasRowFor(store, c, d, src)
    ensures HasRowFor(Save(store, item, id, now).0, c, d, src)
  {
    var w :| w in store && store[w].company == c && store[w].asOf == d && store[w].source == src;
    var r := Save(store, item, id, now);
    if exists e :: e in store && SameKey(store[e], item) {
      var e :| e in store && SameKey(store[e], item);
      assert r.0[w].company == c && r.0[w].asOf == d && r.0[w].source == src;
    } else {
      assert r.0[w] == store[w];
    }
  }

  /** `save_many`: the items are saved in order, one result each. */
  function SaveMany(store: ValuationStore, items: seq<ValuationInput>, idAt: nat -> int, nowAt: nat -> int): (r: (ValuationStore, seq<Valuation>))
    ensures |r.1| == |items|
    ensures forall i :: 0 <= i < |items| ==>
      r.1[i].asOf == items[i].asOf && r.1[i].source == items[i].source
      && r.1[i].company == items[i].company && r.1[i].figures == items[i].figures
    decreases |items|
  {
    if |items| == 0 then (store, [])
    else
      var n := |items| - 1;
      var pre := SaveMany(store, items[..n], idAt, nowAt);
      var s := Save(pre.0, items[n], idAt(n), nowAt(n));
      (s.0, pre.1 + [s.1])
  }

  lemma {:induction false} SaveManyKeepsUniqueKeys(store: ValuationStore, items: seq<ValuationInput>, idAt: nat -> int, nowAt: nat -> int)
    requires UniqueKeys(store)
    ensures UniqueKeys(SaveMany(store, items, idAt, nowAt).0)
    decreases |items|
  {
    if |items| > 0 {
      var n := |items| - 1;
      SaveManyKeepsUniqueKeys(store, items[..n], idAt, nowAt);
      SaveKeepsUniqueKeys(SaveMany(store, items[..n], idAt, nowAt).0, items[n], idAt(n), nowAt(n));
    }
  }

  /** `update`: `KeyError` for a missing id; otherwise every column but the
      id and the creation time is replaced. */
  function Update(store: ValuationStore, pk: int, item: ValuationInput, now: int): (r: Result<(ValuationStore, Valuation)>)
    ensures r.Err? <==> pk !in store
    ensures r.Err? ==> r.error == KeyError
    ensures r.Ok? ==> r.value.0 == store[pk := r.value.1]
    ensures r.Ok? ==> r.value.1 == Fresh(item, pk, now).(createdTs := store[pk].createdTs)
  {
    if pk !in store then Err(KeyError)
    else
      var row := store[pk].(id := pk, asOf := item.asOf, source := item.source, company := item.company,
                            sector := item.sector, figures := item.figures, updatedTs := now);
      Ok((store[pk := row], row))
  }

  /** `delete`: true iff a row was removed. */
  function Delete(store: ValuationStore, pk: int): (r: (ValuationStore, bool))
    ensures r.1 <==> pk in store
    ensures pk !in r.0 && forall k :: k != pk ==> (k in r.0 <==> k in store) && (k in r.0 ==> r.0[k] == store[k])
  {
    (store - {pk}, pk in store)
  }

  /** Deleting the row a save just created restores the store when the id
      was fresh. */
  lemma SaveThenDeleteRestores(store: ValuationStore, item: ValuationInput, id: int, now: int)
    requires id !in store
    requires forall e :: e in store ==> !SameKey(store[e], item)
    ensures Delete(Save(store, item, id, now).0, id) == (store, true)
  {
    assert Save(store, item, id, now).0 - {id} == store;
  }
}

=== FILE: dates.dfy ===
/** Calendar dates as (year, month, day) values, compared as SQL compares DATE columns. */
module Dates {

  datatype Date = Date(year: int, month: int, day: int)

  /** Chronological order: year, then month, then day. */
  predicate Le(a: Date, b: Date) {
    a.year < b.year
    || (a.year == b.year && (a.month < b.month || (a.month == b.month && a.day <= b.day)))
  }

  predicate IsLeapYear(y: int) {
    (y % 4 == 0 && y % 100 != 0) || y % 400 == 0
  }

  function DaysInMonth(y: int, m: int): int
    requires 1 <= m <= 12
  {
    if m == 2 then (if IsLeapYear(y) then 29 else 28)
    else if m == 4 || m == 6 || m == 9 || m == 11 then 30
    else 31
  }

  /** A date that Python's `datetime.date` accepts (years 1 through 9999). */
  predicate Valid(d: Date) {
    1 <= d.year <= 9999 && 1 <= d.month <= 12 && 1 <= d.day <= DaysInMonth(d.year, d.month)
  }

  lemma LeTotal(a: Date, b: Date)
    ensures Le(a, b) || Le(b, a)
  {
  }

  lemma LeAntisymmetric(a: Date, b: Date)
    requires Le(a, b) && Le(b, a)
    ensures a == b
  {
  }

  lemma LeTransitive(a: Date, b: Date, c: Date)
    requires Le(a, b) && Le(b, c)
    ensures Le(a, c)
  {
  }
}

=== FILE: dictionaries.dfy ===
/** The front end's transaction-type dictionary: codes, their labels, the
    options offered in forms, and the label shown for a stored code. */
module Dictionaries {
  import opened Results
  import opened Text
  import opened Dicts
  import opened Js

  /** `TRANSACTION_TYPES` */
  const TransactionTypes: Dict<string, string> := [("B", "Buy"), ("S", "Sell")]

  datatype TypeOption = TypeOption(code: string, text: string)

  /** `Object.entries(d).map(([code, label]) => ({ code, label }))` */
  function OptionsOf(d: Dict<string, string>): (opts: seq<TypeOption>)
    ensures |opts| == |d|
    ensures forall i :: 0 <= i < |d| ==> opts[i] == TypeOption(d[i].0, d[i].1)
  {
    seq(|d|, i requires 0 <= i < |d| => TypeOption(d[i].0, d[i].1))
  }

  /** `TRANSACTION_TYPE_OPTIONS`: one option per dictionary entry, in order. */
  function TypeOptions(): (opts: seq<TypeOption>)
    ensures |opts| == 2 && opts[0] == TypeOption("B", "Buy") && opts[1] == TypeOption("S", "Sell")
  {
    OptionsOf(TransactionTypes)
  }

  /** `transactionTypeLabel`: "-" for a missing or empty code; the label of
      the upper-cased code when it has one; otherwise the code itself,
      unchanged. Lookup uses `||`, so an empty label would also fall back. */
  function TypeLabel(d: Dict<string, string>, code: JsValue, eng: Engine): (r: JsValue)
    ensures IsNullish(code) || code == Str("") ==> r == Str("-")
    ensures !IsNullish(code) && code != Str("") ==>
      var key := Upper(ToText(code, eng));
      r == if Get(d, key).Some? && Get(d, key).value != "" then Str(Get(d, key).value) else code
  {
    if IsNullish(code) || code == Str("") then Str("-")
    else
      match Get(d, Upper(ToText(code, eng)))
      case Some(text) => if text != "" then Str(text) else code
      case None => code
  }

  function TransactionTypeLabel(code: JsValue, eng: Engine): JsValue {
    TypeLabel(TransactionTypes, code, eng)
  }

  /** Lookup ignores case: a code and its upper-case form get the same label
      whenever either has one. */
  lemma TypeLabelIgnoresCase(d: Dict<string, string>, s: string, eng: Engine)
    requires s != "" && Get(d, Upper(s)).Some? && Get(d, Upper(s)).value != ""
    ensures TypeLabel(d, Str(s), eng) == TypeLabel(d, Str(Upper(s)), eng)
  {
    UpperIdempotent(s);
  }

  /** Every option offered in the form is shown with its own label. */
  lemma {:induction false} OptionsShowTheirLabels(d: Dict<string, string>, i: nat, eng: Engine)
    requires WellFormed(d) && i < |d|
    requires forall j :: 0 <= j < |d| ==> Upper(d[j].0) == d[j].0 && d[j].0 != "" && d[j].1 != ""
    ensures TypeLabel(d, Str(OptionsOf(d)[i].code), eng) == Str(OptionsOf(d)[i].text)
  {
    var o := OptionsOf(d)[i];
    assert Upper(o.code) == d[i].0;
  }

  /** A code without an entry is shown as it was given, not upper-cased. */
  lemma UnknownCodeShownVerbatim(s: string, eng: Engine)
    requires s != "" && Upper(s) != "B" && Upper(s) != "S"
    ensures TransactionTypeLabel(Str(s), eng) == Str(s)
  {
    assert KeysOf(TransactionTypes) == ["B", "S"];
  }
}

=== FILE: dicts.dfy ===
/** Python dictionaries and JavaScript objects as their entries in insertion
    order. Assigning to a new key appends an entry; assigning to a key that is
    already present replaces its value where it stands. */
module Dicts {
  import opened Results
  import opened Seqs

  type Dict<K, V> = seq<(K, V)>

  function KeysOf<K, V>(d: Dict<K, V>): (ks: seq<K>)
    ensures |ks| == |d|
    ensures forall i :: 0 <= i < |d| ==> ks[i] == d[i].0
  {
    seq(|d|, i requires 0 <= i < |d| => d[i].0)
  }

  function ValuesOf<K, V>(d: Dict<K, V>): (vs: seq<V>)
    ensures |vs| == |d|
    ensures forall i :: 0 <= i < |d| ==> vs[i] == d[i].1
  {
    seq(|d|, i requires 0 <= i < |d| => d[i].1)
  }

  /** No key occurs twice: every dictionary built by `Put` is of this form. */
  predicate WellFormed<K(==), V>(d: Dict<K, V>) {
    Distinct(KeysOf(d))
  }

  /** `d.get(k)`: the value stored under `k`, if any. */
  function Get<K(==), V>(d: Dict<K, V>, k: K): (r: Option<V>)
    ensures r.None? <==> k !in KeysOf(d)
    ensures WellFormed(d) ==> forall i :: 0 <= i < |d| && d[i].0 == k ==> r == Some(d[i].1)
  {
    var ks := KeysOf(d);
    if k in ks then Some(d[IndexOf(ks, k)].1) else None
  }

  /** `d[k] = v`: a new key goes to the end; a present key keeps its place. */
  function Put<K(==,!new), V>(d: Dict<K, V>, k: K, v: V): (r: Dict<K, V>)
    ensures KeysOf(r) == if k in KeysOf(d) then KeysOf(d) else KeysOf(d) + [k]
    ensures Get(r, k) == Some(v)
    ensures forall j :: j != k ==> Get(r, j) == Get(d, j)
    ensures WellFormed(d) ==> WellFormed(r)
  {
    var ks := KeysOf(d);
    if k in ks then
      var i := IndexOf(ks, k);
      var r := d[i := (k, v)];
      assert KeysOf(r) == ks;
      r
    else
      var r := d + [(k, v)];
      assert KeysOf(r) == ks + [k];
      assert (ks + [k])[..|ks|] == ks;
      assert forall j :: j in ks ==> IndexOf(ks + [k], j) == IndexOf(ks, j) by {
        forall j | j in ks
          ensures IndexOf(ks + [k], j) == IndexOf(ks, j)
        {
          IndexOfPrefix(ks + [k], |ks|, j);
        }
      }
      r
  }

  /** `del d[k]`: the entry for `k` disappears and the others keep their
      order. */
  function Remove<K(==,!new), V>(d: Dict<K, V>, k: K): (r: Dict<K, V>)
    ensures KeysOf(r) == Without(KeysOf(d), k)
    ensures WellFormed(d) ==> WellFormed(r)
    decreases |d|
  {
    if |d| == 0 then []
    else
      var rest := Remove(d[1..], k);
      assert KeysOf(d) == [d[0].0] + KeysOf(d[1..]);
      assert KeysOf(d)[1..] == KeysOf(d[1..]);
      if d[0].0 == k then rest
      else
        var r := [d[0]] + rest;
        assert KeysOf(r) == [d[0].0] + KeysOf(rest);
        r
  }

  /** A lookup looks at the first entry, then at the rest. */
  lemma GetFirst<K, V>(d: Dict<K, V>, k: K)
    requires |d| > 0
    ensures Get(d, k) == if d[0].0 == k then Some(d[0].1) else Get(d[1..], k)
  {
    assert KeysOf(d)[1..] == KeysOf(d[1..]);
  }

  /** After `del d[k]`, `k` is missing and every other key reads what it
      read before. */
  lemma {:induction false} RemoveGet<K(!new), V>(d: Dict<K, V>, k: K, j: K)
    ensures Get(Remove(d, k), j) == if j == k then None else Get(d, j)
    decreases |d|
  {
    if |d| > 0 {
      RemoveGet(d[1..], k, j);
      GetFirst(d, j);
      if d[0].0 != k {
        GetFirst([d[0]] + Remove(d[1..], k), j);
        assert ([d[0]] + Remove(d[1..], k))[1..] == Remove(d[1..], k);
      }
    }
  }

  /** The position of the last pair whose key is `k`. */
  function LastIndex<K(==), V>(ps: seq<(K, V)>, k: K): (r: Option<nat>)
    ensures r.None? <==> forall i :: 0 <= i < |ps| ==> ps[i].0 != k
    ensures r.Some? ==> r.value < |ps| && ps[r.value].0 == k && forall j :: r.value < j < |ps| ==> ps[j].0 != k
    decreases |ps|
  {
    if |ps| == 0 then None
    else
      var n := |ps| - 1;
      if ps[n].0 == k then Some(n)
      else
        assert forall i :: 0 <= i < n ==> ps[..n][i] == ps[i];
        LastIndex(ps[..n], k)
  }

  /** The value of the last pair whose key is `k`. */
  function LastValue<K(==), V>(ps: seq<(K, V)>, k: K): (r: Option<V>)
    ensures r.None? <==> forall i :: 0 <= i < |ps| ==> ps[i].0 != k
    ensures r.Some? ==> exists i :: 0 <= i < |ps| && ps[i] == (k, r.value)
                                    && forall j :: i < j < |ps| ==> ps[j].0 != k
  {
    match LastIndex(ps, k)
    case None => None
    case Some(i) => Some(ps[i].1)
  }

  /** The distinct elements of `ks` in order of first appearance, as
      `list(dict.fromkeys(ks))` gives them. */
  function FirstSeen<K(==,!new)>(ks: seq<K>): (r: seq<K>)
    ensures Distinct(r)
    ensures forall x :: x in r <==> x in ks
    decreases |ks|
  {
    if |ks| == 0 then []
    else
      var n := |ks| - 1;
      var pre := FirstSeen(ks[..n]);
      assert forall x :: x in ks <==> x in ks[..n] || x == ks[n];
      if ks[n] in pre then pre else pre + [ks[n]]
  }

  /** `FirstSeen` lists its elements in the order of their first occurrence. */
  lemma {:induction false} FirstSeenOrder<K(!new)>(ks: seq<K>)
    ensures forall i, j :: 0 <= i < j < |FirstSeen(ks)| ==>
      IndexOf(ks, FirstSeen(ks)[i]) < IndexOf(ks, FirstSeen(ks)[j])
    decreases |ks|
  {
    if |ks| > 0 {
      var n := |ks| - 1;
      var pre := FirstSeen(ks[..n]);
      FirstSeenOrder(ks[..n]);
      forall i | 0 <= i < |pre|
        ensures pre[i] in ks && IndexOf(ks, pre[i]) == IndexOf(ks[..n], pre[i]) < n
      {
        assert pre[i] in pre;
        IndexOfPrefix(ks, n, pre[i]);
      }
      if ks[n] in pre {
        assert FirstSeen(ks) == pre;
      } else {
        assert ks[n] !in ks[..n];
        assert IndexOf(ks, ks[n]) == n;
        FirstSeenStep(ks, pre);
      }
    }
  }

  /** Appending an element not seen before keeps the first-occurrence order. */
  lemma FirstSeenStep<K>(ks: seq<K>, pre: seq<K>)
    requires |ks| > 0 && IndexOf(ks, ks[|ks| - 1]) == |ks| - 1
    requires forall i :: 0 <= i < |pre| ==> pre[i] in ks && IndexOf(ks, pre[i]) < |ks| - 1
    requires forall i, j :: 0 <= i < j < |pre| ==> IndexOf(ks, pre[i]) < IndexOf(ks, pre[j])
    ensures var r := pre + [ks[|ks| - 1]];
            forall i, j :: 0 <= i < j < |r| ==> IndexOf(ks, r[i]) < IndexOf(ks, r[j])
  {
    var r := pre + [ks[|ks| - 1]];
    forall i, j | 0 <= i < j < |r|
      ensures IndexOf(ks, r[i]) < IndexOf(ks, r[j])
    {
      assert r[i] == pre[i];
      if j < |pre| {
        assert r[j] == pre[j];
      }
    }
  }

  lemma {:induction false} IndexOfPrefix<K>(ks: seq<K>, n: nat, x: K)
    requires n <= |ks| && x in ks[..n]
    ensures IndexOf(ks, x) == IndexOf(ks[..n], x)
  {
    var i := IndexOf(ks[..n], x);
    assert ks[i] == x;
    assert forall j :: 0 <= j < i ==> ks[j] == ks[..n][j];
  }

  /** `dict(ps)` and `{k: v for k, v in ps}`: later pairs overwrite earlier ones. */
  function FromPairs<K(==,!new), V>(ps: seq<(K, V)>): (d: Dict<K, V>)
    ensures WellFormed(d)
    decreases |ps|
  {
    if |ps| == 0 then []
    else
      var n := |ps| - 1;
      Put(FromPairs(ps[..n]), ps[n].0, ps[n].1)
  }

  /** Every key reads back the value of its last pair. */
  lemma {:induction false} FromPairsGet<K(!new), V>(ps: seq<(K, V)>, k: K)
    ensures Get(FromPairs(ps), k) == LastValue(ps, k)
    decreases |ps|
  {
    if |ps| > 0 {
      FromPairsGet(ps[..|ps| - 1], k);
    }
  }

  /** The keys stand in the order of their first pair. */
  lemma {:induction false} FromPairsKeys<K(!new), V>(ps: seq<(K, V)>)
    ensures KeysOf(FromPairs(ps)) == FirstSeen(KeysOf(ps))
    decreases |ps|
  {
    if |ps| > 0 {
      var n := |ps| - 1;
      FromPairsKeys(ps[..n]);
      assert KeysOf(ps[..n]) == KeysOf(ps)[..n];
    }
  }
}

=== FILE: external_platforms.dfy ===
/** The external platform store of `ExternalPlatformCRUD`: the platform type
    is checked against a fixed list before anything is written. */
module ExternalPlatforms {
  import opened Results
  import Seqs

  /** `ALLOWED_PLATFORM_TYPES` */
  const AllowedTypes: seq<string> := ["Trading Platform", "Pricing Platform", "Secondary Trading Platform"]

  /** `ExternalPlatformDtlInput` */
  datatype PlatformInput = PlatformInput(name: string, platformType: string)

  /** `ExternalPlatformDtl` */
  datatype Platform = Platform(id: int, name: string, platformType: string, createdTs: int, updatedTs: int)

  type PlatformStore = map<int, Platform>

  /** `_validate_type`: `ValueError` unless the type is one of the allowed
      strings, compared exactly. */
  function ValidateType(t: string): (r: Result<string>)
    ensures r.Ok? <==> t in AllowedTypes
    ensures r.Ok? ==> r.value == t
    ensures r.Err? ==> r.error == ValueError
  {
    if t in AllowedTypes then Ok(t) else Err(ValueError)
  }

  /** The comparison is case-sensitive. */
  lemma ValidateTypeIsCaseSensitive()
    ensures ValidateType("Trading Platform").Ok?
    ensures ValidateType("trading platform").Err?
  {
    assert "trading platform" != AllowedTypes[0];
    assert "trading platform" != AllowedTypes[1];
    assert "trading platform" != AllowedTypes[2];
  }

  function NewPlatform(item: PlatformInput, id: int, now: int): Platform {
    Platform(id, item.name, item.platformType, now, now)
  }

  /** `save`: an invalid type fails with the store untouched. Otherwise the
      record (name, type, `now` as both timestamps) is written under `id`; an
      id conflict overwrites name, type and update time and keeps the old
      creation time. The built record is returned. */
  function Save(store: PlatformStore, item: PlatformInput, id: int, now: int): (r: Result<(PlatformStore, Platform)>)
    ensures r.Err? <==> item.platformType !in AllowedTypes
    ensures r.Err? ==> r.error == ValueError
    ensures r.Ok? ==> r.value.1 == NewPlatform(item, id, now)
    ensures r.Ok? ==> id in r.value.0 && r.value.0[id].name == item.name && r.value.0[id].platformType == item.platformType
    ensures r.Ok? ==> r.value.0[id].createdTs == (if id in store then store[id].createdTs else now)
    ensures r.Ok? ==> forall k :: k != id ==> (k in r.value.0 <==> k in store) && (k in store ==> r.value.0[k] == store[k])
  {
    var _ :- ValidateType(item.platformType);
    var p := NewPlatform(item, id, now);
    var stored := if id in store then p.(createdTs := store[id].createdTs) else p;
    Ok((store[id := stored], p))
  }

  /** `save_many`: items are saved in order; the first invalid type raises,
      and the platforms saved before it stay saved. */
  function SaveMany(store: PlatformStore, items: seq<PlatformInput>, idAt: nat -> int, nowAt: nat -> int): (r: (PlatformStore, Result<seq<Platform>>))
    ensures r.1.Ok? ==> |r.1.value| == |items|
    ensures r.1.Ok? ==> forall i :: 0 <= i < |items| ==> r.1.value[i] == NewPlatform(items[i], idAt(i), nowAt(i))
    decreases |items|
  {
    if |items| == 0 then (store, Ok([]))
    else
      var n := |items| - 1;
      var pre := SaveMany(store, items[..n], idAt, nowAt);
      if pre.1.Err? then pre
      else
        var s := Save(pre.0, items[n], idAt(n), nowAt(n));
        if s.Err? then (pre.0, Err(s.error))
        else (s.value.0, Ok(pre.1.value + [s.value.1]))
  }

  /** An item whose type is outside the list. */
  predicate InvalidType(item: PlatformInput) {
    item.platformType !in AllowedTypes
  }

  /** The batch fails exactly when some item has a type outside the list. */
  lemma {:induction false} SaveManyFailsIffInvalid(store: PlatformStore, items: seq<PlatformInput>, idAt: nat -> int, nowAt: nat -> int)
    ensures SaveMany(store, items, idAt, nowAt).1.Err? <==> Seqs.Any(items, InvalidType)
    decreases |items|
  {
    if |items| > 0 {
      var n := |items| - 1;
      Seqs.AnyOfSnoc(items, InvalidType);
      SaveManyFailsIffInvalid(store, items[..n], idAt, nowAt);
      SaveManyFailsStep(store, items, idAt, nowAt);
    }
  }

  /** One more item fails the batch iff the prefix failed or the item's type
      is outside the list. */
  lemma SaveManyFailsStep(store: PlatformStore, items: seq<PlatformInput>, idAt: nat -> int, nowAt: nat -> int)
    requires |items| > 0
    ensures SaveMany(store, items, idAt, nowAt).1.Err?
            <==> SaveMany(store, items[..|items| - 1], idAt, nowAt).1.Err? || InvalidType(items[|items| - 1])
  {
  }

  /** `update`: `KeyError` for a missing id, checked before the type, then
      `ValueError` for an invalid type; otherwise name, type and update time
      change and the creation time stays. */
  function Update(store: PlatformStore, pk: int, item: PlatformInput, now: int): (r: Result<(PlatformStore, Platform)>)
    ensures pk !in store ==> r == Err(KeyError)
    ensures pk in store && item.platformType !in AllowedTypes ==> r == Err(ValueError)
    ensures r.Ok? <==> pk in store && item.platformType in AllowedTypes
    ensures r.Ok? ==> r.value.0 == store[pk := r.value.1]
    ensures r.Ok? ==> r.value.1 == NewPlatform(item, pk, now).(createdTs := store[pk].createdTs)
  {
    if pk !in store then Err(KeyError)
    else
      var _ :- ValidateType(item.platformType);
      var row := store[pk].(id := pk, name := item.name, platformType := item.platformType, updatedTs := now);
      Ok((store[pk := row], row))
  }

  /** Every platform written through `save` or `update` has an allowed type. */
  ghost predicate TypesAllowed(store: PlatformStore) {
    forall k :: k in store ==> store[k].platformType in AllowedTypes
  }

  lemma WritesKeepTypesAllowed(store: PlatformStore, pk: int, item: PlatformInput, id: int, now: int)
    requires TypesAllowed(store)
    ensures Save(store, item, id, now).Ok? ==> TypesAllowed(Save(store, item, id, now).value.0)
    ensures Update(store, pk, item, now).Ok? ==> TypesAllowed(Update(store, pk, item, now).value.0)
  {
  }

  /** `delete`: true iff a row was removed. */
  function Delete(store: PlatformStore, pk: int): (r: (PlatformStore, bool))
    ensures r.1 <==> pk in store
    ensures pk !in r.0 && forall k :: k != pk ==> (k in r.0 <==> k in store) && (k in r.0 ==> r.0[k] == store[k])
  {
    (store - {pk}, pk in store)
  }
}

=== FILE: fields.dfy ===
/** The front end's field registry helpers: which fields a model shows, which
    a form edits, how a field name becomes a label, and how form input is
    coerced and table cells are rendered. */
module Fields {
  import opened Results
  import opened Text
  import opened Dicts
  import opened Js
  import Dictionaries

  /** One entry of `modelFieldDefs`: `readOnly` and `format` are optional in
      the registry; a missing `readOnly` is false. */
  datatype Field = Field(name: string, ftype: string, format: Option<string>, readOnly: bool)

  type Registry = map<string, seq<Field>>

  /** `getOrderedFields`: the model's definition list as it stands, or an
      `Error` for a model that is not registered. */
  function GetOrderedFields(defs: Registry, modelName: string): (r: Result<seq<Field>>)
    ensures r.Ok? <==> modelName in defs
    ensures r.Ok? ==> r.value == defs[modelName]
    ensures r.Err? ==> r.error == PlainError
  {
    if modelName in defs then Ok(defs[modelName]) else Err(PlainError)
  }

  /** A field appears in create and edit forms unless it is read-only or a
      date-time. Plain dates stay. */
  predicate InForm(f: Field) {
    !f.readOnly && f.format != Some("date-time") && f.ftype != "date-time"
  }

  /** `fields.filter(InForm)`: the fields that pass, in their order. */
  function FormFields(fs: seq<Field>): (r: seq<Field>)
    ensures |r| <= |fs|
    ensures forall f :: f in r <==> f in fs && InForm(f)
    decreases |fs|
  {
    if |fs| == 0 then []
    else
      var rest := FormFields(fs[1..]);
      assert forall f :: f in fs <==> f == fs[0] || f in fs[1..];
      if InForm(fs[0]) then [fs[0]] + rest else rest
  }

  /** `r` is `fs` with some elements left out, the rest in their order. */
  predicate IsSubsequence(r: seq<Field>, fs: seq<Field>)
    decreases |fs|
  {
    |r| == 0 || (|fs| > 0 && ((r[0] == fs[0] && IsSubsequence(r[1..], fs[1..])) || IsSubsequence(r, fs[1..])))
  }

  /** `FormFields` keeps the registry order. */
  lemma {:induction false} FormFieldsKeepOrder(fs: seq<Field>)
    ensures IsSubsequence(FormFields(fs), fs)
    decreases |fs|
  {
    if |fs| > 0 {
      FormFieldsKeepOrder(fs[1..]);
      if InForm(fs[0]) {
        assert ([fs[0]] + FormFields(fs[1..]))[1..] == FormFields(fs[1..]);
      }
    }
  }

  /** `FormFields` keeps every form field as often as the registry lists it,
      and no other field. */
  lemma {:induction false} FormFieldsCounts(fs: seq<Field>)
    ensures forall f :: multiset(FormFields(fs))[f] == if InForm(f) then multiset(fs)[f] else 0
    decreases |fs|
  {
    if |fs| > 0 {
      FormFieldsCounts(fs[1..]);
      assert fs == [fs[0]] + fs[1..];
      var rest := FormFields(fs[1..]);
      if InForm(fs[0]) {
        assert multiset(FormFields(fs)) == multiset{fs[0]} + multiset(rest);
      }
    }
  }

  /** Filtering twice is filtering once. */
  lemma {:induction false} FormFieldsIdempotent(fs: seq<Field>)
    ensures FormFields(FormFields(fs)) == FormFields(fs)
    decreases |fs|
  {
    if |fs| > 0 {
      FormFieldsIdempotent(fs[1..]);
      if InForm(fs[0]) {
        assert ([fs[0]] + FormFields(fs[1..]))[1..] == FormFields(fs[1..]);
      }
    }
  }

  /** `formFieldsForAction`: the same fields for "create" and "edit"; the
      action is not consulted. An unknown model fails as in
      `getOrderedFields`. */
  function FormFieldsForAction(defs: Registry, modelName: string, action: string): (r: Result<seq<Field>>)
    ensures r.Ok? <==> modelName in defs
    ensures r.Err? ==> r.error == PlainError
    ensures r.Ok? ==> forall f :: f in r.value <==> f in defs[modelName] && InForm(f)
    ensures r.Ok? ==> forall f :: multiset(r.value)[f] == if InForm(f) then multiset(defs[modelName])[f] else 0
    ensures r.Ok? ==> IsSubsequence(r.value, defs[modelName])
  {
    var fs :- GetOrderedFields(defs, modelName);
    FormFieldsKeepOrder(fs);
    FormFieldsCounts(fs);
    Ok(FormFields(fs))
  }

  // ---------------------------------------------------------------------
  // Labels

  /** `\b\w` matches at `i`: a word character with no word character before
      it. */
  predicate WordStart(t: string, i: nat) {
    i < |t| && IsWordChar(t[i]) && (i == 0 || !IsWordChar(t[i - 1]))
  }

  /** `labelize`: underscores become spaces and the first character of every
      word is upper-cased. */
  function Labelize(s: string): (r: string)
    ensures |r| == |s|
    ensures '_' !in r
    ensures forall i :: 0 <= i < |s| ==> r[i] == if s[i] == '_' then ' '
                                                else if WordStart(ReplaceChar(s, '_', ' '), i) then UpperChar(s[i])
                                                else s[i]
  {
    var t := ReplaceChar(s, '_', ' ');
    seq(|t|, i requires 0 <= i < |t| => if WordStart(t, i) then UpperChar(t[i]) else t[i])
  }

  /** Upper-casing keeps a character's word-ness. */
  lemma UpperCharKeepsWordChar(c: char)
    ensures IsWordChar(UpperChar(c)) <==> IsWordChar(c)
  {
  }

  /** A label is its own label. */
  lemma LabelizeIdempotent(s: string)
    ensures Labelize(Labelize(s)) == Labelize(s)
  {
    var r := Labelize(s);
    var t := ReplaceChar(s, '_', ' ');
    assert ReplaceChar(r, '_', ' ') == r;
    forall i | 0 <= i < |r|
      ensures WordStart(r, i) <==> WordStart(t, i)
    {
      UpperCharKeepsWordChar(t[i]);
      if i > 0 {
        UpperCharKeepsWordChar(t[i - 1]);
      }
    }
  }

  // ---------------------------------------------------------------------
  // Form values

  /** `defaultValueForType`: false for booleans, "" for everything else. */
  function DefaultValueForType(t: string): (v: JsValue)
    ensures t == "boolean" <==> v == Bool(false)
    ensures t != "boolean" <==> v == Str("")
  {
    if t == "boolean" then Bool(false) else Str("")
  }

  /** `coerceValue`: "" and null/undefined become null. An integer field
      truncates a value that is already a finite number and otherwise
      converts it with `Number()`, without truncating; a number field
      converts; a boolean field takes the truthiness; any other value is kept. */
  function CoerceValue(v: JsValue, f: Field, eng: Engine): (r: JsValue)
    ensures v == Str("") || IsNullish(v) ==> r == Null
    ensures !(v == Str("") || IsNullish(v)) && f.ftype == "integer" && v.Num? ==>
      r.Num? && r.n == Trunc(v.n) as real
    ensures !(v == Str("") || IsNullish(v)) && f.ftype == "integer" && !v.Num? ==> r == ToNumber(v, eng)
    ensures !(v == Str("") || IsNullish(v)) && f.ftype == "number" ==> r == ToNumber(v, eng)
    ensures !(v == Str("") || IsNullish(v)) && f.ftype == "boolean" ==> r == Bool(Truthy(v))
    ensures !(v == Str("") || IsNullish(v)) && f.ftype !in {"integer", "number", "boolean"} ==> r == v
  {
    if v == Str("") || IsNullish(v) then Null
    else if f.ftype == "integer" then (if IsFiniteNumber(v) then Num(Trunc(v.n) as real) else ToNumber(v, eng))
    else if f.ftype == "number" then ToNumber(v, eng)
    else if f.ftype == "boolean" then Bool(Truthy(v))
    else v
  }

  /** The default value of a field's type coerces to "no value": null, or
      false for a boolean. */
  lemma DefaultCoercesToEmpty(f: Field, eng: Engine)
    ensures CoerceValue(DefaultValueForType(f.ftype), f, eng) == if f.ftype == "boolean" then Bool(false) else Null
  {
  }

  /** Coercing a coerced integer again changes nothing. */
  lemma CoerceIntegerIdempotent(x: real, f: Field, eng: Engine)
    requires f.ftype == "integer"
    ensures CoerceValue(CoerceValue(Num(x), f, eng), f, eng) == CoerceValue(Num(x), f, eng)
  {
    var k := Trunc(x);
    assert Trunc(k as real) == k;
  }

  // ---------------------------------------------------------------------
  // Table cells

  /** `/^\d{4}-\d{2}-\d{2}$/` */
  predicate IsIsoDate(s: string) {
    |s| == 10 && s[4] == '-' && s[7] == '-'
    && forall i :: 0 <= i < 10 && i != 4 && i != 7 ==> IsDigit(s[i])
  }

  /** What a cell shows. The locale-formatted forms are left to the browser
      and only name the value they format. */
  datatype Cell =
    | Plain(text: string)
    | Label(value: JsValue)
    | LocaleDateTime(value: JsValue)
    | LocaleDate(value: JsValue)
    | LocaleNumber(n: real)

  /** A field rendered as a date-time: its format or its type says so. */
  predicate DateTimeField(f: Field) {
    f.format == Some("date-time") || f.ftype == "date-time"
  }

  /** A field with none of the date, date-time and number renderings. */
  predicate PlainField(f: Field) {
    !DateTimeField(f) && f.ftype != "date" && f.ftype != "number"
  }

  /** `renderCell`: "-" for no value; date-times and dates that `new Date`
      can read go to the browser's locale format, other ones print as they
      are; an ISO "YYYY-MM-DD" string in a date field is shown verbatim; a
      number field shows finite numbers in locale format; booleans are
      Yes/No; the transaction type shows its label; anything else is
      `String(value)`. `validDate` says whether `new Date(value)` is a
      valid date. */
  function RenderCell(value: JsValue, f: Field, eng: Engine, validDate: JsValue -> bool): (c: Cell)
    ensures IsNullish(value) ==> c == Plain("-")
    ensures !IsNullish(value) && DateTimeField(f) ==>
      c == if validDate(value) then LocaleDateTime(value) else Plain(ToText(value, eng))
    ensures !IsNullish(value) && !DateTimeField(f) && f.ftype == "date" && value.Str? && IsIsoDate(value.s)
            ==> c == Plain(value.s)
    ensures !IsNullish(value) && !DateTimeField(f) && f.ftype == "date" && !(value.Str? && IsIsoDate(value.s)) ==>
      c == if validDate(value) then LocaleDate(value) else Plain(ToText(value, eng))
    ensures !IsNullish(value) && !DateTimeField(f) && f.ftype == "number" ==>
      c == if ToNumber(value, eng).Num? then LocaleNumber(ToNumber(value, eng).n) else Plain(ToText(value, eng))
    ensures !IsNullish(value) && PlainField(f) && value.Bool? ==> c == Plain(if value.b then "Yes" else "No")
    ensures !IsNullish(value) && PlainField(f) && !value.Bool? && f.name == "transaction_type" ==>
      var l := Dictionaries.TransactionTypeLabel(value, eng);
      c == if l.Str? then Plain(l.s) else Label(l)
    ensures !IsNullish(value) && PlainField(f) && !value.Bool? && f.name != "transaction_type" ==>
      c == Plain(ToText(value, eng))
  {
    if IsNullish(value) then Plain("-")
    else if DateTimeField(f) then
      if validDate(value) then LocaleDateTime(value) else Plain(ToText(value, eng))
    else if f.ftype == "date" then
      if value.Str? && IsIsoDate(value.s) then Plain(value.s)
      else if validDate(value) then LocaleDate(value) else Plain(ToText(value, eng))
    else if f.ftype == "number" then
      var num := ToNumber(value, eng);
      if num.Num? then LocaleNumber(num.n) else Plain(ToText(value, eng))
    else if value.Bool? then Plain(if value.b then "Yes" else "No")
    else if f.name == "transaction_type" then
      var l := Dictionaries.TransactionTypeLabel(value, eng);
      if l.Str? then Plain(l.s) else Label(l)
    else Plain(ToText(value, eng))
  }

  /** Which values reach the browser's formatting: a readable date in a
      date-time field, a readable non-ISO date in a date field, and a finite
      number in a number field, and nothing else. A dictionary label that
      is not text appears only in the transaction-type column. */
  lemma RenderCellKinds(value: JsValue, f: Field, eng: Engine, validDate: JsValue -> bool)
    ensures var c := RenderCell(value, f, eng, validDate);
            c.LocaleDateTime? <==> !IsNullish(value) && DateTimeField(f) && validDate(value)
    ensures var c := RenderCell(value, f, eng, validDate);
            c.LocaleDate? <==> !IsNullish(value) && !DateTimeField(f) && f.ftype == "date"
                               && !(value.Str? && IsIsoDate(value.s)) && validDate(value)
    ensures var c := RenderCell(value, f, eng, validDate);
            c.LocaleNumber? <==> !IsNullish(value) && !DateTimeField(f) && f.ftype == "number" && ToNumber(value, eng).Num?
    ensures RenderCell(value, f, eng, validDate).Label? ==> PlainField(f) && f.name == "transaction_type"
  {
  }

  /** In the transaction-type column, every code the form offers is shown
      with the label the form shows for it. */
  lemma RenderCellShowsOptionLabel(f: Field, i: nat, eng: Engine, validDate: JsValue -> bool)
    requires PlainField(f) && f.name == "transaction_type"
    requires i < |Dictionaries.TypeOptions()|
    ensures RenderCell(Str(Dictionaries.TypeOptions()[i].code), f, eng, validDate) == Plain(Dictionaries.TypeOptions()[i].text)
  {
    var d := Dictionaries.TransactionTypes;
    assert Upper("B") == "B" && Upper("S") == "S";
    assert KeysOf(d) == ["B", "S"];
    Dictionaries.OptionsShowTheirLabels(d, i, eng);
  }
}

=== FILE: forge_scraper.dfy ===
/** The pure parts of the Forge Global company-table scrapers (the original
    `ForgeScraper` and its rewrite): column alignment, page counting, the
    composite "Forge Price 1" cell, the CSV header union and user-agent
    rotation. Where the two scrapers differ the model has one member per
    version; where their code is identical it has one member for both. */
module ForgeScraper {
  import opened Results
  import opened Text
  import opened Seqs
  import opened Dicts
  import opened Scan
  import Dates
  import ValuationsLoader

  // ---------------------------------------------------------------------
  // Header normalisation

  /** `[h.strip().lower() for h in raw_headers]` */
  function Lowered(raw: seq<string>): (lower: seq<string>)
    ensures |lower| == |raw|
    ensures forall i :: 0 <= i < |raw| ==> lower[i] == Lower(Strip(raw[i]))
  {
    seq(|raw|, i requires 0 <= i < |raw| => Lower(Strip(raw[i])))
  }

  /** The first two headers are the "Trade Metrics" and "Last Funding Round"
      columns that carry no data. */
  predicate TradeMetricsPair(lower: seq<string>) {
    |lower| >= 2 && StartsWith(lower[0], "trade metrics") && StartsWith(lower[1], "last funding")
  }

  /** `_normalize_headers_and_offset` of the original scraper: start at the
      first "company" column, else drop the two leading non-data columns,
      else keep everything. The headers kept are the raw ones from the
      offset on. */
  function NormalizeHeadersOld(raw: seq<string>): (r: (seq<string>, nat))
    ensures r.1 <= |raw| && r.0 == raw[r.1..]
    ensures "company" in Lowered(raw) ==>
      r.1 < |raw| && Lowered(raw)[r.1] == "company" && forall j :: 0 <= j < r.1 ==> Lowered(raw)[j] != "company"
    ensures "company" !in Lowered(raw) ==> r.1 == if TradeMetricsPair(Lowered(raw)) then 2 else 0
  {
    if |raw| == 0 then (raw, 0)
    else
      var lower := Lowered(raw);
      if lower[0] == "company" then (raw, 0)
      else if "company" in lower && IndexOf(lower, "company") > 0 then
        var idx := IndexOf(lower, "company");
        (raw[idx..], idx)
      else if TradeMetricsPair(lower) then (raw[2..], 2)
      else (raw, 0)
  }

  /** `_normalize_headers_and_offset` of the rewritten scraper, without the
      first-column test. */
  function NormalizeHeadersNew(raw: seq<string>): (r: (seq<string>, nat))
    ensures r.1 <= |raw| && r.0 == raw[r.1..]
    ensures "company" in Lowered(raw) ==>
      r.1 < |raw| && Lowered(raw)[r.1] == "company" && forall j :: 0 <= j < r.1 ==> Lowered(raw)[j] != "company"
    ensures "company" !in Lowered(raw) ==> r.1 == if TradeMetricsPair(Lowered(raw)) then 2 else 0
  {
    if |raw| == 0 then (raw, 0)
    else
      var lower := Lowered(raw);
      if "company" in lower && IndexOf(lower, "company") > 0 then
        var idx := IndexOf(lower, "company");
        (raw[idx..], idx)
      else if TradeMetricsPair(lower) then (raw[2..], 2)
      else (raw, 0)
  }

  /** The first-column test of the original scraper changes nothing: a
      leading "company" column already gives offset 0 in the rewrite. */
  lemma NormalizeHeadersOldIsNew(raw: seq<string>)
    ensures NormalizeHeadersOld(raw) == NormalizeHeadersNew(raw)
  {
    var o := NormalizeHeadersOld(raw);
    var n := NormalizeHeadersNew(raw);
    if "company" in Lowered(raw) {
      assert o.1 == n.1 by {
        assert !(o.1 < n.1) && !(n.1 < o.1);
      }
    }
  }

  /** Once the headers start at the company column, normalising them again
      drops nothing. */
  lemma {:induction false} NormalizeHeadersSettles(raw: seq<string>)
    requires "company" in Lowered(raw)
    ensures NormalizeHeadersNew(NormalizeHeadersNew(raw).0).1 == 0
  {
    var r := NormalizeHeadersNew(raw);
    var lower := Lowered(raw);
    assert Lowered(r.0)[0] == lower[r.1];
    assert "company" in Lowered(r.0);
  }

  // ---------------------------------------------------------------------
  // Pagination

  /** The page number in an href: the leading ASCII digits after the first
      "?page=", if there are any. */
  function PageNumber(href: string): (n: Option<nat>)
    ensures n.Some? ==> Contains(href, "?page=")
    ensures Find(href, "?page=").Some? ==>
      var t := href[Find(href, "?page=").value + 6..];
      (n.Some? <==> |t| > 0 && IsDigit(t[0]))
      && (n.Some? ==> exists k :: 0 < k <= |t| && AllDigits(t[..k]) && (k == |t| || !IsDigit(t[k]))
                                  && n.value == DigitsValue(t[..k]))
  {
    match Find(href, "?page=")
    case None => None
    case Some(i) =>
      var tail := href[i + 6..];
      var k := DigitRun(tail);
      if k == 0 then None else Some(DigitsValue(tail[..k]))
  }

  /** The page number of a link whose `href` attribute may be missing
      (`a.get_attribute("href") or ""`). */
  function LinkPage(href: Option<string>): Option<nat> {
    PageNumber(href.GetOr(""))
  }

  /** The href loop of `_get_last_page`: the largest page number among the
      links, and 1 when no link carries one. */
  method LastPage(hrefs: seq<Option<string>>) returns (last: nat)
    ensures last >= 1
    ensures forall i :: 0 <= i < |hrefs| && LinkPage(hrefs[i]).Some? ==> LinkPage(hrefs[i]).value <= last
    ensures last == 1 || exists i :: 0 <= i < |hrefs| && LinkPage(hrefs[i]) == Some(last)
  {
    var maxPage: nat := 1;
    var k := 0;
    while k < |hrefs|
      invariant 0 <= k <= |hrefs| && maxPage >= 1
      invariant forall i :: 0 <= i < k && LinkPage(hrefs[i]).Some? ==> LinkPage(hrefs[i]).value <= maxPage
      invariant maxPage == 1 || exists i :: 0 <= i < k && LinkPage(hrefs[i]) == Some(maxPage)
    {
      var num := LinkPage(hrefs[k]);
      if num.Some? && num.value > maxPage {
        maxPage := num.value;
      }
      k := k + 1;
    }
    last := maxPage;
  }

  // ---------------------------------------------------------------------
  // Cell text

  /** `_norm_text`: no text becomes "", otherwise whitespace runs collapse to
      one space and the ends are trimmed. */
  function NormText(s: Option<string>): (r: string)
    ensures Collapsed(r)
    ensures s.None? ==> r == ""
    ensures s.Some? ==> Words(r) == Words(s.value)
  {
    match s
    case None => ""
    case Some(x) => CollapseIsCollapsed(x); WordsOfJoin(Words(x)); Collapse(x)
  }

  /** Normalising text twice is normalising it once. */
  lemma NormTextIdempotent(s: Option<string>)
    ensures NormText(Some(NormText(s))) == NormText(s)
  {
    if s.Some? {
      var c := Collapse(s.value);
      assert NormText(s) == c;
      assert NormText(Some(c)) == Collapse(c);
      CollapseIdempotent(s.value);
    } else {
      CollapseEmpty();
    }
  }

  // ---------------------------------------------------------------------
  // The composite "Forge Price 1" cell

  predicate IsSign(c: char) { c == '+' || c == '-' }

  predicate IsDigitOrComma(c: char) { IsDigit(c) || c == ',' }

  /** Characters of a price or of the digits of a change or a percentage. */
  predicate IsNumberChar(c: char) { IsDigit(c) || c == '.' }

  /** The position after the whitespace that starts at `i` (`\s*`). */
  function SkipSpaces(s: string, i: nat): (j: nat)
    requires i <= |s|
    ensures i <= j <= |s|
    ensures forall k :: i <= k < j ==> IsSpace(s[k])
    ensures j == |s| || !IsSpace(s[j])
  {
    var n := Run(s[i..], IsSpace);
    assert forall k :: i <= k < i + n ==> s[k] == s[i..][k - i];
    i + n
  }

  /** Length of `[0-9][\d,]*(?:\.\d+)?` at the start of `t`: digits and
      commas, then a fraction only if a digit follows the point. */
  function NumberLen(t: string): (n: nat)
    requires |t| > 0 && IsDigit(t[0])
    ensures 0 < n <= |t|
    ensures forall i :: 0 <= i < n ==> IsDigitOrComma(t[i]) || t[i] == '.'
  {
    var m := 1 + Run(t[1..], IsDigitOrComma);
    assert forall i :: 1 <= i < m ==> t[i] == t[1..][i - 1];
    if m + 1 < |t| && t[m] == '.' && IsDigit(t[m + 1]) then
      var f := DigitRun(t[m + 1..]);
      assert forall i :: m + 1 <= i < m + 1 + f ==> t[i] == t[m + 1..][..f][i - m - 1];
      m + 1 + f
    else m
  }

  /** `\$?\s*[0-9]` matches at `p`. */
  predicate PriceMatchAt(s: string, p: nat) {
    p < |s| && var b := SkipSpaces(s, if s[p] == '$' then p + 1 else p); b < |s| && IsDigit(s[b])
  }

  /** `[+-]\s*[0-9]` matches at `p`. */
  predicate SignedMatchAt(s: string, p: nat) {
    p < |s| && IsSign(s[p]) && var b := SkipSpaces(s, p + 1); b < |s| && IsDigit(s[b])
  }

  /** End of the signed number that starts at `p`. */
  function SignedEnd(s: string, p: nat): (e: nat)
    requires SignedMatchAt(s, p)
    ensures p < e <= |s|
    ensures forall k :: p < k < e ==> IsSpace(s[k]) || IsDigitOrComma(s[k]) || s[k] == '.'
  {
    var b := SkipSpaces(s, p + 1);
    var n := NumberLen(s[b..]);
    assert forall k :: b <= k < b + n ==> s[k] == s[b..][k - b];
    b + n
  }

  /** `\s*%` matches at `e`. */
  predicate PercentFollows(s: string, e: nat)
    requires e <= |s|
  {
    var f := SkipSpaces(s, e); f < |s| && s[f] == '%'
  }

  /** End of `[0-9]+(?:\.\d+)?` starting at the digit `b`. */
  function PercNumberEnd(s: string, b: nat): (d: nat)
    requires b < |s| && IsDigit(s[b])
    ensures b < d <= |s|
    ensures forall k :: b <= k < d ==> IsNumberChar(s[k])
  {
    var c := b + DigitRun(s[b..]);
    assert forall k :: b <= k < c ==> s[k] == s[b..][..c - b][k - b];
    if c + 1 < |s| && s[c] == '.' && IsDigit(s[c + 1]) then
      var f := DigitRun(s[c + 1..]);
      assert forall k :: c + 1 <= k < c + 1 + f ==> s[k] == s[c + 1..][..f][k - c - 1];
      c + 1 + f
    else c
  }

  /** Start of the digits of a percentage candidate at `p`: after an optional
      sign and whitespace. */
  function PercDigits(s: string, p: nat): (b: nat)
    requires p < |s|
    ensures p <= b <= |s|
    ensures forall k :: p <= k < b ==> IsSign(s[k]) || IsSpace(s[k])
  {
    SkipSpaces(s, if IsSign(s[p]) then p + 1 else p)
  }

  /** `[+-]?\s*[0-9]+(?:\.\d+)?\s*%` matches at `p`. No backtracking can
      rescue a failed attempt, because each part ends where its character
      class does and the next part needs a character outside it. */
  predicate PercMatchAt(s: string, p: nat) {
    p < |s| && var b := PercDigits(s, p);
    b < |s| && IsDigit(s[b]) && PercentFollows(s, PercNumberEnd(s, b))
  }

  /** Where the number of a price match at `p` starts: after an optional
      '$' and whitespace. */
  function PriceStart(s: string, p: nat): (b: nat)
    requires PriceMatchAt(s, p)
    ensures p <= b < |s| && IsDigit(s[b])
    ensures forall k :: p <= k < b ==> !IsDigit(s[k])
  {
    SkipSpaces(s, if s[p] == '$' then p + 1 else p)
  }

  /** The text of the number that starts with the digit at `b`. */
  function NumberText(s: string, b: nat): (t: string)
    requires b < |s| && IsDigit(s[b])
    ensures |t| > 0 && forall i :: 0 <= i < |t| ==> IsDigitOrComma(t[i]) || t[i] == '.'
  {
    var n := NumberLen(s[b..]);
    assert forall k :: 0 <= k < n ==> s[b..b + n][k] == s[b..][k];
    s[b..b + n]
  }

  /** The price: the first number, commas removed, or "" without one. */
  function Price(s: string): (r: string)
    ensures forall i :: 0 <= i < |r| ==> IsNumberChar(r[i])
    ensures (forall p :: 0 <= p < |s| ==> !PriceMatchAt(s, p)) ==> r == ""
  {
    match Search(s, PriceMatchAt)
    case None => ""
    case Some(p) =>
      var t := NumberText(s, PriceStart(s, p));
      RemoveCharKeeps(t, ',', IsDigitOrCommaOrPoint);
      var r := RemoveChar(t, ',');
      assert forall i :: 0 <= i < |r| ==> r[i] != ',';
      r
  }

  /** The price is the number of the leftmost match, commas removed. */
  lemma PriceIsFirstMatch(s: string, p: nat)
    requires PriceMatchAt(s, p) && forall q :: 0 <= q < p ==> !PriceMatchAt(s, q)
    ensures Price(s) == RemoveChar(NumberText(s, PriceStart(s, p)), ',')
  {
    var m := Search(s, PriceMatchAt);
    assert m.Some? && m.value <= p;
    assert m.value >= p;
  }

  predicate IsDigitOrCommaOrPoint(c: char) { IsDigitOrComma(c) || c == '.' }

  /** The price pattern's number always starts at the first digit of the
      text: whatever the match skips before it is a '$' or whitespace. */
  lemma PriceIsFirstNumber(s: string, q: nat)
    requires q < |s| && IsDigit(s[q])
    requires forall k :: 0 <= k < q ==> !IsDigit(s[k])
    ensures Price(s) == RemoveChar(NumberText(s, q), ',')
  {
    assert PriceMatchAt(s, q) by {
      assert SkipSpaces(s, q) == q;
    }
    var p := Search(s, PriceMatchAt).value;
    assert p <= q;
    assert PriceStart(s, p) == q;
  }

  /** The text of the signed number at `p`, spaces and commas removed. */
  function SignedText(s: string, p: nat): string
    requires SignedMatchAt(s, p)
  {
    RemoveChar(RemoveChar(s[p..SignedEnd(s, p)], ' '), ',')
  }

  /** The signed number at `p` is not the percentage. */
  predicate ChangeAt(s: string, p: nat) {
    SignedMatchAt(s, p) && !PercentFollows(s, SignedEnd(s, p))
  }

  /** The absolute change: among the signed numbers that `re.finditer`
      visits from `from` on, the first one not followed by a '%', with
      spaces and commas removed; "" if every one is followed by '%'. Since a
      signed number holds no sign after its first character, the iteration
      visits every position where a signed number starts. */
  function ChangeFrom(s: string, from: nat): (r: string)
    ensures Collapsed(s) ==> r == "" || (IsSign(r[0]) && forall i :: 1 <= i < |r| ==> IsNumberChar(r[i]))
    ensures r != "" ==> exists p :: from <= p < |s| && ChangeAt(s, p) && r == SignedText(s, p)
    decreases |s| - from
  {
    match SearchFrom(s, SignedMatchAt, from)
    case None => ""
    case Some(p) =>
      var e := SignedEnd(s, p);
      if PercentFollows(s, e) then ChangeFrom(s, e)
      else
        var r := SignedText(s, p);
        SignedTextShape(s, p);
        r
  }

  /** Every signed number that starts in `[from, to)` is followed by '%'. */
  predicate AllPercent(s: string, from: nat, to: nat) {
    forall p :: from <= p < to && SignedMatchAt(s, p) ==> PercentFollows(s, SignedEnd(s, p))
  }

  /** The change is the text of the first signed number from `from` on that
      is not followed by '%', and it is "" exactly when every signed number
      from `from` on is followed by '%'. */
  lemma {:induction false} ChangeFromIsFirst(s: string, from: nat)
    ensures ChangeFrom(s, from) != "" ==>
      exists p :: from <= p < |s| && ChangeAt(s, p) && ChangeFrom(s, from) == SignedText(s, p) && AllPercent(s, from, p)
    ensures ChangeFrom(s, from) == "" <==> AllPercent(s, from, |s|)
    decreases |s| - from
  {
    var m := SearchFrom(s, SignedMatchAt, from);
    if m.None? {
      assert ChangeFrom(s, from) == "";
      assert AllPercent(s, from, |s|);
    } else {
      var p := m.value;
      var e := SignedEnd(s, p);
      assert AllPercent(s, from, p);
      if PercentFollows(s, e) {
        assert ChangeFrom(s, from) == ChangeFrom(s, e);
        SkipPercentMatch(s, from, p);
        ChangeFromIsFirst(s, e);
        AllPercentJoin(s, from, e, |s|);
        if ChangeFrom(s, e) != "" {
          var q :| e <= q < |s| && ChangeAt(s, q) && ChangeFrom(s, e) == SignedText(s, q) && AllPercent(s, e, q);
          AllPercentJoin(s, from, e, q);
        }
      } else {
        assert ChangeFrom(s, from) == SignedText(s, p);
        SignedTextNotEmpty(s, p);
        assert !AllPercent(s, from, |s|) by {
          assert ChangeAt(s, p);
        }
      }
    }
  }

  /** Skipping a signed number followed by '%' keeps every skipped signed
      number followed by '%'. */
  lemma SkipPercentMatch(s: string, from: nat, p: nat)
    requires from <= p && SignedMatchAt(s, p) && PercentFollows(s, SignedEnd(s, p))
    requires AllPercent(s, from, p)
    ensures AllPercent(s, from, SignedEnd(s, p))
  {
    NoSignedMatchInside(s, p);
    forall q | from <= q < SignedEnd(s, p) && SignedMatchAt(s, q)
      ensures PercentFollows(s, SignedEnd(s, q))
    {
      assert q == p || q < p;
    }
  }

  lemma AllPercentJoin(s: string, a: nat, b: nat, c: nat)
    requires a <= b <= c
    requires AllPercent(s, a, b)
    ensures AllPercent(s, a, c) <==> AllPercent(s, b, c)
  {
  }

  /** No signed number starts inside another one. */
  lemma NoSignedMatchInside(s: string, p: nat)
    requires SignedMatchAt(s, p)
    ensures forall q :: p < q < SignedEnd(s, p) ==> !SignedMatchAt(s, q)
  {
  }

  /** The text of a signed number keeps its sign. */
  lemma SignedTextNotEmpty(s: string, p: nat)
    requires SignedMatchAt(s, p)
    ensures SignedText(s, p) != ""
  {
    var t := s[p..SignedEnd(s, p)];
    RemoveCharKeepsFirst(t, ' ');
    RemoveCharKeepsFirst(RemoveChar(t, ' '), ',');
  }

  /** In collapsed text the only whitespace is ' ', so the text of a signed
      number keeps its sign in front once spaces and commas are removed, and
      is digits and points after it. */
  lemma SignedTextShape(s: string, p: nat)
    requires SignedMatchAt(s, p)
    ensures Collapsed(s) ==>
            var r := SignedText(s, p);
            |r| > 0 && IsSign(r[0]) && forall i :: 1 <= i < |r| ==> IsNumberChar(r[i])
  {
    if Collapsed(s) {
      var t := s[p..SignedEnd(s, p)];
      assert forall i :: 1 <= i < |t| ==> t[i] == s[p + i];
      assert forall i :: 1 <= i < |t| ==> IsSignedTail(t[i]);
      SignedTextWithoutSpaces(t);
      SignedTextWithoutCommas(RemoveChar(t, ' '));
    }
  }

  /** Removing spaces from a sign followed by digits, commas, points and
      spaces keeps the sign in front and leaves no spaces after it. */
  lemma SignedTextWithoutSpaces(t: string)
    requires |t| > 0 && IsSign(t[0]) && forall i :: 1 <= i < |t| ==> IsSignedTail(t[i])
    ensures var u := RemoveChar(t, ' ');
            |u| > 0 && IsSign(u[0]) && forall i :: 1 <= i < |u| ==> IsSignedTailNoSpace(u[i])
  {
    assert forall i :: 0 <= i < |t[1..]| ==> IsSignedTail(t[1..][i]);
    RemoveCharKeepsFirst(t, ' ');
    var u := RemoveChar(t, ' ');
    RemoveCharKeeps(t[1..], ' ', IsSignedTail);
    assert forall i :: 0 <= i < |u[1..]| ==> IsSignedTailNoSpace(u[1..][i]);
    assert forall i :: 1 <= i < |u| ==> u[i] == u[1..][i - 1];
  }

  /** Removing commas from a sign followed by digits, commas and points
      keeps the sign in front and leaves digits and points after it. */
  lemma SignedTextWithoutCommas(u: string)
    requires |u| > 0 && IsSign(u[0]) && forall i :: 1 <= i < |u| ==> IsSignedTailNoSpace(u[i])
    ensures var r := RemoveChar(u, ',');
            |r| > 0 && IsSign(r[0]) && forall i :: 1 <= i < |r| ==> IsNumberChar(r[i])
  {
    assert forall i :: 0 <= i < |u[1..]| ==> IsSignedTailNoSpace(u[1..][i]);
    RemoveCharKeepsFirst(u, ',');
    var r := RemoveChar(u, ',');
    RemoveCharKeeps(u[1..], ',', IsSignedTailNoSpace);
    assert forall i :: 0 <= i < |r[1..]| ==> r[1..][i] != ',' && IsSignedTailNoSpace(r[1..][i]);
    assert forall i :: 1 <= i < |r| ==> r[i] == r[1..][i - 1];
  }

  predicate IsSignedTail(c: char) { c == ' ' || IsDigitOrComma(c) || c == '.' }

  predicate IsSignedTailNoSpace(c: char) { c != ' ' && IsSignedTail(c) }

  function Change(s: string): string {
    ChangeFrom(s, 0)
  }

  /** With no '%' in the text, the change is the first signed number. */
  lemma ChangeWithoutPercent(s: string, p: nat)
    requires '%' !in s
    requires SignedMatchAt(s, p) && forall j :: 0 <= j < p ==> !SignedMatchAt(s, j)
    ensures Change(s) == SignedText(s, p)
  {
    var m := SearchFrom(s, SignedMatchAt, 0);
    assert m == Some(p);
    assert !PercentFollows(s, SignedEnd(s, p)) by {
      var f := SkipSpaces(s, SignedEnd(s, p));
      assert f < |s| ==> s[f] in s;
    }
    assert ChangeFrom(s, 0) == SignedText(s, p);
  }

  /** A text without '+' or '-' has no change. */
  lemma NoSignNoChange(s: string)
    requires forall k :: 0 <= k < |s| ==> !IsSign(s[k])
    ensures Change(s) == ""
  {
  }

  predicate IsPercTextChar(c: char) { IsSign(c) || c == ' ' || IsNumberChar(c) }

  /** The matched text of a percentage at `p`, before spaces are removed. */
  function PercText(s: string, p: nat): (t: string)
    requires PercMatchAt(s, p)
    ensures Collapsed(s) ==> forall i :: 0 <= i < |t| ==> IsPercTextChar(t[i])
  {
    var d := PercNumberEnd(s, PercDigits(s, p));
    assert forall i :: 0 <= i < d - p ==> s[p..d][i] == s[p + i];
    s[p..d]
  }

  /** The percentage: the first number followed by '%', with its sign and
      without spaces; "" if there is none. In collapsed text it is made of
      signs, digits and points only. */
  function Percent(s: string): (r: string)
    ensures Collapsed(s) ==> forall i :: 0 <= i < |r| ==> IsSign(r[i]) || IsNumberChar(r[i])
    ensures (forall p :: 0 <= p < |s| ==> !PercMatchAt(s, p)) ==> r == ""
  {
    match Search(s, PercMatchAt)
    case None => ""
    case Some(p) =>
      var t := PercText(s, p);
      var r := RemoveChar(t, ' ');
      PercentShape(t);
      r
  }

  /** The percentage is the text of the leftmost match, spaces removed. */
  lemma PercentIsFirstMatch(s: string, p: nat)
    requires PercMatchAt(s, p) && forall q :: 0 <= q < p ==> !PercMatchAt(s, q)
    ensures Percent(s) == RemoveChar(PercText(s, p), ' ')
  {
    var m := Search(s, PercMatchAt);
    assert m.Some? && m.value <= p;
    assert m.value >= p;
  }

  lemma PercentShape(t: string)
    ensures (forall i :: 0 <= i < |t| ==> IsPercTextChar(t[i])) ==>
            forall i :: 0 <= i < |RemoveChar(t, ' ')| ==> IsSign(RemoveChar(t, ' ')[i]) || IsNumberChar(RemoveChar(t, ' ')[i])
  {
    if forall i :: 0 <= i < |t| ==> IsPercTextChar(t[i]) {
      RemoveCharKeeps(t, ' ', IsPercTextChar);
    }
  }

  /** Text without a '%' has no percentage. */
  lemma NoPercentNoPercentage(s: string)
    requires '%' !in s
    ensures Percent(s) == ""
  {
    forall p | 0 <= p < |s| && PercDigits(s, p) < |s| && IsDigit(s[PercDigits(s, p)])
      ensures !PercentFollows(s, PercNumberEnd(s, PercDigits(s, p)))
    {
      var f := SkipSpaces(s, PercNumberEnd(s, PercDigits(s, p)));
      assert !(f < |s| && s[f] == '%');
    }
  }

  /** Text without a digit has neither price, change nor percentage. */
  lemma NoDigitNoNumbers(s: string)
    requires forall k :: 0 <= k < |s| ==> !IsDigit(s[k])
    ensures Price(s) == "" && Change(s) == "" && Percent(s) == ""
  {
    assert Search(s, PriceMatchAt).None?;
    assert SearchFrom(s, SignedMatchAt, 0).None?;
    assert Search(s, PercMatchAt).None?;
  }

  datatype PriceParts = PriceParts(price: string, change: string, changePerc: string)

  /** `_parse_forge_price` (identical in both scrapers): empty text gives
      three empty strings; otherwise the whitespace-collapsed text is split
      into price, change and percentage. The price carries no comma or '$',
      the percentage no '%' or space, and a change starts with its sign. */
  function ParseForgePrice(text: string): (r: PriceParts)
    ensures |text| == 0 ==> r == PriceParts("", "", "")
    ensures |text| > 0 ==> r == PriceParts(Price(Collapse(text)), Change(Collapse(text)), Percent(Collapse(text)))
    ensures forall i :: 0 <= i < |r.price| ==> IsNumberChar(r.price[i])
    ensures r.change == "" || (IsSign(r.change[0]) && forall i :: 1 <= i < |r.change| ==> IsNumberChar(r.change[i]))
    ensures forall i :: 0 <= i < |r.changePerc| ==> IsSign(r.changePerc[i]) || IsNumberChar(r.changePerc[i])
  {
    if |text| == 0 then PriceParts("", "", "")
    else
      var s := Collapse(text);
      CollapseIsCollapsed(text);
      PriceParts(Price(s), Change(s), Percent(s))
  }

  // ---------------------------------------------------------------------
  // Rows

  type Row = Dict<string, string>

  const ForgePriceKey := "Forge Price 1"
  const PriceKey := "Forge Price 1 - Price"
  const ChangeKey := "Forge Price 1 - Change"
  const ChangePercKey := "Forge Price 1 - Change %"

  predicate ForgePriceKeyAt(ks: seq<string>, j: nat) {
    j < |ks| && Lower(Strip(ks[j])) == "forge price 1"
  }

  /** The composite column: the exact key if present, else the first key that
      equals it after strip and lower-casing. */
  function ForgePriceColumn(row: Row): (k: Option<string>)
    ensures k.Some? ==> k.value in KeysOf(row)
    ensures ForgePriceKey in KeysOf(row) ==> k == Some(ForgePriceKey)
    ensures k.None? <==> forall j :: 0 <= j < |row| ==> row[j].0 != ForgePriceKey && !ForgePriceKeyAt(KeysOf(row), j)
    ensures ForgePriceKey !in KeysOf(row) && k.Some? ==>
      exists j :: 0 <= j && ForgePriceKeyAt(KeysOf(row), j) && k.value == row[j].0
                  && forall i :: 0 <= i < j ==> !ForgePriceKeyAt(KeysOf(row), i)
  {
    var ks := KeysOf(row);
    if ForgePriceKey in ks then Some(ForgePriceKey)
    else
      match Search(ks, ForgePriceKeyAt)
      case None => None
      case Some(j) =>
        assert ks[j] == row[j].0;
        Some(ks[j])
  }

  /** A key that reads "forge price 1" once stripped and lower-cased is not
      a key of another length without surrounding whitespace. */
  lemma NotCompositeByLength(k: string, other: string)
    requires Lower(Strip(k)) == "forge price 1"
    requires |other| != 13 && |other| > 0 && !IsSpace(other[0]) && !IsSpace(other[|other| - 1])
    ensures k != other
  {
    assert |Strip(k)| == 13;
    StripTrimmedIsIdentity(other);
  }

  /** None of the three split keys can be taken for the composite one. */
  lemma SplitKeysAreNotComposite(k: string)
    requires Lower(Strip(k)) == "forge price 1"
    ensures k != PriceKey && k != ChangeKey && k != ChangePercKey
  {
    NotCompositeByLength(k, PriceKey);
    NotCompositeByLength(k, ChangeKey);
    NotCompositeByLength(k, ChangePercKey);
  }

  /** The row with the composite column `key` split into the three keys
      and then deleted. */
  function SplitColumn(row: Row, key: string, parts: PriceParts): (r: Row)
    ensures WellFormed(row) ==> WellFormed(r)
  {
    Remove(WithParts(row, parts), key)
  }

  /** The three split keys written in order, each added at the end when new. */
  function WithParts(row: Row, parts: PriceParts): (r: Row)
    ensures WellFormed(row) ==> WellFormed(r)
    ensures Get(r, PriceKey) == Some(parts.price)
    ensures Get(r, ChangeKey) == Some(parts.change)
    ensures Get(r, ChangePercKey) == Some(parts.changePerc)
    ensures forall j :: j != PriceKey && j != ChangeKey && j != ChangePercKey ==> Get(r, j) == Get(row, j)
  {
    assert |PriceKey| == 21 && |ChangeKey| == 22 && |ChangePercKey| == 24;
    Put(Put(Put(row, PriceKey, parts.price), ChangeKey, parts.change), ChangePercKey, parts.changePerc)
  }

  /** `_postprocess_row`: a row without the composite column comes back
      unchanged; otherwise the column's stripped text is split. */
  function PostprocessRow(row: Row): (r: Row)
    ensures ForgePriceColumn(row).None? ==> r == row
    ensures WellFormed(row) ==> WellFormed(r)
  {
    match ForgePriceColumn(row)
    case None => row
    case Some(key) =>
      assert key in KeysOf(row);
      SplitColumn(row, key, ParseForgePrice(Strip(Get(row, key).value)))
  }

  /** Splitting removes `key`, writes the three parts and keeps every other
      key's value. */
  lemma SplitColumnReads(row: Row, key: string, parts: PriceParts, j: string)
    requires key != PriceKey && key != ChangeKey && key != ChangePercKey
    ensures var r := SplitColumn(row, key, parts);
            Get(r, key).None?
            && Get(r, PriceKey) == Some(parts.price)
            && Get(r, ChangeKey) == Some(parts.change)
            && Get(r, ChangePercKey) == Some(parts.changePerc)
            && (j != key && j != PriceKey && j != ChangeKey && j != ChangePercKey ==> Get(r, j) == Get(row, j))
  {
    var split := WithParts(row, parts);
    var r := SplitColumn(row, key, parts);
    assert Get(r, key).None? by {
      RemoveGet(split, key, key);
    }
    assert Get(r, PriceKey) == Some(parts.price) by {
      RemoveGet(split, key, PriceKey);
    }
    assert Get(r, ChangeKey) == Some(parts.change) by {
      RemoveGet(split, key, ChangeKey);
    }
    assert Get(r, ChangePercKey) == Some(parts.changePerc) by {
      RemoveGet(split, key, ChangePercKey);
    }
    if j != key && j != PriceKey && j != ChangeKey && j != ChangePercKey {
      RemoveGet(split, key, j);
    }
  }

  /** After `_postprocess_row` the composite key is gone, the three split
      keys hold the parts of its text, and every other key keeps its value. */
  lemma PostprocessRowReads(row: Row, j: string)
    requires ForgePriceColumn(row).Some?
    ensures var key := ForgePriceColumn(row).value;
            var parts := ParseForgePrice(Strip(Get(row, key).value));
            var r := PostprocessRow(row);
            Get(r, key).None?
            && Get(r, PriceKey) == Some(parts.price)
            && Get(r, ChangeKey) == Some(parts.change)
            && Get(r, ChangePercKey) == Some(parts.changePerc)
            && (j != key && j != PriceKey && j != ChangeKey && j != ChangePercKey ==> Get(r, j) == Get(row, j))
  {
    var key := ForgePriceColumn(row).value;
    ForgePriceKeyNotSplit(row);
    SplitColumnReads(row, key, ParseForgePrice(Strip(Get(row, key).value)), j);
  }

  /** The composite column found in a row is none of the split keys. */
  lemma ForgePriceKeyNotSplit(row: Row)
    requires ForgePriceColumn(row).Some?
    ensures var key := ForgePriceColumn(row).value;
            key != PriceKey && key != ChangeKey && key != ChangePercKey
  {
    var ks := KeysOf(row);
    if ForgePriceKey !in ks {
      var j := Search(ks, ForgePriceKeyAt).value;
      SplitKeysAreNotComposite(ks[j]);
    }
  }

  /** Align the cells with the headers: pad with "" or cut to exactly `n`
      values. */
  function Fit(vals: seq<string>, n: nat): (r: seq<string>)
    ensures |r| == n
    ensures forall i :: 0 <= i < n ==> r[i] == if i < |vals| then vals[i] else ""
  {
    if |vals| < n then vals + seq(n - |vals|, _ => "") else vals[..n]
  }

  predicate IsEmptyText(t: string) { t == "" }

  /** Row values in the original scraper: empty cells before the first
      non-empty one are not collected, and the offset is not applied. */
  function AlignOld(cells: seq<string>, n: nat): (r: seq<string>)
    ensures |r| == n
    ensures forall i :: 0 <= i < n ==> r[i] == (if i + Run(cells, IsEmptyText) < |cells| then cells[i + Run(cells, IsEmptyText)] else "")
    ensures (n > 0 && exists i :: 0 <= i < |cells| && cells[i] != "") ==> r[0] != ""
  {
    Fit(cells[Run(cells, IsEmptyText)..], n)
  }

  /** Row values in the rewrite: the first `skip` cells are dropped, but only
      when the row has more than `skip` cells. */
  function AlignNew(cells: seq<string>, skip: nat, n: nat): (r: seq<string>)
    ensures |r| == n
    ensures |cells| > skip ==> forall i :: 0 <= i < n ==> r[i] == if skip + i < |cells| then cells[skip + i] else ""
    ensures |cells| <= skip ==> forall i :: 0 <= i < n ==> r[i] == if i < |cells| then cells[i] else ""
  {
    Fit(if skip > 0 && |cells| > skip then cells[skip..] else cells, n)
  }

  /** The pairs of `{headers[j]: row_vals[j] for j in range(len(headers))}`. */
  function Zip(headers: seq<string>, vals: seq<string>): (ps: seq<(string, string)>)
    requires |vals| == |headers|
    ensures |ps| == |headers|
    ensures forall j :: 0 <= j < |ps| ==> ps[j] == (headers[j], vals[j])
  {
    seq(|headers|, j requires 0 <= j < |headers| => (headers[j], vals[j]))
  }

  /** The row object before the composite column is split. */
  function RowObject(headers: seq<string>, vals: seq<string>): (row: Row)
    requires |vals| == |headers|
    ensures WellFormed(row)
  {
    FromPairs(Zip(headers, vals))
  }

  /** With distinct headers, each header reads the value in its column. */
  lemma RowObjectReadsColumns(headers: seq<string>, vals: seq<string>, j: nat)
    requires |vals| == |headers| && Distinct(headers) && j < |headers|
    ensures Get(RowObject(headers, vals), headers[j]) == Some(vals[j])
    ensures KeysOf(RowObject(headers, vals)) == headers
  {
    var ps := Zip(headers, vals);
    FromPairsGet(ps, headers[j]);
    ZipLastValue(headers, vals, j);
    FromPairsKeys(ps);
    ZipKeys(headers, vals);
    DistinctFirstSeen(headers);
  }

  /** The keys of the zipped pairs are the headers. */
  lemma ZipKeys(headers: seq<string>, vals: seq<string>)
    requires |vals| == |headers|
    ensures KeysOf(Zip(headers, vals)) == headers
  {
  }

  /** With distinct headers, the last pair for a header is the one in its column. */
  lemma ZipLastValue(headers: seq<string>, vals: seq<string>, j: nat)
    requires |vals| == |headers| && Distinct(headers) && j < |headers|
    ensures LastValue(Zip(headers, vals), headers[j]) == Some(vals[j])
  {
    var ps := Zip(headers, vals);
    var r := LastValue(ps, headers[j]);
    assert ps[j].0 == headers[j];
    var i :| 0 <= i < |ps| && ps[i] == (headers[j], r.value) && forall l :: i < l < |ps| ==> ps[l].0 != headers[j];
    assert headers[i] == headers[j];
  }

  /** Distinct keys are their own first-seen order. */
  lemma {:induction false} DistinctFirstSeen(ks: seq<string>)
    requires Distinct(ks)
    ensures FirstSeen(ks) == ks
    decreases |ks|
  {
    if |ks| > 0 {
      var n := |ks| - 1;
      DistinctFirstSeen(ks[..n]);
      assert ks[n] !in ks[..n];
      assert ks[..n] + [ks[n]] == ks;
    }
  }

  /** One row of the original scraper: aligned, turned into an object,
      composite column split. */
  function RowOld(headers: seq<string>, cells: seq<string>): Row {
    PostprocessRow(RowObject(headers, AlignOld(cells, |headers|)))
  }

  /** One row of the rewrite. */
  function RowNew(headers: seq<string>, skip: nat, cells: seq<string>): Row {
    PostprocessRow(RowObject(headers, AlignNew(cells, skip, |headers|)))
  }

  /** A row the scrapers turn into an object: one with at least one cell. */
  predicate HasCells(cells: seq<string>) { |cells| > 0 }

  /** The loop of `_extract_rows`: rows without cells are skipped and every
      other row is turned into one object by `rowOf`, in order. */
  function MapRows<T>(rows: seq<seq<string>>, rowOf: seq<string> -> T): (out: seq<T>)
    ensures |out| <= |rows|
    ensures (forall i :: 0 <= i < |rows| ==> |rows[i]| > 0) ==>
      |out| == |rows| && forall i :: 0 <= i < |rows| ==> out[i] == rowOf(rows[i])
    decreases |rows|
  {
    if |rows| == 0 then []
    else
      var n := |rows| - 1;
      var pre := MapRows(rows[..n], rowOf);
      assert forall i :: 0 <= i < n ==> rows[..n][i] == rows[i];
      if |rows[n]| == 0 then pre else pre + [rowOf(rows[n])]
  }

  /** The loop builds exactly the objects of the rows with cells, in the
      order of the rows. */
  lemma {:induction false} MapRowsOfKept<T>(rows: seq<seq<string>>, rowOf: seq<string> -> T)
    ensures MapRows(rows, rowOf) == Map(Filter(rows, HasCells), rowOf)
    decreases |rows|
  {
    if |rows| > 0 {
      var n := |rows| - 1;
      MapRowsOfKept(rows[..n], rowOf);
      if HasCells(rows[n]) {
        MapSnoc(Filter(rows[..n], HasCells), rows[n], rowOf);
      }
    }
  }

  /** One row of the original scraper, as a function of its cells. */
  function RowOldOf(headers: seq<string>): seq<string> -> Row {
    cells => RowOld(headers, cells)
  }

  /** One row of the rewrite, as a function of its cells. */
  function RowNewOf(headers: seq<string>, skip: nat): seq<string> -> Row {
    cells => RowNew(headers, skip, cells)
  }

  /** `_extract_rows` of the original scraper: one object per row with
      cells, in the order of the rows. */
  function ExtractRowsOld(headers: seq<string>, rows: seq<seq<string>>): (out: seq<Row>)
    ensures out == Map(Filter(rows, HasCells), RowOldOf(headers))
    ensures |out| <= |rows|
    ensures (forall i :: 0 <= i < |rows| ==> |rows[i]| > 0) ==>
      |out| == |rows| && forall i :: 0 <= i < |rows| ==> out[i] == RowOld(headers, rows[i])
  {
    MapRowsOfKept(rows, RowOldOf(headers));
    MapRows(rows, RowOldOf(headers))
  }

  /** `_extract_rows` of the rewrite, with the offset applied: one object
      per row with cells, in the order of the rows. */
  function ExtractRowsNew(headers: seq<string>, skip: nat, rows: seq<seq<string>>): (out: seq<Row>)
    ensures out == Map(Filter(rows, HasCells), RowNewOf(headers, skip))
    ensures |out| <= |rows|
    ensures (forall i :: 0 <= i < |rows| ==> |rows[i]| > 0) ==>
      |out| == |rows| && forall i :: 0 <= i < |rows| ==> out[i] == RowNew(headers, skip, rows[i])
  {
    MapRowsOfKept(rows, RowNewOf(headers, skip));
    MapRows(rows, RowNewOf(headers, skip))
  }

  /** The two scrapers read the same rows when no row starts with an empty
      cell and no row is longer than the offset allows to drop. */
  lemma AlignVersionsAgree(cells: seq<string>, skip: nat, n: nat)
    requires |cells| == 0 || cells[0] != ""
    requires skip == 0 || |cells| <= skip
    ensures AlignOld(cells, n) == AlignNew(cells, skip, n)
  {
    assert Run(cells, IsEmptyText) == 0;
  }

  // ---------------------------------------------------------------------
  // Writing the CSV

  /** All keys of all rows, row by row. */
  function AllKeys(rows: seq<Row>): (ks: seq<string>)
    ensures forall k :: k in ks <==> exists i :: 0 <= i < |rows| && k in KeysOf(rows[i])
    decreases |rows|
  {
    if |rows| == 0 then []
    else
      var n := |rows| - 1;
      var pre := AllKeys(rows[..n]);
      assert forall i :: 0 <= i < n ==> rows[..n][i] == rows[i];
      pre + KeysOf(rows[n])
  }

  /** `os.path.join("samples", f"forge_companies_{ts}.csv")` */
  function DefaultOutPath(ts: string): string {
    "samples" + "/" + (ValuationsLoader.ForgeStem + ts + ".csv")
  }

  datatype CsvOut = CsvOut(path: string, headers: seq<string>)

  /** The path written: `outPath`, or the default name stamped with `ts`
      when that is missing or empty. */
  function ChosenPath(outPath: Option<string>, ts: string): string {
    if outPath.Some? && outPath.value != "" then outPath.value else DefaultOutPath(ts)
  }

  /** `os.makedirs(os.path.dirname(path), exist_ok=True)` fails with
      `FileNotFoundError` exactly when the directory part is empty, that is,
      when the path has no '/'. */
  predicate HasDirectory(path: string) {
    '/' in path
  }

  /** `write_csv`: no rows raise `RuntimeError`; a path without a directory
      part raises `FileNotFoundError` from `os.makedirs("")`; otherwise the
      header is the union of the rows' keys, each once, and the file goes to
      the chosen path. */
  function WriteCsv(rows: seq<Row>, outPath: Option<string>, ts: string): (r: Result<CsvOut>)
    ensures r.Err? <==> |rows| == 0 || !HasDirectory(ChosenPath(outPath, ts))
    ensures |rows| == 0 ==> r == Err(RuntimeError)
    ensures |rows| > 0 && !HasDirectory(ChosenPath(outPath, ts)) ==> r == Err(FileNotFoundError)
    ensures r.Ok? ==> Distinct(r.value.headers)
    ensures r.Ok? ==> forall k :: k in r.value.headers <==> exists i :: 0 <= i < |rows| && k in KeysOf(rows[i])
    ensures r.Ok? ==> r.value.path == if outPath.Some? && outPath.value != "" then outPath.value else DefaultOutPath(ts)
  {
    if |rows| == 0 then Err(RuntimeError)
    else
      var path := ChosenPath(outPath, ts);
      if !HasDirectory(path) then Err(FileNotFoundError)
      else Ok(CsvOut(path, FirstSeen(AllKeys(rows))))
  }

  /** The default name always has a directory, so without an explicit path
      only the empty batch fails. */
  lemma DefaultPathHasDirectory(rows: seq<Row>, ts: string)
    ensures WriteCsv(rows, None, ts).Err? <==> |rows| == 0
  {
    assert DefaultOutPath(ts)[7] == '/';
  }

  /** The header lists keys in the order they are first met, row by row. */
  lemma WriteCsvHeaderOrder(rows: seq<Row>, outPath: Option<string>, ts: string)
    requires WriteCsv(rows, outPath, ts).Ok?
    ensures var hs := WriteCsv(rows, outPath, ts).value.headers;
            forall i, j :: 0 <= i < j < |hs| ==> IndexOf(AllKeys(rows), hs[i]) < IndexOf(AllKeys(rows), hs[j])
  {
    FirstSeenOrder(AllKeys(rows));
  }

  /** A file written under the default name is dated by the valuations
      loader with the day of its timestamp. */
  lemma DefaultFileDateIsReadBack(ymd: string, hms: string, today: Dates.Date)
    requires |ymd| == 8 && AllDigits(ymd) && |hms| == 6 && AllDigits(hms)
    requires Dates.Valid(Dates.Date(DigitsValue(ymd[..4]), DigitsValue(ymd[4..6]), DigitsValue(ymd[6..])))
    ensures ValuationsLoader.ExtractDate(DefaultOutPath(ymd + "_" + hms), today)
            == Dates.Date(DigitsValue(ymd[..4]), DigitsValue(ymd[4..6]), DigitsValue(ymd[6..]))
  {
    RegroupName(ValuationsLoader.ForgeStem, ymd, "_", hms, ".csv");
    ValuationsLoader.ForgeFileNameGivesItsDate("samples", ymd, hms, today);
  }

  /** Concatenation regrouped: the timestamp's parts joined first or one by one. */
  lemma RegroupName(stem: string, a: string, sep: string, b: string, ext: string)
    ensures stem + (a + sep + b) + ext == stem + a + sep + b + ext
  {
  }

  // ---------------------------------------------------------------------
  // User agents

  /** The five browser identities of the original scraper. */
  const ChromeOnMac: string := "Mozilla/5.0 (Macintosh; Intel Mac OS X 10_15_7) AppleWebKit/537.36 (KHTML, like Gecko) Chrome/125.0.0.0 Safari/537.36"
  const ChromeOnWindows: string := "Mozilla/5.0 (Windows NT 10.0; Win64; x64) AppleWebKit/537.36 (KHTML, like Gecko) Chrome/125.0.0.0 Safari/537.36"
  const ChromeOnLinux: string := "Mozilla/5.0 (X11; Linux x86_64) AppleWebKit/537.36 (KHTML, like Gecko) Chrome/125.0.0.0 Safari/537.36"
  const SafariOnMac: string := "Mozilla/5.0 (Macintosh; Intel Mac OS X 10_15_7) AppleWebKit/605.1.15 (KHTML, like Gecko) Version/17.4.1 Safari/605.1.15"
  const FirefoxOnWindows: string := "Mozilla/5.0 (Windows NT 10.0; Win64; x64; rv:126.0) Gecko/20100101 Firefox/126.0"

  const UserAgents: seq<string> := [ChromeOnMac, ChromeOnWindows, ChromeOnLinux, SafariOnMac, FirefoxOnWindows]

  /** `_get_next_user_agent`: with rotation the index advances first, so the
      first call answers the second agent; without it the first agent is
      answered and the index stays. Returns the new index and the agent. */
  function NextUserAgent(idx: nat, rotation: bool): (r: (nat, string))
    requires idx < |UserAgents|
    ensures r.0 < |UserAgents|
    ensures rotation ==> r.1 == UserAgents[r.0] && r.0 != idx
    ensures rotation && idx + 1 < |UserAgents| ==> r.0 == idx + 1
    ensures rotation && idx + 1 == |UserAgents| ==> r.0 == 0
    ensures !rotation ==> r == (idx, UserAgents[0])
  {
    if rotation then
      var next := (idx + 1) % |UserAgents|;
      (next, UserAgents[next])
    else (idx, UserAgents[0])
  }

  /** The index after `k` rotating calls. */
  function Rotate(idx: nat, k: nat): (r: nat)
    requires idx < |UserAgents|
    ensures r < |UserAgents|
  {
    if k == 0 then idx else NextUserAgent(Rotate(idx, k - 1), true).0
  }

  /** Rotation is a cycle of length five: `k` calls move the index by `k`
      places, wrapping around. */
  lemma {:induction false} RotateIsModular(idx: nat, k: nat)
    requires idx < |UserAgents|
    ensures Rotate(idx, k) == (idx + k) % |UserAgents|
  {
    if k > 0 {
      RotateIsModular(idx, k - 1);
    }
  }
}

=== FILE: holdings.dfy ===
/** Holdings recalculation: `HoldingCRUD.recalc_for_date`.

    The transaction ledger is replayed, in the order the ledger query returns
    it, into one moving-average position per (portfolio, security) key. Keys
    whose final quantity is positive become holdings. Each holding is priced
    through a three-step fallback and valued, and the holdings stored for the
    target date are replaced by the new ones.

    The database is a parameter: the ledger, portfolio and price tables are
    sequences of rows, the holdings table is a map from `holding_id` to row, and
    the clock readings used as ids and timestamps are functions of the
    insertion index. The delete and the inserts are applied one after another,
    as the source issues them, with no transaction around them. */
module Holdings {
  import opened Results
  import Text
  import Dates
  import Money
  import opened Seqs

  /** (portfolio_id, security_id) */
  type Key = (int, int)

  /** One row of the ledger query. Quantity and price are nullable columns. */
  datatype TxnRow = TxnRow(
    portfolioId: int,
    securityId: int,
    date: Dates.Date,
    txnType: Option<string>,
    qty: Option<real>,
    price: Option<real>)

  function KeyOf(r: TxnRow): Key {
    (r.portfolioId, r.securityId)
  }

  /** `float(x or 0.0)`: a missing quantity or price counts as zero. */
  function Qty(r: TxnRow): real {
    r.qty.GetOr(0.0)
  }

  function Price(r: TxnRow): real {
    r.price.GetOr(0.0)
  }

  datatype Kind = Buy | Sell | Ignored

  /** `str(transaction_type).upper()`; a missing type prints as "None". */
  function TypeCode(t: Option<string>): string {
    Text.Upper(match t case None => "None" case Some(s) => s)
  }

  function KindOf(t: Option<string>): (k: Kind)
    ensures k == Buy <==> TypeCode(t) in {"B", "BUY"}
    ensures k == Sell <==> TypeCode(t) in {"S", "SELL"}
  {
    var u := TypeCode(t);
    if u == "B" || u == "BUY" then Buy
    else if u == "S" || u == "SELL" then Sell
    else Ignored
  }

  /** The running state of one key: net quantity and moving-average cost. */
  datatype Pos = Pos(qty: real, avg: real)

  const Empty := Pos(0.0, 0.0)

  /** One ledger row applied to the position of its key. */
  function Apply(p: Pos, kind: Kind, q: real, price: real): (r: Pos)
    ensures kind == Buy ==> r.qty == p.qty + q
    ensures kind == Buy && r.qty > 0.0 ==> r.qty * r.avg == p.qty * p.avg + q * price
    ensures kind == Sell ==> r.qty == p.qty - q
    ensures kind == Sell && r.qty > 0.0 ==> r.avg == p.avg
    ensures kind != Ignored && r.qty <= 0.0 ==> r.avg == 0.0
    ensures kind == Ignored ==> r == p
  {
    match kind
    case Buy =>
      var nq := p.qty + q;
      if nq > 0.0 then Pos(nq, (p.qty * p.avg + q * price) / nq) else Pos(nq, 0.0)
    case Sell =>
      var nq := p.qty - q;
      if nq <= 0.0 then Pos(nq, 0.0) else Pos(nq, p.avg)
    case Ignored => p
  }

  function ApplyRow(p: Pos, r: TxnRow): Pos {
    Apply(p, KindOf(r.txnType), Qty(r), Price(r))
  }

  /** Price and date of the last ledger row seen for a key. */
  datatype LastTx = LastTx(price: real, date: Dates.Date)

  /** The aggregation state: `agg` and `last_tx` of the source. */
  datatype Agg = Agg(positions: map<Key, Pos>, lastTx: map<Key, LastTx>)

  /** One iteration of the aggregation loop. Reading `agg[key]` on a
      `defaultdict` creates the entry, so even an ignored row leaves a key. */
  function Step(a: Agg, r: TxnRow): Agg {
    var k := KeyOf(r);
    var cur := if k in a.positions then a.positions[k] else Empty;
    Agg(a.positions[k := ApplyRow(cur, r)], a.lastTx[k := LastTx(Price(r), r.date)])
  }

  /** The aggregation loop over the whole ledger. */
  function Replay(rows: seq<TxnRow>): Agg {
    if |rows| == 0 then Agg(map[], map[])
    else Step(Replay(rows[..|rows| - 1]), rows[|rows| - 1])
  }

  /** The subsequence of the ledger that belongs to key `k`. */
  function RowsFor(rows: seq<TxnRow>, k: Key): seq<TxnRow> {
    Filter(rows, (r: TxnRow) => KeyOf(r) == k)
  }

  /** Independent reference: the rows of one key replayed from an empty position. */
  function ReplayPos(rows: seq<TxnRow>): Pos {
    if |rows| == 0 then Empty
    else ApplyRow(ReplayPos(rows[..|rows| - 1]), rows[|rows| - 1])
  }

  function LastOf(rows: seq<TxnRow>): LastTx
    requires |rows| > 0
  {
    LastTx(Price(rows[|rows| - 1]), rows[|rows| - 1].date)
  }

  lemma {:induction false} RowsForEmpty(rows: seq<TxnRow>, k: Key)
    ensures RowsFor(rows, k) == [] <==> forall i :: 0 <= i < |rows| ==> KeyOf(rows[i]) != k
    decreases |rows|
  {
    if |rows| > 0 {
      var pre := rows[..|rows| - 1];
      RowsForEmpty(pre, k);
      assert forall i :: 0 <= i < |pre| ==> pre[i] == rows[i];
    }
  }

  /** The aggregation keeps keys apart: the position and last transaction of a
      key depend only on that key's own rows, in their ledger order. */
  lemma {:induction false} ReplayPerKey(rows: seq<TxnRow>, k: Key)
    ensures k in Replay(rows).positions <==> RowsFor(rows, k) != []
    ensures k in Replay(rows).lastTx <==> RowsFor(rows, k) != []
    ensures k in Replay(rows).positions ==> Replay(rows).positions[k] == ReplayPos(RowsFor(rows, k))
    ensures k in Replay(rows).lastTx ==> Replay(rows).lastTx[k] == LastOf(RowsFor(rows, k))
    decreases |rows|
  {
    if |rows| > 0 {
      var pre := rows[..|rows| - 1];
      var r := rows[|rows| - 1];
      ReplayPerKey(pre, k);
      var sub := RowsFor(pre, k);
      if KeyOf(r) == k {
        assert RowsFor(rows, k) == sub + [r];
        assert (sub + [r])[..|sub|] == sub;
      } else {
        assert RowsFor(rows, k) == sub;
      }
    }
  }

  /** The keys of the aggregation are exactly the keys that occur in the ledger. */
  lemma ReplayKeys(rows: seq<TxnRow>, k: Key)
    ensures k in Replay(rows).positions <==> exists i :: 0 <= i < |rows| && KeyOf(rows[i]) == k
  {
    ReplayPerKey(rows, k);
    RowsForEmpty(rows, k);
  }

  // ---------------------------------------------------------------------------
  // Cost-basis behaviour of the state machine

  /** A worked example: BUY 10 @ 10, BUY 10 @ 20, SELL 15 leaves 5 at average 15. */
  lemma BlendThenSellExample()
    ensures ApplyRow(ApplyRow(ApplyRow(Empty,
              TxnRow(1, 1, Dates.Date(2024, 1, 1), Some("B"), Some(10.0), Some(10.0))),
              TxnRow(1, 1, Dates.Date(2024, 1, 2), Some("buy"), Some(10.0), Some(20.0))),
              TxnRow(1, 1, Dates.Date(2024, 1, 3), Some("S"), Some(15.0), Some(0.0)))
            == Pos(5.0, 15.0)
  {
    assert TypeCode(Some("B")) == "B";
    assert TypeCode(Some("buy")) == "BUY";
    assert TypeCode(Some("S")) == "S";
  }

  /** Selling exactly the held quantity closes the position, and the next buy
      starts a fresh average at its own price instead of blending with the
      closed lot. */
  lemma ExactCloseRestartsCost(p: Pos, q: real, price: real)
    requires q > 0.0
    ensures Apply(Apply(p, Sell, p.qty, 0.0), Buy, q, price) == Pos(q, price)
  {
  }

  /** Over-selling is not clamped: a later buy blends with the negative quantity.
      BUY 10 @ 10, SELL 15, BUY 10 @ 30 leaves 5 at average 60. */
  lemma OversoldThenBuyExample()
    ensures Apply(Apply(Apply(Empty, Buy, 10.0, 10.0), Sell, 15.0, 0.0), Buy, 10.0, 30.0) == Pos(5.0, 60.0)
  {
  }

  /** Two buys in a row, each leaving a positive quantity, average the
      position's cost with both purchases. */
  lemma BuyThenBuy(p: Pos, q1: real, p1: real, q2: real, p2: real)
    requires p.qty + q1 > 0.0 && p.qty + q1 + q2 > 0.0
    ensures Apply(Apply(p, Buy, q1, p1), Buy, q2, p2)
            == Pos(p.qty + q1 + q2, (p.qty * p.avg + q1 * p1 + q2 * p2) / (p.qty + q1 + q2))
  {
    var a1 := Apply(p, Buy, q1, p1);
    var c1 := p.qty * p.avg + q1 * p1;
    assert a1.qty * a1.avg == c1;
    assert Apply(a1, Buy, q2, p2) == Pos(a1.qty + q2, (a1.qty * a1.avg + q2 * p2) / (a1.qty + q2));
  }

  /** Two buys give the same position in either order, provided each of them
      alone would leave a positive quantity. */
  lemma BuysCommute(p: Pos, q1: real, p1: real, q2: real, p2: real)
    requires p.qty + q1 > 0.0 && p.qty + q2 > 0.0 && p.qty + q1 + q2 > 0.0
    ensures Apply(Apply(p, Buy, q1, p1), Buy, q2, p2) == Apply(Apply(p, Buy, q2, p2), Buy, q1, p1)
  {
    BuyThenBuy(p, q1, p1, q2, p2);
    BuyThenBuy(p, q2, p2, q1, p1);
    assert p.qty + q1 + q2 == p.qty + q2 + q1;
    assert p.qty * p.avg + q1 * p1 + q2 * p2 == p.qty * p.avg + q2 * p2 + q1 * p1;
  }

  predicate AllBuys(rows: seq<TxnRow>) {
    forall i :: 0 <= i < |rows| ==> KindOf(rows[i].txnType) == Buy && Qty(rows[i]) > 0.0
  }

  function TotalQty(rows: seq<TxnRow>): real {
    if |rows| == 0 then 0.0 else TotalQty(rows[..|rows| - 1]) + Qty(rows[|rows| - 1])
  }

  function TotalCost(rows: seq<TxnRow>): real {
    if |rows| == 0 then 0.0 else TotalCost(rows[..|rows| - 1]) + Qty(rows[|rows| - 1]) * Price(rows[|rows| - 1])
  }

  /** For a run of buys the moving average is the quantity-weighted average of
      the buy prices: quantity is the total bought and quantity times average is
      the total paid. */
  lemma {:induction false} BuysGiveWeightedAverage(rows: seq<TxnRow>)
    requires AllBuys(rows)
    ensures ReplayPos(rows).qty == TotalQty(rows)
    ensures ReplayPos(rows).qty * ReplayPos(rows).avg == TotalCost(rows)
    ensures |rows| > 0 ==> ReplayPos(rows).qty > 0.0
    decreases |rows|
  {
    if |rows| > 0 {
      var pre := rows[..|rows| - 1];
      assert AllBuys(pre) by {
        forall i | 0 <= i < |pre| ensures KindOf(pre[i].txnType) == Buy && Qty(pre[i]) > 0.0 {
          assert pre[i] == rows[i];
        }
      }
      BuysGiveWeightedAverage(pre);
    }
  }

  /** Selling part of an open position keeps the average and reduces the cost
      basis in proportion to the quantity. */
  lemma PartialSellKeepsAverage(p: Pos, q: real)
    requires 0.0 <= q < p.qty
    ensures Apply(p, Sell, q, 0.0).avg == p.avg
    ensures Apply(p, Sell, q, 0.0).qty * Apply(p, Sell, q, 0.0).avg == p.qty * p.avg - q * p.avg
  {
  }

  /** A row of unknown type leaves the quantity and average of its key as they
      were (creating an empty entry if the key was new), changes no other key,
      and still records its price and date as the key's last transaction. */
  lemma IgnoredRowOnlyMovesLastTx(a: Agg, r: TxnRow)
    requires KindOf(r.txnType) == Ignored
    ensures Step(a, r).positions[KeyOf(r)] == (if KeyOf(r) in a.positions then a.positions[KeyOf(r)] else Empty)
    ensures forall k :: k != KeyOf(r) ==> (k in Step(a, r).positions <==> k in a.positions)
    ensures forall k :: k != KeyOf(r) && k in a.positions ==> Step(a, r).positions[k] == a.positions[k]
    ensures Step(a, r).lastTx[KeyOf(r)] == LastTx(Price(r), r.date)
  {
  }

  // ---------------------------------------------------------------------------
  // Ledger selection: date cut-off and ownership filter

  /** A portfolio row: `portfolio_id` and its nullable `user_id`. */
  datatype PortfolioRow = PortfolioRow(portfolioId: int, userId: Option<int>)

  function OwnedBy(portfolios: seq<PortfolioRow>, uid: int): (s: set<int>)
    ensures forall p :: p in s <==> exists i :: 0 <= i < |portfolios| && portfolios[i].portfolioId == p && portfolios[i].userId == Some(uid)
  {
    set i | 0 <= i < |portfolios| && portfolios[i].userId == Some(uid) :: portfolios[i].portfolioId
  }

  /** With a user id, only rows of portfolios that user owns are kept; without
      one the ledger is used as fetched. */
  function OwnedRows(rows: seq<TxnRow>, userId: Option<int>, portfolios: seq<PortfolioRow>): seq<TxnRow> {
    match userId
    case None => rows
    case Some(uid) =>
      var allowed := OwnedBy(portfolios, uid);
      Filter(rows, (r: TxnRow) => r.portfolioId in allowed)
  }

  /** The ledger query's cut-off: transactions dated on or before the target date. */
  function UpTo(rows: seq<TxnRow>, target: Dates.Date): seq<TxnRow> {
    Filter(rows, (r: TxnRow) => Dates.Le(r.date, target))
  }

  /** Filtering on a property that is constant on a key either keeps all of
      that key's rows, in order, or drops them all. */
  lemma {:induction false} WhereKeepsWholeKey(rows: seq<TxnRow>, keep: TxnRow -> bool, k: Key, b: bool)
    requires forall x :: KeyOf(x) == k ==> keep(x) == b
    ensures RowsFor(Filter(rows, keep), k) == (if b then RowsFor(rows, k) else [])
    decreases |rows|
  {
    if |rows| > 0 {
      var pre := rows[..|rows| - 1];
      var r := rows[|rows| - 1];
      WhereKeepsWholeKey(pre, keep, k, b);
      var w := Filter(pre, keep);
      if keep(r) {
        assert Filter(rows, keep) == w + [r];
        assert (w + [r])[..|w|] == w;
      } else {
        assert Filter(rows, keep) == w;
      }
    }
  }

  /** The ownership filter runs before aggregation and removes whole keys: a
      key of an owned portfolio is aggregated exactly as without the filter, and
      a key of any other portfolio does not appear. */
  lemma OwnershipFilterBeforeAggregation(rows: seq<TxnRow>, uid: int, portfolios: seq<PortfolioRow>, k: Key)
    ensures k.0 in OwnedBy(portfolios, uid) ==>
      (k in Replay(OwnedRows(rows, Some(uid), portfolios)).positions <==> k in Replay(rows).positions)
    ensures k.0 in OwnedBy(portfolios, uid) && k in Replay(rows).positions ==>
      Replay(OwnedRows(rows, Some(uid), portfolios)).positions[k] == Replay(rows).positions[k]
    ensures k.0 !in OwnedBy(portfolios, uid) ==> k !in Replay(OwnedRows(rows, Some(uid), portfolios)).positions
  {
    var allowed := OwnedBy(portfolios, uid);
    var keep := (r: TxnRow) => r.portfolioId in allowed;
    WhereKeepsWholeKey(rows, keep, k, k.0 in allowed);
    ReplayPerKey(rows, k);
    ReplayPerKey(Filter(rows, keep), k);
  }

  // ---------------------------------------------------------------------------
  // Surviving positions, in first-appearance order

  /** The keys of the ledger in order of first appearance: the iteration order
      of the `defaultdict`. */
  function KeysInOrder(rows: seq<TxnRow>): (ks: seq<Key>)
    ensures Distinct(ks)
    ensures forall k :: k in ks <==> exists i :: 0 <= i < |rows| && KeyOf(rows[i]) == k
  {
    if |rows| == 0 then []
    else
      var pre := KeysInOrder(rows[..|rows| - 1]);
      var k := KeyOf(rows[|rows| - 1]);
      assert forall i :: 0 <= i < |rows| - 1 ==> rows[..|rows| - 1][i] == rows[i];
      if k in pre then pre else pre + [k]
  }

  /** A surviving position: key, quantity rounded to 6 places, average cost. */
  datatype Position = Position(portfolioId: int, securityId: int, qty: real, avg: real)

  function PositionKey(h: Position): Key {
    (h.portfolioId, h.securityId)
  }

  function PositionKeys(hs: seq<Position>): (ks: seq<Key>)
    ensures |ks| == |hs|
    ensures forall i :: 0 <= i < |hs| ==> ks[i] == PositionKey(hs[i])
  {
    seq(|hs|, i requires 0 <= i < |hs| => PositionKey(hs[i]))
  }

  /** Keys whose final quantity is positive, in key order. */
  function Survivors(keys: seq<Key>, positions: map<Key, Pos>): (hs: seq<Position>)
    requires forall i :: 0 <= i < |keys| ==> keys[i] in positions
    ensures |hs| <= |keys|
    ensures forall k :: k in PositionKeys(hs) <==> k in keys && positions[k].qty > 0.0
    ensures forall j :: 0 <= j < |hs| ==>
      PositionKey(hs[j]) in positions
      && hs[j].qty == Money.RoundTo(positions[PositionKey(hs[j])].qty, 6)
      && hs[j].avg == positions[PositionKey(hs[j])].avg
    ensures Distinct(keys) ==> Distinct(PositionKeys(hs))
  {
    if |keys| == 0 then []
    else
      var pre := Survivors(keys[..|keys| - 1], positions);
      var k := keys[|keys| - 1];
      assert forall i :: 0 <= i < |keys| - 1 ==> keys[..|keys| - 1][i] == keys[i];
      assert forall k' :: k' in keys <==> k' in keys[..|keys| - 1] || k' == k;
      if positions[k].qty > 0.0 then
        var h := Position(k.0, k.1, Money.RoundTo(positions[k].qty, 6), positions[k].avg);
        assert PositionKeys(pre + [h]) == PositionKeys(pre) + [k];
        assert Distinct(keys) ==> k !in keys[..|keys| - 1];
        pre + [h]
      else
        pre
  }

  /** The positions that become holdings: one per key whose aggregated
      quantity is positive. */
  function Aggregate(rows: seq<TxnRow>): (r: (Agg, seq<Position>))
    ensures r.0 == Replay(rows)
  {
    var agg := Replay(rows);
    var keys := KeysInOrder(rows);
    assert forall i :: 0 <= i < |keys| ==> keys[i] in agg.positions by {
      forall i | 0 <= i < |keys| ensures keys[i] in agg.positions {
        assert keys[i] in keys;
        ReplayKeys(rows, keys[i]);
      }
    }
    (agg, Survivors(keys, agg.positions))
  }

  /** Exactly the keys with positive final quantity survive, each once, with
      its quantity rounded to 6 places and its average cost unrounded. */
  lemma SurvivorsAreOpenPositions(rows: seq<TxnRow>, k: Key)
    ensures Distinct(PositionKeys(Aggregate(rows).1))
    ensures k in PositionKeys(Aggregate(rows).1) <==> k in Replay(rows).positions && Replay(rows).positions[k].qty > 0.0
  {
    ReplayKeys(rows, k);
  }

  // ---------------------------------------------------------------------------
  // Price resolution

  /** One row of the price table. */
  datatype PriceRow = PriceRow(priceId: int, securityId: int, priceDate: Dates.Date, price: real)

  predicate Candidate(p: PriceRow, sid: int, target: Dates.Date) {
    p.securityId == sid && Dates.Le(p.priceDate, target)
  }

  /** `ORDER BY price_date, security_price_id`: `a` sorts no later than `b`. */
  predicate RankLe(a: PriceRow, b: PriceRow) {
    Dates.Le(a.priceDate, b.priceDate) && (a.priceDate == b.priceDate ==> a.priceId <= b.priceId)
  }

  lemma RankTotal(a: PriceRow, b: PriceRow)
    ensures RankLe(a, b) || RankLe(b, a)
  {
  }

  lemma RankTransitive(a: PriceRow, b: PriceRow, c: PriceRow)
    requires RankLe(a, b) && RankLe(b, c)
    ensures RankLe(a, c)
  {
    Dates.LeTransitive(a.priceDate, b.priceDate, c.priceDate);
    if a.priceDate == c.priceDate {
      Dates.LeAntisymmetric(a.priceDate, b.priceDate);
    }
  }

  /** The price query: the top row of the security's prices dated on or before
      the target, ordered by date then id, both descending. */
  function LatestPrice(prices: seq<PriceRow>, sid: int, target: Dates.Date): (r: Option<PriceRow>)
    ensures r.Some? ==> r.value in prices && Candidate(r.value, sid, target)
    ensures r.Some? ==> forall p :: p in prices && Candidate(p, sid, target) ==> RankLe(p, r.value)
    ensures r.None? ==> forall p :: p in prices ==> !Candidate(p, sid, target)
  {
    if |prices| == 0 then None
    else
      var pre := prices[..|prices| - 1];
      var last := prices[|prices| - 1];
      var best := LatestPrice(pre, sid, target);
      assert forall p :: p in prices <==> p in pre || p == last;
      if Candidate(last, sid, target) && (best.None? || RankLe(best.value, last)) then
        assert forall p :: p in pre && Candidate(p, sid, target) ==> RankLe(p, last) by {
          forall p | p in pre && Candidate(p, sid, target) ensures RankLe(p, last) {
            RankTransitive(p, best.value, last);
          }
        }
        Some(last)
      else
        assert best.Some? && Candidate(last, sid, target) ==> RankLe(last, best.value) by {
          if best.Some? {
            RankTotal(last, best.value);
          }
        }
        best
  }

  /** A price and its date; `None` for the date is SQL NULL. */
  datatype Quote = Quote(price: real, priceDate: Option<Dates.Date>)

  /** The fallback chain: latest price row on or before the target date, else
      the key's last transaction price and date if that price is positive,
      else an unpriced zero. */
  function ResolvePrice(prices: seq<PriceRow>, sid: int, target: Dates.Date, last: Option<LastTx>): (q: Quote)
    ensures LatestPrice(prices, sid, target).Some? ==>
      q.priceDate.Some? && Dates.Le(q.priceDate.value, target)
      && exists p :: p in prices && p.securityId == sid && p.price == q.price && p.priceDate == q.priceDate.value
    ensures LatestPrice(prices, sid, target).Some? ==>
      exists p :: p in prices && Candidate(p, sid, target) && q == Quote(p.price, Some(p.priceDate))
                  && forall p' :: p' in prices && Candidate(p', sid, target) ==> RankLe(p', p)
    ensures LatestPrice(prices, sid, target).None? && last.Some? && last.value.price > 0.0 ==>
      q == Quote(last.value.price, Some(last.value.date))
    ensures q.priceDate.None? <==>
      LatestPrice(prices, sid, target).None? && (last.None? || last.value.price <= 0.0)
    ensures q.priceDate.None? ==> q.price == 0.0
  {
    match LatestPrice(prices, sid, target)
    case Some(p) => Quote(p.price, Some(p.priceDate))
    case None =>
      if last.Some? && last.value.price > 0.0 then Quote(last.value.price, Some(last.value.date))
      else Quote(0.0, None)
  }

  // ---------------------------------------------------------------------------
  // Valuation

  datatype Valuation = Valuation(marketValue: real, costAmt: real, gainAmt: real, gainPerc: real)

  /** Market value, cost amount, unrealised gain and gain percentage. */
  function Value(qty: real, avg: real, price: real): (v: Valuation)
    ensures Money.OnGrid(v.marketValue, 2) && Money.OnGrid(v.costAmt, 2)
    ensures qty * price - 0.005 <= v.marketValue <= qty * price + 0.005
    ensures qty * avg - 0.005 <= v.costAmt <= qty * avg + 0.005
    ensures v.gainAmt == v.marketValue - v.costAmt
    ensures v.costAmt == 0.0 ==> v.gainPerc == 0.0
    ensures v.costAmt != 0.0 ==> v.gainPerc == Money.RoundTo(v.gainAmt / v.costAmt * 100.0, 4)
  {
    var mv := Money.RoundTo(qty * price, 2);
    var cost := Money.RoundTo(qty * avg, 2);
    var gain := Money.RoundTo(mv - cost, 2);
    Money.RoundOfRoundedDifference(qty * price, qty * avg, 2);
    Money.RoundZero(4);
    var perc := Money.RoundTo(if cost != 0.0 then gain / cost * 100.0 else 0.0, 4);
    Valuation(mv, cost, gain, perc)
  }

  // ---------------------------------------------------------------------------
  // The holdings table and the recalculation

  /** One row of `holding_dtl`. */
  datatype HoldingRow = HoldingRow(
    holdingId: int,
    holdingDate: Dates.Date,
    portfolioId: int,
    securityId: int,
    quantity: real,
    price: real,
    avgPrice: real,
    marketValue: real,
    priceDate: Option<Dates.Date>,
    costAmt: real,
    gainAmt: real,
    gainPerc: real,
    createdTs: int,
    updatedTs: int)

  type HoldingStore = map<int, HoldingRow>

  /** `{"deleted": n, "inserted": m}` */
  datatype Summary = Summary(deleted: nat, inserted: nat)

  function IdsOnDate(store: HoldingStore, d: Dates.Date): set<int> {
    set id | id in store && store[id].holdingDate == d
  }

  /** `DELETE FROM holding_dtl WHERE holding_dt = d`, with its affected-row count. */
  function DeleteDate(store: HoldingStore, d: Dates.Date): (r: (HoldingStore, nat))
    ensures r.1 == |IdsOnDate(store, d)|
    ensures forall id :: id in r.0 <==> id in store && store[id].holdingDate != d
    ensures forall id :: id in r.0 ==> r.0[id] == store[id]
  {
    (map id | id in store && store[id].holdingDate != d :: store[id], |IdsOnDate(store, d)|)
  }

  /** The row written for one surviving position. */
  function BuildRow(h: Position, target: Dates.Date, prices: seq<PriceRow>, lastTx: map<Key, LastTx>,
                    id: int, now: int): HoldingRow
  {
    var last := if PositionKey(h) in lastTx then Some(lastTx[PositionKey(h)]) else None;
    var q := ResolvePrice(prices, h.securityId, target, last);
    var v := Value(h.qty, h.avg, q.price);
    HoldingRow(id, target, h.portfolioId, h.securityId, h.qty, q.price, h.avg, v.marketValue,
               q.priceDate, v.costAmt, v.gainAmt, v.gainPerc, now, now)
  }

  function BuildRows(hs: seq<Position>, target: Dates.Date, prices: seq<PriceRow>, lastTx: map<Key, LastTx>,
                     idAt: nat -> int, nowAt: nat -> int): (rs: seq<HoldingRow>)
    ensures |rs| == |hs|
    ensures forall i :: 0 <= i < |hs| ==> rs[i] == BuildRow(hs[i], target, prices, lastTx, idAt(i), nowAt(i))
    ensures forall r :: r in rs ==> r.holdingDate == target
  {
    seq(|hs|, i requires 0 <= i < |hs| => BuildRow(hs[i], target, prices, lastTx, idAt(i), nowAt(i)))
  }

  /** The inserts, one after another; `ON CONFLICT (holding_id) DO NOTHING`
      skips a row whose id is already taken. */
  function InsertAll(store: HoldingStore, rows: seq<HoldingRow>): (s: HoldingStore)
    ensures forall id :: id in store ==> id in s && s[id] == store[id]
    ensures forall id :: id in s && id !in store ==> s[id] in rows && s[id].holdingId == id
  {
    if |rows| == 0 then store
    else
      var pre := InsertAll(store, rows[..|rows| - 1]);
      var r := rows[|rows| - 1];
      assert forall i :: 0 <= i < |rows| - 1 ==> rows[..|rows| - 1][i] == rows[i];
      if r.holdingId in pre then pre else pre[r.holdingId := r]
  }

  /** `recalc_for_date(target_date, user_id)`: returns the new holdings table
      and the summary. */
  function RecalcForDate(store: HoldingStore, target: Dates.Date, userId: Option<int>,
                         ledger: seq<TxnRow>, portfolios: seq<PortfolioRow>, prices: seq<PriceRow>,
                         idAt: nat -> int, nowAt: nat -> int): (r: (HoldingStore, Summary))
    ensures r.1.deleted == |IdsOnDate(store, target)|
    ensures r.1.inserted == |Aggregate(OwnedRows(UpTo(ledger, target), userId, portfolios)).1|
    ensures forall id :: id in store && store[id].holdingDate != target ==> id in r.0 && r.0[id] == store[id]
    ensures forall id :: id in r.0 && r.0[id].holdingDate != target ==> id in store
  {
    var aggregated := Aggregate(OwnedRows(UpTo(ledger, target), userId, portfolios));
    var cleared := DeleteDate(store, target);
    var newRows := BuildRows(aggregated.1, target, prices, aggregated.0.lastTx, idAt, nowAt);
    (InsertAll(cleared.0, newRows), Summary(cleared.1, |aggregated.1|))
  }

  // ---------------------------------------------------------------------------
  // Properties of the recalculation

  /** The ids that a sequence of rows would be inserted under. */
  function IdSet(rows: seq<HoldingRow>): set<int> {
    set r | r in rows :: r.holdingId
  }

  predicate DistinctIds(rows: seq<HoldingRow>) {
    forall i, j :: 0 <= i < j < |rows| ==> rows[i].holdingId != rows[j].holdingId
  }

  lemma {:induction false} DistinctIdsCount(rows: seq<HoldingRow>)
    requires DistinctIds(rows)
    ensures |IdSet(rows)| == |rows|
    decreases |rows|
  {
    if |rows| > 0 {
      var pre := rows[..|rows| - 1];
      var last := rows[|rows| - 1];
      assert rows == pre + [last];
      DistinctIdsCount(pre);
      assert IdSet(rows) == IdSet(pre) + {last.holdingId};
      assert last.holdingId !in IdSet(pre);
    }
  }

  /** Rows with distinct ids none of which is taken are all inserted, and
      nothing else is added. */
  lemma {:induction false} InsertFresh(store: HoldingStore, rows: seq<HoldingRow>)
    requires DistinctIds(rows)
    requires forall i :: 0 <= i < |rows| ==> rows[i].holdingId !in store
    ensures forall i :: 0 <= i < |rows| ==>
      rows[i].holdingId in InsertAll(store, rows) && InsertAll(store, rows)[rows[i].holdingId] == rows[i]
    ensures InsertAll(store, rows).Keys == store.Keys + IdSet(rows)
    decreases |rows|
  {
    if |rows| > 0 {
      var n := |rows| - 1;
      InsertFresh(store, rows[..n]);
      InsertAllSnoc(store, rows);
      InsertFreshStep(InsertAll(store, rows[..n]), store, rows);
    }
  }

  /** The induction step of `InsertFresh`, over the prefix's store `p`. */
  lemma InsertFreshStep(p: HoldingStore, store: HoldingStore, rows: seq<HoldingRow>)
    requires |rows| > 0 && DistinctIds(rows)
    requires rows[|rows| - 1].holdingId !in store
    requires p.Keys == store.Keys + IdSet(rows[..|rows| - 1])
    requires var pre := rows[..|rows| - 1];
             forall i :: 0 <= i < |pre| ==> pre[i].holdingId in p && p[pre[i].holdingId] == pre[i]
    ensures var last := rows[|rows| - 1];
            var q := p[last.holdingId := last];
            q.Keys == store.Keys + IdSet(rows)
            && forall i :: 0 <= i < |rows| ==> rows[i].holdingId in q && q[rows[i].holdingId] == rows[i]
  {
    var n := |rows| - 1;
    var pre := rows[..n];
    var last := rows[n];
    assert forall i :: 0 <= i < n ==> pre[i] == rows[i];
    assert IdSet(rows) == IdSet(pre) + {last.holdingId} by {
      assert rows == pre + [last];
    }
    assert last.holdingId !in IdSet(pre);
  }

  /** Inserting one more row: a fresh id is added, a taken one is left. */
  lemma InsertAllSnoc(store: HoldingStore, rows: seq<HoldingRow>)
    requires |rows| > 0
    ensures var p := InsertAll(store, rows[..|rows| - 1]);
            var r := rows[|rows| - 1];
            InsertAll(store, rows) == if r.holdingId in p then p else p[r.holdingId := r]
  {
  }

  /** Clock-derived ids that never repeat and never hit a row kept from
      another date. */
  ghost predicate FreshClock(store: HoldingStore, target: Dates.Date, idAt: nat -> int) {
    (forall i: nat, j: nat :: i < j ==> idAt(i) != idAt(j))
    && (forall i: nat :: idAt(i) in store ==> store[idAt(i)].holdingDate == target)
  }

  /** Deleting a date and then inserting rows of that date under distinct
      ids that no kept row uses leaves exactly those rows on that date. */
  lemma ReplaceDate(store: HoldingStore, target: Dates.Date, built: seq<HoldingRow>)
    requires DistinctIds(built)
    requires forall r :: r in built ==> r.holdingDate == target
    requires forall i :: 0 <= i < |built| && built[i].holdingId in store ==> store[built[i].holdingId].holdingDate == target
    ensures var s := InsertAll(DeleteDate(store, target).0, built);
      IdsOnDate(s, target) == IdSet(built)
      && (forall i :: 0 <= i < |built| ==> built[i].holdingId in s && s[built[i].holdingId] == built[i])
      && |IdsOnDate(s, target)| == |built|
  {
    var kept := DeleteDate(store, target).0;
    var s := InsertAll(kept, built);
    InsertFresh(kept, built);
    DistinctIdsCount(built);
    forall id | id in s && s[id].holdingDate == target
      ensures id in IdSet(built)
    {
    }
    forall id | id in IdSet(built)
      ensures id in s && s[id].holdingDate == target
    {
      var k :| k in built && k.holdingId == id;
    }
  }

  /** With fresh ids the recalculation replaces the target date's snapshot:
      afterwards the rows on that date are exactly the newly built rows, one
      per surviving position, and their number is the reported `inserted`. */
  lemma SnapshotReplacesDate(store: HoldingStore, target: Dates.Date, userId: Option<int>,
                             ledger: seq<TxnRow>, portfolios: seq<PortfolioRow>, prices: seq<PriceRow>,
                             idAt: nat -> int, nowAt: nat -> int)
    requires FreshClock(store, target, idAt)
    ensures var r := RecalcForDate(store, target, userId, ledger, portfolios, prices, idAt, nowAt);
      var aggregated := Aggregate(OwnedRows(UpTo(ledger, target), userId, portfolios));
      var built := BuildRows(aggregated.1, target, prices, aggregated.0.lastTx, idAt, nowAt);
      IdsOnDate(r.0, target) == IdSet(built)
      && (forall i :: 0 <= i < |built| ==> built[i].holdingId in r.0 && r.0[built[i].holdingId] == built[i])
      && |IdsOnDate(r.0, target)| == r.1.inserted
  {
    var aggregated := Aggregate(OwnedRows(UpTo(ledger, target), userId, portfolios));
    var built := BuildRows(aggregated.1, target, prices, aggregated.0.lastTx, idAt, nowAt);
    assert forall i :: 0 <= i < |built| ==> built[i].holdingId == idAt(i);
    ReplaceDate(store, target, built);
  }

  /** Running the recalculation a second time for the same date and inputs
      deletes exactly the rows the first run inserted and inserts the same
      number again. */
  lemma RecalcRepeatCounts(store: HoldingStore, target: Dates.Date, userId: Option<int>,
                           ledger: seq<TxnRow>, portfolios: seq<PortfolioRow>, prices: seq<PriceRow>,
                           idAt: nat -> int, nowAt: nat -> int, idAt2: nat -> int, nowAt2: nat -> int)
    requires FreshClock(store, target, idAt)
    ensures var first := RecalcForDate(store, target, userId, ledger, portfolios, prices, idAt, nowAt);
      var second := RecalcForDate(first.0, target, userId, ledger, portfolios, prices, idAt2, nowAt2);
      second.1 == Summary(first.1.inserted, first.1.inserted)
  {
    SnapshotReplacesDate(store, target, userId, ledger, portfolios, prices, idAt, nowAt);
  }

  /** Transactions dated after the target date have no effect on it. */
  lemma {:induction false} LaterTransactionsIgnored(ledger: seq<TxnRow>, later: seq<TxnRow>, target: Dates.Date)
    requires forall i :: 0 <= i < |later| ==> !Dates.Le(later[i].date, target)
    ensures UpTo(ledger + later, target) == UpTo(ledger, target)
    decreases |later|
  {
    if |later| > 0 {
      var pre := later[..|later| - 1];
      assert (ledger + later)[..|ledger + later| - 1] == ledger + pre;
      assert (ledger + later)[|ledger + later| - 1] == later[|later| - 1];
      LaterTransactionsIgnored(ledger, pre, target);
    } else {
      assert ledger + later == ledger;
    }
  }
}

=== FILE: js.dfy ===
/** JavaScript values as the front-end helpers see them, and the conversions
    they apply: truthiness, `String(v)` and `Number(v)`. Text-to-number
    conversion and number formatting belong to the JavaScript engine and are
    parameters here; numbers are exact reals. */
module Js {
  import opened Results
  import opened Text

  /** A JavaScript value. `Obj` stands for any object or array and carries
      the text `JSON.stringify` gives for it, or `None` when that call throws
      (a cycle, a BigInt inside) or gives `undefined`. */
  datatype JsValue =
    | Undefined
    | Null
    | Bool(b: bool)
    | Num(n: real)
    | Infinity(positive: bool)
    | NaN
    | Str(s: string)
    | Obj(json: Option<string>)

  /** What the engine does that the model does not: `Number(s)` on text and
      `String(n)` on a number. */
  datatype Engine = Engine(textToNumber: string -> JsValue, numberText: real -> string)

  /** `v == null`: null or undefined. */
  predicate IsNullish(v: JsValue) { v.Undefined? || v.Null? }

  /** `!!v` */
  predicate Truthy(v: JsValue) {
    match v
    case Undefined => false
    case Null => false
    case Bool(b) => b
    case Num(n) => n != 0.0
    case Infinity(_) => true
    case NaN => false
    case Str(s) => s != ""
    case Obj(_) => true
  }

  /** `Number.isFinite(v)`: a number that is neither infinite nor NaN; no
      conversion. */
  predicate IsFiniteNumber(v: JsValue) { v.Num? }

  /** `Number(v)`. A text's value comes from the engine; an object's is NaN
      (arrays of one number are not modelled). */
  function ToNumber(v: JsValue, eng: Engine): (r: JsValue)
    ensures v.Num? || v.Infinity? || v.NaN? ==> r == v
    ensures v.Bool? ==> r == Num(if v.b then 1.0 else 0.0)
    ensures v.Null? ==> r == Num(0.0)
    ensures v.Undefined? || v.Obj? ==> r == NaN
  {
    match v
    case Undefined => NaN
    case Null => Num(0.0)
    case Bool(b) => Num(if b then 1.0 else 0.0)
    case Num(_) => v
    case Infinity(_) => v
    case NaN => NaN
    case Str(s) => eng.textToNumber(s)
    case Obj(_) => NaN
  }

  /** `String(v)`. Objects print as "[object Object]" (arrays are not
      modelled). */
  function ToText(v: JsValue, eng: Engine): (r: string)
    ensures v.Str? ==> r == v.s
    ensures v.Bool? ==> r == (if v.b then "true" else "false")
    ensures IsNullish(v) ==> r == (if v.Null? then "null" else "undefined")
  {
    match v
    case Undefined => "undefined"
    case Null => "null"
    case Bool(b) => if b then "true" else "false"
    case Num(n) => eng.numberText(n)
    case Infinity(p) => if p then "Infinity" else "-Infinity"
    case NaN => "NaN"
    case Str(s) => s
    case Obj(_) => "[object Object]"
  }

  /** `Math.trunc`: the integer part, rounding toward zero. */
  function Trunc(x: real): (r: int)
    ensures x >= 0.0 ==> r as real <= x < r as real + 1.0
    ensures x < 0.0 ==> r as real - 1.0 < x <= r as real
  {
    if x >= 0.0 then x.Floor else -((-x).Floor)
  }
}

=== FILE: keyed_store.dfy ===
/** The generic in-memory store of `base.py`: `InMemoryDB` and the primary-key
    check of `BaseCRUD.update`.

    The store is a Python dict, so besides the key-to-item mapping it has an
    iteration order: keys in order of first insertion, where overwriting a key
    keeps its place and deleting it removes it. */
module KeyedStore {
  import opened Results
  import Text
  import opened Seqs

  /** Index of the first field whose name ends in "_id", if any. */
  function FirstIdField(fields: seq<string>, from: nat): (r: Option<nat>)
    requires from <= |fields|
    ensures r.Some? ==> from <= r.value < |fields| && Text.EndsWith(fields[r.value], "_id")
    ensures r.Some? ==> forall j :: from <= j < r.value ==> !Text.EndsWith(fields[j], "_id")
    ensures r.None? ==> forall j :: from <= j < |fields| ==> !Text.EndsWith(fields[j], "_id")
    decreases |fields| - from
  {
    if from == |fields| then None
    else if Text.EndsWith(fields[from], "_id") then Some(from)
    else FirstIdField(fields, from + 1)
  }

  /** Field `i` is the primary key field: it ends in "_id" and no earlier field
      does, or no field does and `i` is the first. */
  predicate IsPkChoice(fields: seq<string>, i: int) {
    0 <= i < |fields|
    && (forall j :: 0 <= j < i ==> !Text.EndsWith(fields[j], "_id"))
    && (Text.EndsWith(fields[i], "_id") || (i == 0 && forall j :: 0 <= j < |fields| ==> !Text.EndsWith(fields[j], "_id")))
  }

  /** `_detect_pk_field`: the first declared field ending in "_id", otherwise
      the first declared field. A model without fields has none (the source
      raises `StopIteration`). */
  function DetectPkField(fields: seq<string>): (r: Option<string>)
    ensures r.None? <==> |fields| == 0
    ensures r.Some? ==> exists i :: IsPkChoice(fields, i) && fields[i] == r.value
  {
    match FirstIdField(fields, 0)
    case Some(i) => Some(fields[i])
    case None => if |fields| == 0 then None else Some(fields[0])
  }

  /** A dict: the mapping and its insertion order. */
  datatype Store<K(==,!new), V> = Store(order: seq<K>, items: map<K, V>)

  ghost predicate Valid<K(!new), V>(s: Store<K, V>) {
    Distinct(s.order) && forall k :: k in s.order <==> k in s.items
  }

  function Empty<K(==,!new), V>(): (s: Store<K, V>)
    ensures Valid(s) && s.items == map[]
  {
    Store([], map[])
  }

  function Get<K(==,!new), V>(s: Store<K, V>, k: K): (r: Option<V>)
    ensures r.Some? <==> k in s.items
    ensures r.Some? ==> r.value == s.items[k]
  {
    if k in s.items then Some(s.items[k]) else None
  }

  /** `save`: stores the item under its own primary key, overwriting. */
  function Save<K(==,!new), V>(s: Store<K, V>, pkOf: V -> K, item: V): (r: Store<K, V>)
    requires Valid(s)
    ensures Valid(r)
    ensures Get(r, pkOf(item)) == Some(item)
    ensures forall k :: k != pkOf(item) ==> Get(r, k) == Get(s, k)
    ensures pkOf(item) in s.items ==> r.order == s.order
    ensures pkOf(item) !in s.items ==> r.order == s.order + [pkOf(item)]
  {
    var k := pkOf(item);
    Store(if k in s.items then s.order else s.order + [k], s.items[k := item])
  }

  /** `InMemoryDB.update`: `KeyError` for an absent key, otherwise that entry
      alone is replaced. The item's own key is not compared with `k`. */
  function Update<K(==,!new), V>(s: Store<K, V>, k: K, item: V): (r: Result<Store<K, V>>)
    requires Valid(s)
    ensures r.Err? <==> k !in s.items
    ensures r.Err? ==> r.error == KeyError
    ensures r.Ok? ==> (Valid(r.value) && r.value.order == s.order
      && Get(r.value, k) == Some(item)
      && forall k' :: k' != k ==> Get(r.value, k') == Get(s, k'))
  {
    if k !in s.items then Err(KeyError)
    else Ok(Store(s.order, s.items[k := item]))
  }

  /** `delete`: whether the key was present; it is absent afterwards. */
  function Delete<K(==,!new), V>(s: Store<K, V>, k: K): (r: (Store<K, V>, bool))
    requires Valid(s)
    ensures Valid(r.0)
    ensures r.1 <==> k in s.items
    ensures Get(r.0, k) == None
    ensures forall k' :: k' != k ==> Get(r.0, k') == Get(s, k')
  {
    (Store(Without(s.order, k), s.items - {k}), k in s.items)
  }

  /** `list_all`: the stored items in insertion order. */
  function ListAll<K(==,!new), V>(s: Store<K, V>): (r: seq<V>)
    requires Valid(s)
    ensures |r| == |s.items| == |s.order|
    ensures forall i :: 0 <= i < |r| ==> s.order[i] in s.items && r[i] == s.items[s.order[i]]
    ensures forall k :: k in s.items ==> s.items[k] in r
  {
    DistinctCard(s.order, s.items);
    seq(|s.order|, i requires 0 <= i < |s.order| => s.items[s.order[i]])
  }

  lemma {:induction false} DistinctCard<K(!new), V>(order: seq<K>, items: map<K, V>)
    requires Distinct(order) && forall k :: k in order <==> k in items
    ensures |order| == |items|
    decreases |order|
  {
    if |order| > 0 {
      var k := order[|order| - 1];
      var pre := order[..|order| - 1];
      assert order == pre + [k];
      assert forall x :: x in pre <==> x in items - {k};
      DistinctCard(pre, items - {k});
    } else {
      assert items.Keys == {};
    }
  }

  /** `BaseCRUD.update`: `ValueError` when the body's key differs from the
      path key, checked before the store is consulted. */
  function CrudUpdate<K(==,!new), V>(s: Store<K, V>, pkOf: V -> K, k: K, item: V): (r: Result<Store<K, V>>)
    requires Valid(s)
    ensures pkOf(item) != k ==> r == Err(ValueError)
    ensures pkOf(item) == k ==> r == Update(s, k, item)
    ensures r.Ok? ==> Get(r.value, k) == Some(item) && pkOf(item) == k
  {
    if pkOf(item) != k then Err(ValueError) else Update(s, k, item)
  }

  /** Saving an item under a new key and deleting that key gives back the
      original store, order included. */
  lemma SaveDeleteRoundTrip<K(!new), V>(s: Store<K, V>, pkOf: V -> K, item: V)
    requires Valid(s) && pkOf(item) !in s.items
    ensures Delete(Save(s, pkOf, item), pkOf(item)) == (s, true)
  {
    var k := pkOf(item);
    assert k !in s.order;
    WithoutAppend(s.order, k);
    assert s.items[k := item] - {k} == s.items;
  }

  lemma {:induction false} WithoutAppend<T(!new)>(s: seq<T>, x: T)
    requires x !in s
    ensures Without(s + [x], x) == s
    decreases |s|
  {
    if |s| > 0 {
      assert (s + [x])[1..] == s[1..] + [x];
      WithoutAppend(s[1..], x);
      assert [s[0]] + s[1..] == s;
    } else {
      assert [x][1..] == [];
    }
  }

  /** Saving the same item twice is the same as saving it once. */
  lemma SaveIdempotent<K(!new), V>(s: Store<K, V>, pkOf: V -> K, item: V)
    requires Valid(s)
    ensures Save(Save(s, pkOf, item), pkOf, item) == Save(s, pkOf, item)
  {
  }
}

=== FILE: money.dfy ===
/** Money and quantities as exact reals, with decimal rounding.

    Python's `round(x, n)` on a float rounds the float's exact binary value half
    to even. The model rounds the exact real value half to even at `n` decimal
    places; binary floating-point representation error is not modelled. */
module Money {

  function Pow10(n: nat): (r: real)
    ensures r >= 1.0
  {
    if n == 0 then 1.0 else 10.0 * Pow10(n - 1)
  }

  predicate IsInt(y: real) {
    y.Floor as real == y
  }

  /** `y` lies exactly halfway between two integers. */
  predicate IsTie(y: real) {
    y - y.Floor as real == 0.5
  }

  /** The integer nearest to `y`, ties going to the even neighbour. */
  function RoundHalfEven(y: real): (k: int)
    ensures y - 0.5 <= k as real <= y + 0.5
    ensures IsInt(y) ==> k == y.Floor
    ensures IsTie(y) ==> k % 2 == 0
    ensures !IsTie(y) ==> y - 0.5 < k as real < y + 0.5
  {
    var f := y.Floor;
    var frac := y - f as real;
    if frac < 0.5 then f
    else if frac > 0.5 then f + 1
    else if f % 2 == 0 then f
    else f + 1
  }

  /** `x` is a whole multiple of 10^-places. */
  predicate OnGrid(x: real, places: nat) {
    IsInt(x * Pow10(places))
  }

  lemma DivMulCancel(k: real, s: real)
    requires s > 0.0
    ensures (k / s) * s == k
  {
  }

  lemma DivMonotone(a: real, b: real, s: real)
    requires s > 0.0 && a <= b
    ensures a / s <= b / s
  {
    DivMulCancel(a, s);
    DivMulCancel(b, s);
  }

  lemma IntOverScaleOnGrid(k: int, places: nat)
    ensures OnGrid(k as real / Pow10(places), places)
  {
    DivMulCancel(k as real, Pow10(places));
  }

  lemma NearestOverScaleBounds(x: real, k: int, s: real)
    requires s > 0.0
    requires x * s - 0.5 <= k as real <= x * s + 0.5
    ensures x - 0.5 / s <= k as real / s <= x + 0.5 / s
  {
    DivMulCancel(x, s);
    assert k as real / s - x == (k as real - x * s) / s;
    DivMonotone(k as real - x * s, 0.5, s);
    DivMonotone(-0.5, k as real - x * s, s);
    assert -0.5 / s == -(0.5 / s);
  }

  /** `x` is an even multiple of 10^-places. */
  predicate EvenOnGrid(x: real, places: nat) {
    (x * Pow10(places)).Floor % 2 == 0
  }

  lemma EvenOverScale(k: int, places: nat)
    requires k % 2 == 0
    ensures EvenOnGrid(k as real / Pow10(places), places)
  {
    DivMulCancel(k as real, Pow10(places));
  }

  /** Python's `round(x, places)`: the nearest multiple of 10^-places, ties to even. */
  function RoundTo(x: real, places: nat): (r: real)
    ensures OnGrid(r, places)
    ensures x - 0.5 / Pow10(places) <= r <= x + 0.5 / Pow10(places)
  {
    var scale := Pow10(places);
    var k := RoundHalfEven(x * scale);
    IntOverScaleOnGrid(k, places);
    NearestOverScaleBounds(x, k, scale);
    k as real / scale
  }

  /** A value exactly halfway between two grid points rounds to the even one. */
  lemma RoundTieToEven(x: real, places: nat)
    requires IsTie(x * Pow10(places))
    ensures EvenOnGrid(RoundTo(x, places), places)
  {
    var k := RoundHalfEven(x * Pow10(places));
    EvenOverScale(k, places);
    assert RoundTo(x, places) == k as real / Pow10(places);
  }

  lemma ScaledIsInt(x: real, places: nat) returns (y: real)
    requires OnGrid(x, places)
    ensures y == x * Pow10(places) && IsInt(y)
  {
    y := x * Pow10(places);
  }

  /** Rounding leaves a value that is already on the grid unchanged. */
  lemma RoundOnGrid(x: real, places: nat)
    requires OnGrid(x, places)
    ensures RoundTo(x, places) == x
  {
    var y := ScaledIsInt(x, places);
    assert RoundHalfEven(y) == y.Floor;
    DivMulCancel(x, Pow10(places));
  }

  lemma RoundZero(places: nat)
    ensures RoundTo(0.0, places) == 0.0
  {
    assert OnGrid(0.0, places);
    RoundOnGrid(0.0, places);
  }

  lemma IntDifference(a: real, b: real)
    requires IsInt(a) && IsInt(b)
    ensures IsInt(a - b)
  {
    assert a - b == (a.Floor - b.Floor) as real;
  }

  lemma Distribute(a: real, b: real, s: real)
    ensures (a - b) * s == a * s - b * s
  {
  }

  /** The difference of two grid values is a grid value. */
  lemma GridDifference(a: real, b: real, places: nat)
    requires OnGrid(a, places) && OnGrid(b, places)
    ensures OnGrid(a - b, places)
  {
    var ya := ScaledIsInt(a, places);
    var yb := ScaledIsInt(b, places);
    IntDifference(ya, yb);
    Distribute(a, b, Pow10(places));
  }

  /** Rounding is idempotent. */
  lemma RoundIdempotent(x: real, places: nat)
    ensures RoundTo(RoundTo(x, places), places) == RoundTo(x, places)
  {
    RoundOnGrid(RoundTo(x, places), places);
  }

  /** Rounding the difference of two rounded values changes nothing. */
  lemma RoundOfRoundedDifference(a: real, b: real, places: nat)
    ensures RoundTo(RoundTo(a, places) - RoundTo(b, places), places)
            == RoundTo(a, places) - RoundTo(b, places)
  {
    GridDifference(RoundTo(a, places), RoundTo(b, places), places);
    RoundOnGrid(RoundTo(a, places) - RoundTo(b, places), places);
  }
}

=== FILE: platform_filter.dfy ===
/** The column filters of the external-platforms list: a numeric filter with
    an optional comparison operator, and the row predicate that combines one
    filter per field. Text-to-number conversion and the browser's date
    formatting are parameters. */
module PlatformFilter {
  import opened Results
  import opened Text
  import opened Dicts
  import opened Scan
  import opened Js
  import Money
  import Seqs
  import Fields

  // ---------------------------------------------------------------------
  // The operator pattern `^(<=|>=|=|<|>)\s*(-?\d+(?:\.\d+)?)`

  /** The alternatives of the operator group `(<=|>=|=|<|>)`. */
  datatype Op = Le | Ge | Eq | Lt | Gt

  function Symbol(op: Op): string {
    match op
    case Le => "<="
    case Ge => ">="
    case Eq => "="
    case Lt => "<"
    case Gt => ">"
  }

  /** `s` begins with the operator's symbol. */
  predicate OpAt(s: string, op: Op) {
    match op
    case Le => |s| >= 2 && s[0] == '<' && s[1] == '='
    case Ge => |s| >= 2 && s[0] == '>' && s[1] == '='
    case Eq => |s| >= 1 && s[0] == '='
    case Lt => |s| >= 1 && s[0] == '<'
    case Gt => |s| >= 1 && s[0] == '>'
  }

  /** The length of the operator's symbol. */
  function Width(op: Op): nat {
    if op == Le || op == Ge then 2 else 1
  }

  lemma OpAtIsPrefix(s: string, op: Op)
    ensures |Symbol(op)| == Width(op)
    ensures OpAt(s, op) <==> StartsWith(s, Symbol(op))
  {
  }

  /** `u` begins the way the number group must: a digit, or '-' and a digit. */
  predicate StartsNumber(u: string)
  {
    (|u| > 0 && IsDigit(u[0])) || (|u| > 1 && u[0] == '-' && IsDigit(u[1]))
  }

  /** The number group at the start of `u`: an optional '-', then an
      unsigned number, negated after a '-'. */
  function LeadingNumber(u: string): (r: Option<real>)
    ensures r.Some? <==> StartsNumber(u)
  {
    if |u| > 0 && u[0] == '-' then
      match UnsignedNumber(u[1..])
      case None => None
      case Some(v) => Some(-v)
    else UnsignedNumber(u)
  }

  /** The unsigned part of the number group: a digit run and an optional '.'
      with a digit run, read as an exact decimal. */
  function UnsignedNumber(t: string): (r: Option<real>)
    ensures r.Some? <==> |t| > 0 && IsDigit(t[0])
  {
    var d := DigitRun(t);
    if d == 0 then None
    else
      var f := if d < |t| && t[d] == '.' then DigitRun(t[d + 1..]) else 0;
      var frac := if f == 0 then 0.0 else FractionValue(t[d + 1..][..f]);
      Some(DigitsValue(t[..d]) as real + frac)
  }

  /** The value of the decimal fraction `0.ds`. */
  function FractionValue(ds: string): (v: real)
    requires AllDigits(ds)
    ensures 0.0 <= v <= 1.0
  {
    if |ds| == 0 then 0.0
    else ((ds[0] as int - '0' as int) as real + FractionValue(ds[1..])) / 10.0
  }

  /** The pattern with its operator group fixed to `op`: the operator, any
      whitespace, then a number. */
  function MatchOp(s: string, op: Op): (r: Option<real>)
    ensures r.Some? ==> OpAt(s, op)
  {
    if OpAt(s, op) then
      var t := s[Width(op)..];
      LeadingNumber(t[Run(t, IsSpace)..])
    else None
  }

  datatype OpMatch = OpMatch(op: Op, num: real)

  /** `op` if the pattern matches with it, else the outcome of the later
      alternatives. */
  function Try(s: string, op: Op, later: Option<OpMatch>): (r: Option<OpMatch>)
    ensures MatchOp(s, op).Some? ==> r == Some(OpMatch(op, MatchOp(s, op).value))
    ensures MatchOp(s, op).None? ==> r == later
  {
    match MatchOp(s, op)
    case Some(n) => Some(OpMatch(op, n))
    case None => later
  }

  /** `s.match(...)`: the operator and the number, or no match. The
      alternatives are tried in the order "<=", ">=", "=", "<", ">". */
  function OperatorMatch(s: string): (r: Option<OpMatch>)
    ensures r.Some? ==> OpAt(s, r.value.op) && MatchOp(s, r.value.op) == Some(r.value.num)
  {
    Try(s, Le, Try(s, Ge, Try(s, Eq, Try(s, Lt, Try(s, Gt, None)))))
  }

  /** The pattern fails only when no alternative matches. */
  lemma OperatorMatchFailsIffNoAlternative(s: string)
    ensures OperatorMatch(s).None? <==> forall op :: MatchOp(s, op).None?
  {
  }

  /** After "<=" or ">=" the single-character alternatives "<" and ">" see
      '=' where a number must start, so they cannot match. */
  lemma EqualsSignStopsShortOperators(s: string)
    requires OpAt(s, Le) || OpAt(s, Ge)
    ensures MatchOp(s, Lt).None? && MatchOp(s, Gt).None?
  {
    var t := s[1..];
    assert !IsSpace(t[0]) && !IsDigit(t[0]) && t[0] != '-';
    assert Run(t, IsSpace) == 0;
    assert t[0..] == t;
  }

  /** In a match "<=" and ">=" are never read as "<" and ">". */
  lemma OperatorIsLongestPrefix(s: string)
    requires OperatorMatch(s).Some?
    ensures OperatorMatch(s).value.op == Lt ==> !OpAt(s, Le)
    ensures OperatorMatch(s).value.op == Gt ==> !OpAt(s, Ge)
  {
    if OpAt(s, Le) || OpAt(s, Ge) {
      EqualsSignStopsShortOperators(s);
    }
  }

  // ---------------------------------------------------------------------
  // compareNumberWithOp

  /** `x op num` on exact numbers. */
  predicate Holds(op: Op, x: real, num: real) {
    match op
    case Eq => x == num
    case Lt => x < num
    case Le => x <= num
    case Gt => x > num
    case Ge => x >= num
  }

  /** The comparison of `Number(value)` with the filter's number: NaN
      compares false, an infinity compares as the largest or smallest value.
      A non-number result of the engine is treated as NaN. */
  predicate Compare(op: Op, v: JsValue, num: real) {
    match v
    case Num(x) => Holds(op, x, num)
    case Infinity(positive) => if positive then op == Gt || op == Ge else op == Lt || op == Le
    case _ => false
  }

  /** `String(filterStr).trim()`. */
  function FilterText(filter: JsValue, eng: Engine): string {
    Strip(ToText(filter, eng))
  }

  /** `compareNumberWithOp`: an empty filter matches everything; an empty
      value matches no non-empty filter; a leading operator with a number
      compares `Number(value)` with that number; any other filter is a
      case-insensitive substring test on `String(value)`. */
  function CompareNumberWithOp(value: JsValue, filter: JsValue, eng: Engine): (r: bool)
    ensures IsNullish(filter) || filter == Str("") ==> r
    ensures !(IsNullish(filter) || filter == Str("")) && (IsNullish(value) || value == Str("")) ==> !r
  {
    if IsNullish(filter) || filter == Str("") then true
    else if IsNullish(value) || value == Str("") then false
    else CompareText(value, FilterText(filter, eng), eng)
  }

  /** The test a non-empty filter applies once trimmed to `s`. */
  predicate CompareText(value: JsValue, s: string, eng: Engine) {
    match OperatorMatch(s)
    case Some(m) => Compare(m.op, ToNumber(value, eng), m.num)
    case None => Contains(Lower(ToText(value, eng)), Lower(s))
  }

  /** A filter with no operator and number is a case-insensitive substring
      test on the value's text. */
  lemma UnmatchedFilterIsSubstring(value: JsValue, filter: JsValue, eng: Engine)
    requires !(IsNullish(filter) || filter == Str("")) && !(IsNullish(value) || value == Str(""))
    requires OperatorMatch(FilterText(filter, eng)).None?
    ensures CompareNumberWithOp(value, filter, eng) <==> Contains(Lower(ToText(value, eng)), Lower(FilterText(filter, eng)))
  {
  }

  /** A value that is not a number never passes an operator filter. */
  lemma NotANumberNeverMatches(value: JsValue, filter: JsValue, eng: Engine)
    requires !(IsNullish(filter) || filter == Str(""))
    requires ToNumber(value, eng).NaN?
    requires OperatorMatch(FilterText(filter, eng)).Some?
    ensures !CompareNumberWithOp(value, filter, eng)
  {
    if !(IsNullish(value) || value == Str("")) {
      var m := OperatorMatch(FilterText(filter, eng)).value;
      MatchedFilterCompares(value, filter, eng, m);
    }
  }

  lemma RunOfDigits(digits: string)
    requires AllDigits(digits)
    ensures DigitRun(digits) == |digits|
  {
  }

  /** The number after an operator is the decimal value of its digits. */
  lemma DigitsAreLeadingNumber(digits: string)
    requires |digits| > 0 && AllDigits(digits)
    ensures LeadingNumber(digits) == Some(DigitsValue(digits) as real)
  {
    RunOfDigits(digits);
    assert digits[0..] == digits;
    assert digits[0..|digits|] == digits;
  }

  /** The run of digits at the start of `ds + rest` is `ds` exactly when
      `rest` does not continue it. */
  lemma {:induction false} DigitRunStopsAt(ds: string, rest: string)
    requires AllDigits(ds)
    requires |rest| == 0 || !IsDigit(rest[0])
    ensures DigitRun(ds + rest) == |ds|
  {
    if |ds| > 0 {
      assert (ds + rest)[1..] == ds[1..] + rest;
      DigitRunStopsAt(ds[1..], rest);
    }
  }

  /** The sign group: without a '-' the number is the unsigned number, and
      a '-' negates it, so "-12" reads as -12. */
  lemma SignedValue(t: string, v: real)
    requires UnsignedNumber(t) == Some(v)
    ensures LeadingNumber(t) == Some(v)
    ensures LeadingNumber("-" + t) == Some(-v)
  {
    assert ("-" + t)[1..] == t;
  }

  /** `rest` cannot continue an integer's digits: it starts with neither a
      digit nor a '.' and a digit. */
  predicate EndsInteger(rest: string)
  {
    (|rest| == 0 || !IsDigit(rest[0])) && (|rest| < 2 || rest[0] != '.' || !IsDigit(rest[1]))
  }

  /** Digits not followed by another digit, nor by a '.' and a digit, read as
      the integer they spell. */
  lemma UnsignedInteger(ds: string, rest: string)
    requires |ds| > 0 && AllDigits(ds)
    requires EndsInteger(rest)
    ensures UnsignedNumber(ds + rest) == Some(DigitsValue(ds) as real)
  {
    var t := ds + rest;
    assert DigitRun(t) == |ds| by {
      DigitRunStopsAt(ds, rest);
    }
    assert t[..|ds|] == ds;
    assert |ds| < |t| && t[|ds|] == '.' ==> DigitRun(t[|ds| + 1..]) == 0 by {
      if |ds| < |t| && t[|ds|] == '.' {
        assert t[|ds| + 1..] == rest[1..];
      }
    }
  }

  /** The value of an unsigned number whose fraction part is present: the
      whole digits `w` before the '.' and the fraction digits `x` after it. */
  lemma UnsignedWithFraction(t: string, d: nat, f: nat, w: string, x: string)
    requires 0 < d < |t| && DigitRun(t) == d && t[d] == '.'
    requires 0 < f && DigitRun(t[d + 1..]) == f
    requires t[..d] == w && t[d + 1..][..f] == x
    ensures AllDigits(w) && AllDigits(x)
    ensures UnsignedNumber(t) == Some(DigitsValue(w) as real + FractionValue(x))
  {
  }

  /** The whole digits of `ds + "." + fs + rest` end at the '.'. */
  lemma DecimalWholeRun(ds: string, fs: string, rest: string)
    requires AllDigits(ds)
    ensures var t := ds + "." + fs + rest;
            DigitRun(t) == |ds| && t[..|ds|] == ds && t[|ds|] == '.'
  {
    var t := ds + "." + fs + rest;
    assert t == ds + ("." + fs + rest);
    DigitRunStopsAt(ds, "." + fs + rest);
  }

  /** The fraction digits of `ds + "." + fs + rest` follow the '.'. */
  lemma DecimalFractionRun(ds: string, fs: string, rest: string)
    requires AllDigits(fs)
    requires |rest| == 0 || !IsDigit(rest[0])
    ensures var t := ds + "." + fs + rest;
            DigitRun(t[|ds| + 1..]) == |fs| && t[|ds| + 1..][..|fs|] == fs
  {
    var t := ds + "." + fs + rest;
    assert t == (ds + ".") + (fs + rest);
    assert t[|ds| + 1..] == fs + rest;
    DigitRunStopsAt(fs, rest);
  }

  /** Digits, '.' and digits read as the decimal they spell. */
  lemma UnsignedDecimal(ds: string, fs: string, rest: string)
    requires |ds| > 0 && AllDigits(ds)
    requires |fs| > 0 && AllDigits(fs)
    requires |rest| == 0 || !IsDigit(rest[0])
    ensures UnsignedNumber(ds + "." + fs + rest) ==
      Some(DigitsValue(ds) as real + FractionValue(fs))
  {
    DecimalWholeRun(ds, fs, rest);
    DecimalFractionRun(ds, fs, rest);
    UnsignedWithFraction(ds + "." + fs + rest, |ds|, |fs|, ds, fs);
  }

  /** An operator's symbol followed by digits matches that operator, with
      the digits' value. */
  lemma SymbolThenDigits(op: Op, digits: string)
    requires |digits| > 0 && AllDigits(digits)
    ensures OpAt(Symbol(op) + digits, op)
    ensures MatchOp(Symbol(op) + digits, op) == Some(DigitsValue(digits) as real)
  {
    var sym := Symbol(op);
    var s := sym + digits;
    assert s[..|sym|] == sym;
    OpAtIsPrefix(s, op);
    assert s[|sym|..] == digits;
    assert Run(digits, IsSpace) == 0 by {
      assert IsDigit(digits[0]);
    }
    assert digits[0..] == digits;
    DigitsAreLeadingNumber(digits);
  }

  /** A filter that is an operator followed by digits, with no spaces,
      selects that operator: the alternatives tried before it do not occur
      at its start. */
  lemma SymbolThenDigitsSelects(op: Op, digits: string)
    requires |digits| > 0 && AllDigits(digits)
    ensures OperatorMatch(Symbol(op) + digits) == Some(OpMatch(op, DigitsValue(digits) as real))
  {
    var s := Symbol(op) + digits;
    SymbolThenDigits(op, digits);
    assert IsDigit(s[|Symbol(op)|]);
    match op
    case Le =>
    case Ge => assert !OpAt(s, Le);
    case Eq => assert !OpAt(s, Le) && !OpAt(s, Ge);
    case Lt => assert !OpAt(s, Le) && !OpAt(s, Ge) && !OpAt(s, Eq);
    case Gt => assert !OpAt(s, Le) && !OpAt(s, Ge) && !OpAt(s, Eq) && !OpAt(s, Lt);
  }

  /** Such a filter has no whitespace to trim. */
  lemma FilterTextHasNoSpace(op: Op, digits: string, eng: Engine)
    requires AllDigits(digits)
    ensures FilterText(Str(Symbol(op) + digits), eng) == Symbol(op) + digits
  {
    var s := Symbol(op) + digits;
    assert NoSpace(s) by {
      assert NoSpace(Symbol(op));
      assert NoSpace(digits) by {
        assert forall j :: 0 <= j < |digits| ==> IsDigit(digits[j]);
      }
      NoSpaceConcat(Symbol(op), digits);
    }
    StripNoSpaceIsIdentity(s);
  }

  /** A filter written as an operator followed by digits compares a numeric
      value with the number those digits spell. */
  lemma {:induction false} OperatorFilterCompares(x: real, op: Op, digits: string, eng: Engine)
    requires |digits| > 0 && AllDigits(digits)
    ensures CompareNumberWithOp(Num(x), Str(Symbol(op) + digits), eng)
            == Holds(op, x, DigitsValue(digits) as real)
  {
    OperatorFilterReadsText(Num(x), op, digits, eng);
    SymbolThenDigitsCompares(x, op, digits, eng);
  }

  /** Such a filter is tested as written, untrimmed. */
  lemma OperatorFilterReadsText(value: JsValue, op: Op, digits: string, eng: Engine)
    requires |digits| > 0 && AllDigits(digits) && !(IsNullish(value) || value == Str(""))
    ensures CompareNumberWithOp(value, Str(Symbol(op) + digits), eng) == CompareText(value, Symbol(op) + digits, eng)
  {
    FilterTextHasNoSpace(op, digits, eng);
    TrimmedFilterReadsText(value, Symbol(op) + digits, eng);
  }

  /** The text "op digits" compares a number by `op` with the digits' value. */
  lemma SymbolThenDigitsCompares(x: real, op: Op, digits: string, eng: Engine)
    requires |digits| > 0 && AllDigits(digits)
    ensures CompareText(Num(x), Symbol(op) + digits, eng) == Holds(op, x, DigitsValue(digits) as real)
  {
    SymbolThenDigitsSelects(op, digits);
    MatchedTextCompares(Num(x), Symbol(op) + digits, eng, OpMatch(op, DigitsValue(digits) as real));
  }

  /** A non-empty filter that trims to itself is tested as written. */
  lemma TrimmedFilterReadsText(value: JsValue, s: string, eng: Engine)
    requires |s| > 0 && FilterText(Str(s), eng) == s && !(IsNullish(value) || value == Str(""))
    ensures CompareNumberWithOp(value, Str(s), eng) == CompareText(value, s, eng)
  {
    assert Str(s) != Str("");
  }

  lemma MatchedTextCompares(value: JsValue, s: string, eng: Engine, m: OpMatch)
    requires OperatorMatch(s) == Some(m)
    ensures CompareText(value, s, eng) == Compare(m.op, ToNumber(value, eng), m.num)
  {
  }

  /** A matched operator decides the comparison. */
  lemma MatchedFilterCompares(value: JsValue, filter: JsValue, eng: Engine, m: OpMatch)
    requires !(IsNullish(filter) || filter == Str("")) && !(IsNullish(value) || value == Str(""))
    requires OperatorMatch(FilterText(filter, eng)) == Some(m)
    ensures CompareNumberWithOp(value, filter, eng) == Compare(m.op, ToNumber(value, eng), m.num)
  {
  }

  /** For a numeric value, "<n" and ">=n" split the values between them. */
  lemma {:induction false} LessAndAtLeastAreComplementary(x: real, digits: string, eng: Engine)
    requires |digits| > 0 && AllDigits(digits)
    ensures CompareNumberWithOp(Num(x), Str(Symbol(Ge) + digits), eng)
            != CompareNumberWithOp(Num(x), Str(Symbol(Lt) + digits), eng)
  {
    OperatorFiltersDiffer(x, Ge, Lt, digits, eng);
  }

  /** Two operator filters with the same digits disagree on a numeric value
      when their operators do. */
  lemma OperatorFiltersDiffer(x: real, op1: Op, op2: Op, digits: string, eng: Engine)
    requires |digits| > 0 && AllDigits(digits)
    requires Holds(op1, x, DigitsValue(digits) as real) != Holds(op2, x, DigitsValue(digits) as real)
    ensures CompareNumberWithOp(Num(x), Str(Symbol(op1) + digits), eng)
            != CompareNumberWithOp(Num(x), Str(Symbol(op2) + digits), eng)
  {
    OperatorFilterCompares(x, op1, digits, eng);
    OperatorFilterCompares(x, op2, digits, eng);
  }

  // ---------------------------------------------------------------------
  // filteredRows

  /** A row and the filters: JavaScript objects keyed by field name. A
      missing key reads as `undefined`. */
  type Record = Dict<string, JsValue>

  function Read(d: Record, k: string): JsValue {
    Get(d, k).GetOr(Undefined)
  }

  /** `String(v).toLowerCase()` for the filter's text. */
  function Needle(fv: JsValue, eng: Engine): string {
    Lower(ToText(fv, eng))
  }

  /** What a boolean column's cell is matched against: "yes", "no", or the
      value as text. */
  function BooleanText(rv: JsValue, eng: Engine): string {
    Lower(if rv == Bool(true) then "yes" else if rv == Bool(false) then "no" else ToText(rv, eng))
  }

  /** One field's check inside `filteredRows`. An empty filter passes. A
      date column needs a truthy value whose ISO text (the text itself for a
      "YYYY-MM-DD" string, otherwise `dateText`) equals the filter; numeric
      columns use `compareNumberWithOp`; boolean and text columns use a
      case-insensitive substring test. */
  predicate FieldMatches(row: Record, f: Fields.Field, filters: Record, eng: Engine, dateText: JsValue -> string) {
    var fv := Read(filters, f.name);
    var rv := Read(row, f.name);
    if IsNullish(fv) || fv == Str("") then true
    else if f.ftype == "date" then
      Truthy(rv) && fv == Str(if rv.Str? && Fields.IsIsoDate(rv.s) then rv.s else dateText(rv))
    else if f.ftype == "integer" || f.ftype == "number" then CompareNumberWithOp(rv, fv, eng)
    else if f.ftype == "boolean" then Contains(BooleanText(rv, eng), Needle(fv, eng))
    else Contains(Lower(if IsNullish(rv) then "" else ToText(rv, eng)), Needle(fv, eng))
  }

  /** `fields.every(...)` */
  predicate RowMatches(row: Record, fields: seq<Fields.Field>, filters: Record, eng: Engine, dateText: JsValue -> string) {
    forall i :: 0 <= i < |fields| ==> FieldMatches(row, fields[i], filters, eng, dateText)
  }

  /** The row test `rows.filter` applies. */
  function Matcher(fields: seq<Fields.Field>, filters: Record, eng: Engine, dateText: JsValue -> string): Record -> bool {
    row => RowMatches(row, fields, filters, eng, dateText)
  }

  /** `rows.filter(...)`: the matching rows, in their order, each as often
      as it occurs. */
  function KeepMatching(rows: seq<Record>, fields: seq<Fields.Field>, filters: Record, eng: Engine, dateText: JsValue -> string): (r: seq<Record>)
    ensures |r| <= |rows|
    ensures forall row :: row in r <==> row in rows && RowMatches(row, fields, filters, eng, dateText)
    ensures forall row :: multiset(r)[row] == if RowMatches(row, fields, filters, eng, dateText) then multiset(rows)[row] else 0
  {
    var m := Matcher(fields, filters, eng, dateText);
    Seqs.FilterCounts(rows, m);
    Seqs.FilterMembers(rows, m);
    Seqs.Filter(rows, m)
  }

  /** Filtering a list split in two filters each part and keeps them in that
      order, so the kept rows keep their relative order. */
  lemma KeepMatchingConcat(a: seq<Record>, b: seq<Record>, fields: seq<Fields.Field>, filters: Record, eng: Engine, dateText: JsValue -> string)
    ensures KeepMatching(a + b, fields, filters, eng, dateText)
            == KeepMatching(a, fields, filters, eng, dateText) + KeepMatching(b, fields, filters, eng, dateText)
  {
    Seqs.FilterConcat(a, b, Matcher(fields, filters, eng, dateText));
  }

  /** `Object.values(filters).every((v) => !v)` */
  predicate NoActiveFilter(filters: Record) {
    forall i :: 0 <= i < |filters| ==> !Truthy(filters[i].1)
  }

  /** `filteredRows`: every row while no filter value is truthy; otherwise
      exactly the rows every field's filter accepts. */
  function FilteredRows(rows: seq<Record>, fields: seq<Fields.Field>, filters: Record, eng: Engine, dateText: JsValue -> string): (r: seq<Record>)
    ensures NoActiveFilter(filters) ==> r == rows
    ensures !NoActiveFilter(filters) ==>
      forall row :: row in r <==> row in rows && RowMatches(row, fields, filters, eng, dateText)
    ensures !NoActiveFilter(filters) ==> r == KeepMatching(rows, fields, filters, eng, dateText)
    ensures |r| <= |rows|
  {
    if NoActiveFilter(filters) then rows else KeepMatching(rows, fields, filters, eng, dateText)
  }

  /** `KeepMatching` keeps every row when every row matches. */
  lemma KeepMatchingAll(rows: seq<Record>, fields: seq<Fields.Field>, filters: Record, eng: Engine, dateText: JsValue -> string)
    requires forall i :: 0 <= i < |rows| ==> RowMatches(rows[i], fields, filters, eng, dateText)
    ensures KeepMatching(rows, fields, filters, eng, dateText) == rows
  {
    Seqs.FilterAll(rows, Matcher(fields, filters, eng, dateText));
  }

  /** The shortcut for inactive filters changes nothing when every filter
      value is null, undefined or "" (the state the filter inputs leave):
      each field's check passes anyway. */
  lemma ShortcutAgreesWithFilter(rows: seq<Record>, fields: seq<Fields.Field>, filters: Record, eng: Engine, dateText: JsValue -> string)
    requires forall i :: 0 <= i < |filters| ==> IsNullish(filters[i].1) || filters[i].1 == Str("")
    ensures FilteredRows(rows, fields, filters, eng, dateText) == KeepMatching(rows, fields, filters, eng, dateText)
  {
    forall row, f | true
      ensures FieldMatches(row, f, filters, eng, dateText)
    {
      if f.name in KeysOf(filters) {
        var i := Seqs.IndexOf(KeysOf(filters), f.name);
        assert Get(filters, f.name) == Some(filters[i].1);
      }
    }
    KeepMatchingAll(rows, fields, filters, eng, dateText);
  }
}

=== FILE: price_loader.dfy ===
/** The security price CSV loader, `load_security_prices_from_file`: header
    matching, sentinel-aware number parsing, row classification, and the
    de-duplication by natural key that decides what is handed to the price
    store. Python's `float()` and `datetime.strptime` are parameters. */
module PriceLoader {
  import opened Results
  import Text
  import Dates
  import Money
  import opened Dicts
  import Securities
  import SecurityPrices

  /** `DEFAULT_PRICE_SOURCE_ID` (Yahoo Finance). */
  const DefaultPriceSourceId: int := 1759649078984028

  /** `_normalize_header`: `None` reads as empty; then strip, lower-case, and
      turn every space into an underscore. */
  function NormalizeHeader(h: Option<string>): string {
    Underscored(Text.Strip(h.GetOr("")))
  }

  /** A normalised header has no spaces, no upper-case letters and no
      surrounding whitespace, and is empty exactly when the header is
      missing or blank. */
  lemma NormalizeHeaderShape(h: Option<string>)
    ensures var r := NormalizeHeader(h);
            ' ' !in r
            && (forall i :: 0 <= i < |r| ==> !('A' <= r[i] <= 'Z'))
            && (|r| == 0 || (!Text.IsSpace(r[0]) && !Text.IsSpace(r[|r| - 1])))
            && (|r| == 0 <==> Text.Blank(h.GetOr("")))
  {
    var t := Text.Strip(h.GetOr(""));
    assert NormalizeHeader(h) == Underscored(t);
    UnderscoredShape(t);
  }

  /** Lower-cased with every space turned into an underscore. */
  function Underscored(t: string): string {
    Text.ReplaceChar(Text.Lower(t), ' ', '_')
  }

  lemma UnderscoredShape(t: string)
    requires |t| == 0 || (!Text.IsSpace(t[0]) && !Text.IsSpace(t[|t| - 1]))
    ensures var r := Underscored(t);
            |r| == |t|
            && ' ' !in r
            && (forall i :: 0 <= i < |r| ==> !('A' <= r[i] <= 'Z'))
            && (|r| == 0 || (!Text.IsSpace(r[0]) && !Text.IsSpace(r[|r| - 1])))
  {
    var l := Text.Lower(t);
    var r := Text.ReplaceChar(l, ' ', '_');
    assert forall i :: 0 <= i < |r| ==> r[i] != ' ' && !('A' <= r[i] <= 'Z') by {
      forall i | 0 <= i < |r|
        ensures r[i] != ' ' && !('A' <= r[i] <= 'Z')
      {
        Text.LowerCharShape(t[i]);
      }
    }
    if |r| > 0 {
      assert !Text.IsSpace(r[0]) by {
        Text.LowerCharShape(t[0]);
      }
      assert !Text.IsSpace(r[|r| - 1]) by {
        Text.LowerCharShape(t[|t| - 1]);
      }
    }
  }

  /** A normalised header normalises to itself. */
  lemma NormalizeHeaderIdempotent(h: Option<string>)
    ensures NormalizeHeader(Some(NormalizeHeader(h))) == NormalizeHeader(h)
  {
    var r := NormalizeHeader(h);
    NormalizeHeaderShape(h);
    calc {
      NormalizeHeader(Some(r));
      Text.ReplaceChar(Text.Lower(Text.Strip(r)), ' ', '_');
      { Text.StripTrimmedIsIdentity(r); }
      Text.ReplaceChar(Text.Lower(r), ' ', '_');
      { Text.LowerOfNoUpper(r); }
      Text.ReplaceChar(r, ' ', '_');
      { Text.ReplaceAbsentChar(r, ' ', '_'); }
      r;
    }
  }

  /** A `csv.DictReader` row: (header, cell) pairs in header order. A line
      shorter than the header leaves its missing cells `None`. */
  type Row = seq<(string, Option<string>)>

  /** The row's column `i` has a header that normalises like `key`. */
  predicate HeaderMatches(row: Row, i: nat, key: string)
    requires i < |row|
  {
    NormalizeHeader(Some(row[i].0)) == NormalizeHeader(Some(key))
  }

  /** `normalized.get(_normalize_header(k))` for the dictionary
      `{_normalize_header(k): v for k, v in row.items()}`: a later column whose
      header normalises alike overwrites an earlier one, so the last such
      column is read; a `None` cell reads as absent. */
  function Lookup(row: Row, key: string): Option<string>
  {
    LookupBy(row, h => NormalizeHeader(Some(h)) == NormalizeHeader(Some(key)))
  }

  /** The last cell whose header satisfies `m`, if any. */
  function LookupBy(row: Row, m: string -> bool): Option<string>
    decreases |row|
  {
    if |row| == 0 then None
    else
      var n := |row| - 1;
      if m(row[n].0) then row[n].1
      else LookupBy(row[..n], m)
  }

  /** When several headers normalise alike, the last of those columns is the
      one read; when none does, nothing is. */
  lemma LookupReadsLastMatchingColumn(row: Row, key: string)
    ensures (forall i :: 0 <= i < |row| ==> !HeaderMatches(row, i, key)) ==> Lookup(row, key).None?
    ensures forall i :: 0 <= i < |row| && HeaderMatches(row, i, key)
              && (forall j :: i < j < |row| ==> !HeaderMatches(row, j, key))
              ==> Lookup(row, key) == row[i].1
  {
    var m := h => NormalizeHeader(Some(h)) == NormalizeHeader(Some(key));
    assert forall i :: 0 <= i < |row| ==> HeaderMatches(row, i, key) == m(row[i].0);
    if forall i :: 0 <= i < |row| ==> !HeaderMatches(row, i, key) {
      LookupByWithoutMatch(row, m);
    }
    forall i | 0 <= i < |row| && HeaderMatches(row, i, key)
               && (forall j :: i < j < |row| ==> !HeaderMatches(row, j, key))
      ensures Lookup(row, key) == row[i].1
    {
      LookupByLastMatch(row, m, i);
    }
  }

  /** A key no header matches reads nothing. */
  lemma {:induction false} LookupByWithoutMatch(row: Row, m: string -> bool)
    requires forall i :: 0 <= i < |row| ==> !m(row[i].0)
    ensures LookupBy(row, m).None?
    decreases |row|
  {
    if |row| > 0 {
      var n := |row| - 1;
      assert forall i :: 0 <= i < n ==> row[..n][i] == row[i];
      LookupByWithoutMatch(row[..n], m);
    }
  }

  /** The last column whose header matches is the one read. */
  lemma {:induction false} LookupByLastMatch(row: Row, m: string -> bool, i: nat)
    requires i < |row| && m(row[i].0)
    requires forall j :: i < j < |row| ==> !m(row[j].0)
    ensures LookupBy(row, m) == row[i].1
    decreases |row|
  {
    var n := |row| - 1;
    if i < n {
      assert forall j :: i < j < n ==> row[..n][j] == row[j];
      LookupByLastMatch(row[..n], m, i);
    }
  }

  /** The first value present, or the empty string when there is none. */
  function FirstPresent(cs: seq<Option<string>>): (r: string)
    ensures (forall i :: 0 <= i < |cs| ==> cs[i].None?) ==> r == ""
    ensures forall i :: 0 <= i < |cs| && cs[i].Some? && (forall j :: 0 <= j < i ==> cs[j].None?)
              ==> r == cs[i].value
  {
    if |cs| == 0 then ""
    else if cs[0].Some? then cs[0].value
    else
      var r := FirstPresent(cs[1..]);
      assert forall i :: 1 <= i < |cs| ==> cs[1..][i - 1] == cs[i];
      r
  }

  /** `_get_row_val`: the value found under the first key that yields one,
      else the empty string. */
  function GetRowVal(row: Row, keys: seq<string>): (r: string)
    ensures (forall i :: 0 <= i < |keys| ==> Lookup(row, keys[i]).None?) ==> r == ""
    ensures forall i :: 0 <= i < |keys| && Lookup(row, keys[i]).Some?
              && (forall j :: 0 <= j < i ==> Lookup(row, keys[j]).None?)
              ==> r == Lookup(row, keys[i]).value
  {
    var cs := seq(|keys|, i requires 0 <= i < |keys| => Lookup(row, keys[i]));
    assert forall i :: 0 <= i < |keys| ==> cs[i] == Lookup(row, keys[i]);
    FirstPresent(cs)
  }

  /** The cells `_parse_float` reads as missing, compared lower-cased. */
  const NullTokens: set<string> := {"nan", "na", "null", "none"}

  /** `_parse_float`: blank text and the null tokens (in any case) give
      `None`; otherwise Python's `float()`, the parameter `toFloat`, reads the
      stripped text with every thousands separator removed. */
  function ParseFloat(s: string, toFloat: string -> Option<real>): (r: Option<real>)
    ensures Text.Blank(s) ==> r.None?
    ensures Text.Lower(Text.Strip(s)) in NullTokens ==> r.None?
    ensures !Text.Blank(s) && Text.Lower(Text.Strip(s)) !in NullTokens
            ==> r == toFloat(Text.RemoveChar(Text.Strip(s), ','))
  {
    var t := Text.Strip(s);
    if |t| == 0 || Text.Lower(t) in NullTokens then None
    else toFloat(Text.RemoveChar(t, ','))
  }

  /** Volume and adjusted close are kept only when they are whole numbers. */
  function WholeOrNone(v: Option<real>): (r: Option<real>)
    ensures r.Some? <==> v.Some? && Money.IsInt(v.value)
    ensures r.Some? ==> r == v
  {
    if v.Some? && !Money.IsInt(v.value) then None else v
  }

  /** The `strptime` formats `_parse_date` tries, in order: `%Y-%m-%d`,
      `%Y-%m-%d %H:%M:%S`, `%m/%d/%Y`, `%Y/%m/%d`, `%d-%b-%Y`. */
  datatype DateFormat = YmdDash | YmdDashTime | MdySlash | YmdSlash | DayMonthYear

  const DateFormats: seq<DateFormat> := [YmdDash, YmdDashTime, MdySlash, YmdSlash, DayMonthYear]

  /** The result of the first format that parses `t`. */
  function FirstParse(t: string, fmts: seq<DateFormat>, strptime: (string, DateFormat) -> Option<Dates.Date>): (r: Option<Dates.Date>)
    ensures r.None? <==> forall i :: 0 <= i < |fmts| ==> strptime(t, fmts[i]).None?
    ensures r.Some? ==> exists i :: 0 <= i < |fmts| && r == strptime(t, fmts[i])
                                    && forall j :: 0 <= j < i ==> strptime(t, fmts[j]).None?
  {
    if |fmts| == 0 then None
    else
      match strptime(t, fmts[0])
      case Some(d) => Some(d)
      case None =>
        var r := FirstParse(t, fmts[1..], strptime);
        assert forall i :: 1 <= i < |fmts| ==> fmts[1..][i - 1] == fmts[i];
        r
  }

  /** At most the first ten characters (`s[:10]`). */
  function Prefix10(s: string): (r: string)
    ensures |r| <= 10 && |r| <= |s| && r == s[..|r|]
    ensures |s| >= 10 ==> |r| == 10
    ensures |s| < 10 ==> r == s
  {
    if |s| < 10 then s else s[..10]
  }

  /** `_parse_date`: blank text gives `None`; otherwise the first format that
      parses the stripped text wins, and failing all of them the first ten
      characters are tried as `%Y-%m-%d`. */
  function ParseDate(s: string, strptime: (string, DateFormat) -> Option<Dates.Date>): (r: Option<Dates.Date>)
    ensures Text.Blank(s) ==> r.None?
    ensures !Text.Blank(s) && FirstParse(Text.Strip(s), DateFormats, strptime).Some?
            ==> r == FirstParse(Text.Strip(s), DateFormats, strptime)
    ensures !Text.Blank(s) && FirstParse(Text.Strip(s), DateFormats, strptime).None?
            ==> r == strptime(Prefix10(Text.Strip(s)), YmdDash)
  {
    var t := Text.Strip(s);
    if |t| == 0 then None
    else
      match FirstParse(t, DateFormats, strptime)
      case Some(d) => Some(d)
      case None => strptime(Prefix10(t), YmdDash)
  }

  /** `(ticker or "").upper().strip()` */
  function TickerKey(t: string): string {
    Text.Strip(Text.Upper(t))
  }

  /** A security `_load_ticker_map` keeps: public unless private ones are
      included (`list_all_public` filters on `is_private = False`), and with a
      non-blank ticker. */
  predicate Eligible(s: Securities.Security, includePrivate: bool) {
    (includePrivate || !s.isPrivate) && |TickerKey(s.ticker)| > 0
  }

  /** The assignments `out[t] = s` that `_load_ticker_map` performs, in order:
      one per eligible security, keyed by its upper-cased, stripped ticker. */
  function TickerEntries(securities: seq<Securities.Security>, includePrivate: bool): (es: seq<(string, Securities.Security)>)
    ensures |es| <= |securities|
    decreases |securities|
  {
    if |securities| == 0 then []
    else
      var n := |securities| - 1;
      var es := TickerEntries(securities[..n], includePrivate);
      var s := securities[n];
      if Eligible(s, includePrivate) then es + [(TickerKey(s.ticker), s)] else es
  }

  /** Every entry is an eligible security under its key, and every eligible
      security has its entry. */
  lemma {:induction false} TickerEntriesMembers(securities: seq<Securities.Security>, includePrivate: bool)
    ensures forall e :: e in TickerEntries(securities, includePrivate) ==>
              e.0 == TickerKey(e.1.ticker) && Eligible(e.1, includePrivate) && e.1 in securities
    ensures forall s :: s in securities && Eligible(s, includePrivate) ==> (TickerKey(s.ticker), s) in TickerEntries(securities, includePrivate)
    decreases |securities|
  {
    TickerEntriesSound(securities, includePrivate);
    TickerEntriesComplete(securities, includePrivate);
  }

  lemma {:induction false} TickerEntriesSound(securities: seq<Securities.Security>, includePrivate: bool)
    ensures forall e :: e in TickerEntries(securities, includePrivate) ==>
              e.0 == TickerKey(e.1.ticker) && Eligible(e.1, includePrivate) && e.1 in securities
    decreases |securities|
  {
    if |securities| > 0 {
      var n := |securities| - 1;
      TickerEntriesSound(securities[..n], includePrivate);
      assert forall x :: x in securities[..n] ==> x in securities;
    }
  }

  lemma {:induction false} TickerEntriesComplete(securities: seq<Securities.Security>, includePrivate: bool)
    ensures forall s :: s in securities && Eligible(s, includePrivate) ==> (TickerKey(s.ticker), s) in TickerEntries(securities, includePrivate)
    decreases |securities|
  {
    if |securities| > 0 {
      var n := |securities| - 1;
      TickerEntriesComplete(securities[..n], includePrivate);
      assert forall x :: x in securities ==> x in securities[..n] || x == securities[n] by {
        Seqs.FrontThenLast(securities);
      }
    }
  }

  /** `_load_ticker_map`: the dictionary those assignments build. */
  function TickerMap(securities: seq<Securities.Security>, includePrivate: bool): Dict<string, Securities.Security> {
    FromPairs(TickerEntries(securities, includePrivate))
  }

  /** Each ticker maps to the last eligible security carrying it. */
  lemma TickerMapLastWins(securities: seq<Securities.Security>, includePrivate: bool, t: string)
    ensures Get(TickerMap(securities, includePrivate), t) == LastValue(TickerEntries(securities, includePrivate), t)
    ensures Get(TickerMap(securities, includePrivate), t).Some? ==>
      var s := Get(TickerMap(securities, includePrivate), t).value;
      TickerKey(s.ticker) == t && Eligible(s, includePrivate) && s in securities
  {
    FromPairsGet(TickerEntries(securities, includePrivate), t);
    TickerEntriesMembers(securities, includePrivate);
  }

  /** Every eligible security's ticker is in the map. */
  lemma TickerMapHasEveryTicker(securities: seq<Securities.Security>, includePrivate: bool, s: Securities.Security)
    requires s in securities && Eligible(s, includePrivate)
    ensures Get(TickerMap(securities, includePrivate), TickerKey(s.ticker)).Some?
  {
    var es := TickerEntries(securities, includePrivate);
    TickerEntriesMembers(securities, includePrivate);
    assert (TickerKey(s.ticker), s) in es;
    FromPairsGet(es, TickerKey(s.ticker));
  }

  /** The options of `load_security_prices_from_file`. */
  datatype LoadOptions = LoadOptions(sourceId: int, defaultCurrency: string, notes: Option<string>, includePrivate: bool)

  /** `float()` and `strptime`, which the model does not define. */
  datatype Parsers = Parsers(toFloat: string -> Option<real>, strptime: (string, DateFormat) -> Option<Dates.Date>)

  /** The `SecurityPriceDtlInput` built for an accepted row. */
  datatype LoadedPrice = LoadedPrice(
    securityId: int, sourceId: int, date: Dates.Date, price: real,
    openPx: Option<real>, closePx: real, highPx: Option<real>, lowPx: Option<real>,
    adjClosePx: Option<real>, volume: Option<real>,
    marketCap: real, notes: Option<string>, currency: string)

  /** What happens to one data row: skipped as bad data (its line number and
      the raw date and ticker go into the report), skipped for an unknown
      ticker, or accepted under its natural key. */
  datatype Outcome =
    | BadData(line: int, rawDate: string, ticker: string)
    | UnknownTicker(ticker: string)
    | Accepted(key: SecurityPrices.NaturalKey, price: LoadedPrice)

  function RawDate(row: Row): string {
    GetRowVal(row, ["date", "price_date"])
  }

  function RowTicker(row: Row): string {
    TickerKey(GetRowVal(row, ["ticker", "symbol"]))
  }

  function RowClose(row: Row, p: Parsers): Option<real> {
    ParseFloat(GetRowVal(row, ["close", "close_px"]), p.toFloat)
  }

  /** The price currency: the security's own when it is non-empty, else the
      default, upper-cased either way. */
  function PriceCurrency(sec: Securities.Security, default: string): (c: string)
    ensures |sec.currency| > 0 ==> c == Text.Upper(sec.currency)
    ensures |sec.currency| == 0 ==> c == Text.Upper(default)
  {
    Text.Upper(if |sec.currency| > 0 then sec.currency else default)
  }

  /** The body of the loader's row loop. */
  function ReadRow(row: Row, line: int, tickers: Dict<string, Securities.Security>, opts: LoadOptions, p: Parsers): (o: Outcome)
    ensures o.BadData? <==> ParseDate(RawDate(row), p.strptime).None? || |RowTicker(row)| == 0 || RowClose(row, p).None?
    ensures o.BadData? ==> o == BadData(line, RawDate(row), RowTicker(row))
    ensures o.UnknownTicker? <==> !o.BadData? && Get(tickers, RowTicker(row)).None?
    ensures o.UnknownTicker? ==> o.ticker == RowTicker(row)
    ensures o.Accepted? ==>
      var sec := Get(tickers, RowTicker(row)).value;
      o.key == SecurityPrices.NaturalKey(sec.id, opts.sourceId, o.price.date)
      && o.price.securityId == sec.id && o.price.sourceId == opts.sourceId
      && Some(o.price.date) == ParseDate(RawDate(row), p.strptime)
      && Some(o.price.closePx) == RowClose(row, p) && o.price.price == o.price.closePx
      && o.price.currency == PriceCurrency(sec, opts.defaultCurrency)
      && o.price.marketCap == 0.0 && o.price.notes == opts.notes
      && (o.price.volume.Some? ==> Money.IsInt(o.price.volume.value))
      && (o.price.adjClosePx.Some? ==> Money.IsInt(o.price.adjClosePx.value))
  {
    var dtStr := RawDate(row);
    var ticker := RowTicker(row);
    var openPx := ParseFloat(GetRowVal(row, ["open", "open_px"]), p.toFloat);
    var highPx := ParseFloat(GetRowVal(row, ["high", "high_px"]), p.toFloat);
    var lowPx := ParseFloat(GetRowVal(row, ["low", "low_px"]), p.toFloat);
    var closePx := RowClose(row, p);
    var adjClose := WholeOrNone(ParseFloat(GetRowVal(row, ["adj_close", "adj close", "adj_close_px"]), p.toFloat));
    var volume := WholeOrNone(ParseFloat(GetRowVal(row, ["volume"]), p.toFloat));
    var d := ParseDate(dtStr, p.strptime);
    if d.None? || |ticker| == 0 || closePx.None? then BadData(line, dtStr, ticker)
    else if Get(tickers, ticker).None? then UnknownTicker(ticker)
    else
      var sec := Get(tickers, ticker).value;
      var price := LoadedPrice(sec.id, opts.sourceId, d.value, closePx.value, openPx, closePx.value, highPx, lowPx,
                               adjClose, volume, 0.0, opts.notes, PriceCurrency(sec, opts.defaultCurrency));
      Accepted(SecurityPrices.NaturalKey(sec.id, opts.sourceId, d.value), price)
  }

  /** The accepted (key, price) pairs, in row order. */
  function AcceptedPairs(os: seq<Outcome>): (ps: seq<(SecurityPrices.NaturalKey, LoadedPrice)>)
    ensures |ps| <= |os|
    ensures |ps| == 0 <==> forall i :: 0 <= i < |os| ==> !os[i].Accepted?
    decreases |os|
  {
    if |os| == 0 then []
    else
      var n := |os| - 1;
      var pre := AcceptedPairs(os[..n]);
      assert forall i :: 0 <= i < n ==> os[..n][i] == os[i];
      match os[n]
      case Accepted(k, v) => pre + [(k, v)]
      case _ => pre
  }

  /** The tickers of the rows skipped as unknown, in row order. */
  function UnknownTickers(os: seq<Outcome>): (ts: seq<string>)
    ensures |ts| <= |os|
    ensures forall i :: 0 <= i < |os| && os[i].UnknownTicker? ==> os[i].ticker in ts
    decreases |os|
  {
    if |os| == 0 then []
    else
      var n := |os| - 1;
      var pre := UnknownTickers(os[..n]);
      assert forall i :: 0 <= i < n ==> os[..n][i] == os[i];
      match os[n]
      case UnknownTicker(x) => pre + [x]
      case _ => pre
  }

  /** The loop's running state: rows read, rows prepared, the unknown
      tickers and bad rows met, and `inputs_by_key`. */
  datatype Tally = Tally(
    read: nat, prepared: nat, unknown: seq<string>, bad: seq<Outcome>,
    byKey: Dict<SecurityPrices.NaturalKey, LoadedPrice>)

  /** The row loop over the classified rows. Each row lands in exactly one of
      the three buckets; `prepared` counts every accepted row, duplicates
      included, while `inputs_by_key` keeps one price per natural key. */
  function TallyOf(os: seq<Outcome>): (t: Tally)
    ensures t.read == |os|
    ensures t.read == t.prepared + |t.unknown| + |t.bad|
    ensures forall i :: 0 <= i < |t.bad| ==> t.bad[i].BadData?
    ensures t.unknown == UnknownTickers(os)
    ensures t.prepared == |AcceptedPairs(os)|
    ensures t.byKey == FromPairs(AcceptedPairs(os))
    decreases |os|
  {
    if |os| == 0 then Tally(0, 0, [], [], [])
    else
      var n := |os| - 1;
      var t := TallyOf(os[..n]);
      AcceptedPairsSnoc(os);
      UnknownTickersSnoc(os);
      match os[n]
      case BadData(_, _, _) =>
        t.(read := t.read + 1, bad := t.bad + [os[n]])
      case UnknownTicker(x) =>
        t.(read := t.read + 1, unknown := t.unknown + [x])
      case Accepted(k, v) =>
        FromPairsSnoc(AcceptedPairs(os[..n]), k, v);
        t.(read := t.read + 1, prepared := t.prepared + 1, byKey := Put(t.byKey, k, v))
  }

  /** One more row adds its pair to the accepted pairs exactly when it was accepted. */
  lemma AcceptedPairsSnoc(os: seq<Outcome>)
    requires |os| > 0
    ensures var n := |os| - 1;
            AcceptedPairs(os) == if os[n].Accepted? then AcceptedPairs(os[..n]) + [(os[n].key, os[n].price)]
                                 else AcceptedPairs(os[..n])
  {
  }

  /** One more row adds its ticker to the unknown ones exactly when it was unknown. */
  lemma UnknownTickersSnoc(os: seq<Outcome>)
    requires |os| > 0
    ensures var n := |os| - 1;
            UnknownTickers(os) == if os[n].UnknownTicker? then UnknownTickers(os[..n]) + [os[n].ticker]
                                  else UnknownTickers(os[..n])
  {
  }

  /** Building from one more pair puts that pair last. */
  lemma FromPairsSnoc<K(!new), V>(ps: seq<(K, V)>, k: K, v: V)
    ensures FromPairs(ps + [(k, v)]) == Put(FromPairs(ps), k, v)
  {
    assert (ps + [(k, v)])[..|ps|] == ps;
  }

  /** De-duplication keeps, for every natural key, the price of the last
      accepted row with that key, and lists the keys in the order of their
      first accepted row; there are never more prices than prepared rows. */
  lemma DedupKeepsLastInFirstOrder(os: seq<Outcome>, k: SecurityPrices.NaturalKey)
    ensures Get(TallyOf(os).byKey, k) == LastValue(AcceptedPairs(os), k)
    ensures KeysOf(TallyOf(os).byKey) == FirstSeen(KeysOf(AcceptedPairs(os)))
    ensures |TallyOf(os).byKey| <= TallyOf(os).prepared
  {
    FromPairsGet(AcceptedPairs(os), k);
    FromPairsKeys(AcceptedPairs(os));
    FirstSeenNoLonger(KeysOf(AcceptedPairs(os)));
  }

  /** Deduplication never adds prices. */
  lemma DedupNoLarger(os: seq<Outcome>)
    ensures |TallyOf(os).byKey| <= TallyOf(os).prepared
  {
    DedupKeepsLastInFirstOrder(os, SecurityPrices.NaturalKey(0, 0, Dates.Date(0, 0, 0)));
  }

  lemma {:induction false} FirstSeenNoLonger<K(!new)>(ks: seq<K>)
    ensures |FirstSeen(ks)| <= |ks|
    decreases |ks|
  {
    if |ks| > 0 {
      FirstSeenNoLonger(ks[..|ks| - 1]);
    }
  }

  /** Two accepted rows for the same security and date: both are prepared,
      one price is kept, and it is the second. */
  lemma DuplicateRowsKeepSecond(k: SecurityPrices.NaturalKey, a: LoadedPrice, b: LoadedPrice)
    ensures TallyOf([Accepted(k, a), Accepted(k, b)]).prepared == 2
    ensures TallyOf([Accepted(k, a), Accepted(k, b)]).byKey == [(k, b)]
  {
    var os := [Accepted(k, a), Accepted(k, b)];
    assert AcceptedPairs(os) == [(k, a), (k, b)] by {
      assert os[..1] == [Accepted(k, a)];
      assert os[..1][..0] == [];
      assert AcceptedPairs(os[..1]) == [(k, a)];
    }
    var ps := [(k, a), (k, b)];
    assert FromPairs(ps) == [(k, b)] by {
      assert ps[..1] == [(k, a)];
      assert ps[..1][..0] == [];
      assert FromPairs(ps[..1]) == [(k, a)];
      assert KeysOf([(k, a)]) == [k];
    }
  }

  /** Every data row, classified; data lines are numbered from 2. */
  function Classify(rows: seq<Row>, tickers: Dict<string, Securities.Security>, opts: LoadOptions, p: Parsers): (os: seq<Outcome>)
    ensures |os| == |rows|
  {
    seq(|rows|, i requires 0 <= i < |rows| => ReadRow(rows[i], i + 2, tickers, opts, p))
  }

  /** The key of a loaded price. */
  function PriceKey(lp: LoadedPrice): SecurityPrices.NaturalKey {
    SecurityPrices.NaturalKey(lp.securityId, lp.sourceId, lp.date)
  }

  /** The columns the price store's `save` writes. */
  function ToPriceInput(lp: LoadedPrice): (item: SecurityPrices.PriceInput)
    ensures SecurityPrices.InputKey(item) == PriceKey(lp)
  {
    SecurityPrices.PriceInput(lp.securityId, lp.sourceId, lp.date, lp.price, lp.marketCap, lp.notes, lp.currency)
  }

  function ToPriceInputs(lps: seq<LoadedPrice>): (items: seq<SecurityPrices.PriceInput>)
    ensures |items| == |lps|
    ensures forall i :: 0 <= i < |lps| ==> items[i] == ToPriceInput(lps[i])
  {
    seq(|lps|, i requires 0 <= i < |lps| => ToPriceInput(lps[i]))
  }

  /** Why the summary looks the way it does. */
  datatype Status = MissingHeaders | NoValidRows | Upserted

  /** The summary dictionary. The unknown tickers are reported as a set. */
  datatype Summary = Summary(
    status: Status, read: nat, prepared: nat, total: nat, inserted: nat, updated: nat,
    unknownTickers: set<string>, badData: seq<Outcome>)

  /** At most the first twenty entries (`xs[:20]`). */
  function First20<T>(xs: seq<T>): (r: seq<T>)
    ensures |r| <= 20 && |r| <= |xs| && r == xs[..|r|]
    ensures |xs| <= 20 ==> r == xs
  {
    if |xs| <= 20 then xs else xs[..20]
  }

  /** `load_security_prices_from_file` on a parsed file: the header line and
      the data rows. `SecurityPriceCRUD` defines no `batch_upsert`, so the
      batch call raises and the fallback saves the prices one by one with
      `save`; every save is counted as an insert. */
  function Load(header: seq<string>, rows: seq<Row>, securities: seq<Securities.Security>,
                opts: LoadOptions, p: Parsers,
                store: SecurityPrices.PriceStore, idAt: nat -> int, nowAt: nat -> int): (r: (SecurityPrices.PriceStore, Summary))
    ensures |header| == 0 ==> r == (store, Summary(MissingHeaders, 0, 0, 0, 0, 0, {}, []))
    ensures |header| > 0 ==> r.1.read == |rows|
    ensures r.1.status != Upserted ==> r.0 == store && r.1.prepared == 0 && r.1.total == 0 && r.1.inserted == 0 && r.1.updated == 0
    ensures r.1.status == Upserted ==> 0 < r.1.total == r.1.inserted <= r.1.prepared <= r.1.read && r.1.updated == 0
    ensures r.1.status == Upserted ==> |r.1.badData| <= 20
    ensures forall i :: 0 <= i < |r.1.badData| ==> r.1.badData[i].BadData?
  {
    if |header| == 0 then (store, Summary(MissingHeaders, 0, 0, 0, 0, 0, {}, []))
    else
      var os := Classify(rows, TickerMap(securities, opts.includePrivate), opts, p);
      DedupNoLarger(os);
      Report(TallyOf(os), store, idAt, nowAt)
  }

  /** The end of the load once the rows are tallied: nothing is written when
      no price survived, otherwise the deduplicated prices are saved. */
  function Report(t: Tally, store: SecurityPrices.PriceStore, idAt: nat -> int, nowAt: nat -> int): (r: (SecurityPrices.PriceStore, Summary))
    requires |t.byKey| <= t.prepared <= t.read
    requires forall i :: 0 <= i < |t.bad| ==> t.bad[i].BadData?
    ensures r.1.read == t.read
    ensures r.1.status != Upserted ==> r.0 == store && r.1.prepared == 0 && r.1.total == 0 && r.1.inserted == 0 && r.1.updated == 0
    ensures r.1.status == Upserted ==> 0 < r.1.total == r.1.inserted <= r.1.prepared <= r.1.read && r.1.updated == 0
    ensures r.1.status == Upserted ==> |r.1.badData| <= 20
    ensures r.1.status == Upserted <==> |t.byKey| > 0
    ensures forall i :: 0 <= i < |r.1.badData| ==> r.1.badData[i].BadData?
  {
    var inputs := ValuesOf(t.byKey);
    var unknown := set x | x in t.unknown;
    if |inputs| == 0 then (store, Summary(NoValidRows, t.read, 0, 0, 0, 0, unknown, t.bad))
    else
      var saved := SecurityPrices.SaveMany(store, ToPriceInputs(inputs), idAt, nowAt);
      (saved.0, Summary(Upserted, t.read, t.prepared, |inputs|, |inputs|, 0, unknown, First20(t.bad)))
  }

  /** The store is written exactly when some row is accepted. */
  lemma LoadUpsertsIffSomeRowAccepted(header: seq<string>, rows: seq<Row>, securities: seq<Securities.Security>,
                                      opts: LoadOptions, p: Parsers,
                                      store: SecurityPrices.PriceStore, idAt: nat -> int, nowAt: nat -> int)
    requires |header| > 0
    ensures Load(header, rows, securities, opts, p, store, idAt, nowAt).1.status == Upserted
            <==> exists i :: 0 <= i < |rows| && Classify(rows, TickerMap(securities, opts.includePrivate), opts, p)[i].Accepted?
  {
    var tickers := TickerMap(securities, opts.includePrivate);
    var os := Classify(rows, tickers, opts, p);
    var t := TallyOf(os);
    var ps := AcceptedPairs(os);
    assert Load(header, rows, securities, opts, p, store, idAt, nowAt).1.status == Upserted <==> |ValuesOf(t.byKey)| > 0;
    if |ps| > 0 {
      FromPairsGet(ps, ps[0].0);
      assert LastValue(ps, ps[0].0).Some?;
    }
  }

  /** The load never puts a second row under a natural key. */
  lemma LoadKeepsUniqueKeys(header: seq<string>, rows: seq<Row>, securities: seq<Securities.Security>,
                            opts: LoadOptions, p: Parsers,
                            store: SecurityPrices.PriceStore, idAt: nat -> int, nowAt: nat -> int)
    requires SecurityPrices.UniqueKeys(store)
    ensures SecurityPrices.UniqueKeys(Load(header, rows, securities, opts, p, store, idAt, nowAt).0)
  {
    if |header| > 0 {
      var tickers := TickerMap(securities, opts.includePrivate);
      var inputs := ValuesOf(TallyOf(Classify(rows, tickers, opts, p)).byKey);
      var items := ToPriceInputs(inputs);
      assert Load(header, rows, securities, opts, p, store, idAt, nowAt).0
             == if |inputs| == 0 then store else SecurityPrices.SaveMany(store, items, idAt, nowAt).0;
      SecurityPrices.SaveManyKeepsUniqueKeys(store, items, idAt, nowAt);
    }
  }
}

=== FILE: results.dfy ===
/** Failure-carrying datatypes used throughout the model.

    The Python code raises `KeyError`, `ValueError`, `RuntimeError`,
    `AttributeError` and `FileNotFoundError`, the JavaScript code a plain `Error`; the model returns
    them as values of `Error` inside a `Result`. */
module Results {

  datatype Option<+T> = None | Some(value: T) {

    function GetOr(default: T): T {
      match this
      case Some(v) => v
      case None => default
    }
  }

  /** The exception classes the modelled code raises. */
  datatype Error =
    | KeyError
    | ValueError
    | RuntimeError
    | AttributeError
    | FileNotFoundError
    | PlainError

  datatype Result<+T> = Ok(value: T) | Err(error: Error) {

    predicate IsFailure() {
      Err?
    }

    function PropagateFailure<U>(): Result<U>
      requires Err?
    {
      Err(error)
    }

    function Extract(): T
      requires Ok?
    {
      value
    }
  }
}

=== FILE: scan.dfy ===
/** Scanning text the way Python's `re` module reports matches: `re.search`
    gives the leftmost position where a pattern matches, and a greedy
    character class takes the longest run of its characters. A pattern is
    given as a predicate on positions. */
module Scan {
  import opened Results

  /** The first position at or after `from` where `matchesAt` holds. */
  function SearchFrom<T>(s: seq<T>, matchesAt: (seq<T>, nat) -> bool, from: nat): (r: Option<nat>)
    ensures r.Some? ==> from <= r.value < |s| && matchesAt(s, r.value)
    ensures r.Some? ==> forall j :: from <= j < r.value ==> !matchesAt(s, j)
    ensures r.None? ==> forall j :: from <= j < |s| ==> !matchesAt(s, j)
    decreases |s| - from
  {
    if from >= |s| then None
    else if matchesAt(s, from) then Some(from)
    else SearchFrom(s, matchesAt, from + 1)
  }

  /** `re.search`: the leftmost position where the pattern matches. */
  function Search<T>(s: seq<T>, matchesAt: (seq<T>, nat) -> bool): (r: Option<nat>)
    ensures r.Some? ==> r.value < |s| && matchesAt(s, r.value)
    ensures r.Some? ==> forall j :: 0 <= j < r.value ==> !matchesAt(s, j)
    ensures r.None? ==> forall j :: 0 <= j < |s| ==> !matchesAt(s, j)
  {
    SearchFrom(s, matchesAt, 0)
  }

  /** A position that matches with no match before it is what `Search`
      reports. */
  lemma SearchFindsFirst<T>(s: seq<T>, matchesAt: (seq<T>, nat) -> bool, i: nat)
    requires i < |s| && matchesAt(s, i)
    requires forall j :: 0 <= j < i ==> !matchesAt(s, j)
    ensures Search(s, matchesAt) == Some(i)
  {
  }

  /** `SearchFrom` for a pattern with a parameter (a column name, a choice
      among patterns). */
  function SearchFromBy<P, T>(s: seq<T>, param: P, matchesAt: (P, seq<T>, nat) -> bool, from: nat): (r: Option<nat>)
    ensures r.Some? ==> from <= r.value < |s| && matchesAt(param, s, r.value)
    ensures r.Some? ==> forall j :: from <= j < r.value ==> !matchesAt(param, s, j)
    ensures r.None? ==> forall j :: from <= j < |s| ==> !matchesAt(param, s, j)
    decreases |s| - from
  {
    if from >= |s| then None
    else if matchesAt(param, s, from) then Some(from)
    else SearchFromBy(s, param, matchesAt, from + 1)
  }

  function SearchBy<P, T>(s: seq<T>, param: P, matchesAt: (P, seq<T>, nat) -> bool): (r: Option<nat>)
    ensures r.Some? ==> r.value < |s| && matchesAt(param, s, r.value)
    ensures r.Some? ==> forall j :: 0 <= j < r.value ==> !matchesAt(param, s, j)
    ensures r.None? ==> forall j :: 0 <= j < |s| ==> !matchesAt(param, s, j)
  {
    SearchFromBy(s, param, matchesAt, 0)
  }

  /** Length of the leading run of characters in class `inClass`: what a
      greedy `[...]*` takes. */
  function Run<T>(s: seq<T>, inClass: T -> bool): (n: nat)
    ensures n <= |s|
    ensures forall i :: 0 <= i < n ==> inClass(s[i])
    ensures n == |s| || !inClass(s[n])
  {
    if |s| == 0 || !inClass(s[0]) then 0 else 1 + Run(s[1..], inClass)
  }

  /** A run is determined by its characters: any prefix made of class
      characters and followed by a non-class character (or the end) is the
      run. */
  lemma RunIsUnique<T>(s: seq<T>, inClass: T -> bool, k: nat)
    requires k <= |s|
    requires forall i :: 0 <= i < k ==> inClass(s[i])
    requires k == |s| || !inClass(s[k])
    ensures Run(s, inClass) == k
  {
  }

  /** Cutting the text after the run, or inside it, shortens the run at most
      to the cut. */
  lemma RunOfPrefix<T>(s: seq<T>, inClass: T -> bool, m: nat)
    requires m <= |s|
    ensures Run(s[..m], inClass) == if Run(s, inClass) < m then Run(s, inClass) else m
  {
    var n := Run(s, inClass);
    var k := if n < m then n else m;
    assert forall i :: 0 <= i < k ==> s[..m][i] == s[i];
    RunIsUnique(s[..m], inClass, k);
  }
}

=== FILE: securities.dfy ===
/** The security master of `SecurityCRUD`: inserts keyed by a clock-derived
    id, case-insensitive ticker updates, and the batch upsert that decides
    between them by ticker. */
module Securities {
  import opened Results
  import Text
  import opened Seqs

  /** `SecurityDtlInput` */
  datatype SecurityInput = SecurityInput(ticker: string, name: string, companyName: string, currency: string, isPrivate: bool)

  /** `SecurityDtl` */
  datatype Security = Security(
    id: int, ticker: string, name: string, companyName: string, currency: string, isPrivate: bool,
    createdTs: int, updatedTs: int)

  type SecurityStore = map<int, Security>

  /** The object `save` builds and returns; its currency is the input's, as typed. */
  function Fresh(item: SecurityInput, id: int, now: int): Security {
    Security(id, item.ticker, item.name, item.companyName, item.currency, item.isPrivate, now, now)
  }

  /** `save`: inserts under `id` with the currency upper-cased. On an id
      conflict the row is overwritten but keeps its creation time. The
      returned object carries the currency as given, not upper-cased. */
  function Save(store: SecurityStore, item: SecurityInput, id: int, now: int): (r: (SecurityStore, Security))
    ensures r.1 == Fresh(item, id, now)
    ensures id in r.0 && r.0[id].currency == Text.Upper(item.currency)
    ensures r.0[id] == Fresh(item, id, now).(currency := Text.Upper(item.currency),
                                            createdTs := if id in store then store[id].createdTs else now)
    ensures forall k :: k != id ==> (k in r.0 <==> k in store) && (k in store ==> r.0[k] == store[k])
  {
    var shown := Fresh(item, id, now);
    var stored := shown.(currency := Text.Upper(item.currency));
    var row := if id in store then stored.(createdTs := store[id].createdTs) else stored;
    (store[id := row], shown)
  }

  /** `save_many`: every item is saved, including those whose ticker already
      exists; the existing-ticker check only produces a log line. */
  function SaveMany(store: SecurityStore, items: seq<SecurityInput>, idAt: nat -> int, nowAt: nat -> int): (r: (SecurityStore, seq<Security>))
    ensures |r.1| == |items|
    ensures forall i :: 0 <= i < |items| ==> r.1[i] == Fresh(items[i], idAt(i), nowAt(i))
    decreases |items|
  {
    if |items| == 0 then (store, [])
    else
      var n := |items| - 1;
      var pre := SaveMany(store, items[..n], idAt, nowAt);
      var s := Save(pre.0, items[n], idAt(n), nowAt(n));
      (s.0, pre.1 + [s.1])
  }

  /** With distinct ids, every item of the batch ends up stored, tickers that
      already existed included. */
  lemma {:induction false} SaveManyStoresEveryItem(store: SecurityStore, items: seq<SecurityInput>, idAt: nat -> int, nowAt: nat -> int)
    requires forall i, j :: 0 <= i < j < |items| ==> idAt(i) != idAt(j)
    ensures forall i :: 0 <= i < |items| ==>
      idAt(i) in SaveMany(store, items, idAt, nowAt).0
      && SaveMany(store, items, idAt, nowAt).0[idAt(i)].ticker == items[i].ticker
    decreases |items|
  {
    if |items| > 0 {
      var n := |items| - 1;
      SaveManyStoresEveryItem(store, items[..n], idAt, nowAt);
      assert forall i :: 0 <= i < n ==> items[..n][i] == items[i];
    }
  }

  /** `update`: `KeyError` for a missing id; otherwise the row takes the
      body's ticker, names, upper-cased currency and privacy flag, and keeps
      its id and creation time. The source's check that the fetched row's id
      equals `pk` can never fail, since the row was fetched by `pk`. */
  function Update(store: SecurityStore, pk: int, item: Security, now: int): (r: Result<(SecurityStore, Security)>)
    ensures r.Err? <==> pk !in store
    ensures r.Err? ==> r.error == KeyError
    ensures r.Ok? ==> r.value.0 == store[pk := r.value.1]
    ensures r.Ok? ==> r.value.1 == store[pk].(ticker := item.ticker, name := item.name, companyName := item.companyName,
                                               currency := Text.Upper(item.currency), isPrivate := item.isPrivate, updatedTs := now)
  {
    if pk !in store then Err(KeyError)
    else
      var row := store[pk].(ticker := item.ticker, name := item.name, companyName := item.companyName,
                            currency := Text.Upper(item.currency), isPrivate := item.isPrivate, updatedTs := now);
      Ok((store[pk := row], row))
  }

  predicate SameTicker(a: string, b: string) {
    Text.Lower(a) == Text.Lower(b)
  }

  /** Ids of the rows whose ticker matches `t` ignoring case. */
  function TickerIds(store: SecurityStore, t: string): (ids: set<int>)
    ensures forall id :: id in ids <==> id in store && SameTicker(store[id].ticker, t)
  {
    set id | id in store && SameTicker(store[id].ticker, t)
  }

  /** The tickers in use, lower-cased. */
  function LowerTickers(store: SecurityStore): (ts: set<string>)
    ensures forall id :: id in store ==> Text.Lower(store[id].ticker) in ts
  {
    set id | id in store :: Text.Lower(store[id].ticker)
  }

  /** Every ticker in use belongs to some row. */
  lemma LowerTickersOwner(store: SecurityStore, t: string) returns (id: int)
    requires t in LowerTickers(store)
    ensures id in store && Text.Lower(store[id].ticker) == t
  {
    id :| id in store && Text.Lower(store[id].ticker) == t;
  }

  function RetickeredRow(row: Security, item: SecurityInput, now: int): Security {
    row.(name := item.name, companyName := item.companyName, currency := Text.Upper(item.currency),
         isPrivate := item.isPrivate, updatedTs := now)
  }

  /** `s` carries what an update by ticker with `item` at `now` writes. */
  predicate UpdatedWith(s: Security, item: SecurityInput, now: int) {
    SameTicker(s.ticker, item.ticker) && s.name == item.name && s.companyName == item.companyName
    && s.currency == Text.Upper(item.currency) && s.isPrivate == item.isPrivate && s.updatedTs == now
  }

  /** `update_by_ticker`: every row whose ticker matches ignoring case takes
      the item's names, upper-cased currency and privacy flag; tickers do not
      change. `KeyError` when nothing matches. The row returned is the
      matching row with the smallest id (the source takes the first row the
      database returns). */
  function UpdateByTicker(store: SecurityStore, t: string, item: SecurityInput, now: int): (r: Result<(SecurityStore, Security)>)
    ensures r.Err? <==> TickerIds(store, t) == {}
    ensures r.Err? <==> forall id :: id in store ==> !SameTicker(store[id].ticker, t)
    ensures r.Err? ==> r.error == KeyError
    ensures r.Ok? ==> r.value.0.Keys == store.Keys
    ensures r.Ok? ==> forall id :: id in store ==>
      r.value.0[id] == (if SameTicker(store[id].ticker, t) then RetickeredRow(store[id], item, now) else store[id])
    ensures r.Ok? ==> SameTicker(r.value.1.ticker, t) && r.value.1 in r.value.0.Values
    ensures r.Ok? ==> exists id :: id in store && SameTicker(store[id].ticker, t) && r.value.1 == RetickeredRow(store[id], item, now)
  {
    var ids := TickerIds(store, t);
    if !exists id :: id in ids then
      assert ids == {};
      Err(KeyError)
    else
      var updated := map id | id in store :: if id in ids then RetickeredRow(store[id], item, now) else store[id];
      var first := MinOf(ids);
      Ok((updated, updated[first]))
  }

  /** Two stores with the same ids and the same ticker under each id agree on
      ticker uniqueness and on the set of tickers. */
  lemma SameTickersAgree(a: SecurityStore, b: SecurityStore)
    requires a.Keys == b.Keys
    requires forall id :: id in a ==> a[id].ticker == b[id].ticker
    ensures TickersUnique(a) == TickersUnique(b)
    ensures LowerTickers(a) == LowerTickers(b)
  {
  }

  /** Updating by ticker keeps the ids, their tickers, and so ticker
      uniqueness and the set of tickers. */
  lemma UpdateByTickerKeepsKeys(store: SecurityStore, t: string, item: SecurityInput, now: int)
    requires UpdateByTicker(store, t, item, now).Ok?
    ensures UpdateByTicker(store, t, item, now).value.0.Keys == store.Keys
    ensures TickersUnique(UpdateByTicker(store, t, item, now).value.0) == TickersUnique(store)
    ensures LowerTickers(UpdateByTicker(store, t, item, now).value.0) == LowerTickers(store)
  {
    var u := UpdateByTicker(store, t, item, now).value.0;
    assert forall id :: id in u ==> u[id].ticker == store[id].ticker;
    SameTickersAgree(store, u);
  }

  /** The state of the batch upsert: the store, the lower-cased tickers seen
      so far, and the results. */
  datatype UpsertState = UpsertState(store: SecurityStore, seen: set<string>, results: Result<seq<Security>>)

  /** An item whose ticker is already known updates the matching rows. */
  function UpsertUpdate(st: UpsertState, item: SecurityInput, now: int): UpsertState
    requires st.results.Ok?
  {
    var u := UpdateByTicker(st.store, item.ticker, item, now);
    if u.Err? then UpsertState(st.store, st.seen, Err(u.error))
    else UpsertState(u.value.0, st.seen, Ok(st.results.value + [u.value.1]))
  }

  /** An item with a new ticker is saved and its ticker becomes known. */
  function UpsertInsert(st: UpsertState, item: SecurityInput, id: int, now: int): UpsertState
    requires st.results.Ok?
  {
    var s := Save(st.store, item, id, now);
    UpsertState(s.0, st.seen + {Text.Lower(item.ticker)}, Ok(st.results.value + [s.1]))
  }

  function UpsertStep(st: UpsertState, item: SecurityInput, id: int, now: int): UpsertState
    requires st.results.Ok?
  {
    if Text.Lower(item.ticker) in st.seen then UpsertUpdate(st, item, now)
    else UpsertInsert(st, item, id, now)
  }

  function UpsertLoop(store: SecurityStore, items: seq<SecurityInput>, idAt: nat -> int, nowAt: nat -> int): (st: UpsertState)
    ensures st.results.Ok? ==> |st.results.value| == |items|
    decreases |items|
  {
    if |items| == 0 then UpsertState(store, LowerTickers(store), Ok([]))
    else
      var n := |items| - 1;
      var pre := UpsertLoop(store, items[..n], idAt, nowAt);
      if pre.results.Err? then pre else UpsertStep(pre, items[n], idAt(n), nowAt(n))
  }

  /** `save_many_with_upsert`: an item whose ticker (ignoring case) is already
      known updates that security; otherwise it is created and its ticker
      becomes known, so a later item with the same ticker in the batch updates
      the row just created. Result `i` is item `i`'s update when its ticker
      was known before it, and item `i`'s fresh save otherwise. */
  function SaveManyWithUpsert(store: SecurityStore, items: seq<SecurityInput>, idAt: nat -> int, nowAt: nat -> int): (r: (SecurityStore, Result<seq<Security>>))
    ensures r.1.Ok? ==> |r.1.value| == |items|
    ensures r.1.Ok? ==> forall i :: 0 <= i < |items| ==> ResultFor(store, items, idAt, nowAt, i, r.1.value[i])
    ensures r.1.Ok? ==> forall i :: 0 <= i < |items| ==> SameTicker(r.1.value[i].ticker, items[i].ticker)
  {
    var st := UpsertLoop(store, items, idAt, nowAt);
    UpsertLoopResults(store, items, idAt, nowAt);
    (st.store, st.results)
  }

  /** The lower-cased tickers of a batch. */
  function BatchTickers(items: seq<SecurityInput>): (ts: set<string>)
    ensures forall i :: 0 <= i < |items| ==> Text.Lower(items[i].ticker) in ts
  {
    set i | 0 <= i < |items| :: Text.Lower(items[i].ticker)
  }

  /** Item `i`'s ticker is in the store or among the items before it, ignoring case. */
  predicate KnownBefore(store: SecurityStore, items: seq<SecurityInput>, i: nat)
    requires i <= |items|
  {
    i < |items| && Text.Lower(items[i].ticker) in LowerTickers(store) + BatchTickers(items[..i])
  }

  /** What the batch upsert returns for item `i`: its update by ticker when
      the ticker was already known, its fresh save otherwise. */
  predicate ResultFor(store: SecurityStore, items: seq<SecurityInput>, idAt: nat -> int, nowAt: nat -> int, i: nat, s: Security)
    requires i < |items|
  {
    if KnownBefore(store, items, i) then UpdatedWith(s, items[i], nowAt(i))
    else s == Fresh(items[i], idAt(i), nowAt(i))
  }

  lemma ResultForOfPrefix(store: SecurityStore, items: seq<SecurityInput>, idAt: nat -> int, nowAt: nat -> int, n: nat, i: nat, s: Security)
    requires i < n <= |items|
    ensures ResultFor(store, items[..n], idAt, nowAt, i, s) == ResultFor(store, items, idAt, nowAt, i, s)
  {
    assert items[..n][..i] == items[..i];
  }

  lemma BatchTickersSnoc(items: seq<SecurityInput>, n: nat)
    requires n < |items|
    ensures BatchTickers(items[..n + 1]) == BatchTickers(items[..n]) + {Text.Lower(items[n].ticker)}
  {
    var a := items[..n + 1];
    assert forall i :: 0 <= i < n ==> a[i] == items[..n][i];
    forall t | t in BatchTickers(a) ensures t in BatchTickers(items[..n]) + {Text.Lower(items[n].ticker)} {
      var i :| 0 <= i < |a| && t == Text.Lower(a[i].ticker);
      if i < n { assert t == Text.Lower(items[..n][i].ticker); }
    }
  }

  /** One step of the batch upsert appends the result `ResultFor` describes
      and records the item's ticker. */
  lemma UpsertStepResult(store: SecurityStore, items: seq<SecurityInput>, idAt: nat -> int, nowAt: nat -> int, n: nat, st: UpsertState)
    requires n < |items| && st.results.Ok?
    requires st.seen == LowerTickers(store) + BatchTickers(items[..n])
    ensures var next := UpsertStep(st, items[n], idAt(n), nowAt(n));
      next.results.Ok? ==>
        next.seen == LowerTickers(store) + BatchTickers(items[..n + 1])
        && next.results.value == st.results.value + [next.results.value[|st.results.value|]]
        && ResultFor(store, items, idAt, nowAt, n, next.results.value[|st.results.value|])
  {
    BatchTickersSnoc(items, n);
    var item := items[n];
    if Text.Lower(item.ticker) in st.seen {
      var u := UpdateByTicker(st.store, item.ticker, item, nowAt(n));
      if u.Ok? {
        var id :| id in st.store && SameTicker(st.store[id].ticker, item.ticker) && u.value.1 == RetickeredRow(st.store[id], item, nowAt(n));
        assert UpdatedWith(u.value.1, item, nowAt(n));
      }
    }
  }

  /** Result `i` of a successful batch upsert is the one `ResultFor`
      describes, and the known tickers are the store's and the batch's. */
  lemma {:induction false} UpsertLoopResults(store: SecurityStore, items: seq<SecurityInput>, idAt: nat -> int, nowAt: nat -> int)
    ensures var st := UpsertLoop(store, items, idAt, nowAt);
      st.results.Ok? ==>
        st.seen == LowerTickers(store) + BatchTickers(items)
        && forall i :: 0 <= i < |items| ==> ResultFor(store, items, idAt, nowAt, i, st.results.value[i])
    decreases |items|
  {
    if |items| == 0 {
      assert BatchTickers(items) == {};
    } else {
      var n := |items| - 1;
      var pre := UpsertLoop(store, items[..n], idAt, nowAt);
      if pre.results.Ok? {
        var st := UpsertStep(pre, items[n], idAt(n), nowAt(n));
        assert UpsertLoop(store, items, idAt, nowAt) == st by {
          UpsertLoopLast(store, items, idAt, nowAt);
        }
        if st.results.Ok? {
          UpsertLoopResults(store, items[..n], idAt, nowAt);
          assert items[..n][..n] == items[..n];
          UpsertStepResult(store, items, idAt, nowAt, n, pre);
          assert items[..n + 1] == items;
          ResultsExtend(store, items, idAt, nowAt, pre.results.value, st.results.value);
        }
      }
    }
  }

  lemma ResultsExtend(store: SecurityStore, items: seq<SecurityInput>, idAt: nat -> int, nowAt: nat -> int,
                      pre: seq<Security>, post: seq<Security>)
    requires |items| > 0 && |pre| == |items| - 1
    requires |post| == |items| && post == pre + [post[|pre|]]
    requires forall i :: 0 <= i < |pre| ==> ResultFor(store, items[..|pre|], idAt, nowAt, i, pre[i])
    requires ResultFor(store, items, idAt, nowAt, |pre|, post[|pre|])
    ensures forall i :: 0 <= i < |items| ==> ResultFor(store, items, idAt, nowAt, i, post[i])
  {
    forall i | 0 <= i < |pre| ensures ResultFor(store, items, idAt, nowAt, i, post[i]) {
      assert post[i] == pre[i];
      ResultForOfPrefix(store, items, idAt, nowAt, |pre|, i, pre[i]);
    }
  }

  /** No two securities share a ticker ignoring case. */
  ghost predicate TickersUnique(store: SecurityStore) {
    forall a, b {:trigger SameTicker(store[a].ticker, store[b].ticker)} ::
      a in store && b in store && SameTicker(store[a].ticker, store[b].ticker) ==> a == b
  }

  ghost predicate FreshIds(store: SecurityStore, n: nat, idAt: nat -> int) {
    (forall i :: 0 <= i < n ==> idAt(i) !in store)
    && (forall i, j :: 0 <= i < j < n ==> idAt(i) != idAt(j))
  }

  lemma SaveNewTicker(store: SecurityStore, item: SecurityInput, id: int, now: int)
    requires TickersUnique(store) && id !in store && Text.Lower(item.ticker) !in LowerTickers(store)
    ensures TickersUnique(Save(store, item, id, now).0)
    ensures LowerTickers(Save(store, item, id, now).0) == LowerTickers(store) + {Text.Lower(item.ticker)}
  {
    var s := Save(store, item, id, now).0;
    assert forall k :: k in s ==> k == id || (k in store && s[k] == store[k]);
    forall t | t in LowerTickers(store) + {Text.Lower(item.ticker)}
      ensures t in LowerTickers(s)
    {
      if t != Text.Lower(item.ticker) {
        var k := LowerTickersOwner(store, t);
        assert k in s;
      }
    }
  }

  /** The ids handed out to the first `n` items. */
  function IdsUpTo(idAt: nat -> int, n: nat): set<int> {
    if n == 0 then {} else IdsUpTo(idAt, n - 1) + {idAt(n - 1)}
  }

  lemma {:induction false} IdsUpToMembers(idAt: nat -> int, n: nat, x: int)
    requires x in IdsUpTo(idAt, n)
    ensures exists i :: 0 <= i < n && idAt(i) == x
  {
    if x != idAt(n - 1) {
      IdsUpToMembers(idAt, n - 1, x);
    }
  }

  /** The store keeps tickers unique and `seen` is exactly its set of tickers. */
  ghost predicate SeenMatchesStore(st: UpsertState) {
    st.results.Ok? && TickersUnique(st.store) && st.seen == LowerTickers(st.store)
  }

  /** The tickers of the first `n` items have been seen. */
  ghost predicate PrefixSeen(items: seq<SecurityInput>, n: nat, st: UpsertState)
    requires n <= |items|
  {
    forall i :: 0 <= i < n ==> Text.Lower(items[i].ticker) in st.seen
  }

  /** Existing rows are kept, and new rows appear only under the ids of the
      first `n` items. */
  ghost predicate RowsAccounted(store: SecurityStore, idAt: nat -> int, n: nat, st: UpsertState) {
    store.Keys <= st.store.Keys <= store.Keys + IdsUpTo(idAt, n)
  }

  /** What the batch upsert keeps true after each item. */
  ghost predicate UpsertInvariant(store: SecurityStore, items: seq<SecurityInput>, idAt: nat -> int, n: nat, st: UpsertState)
    requires n <= |items|
  {
    SeenMatchesStore(st) && PrefixSeen(items, n, st) && RowsAccounted(store, idAt, n, st)
  }

  lemma PrefixSeenExtend(items: seq<SecurityInput>, n: nat, st: UpsertState, next: UpsertState)
    requires n < |items| && PrefixSeen(items, n, st)
    requires st.seen <= next.seen && Text.Lower(items[n].ticker) in next.seen
    ensures PrefixSeen(items, n + 1, next)
  {
  }

  lemma PrefixSeenOfPrefix(items: seq<SecurityInput>, n: nat, st: UpsertState)
    requires n <= |items| && PrefixSeen(items[..n], n, st)
    ensures PrefixSeen(items, n, st)
  {
    assert forall i :: 0 <= i < n ==> items[..n][i] == items[i];
  }

  lemma RowsAccountedExtend(store: SecurityStore, idAt: nat -> int, n: nat, st: UpsertState, next: UpsertState)
    requires RowsAccounted(store, idAt, n, st)
    requires st.store.Keys <= next.store.Keys <= st.store.Keys + {idAt(n)}
    ensures RowsAccounted(store, idAt, n + 1, next)
  {
  }

  lemma PrefixSeenSame(items: seq<SecurityInput>, n: nat, st: UpsertState, next: UpsertState)
    requires n < |items| && PrefixSeen(items, n, st)
    requires next.seen == st.seen && Text.Lower(items[n].ticker) in st.seen
    ensures PrefixSeen(items, n + 1, next)
  {
  }

  lemma RowsAccountedSameKeys(store: SecurityStore, idAt: nat -> int, n: nat, st: UpsertState, next: UpsertState)
    requires RowsAccounted(store, idAt, n, st)
    requires next.store.Keys == st.store.Keys
    ensures RowsAccounted(store, idAt, n + 1, next)
  {
  }

  /** A known ticker matches some row, so the update succeeds, keeps the ids
      and the tickers, and leaves `seen` alone. */
  lemma UpsertUpdateKeepsSeen(st: UpsertState, item: SecurityInput, now: int)
    requires SeenMatchesStore(st) && Text.Lower(item.ticker) in st.seen
    ensures SeenMatchesStore(UpsertUpdate(st, item, now))
    ensures UpsertUpdate(st, item, now).store.Keys == st.store.Keys
    ensures UpsertUpdate(st, item, now).seen == st.seen
  {
    var k := LowerTickersOwner(st.store, Text.Lower(item.ticker));
    assert k in TickerIds(st.store, item.ticker);
    UpdateByTickerKeepsKeys(st.store, item.ticker, item, now);
  }

  lemma UpsertUpdateCase(store: SecurityStore, items: seq<SecurityInput>, idAt: nat -> int, nowAt: nat -> int,
                         n: nat, st: UpsertState, next: UpsertState)
    requires n < |items| && Text.Lower(items[n].ticker) in st.seen
    requires UpsertInvariant(store, items, idAt, n, st)
    requires next == UpsertUpdate(st, items[n], nowAt(n))
    ensures UpsertInvariant(store, items, idAt, n + 1, next)
  {
    UpsertUpdateKeepsSeen(st, items[n], nowAt(n));
    PrefixSeenSame(items, n, st, next);
    RowsAccountedSameKeys(store, idAt, n, st, next);
  }

  lemma UpsertSaveCase(store: SecurityStore, items: seq<SecurityInput>, idAt: nat -> int, nowAt: nat -> int,
                       n: nat, st: UpsertState)
    requires n < |items| && Text.Lower(items[n].ticker) !in st.seen
    requires FreshIds(store, |items|, idAt)
    requires UpsertInvariant(store, items, idAt, n, st)
    ensures UpsertInvariant(store, items, idAt, n + 1, UpsertInsert(st, items[n], idAt(n), nowAt(n)))
  {
    var item := items[n];
    var next := UpsertInsert(st, item, idAt(n), nowAt(n));
    if idAt(n) in IdsUpTo(idAt, n) {
      IdsUpToMembers(idAt, n, idAt(n));
    }
    assert idAt(n) !in st.store;
    SaveNewTicker(st.store, item, idAt(n), nowAt(n));
    assert SeenMatchesStore(next);
    PrefixSeenExtend(items, n, st, next);
    RowsAccountedExtend(store, idAt, n, st, next);
  }

  lemma UpsertStepPreserves(store: SecurityStore, items: seq<SecurityInput>, idAt: nat -> int, nowAt: nat -> int,
                            n: nat, st: UpsertState)
    requires n < |items|
    requires FreshIds(store, |items|, idAt)
    requires UpsertInvariant(store, items, idAt, n, st)
    ensures UpsertInvariant(store, items, idAt, n + 1, UpsertStep(st, items[n], idAt(n), nowAt(n)))
  {
    if Text.Lower(items[n].ticker) in st.seen {
      UpsertUpdateCase(store, items, idAt, nowAt, n, st, UpsertStep(st, items[n], idAt(n), nowAt(n)));
    } else {
      UpsertSaveCase(store, items, idAt, nowAt, n, st);
    }
  }

  lemma UpsertLoopLast(store: SecurityStore, items: seq<SecurityInput>, idAt: nat -> int, nowAt: nat -> int)
    requires |items| > 0
    requires UpsertLoop(store, items[..|items| - 1], idAt, nowAt).results.Ok?
    ensures UpsertLoop(store, items, idAt, nowAt)
            == UpsertStep(UpsertLoop(store, items[..|items| - 1], idAt, nowAt), items[|items| - 1], idAt(|items| - 1), nowAt(|items| - 1))
  {
  }

  /** With fresh, distinct ids the batch upsert never fails, keeps tickers
      unique ignoring case, keeps every existing row, creates rows only under
      the ids it was given, and afterwards every ticker of the batch is present. */
  lemma {:induction false} UpsertKeepsTickersUnique(store: SecurityStore, items: seq<SecurityInput>, idAt: nat -> int, nowAt: nat -> int)
    requires TickersUnique(store)
    requires FreshIds(store, |items|, idAt)
    ensures UpsertInvariant(store, items, idAt, |items|, UpsertLoop(store, items, idAt, nowAt))
    decreases |items|
  {
    if |items| > 0 {
      var n := |items| - 1;
      var pre := UpsertLoop(store, items[..n], idAt, nowAt);
      assert UpsertInvariant(store, items, idAt, n, pre) by {
        assert FreshIds(store, n, idAt);
        UpsertKeepsTickersUnique(store, items[..n], idAt, nowAt);
        PrefixSeenOfPrefix(items, n, pre);
      }
      var next := UpsertStep(pre, items[n], idAt(n), nowAt(n));
      assert UpsertInvariant(store, items, idAt, n + 1, next) by {
        UpsertStepPreserves(store, items, idAt, nowAt, n, pre);
      }
      assert UpsertLoop(store, items, idAt, nowAt) == next by {
        UpsertLoopLast(store, items, idAt, nowAt);
      }
    }
  }
}

=== FILE: security_prices.dfy ===
/** The price store of `SecurityPriceCRUD`: the natural-key upsert behind
    `save`, the unchecked `update`, and the filtered, date-ordered listing. */
module SecurityPrices {
  import opened Results
  import Text
  import Dates
  import opened Seqs
  import Securities

  /** `SecurityPriceDtlInput`, restricted to the columns `save` writes. */
  datatype PriceInput = PriceInput(
    securityId: int, sourceId: int, date: Dates.Date, price: real,
    marketCap: real, notes: Option<string>, currency: string)

  /** `SecurityPriceDtl` */
  datatype Price = Price(
    id: int, securityId: int, sourceId: int, date: Dates.Date, price: real,
    marketCap: real, notes: Option<string>, currency: string,
    createdTs: int, updatedTs: int)

  type PriceStore = map<int, Price>

  /** A price is identified by security, source and date. */
  datatype NaturalKey = NaturalKey(securityId: int, sourceId: int, date: Dates.Date)

  function KeyOf(p: Price): NaturalKey {
    NaturalKey(p.securityId, p.sourceId, p.date)
  }

  function InputKey(item: PriceInput): NaturalKey {
    NaturalKey(item.securityId, item.sourceId, item.date)
  }

  /** Ids of the rows stored under natural key `k`. */
  function KeyIds(store: PriceStore, k: NaturalKey): (ids: set<int>)
    ensures forall id :: id in ids <==> id in store && KeyOf(store[id]) == k
  {
    set id | id in store && KeyOf(store[id]) == k
  }

  /** At most one row per natural key. */
  ghost predicate UniqueKeys(store: PriceStore) {
    forall a, b :: a in store && b in store && KeyOf(store[a]) == KeyOf(store[b]) ==> a == b
  }

  /** The row `save` builds for a key it has not seen. */
  function Fresh(item: PriceInput, id: int, now: int): Price {
    Price(id, item.securityId, item.sourceId, item.date, item.price, item.marketCap, item.notes, item.currency, now, now)
  }

  /** The five columns the upsert path overwrites. */
  function Refresh(row: Price, item: PriceInput, now: int): Price {
    row.(price := item.price, marketCap := item.marketCap, notes := item.notes, currency := item.currency, updatedTs := now)
  }

  /** `save`: when a row with the item's natural key exists, that row (the
      one with the least id, standing in for the row `LIMIT 1` returns) has
      its price, market cap, notes, currency and update time overwritten and
      is returned, its id column being the id it is stored under. Otherwise a new row is written under `id`; on an id
      conflict the old row is overwritten but keeps its creation time, while
      the object returned carries `now` as both timestamps. */
  function Save(store: PriceStore, item: PriceInput, id: int, now: int): (r: (PriceStore, Price))
    ensures forall e :: e in store && KeyOf(store[e]) == InputKey(item) ==>
      r.1.id in store && KeyOf(store[r.1.id]) == InputKey(item) && r.1.id <= e
      && r.1 == Refresh(store[r.1.id], item, now).(id := r.1.id) && r.0 == store[r.1.id := r.1]
    ensures (forall e :: e in store ==> KeyOf(store[e]) != InputKey(item)) ==>
      r.1 == Fresh(item, id, now)
      && r.0 == store[id := if id in store then r.1.(createdTs := store[id].createdTs) else r.1]
  {
    var ids := KeyIds(store, InputKey(item));
    if exists e :: e in ids then
      var first := MinOf(ids);
      var row := Refresh(store[first], item, now).(id := first);
      (store[first := row], row)
    else
      var row := Fresh(item, id, now);
      var stored := if id in store then row.(createdTs := store[id].createdTs) else row;
      (store[id := stored], row)
  }

  /** After `save` the item's key is stored, under the returned id, with the
      item's price. */
  lemma SaveStoresItem(store: PriceStore, item: PriceInput, id: int, now: int)
    ensures Save(store, item, id, now).1.id in Save(store, item, id, now).0
    ensures KeyOf(Save(store, item, id, now).0[Save(store, item, id, now).1.id]) == InputKey(item)
    ensures Save(store, item, id, now).0[Save(store, item, id, now).1.id].price == item.price
  {
  }

  /** The upsert path adds no row, and the row it rewrites keeps its creation
      time and carries its own id. */
  lemma SaveUpdatesInPlace(store: PriceStore, item: PriceInput, id: int, now: int, e: int)
    requires e in store && KeyOf(store[e]) == InputKey(item)
    ensures Save(store, item, id, now).0.Keys == store.Keys
    ensures var k := Save(store, item, id, now).1.id;
            k in store && Save(store, item, id, now).0[k].createdTs == store[k].createdTs
            && Save(store, item, id, now).0[k].id == k
  {
  }

  /** `save` never creates a second row for a natural key. */
  lemma SaveKeepsUniqueKeys(store: PriceStore, item: PriceInput, id: int, now: int)
    requires UniqueKeys(store)
    ensures UniqueKeys(Save(store, item, id, now).0)
  {
    var s := Save(store, item, id, now).0;
    if exists e :: e in store && KeyOf(store[e]) == InputKey(item) {
      var e :| e in store && KeyOf(store[e]) == InputKey(item);
      assert s.Keys == store.Keys;
      assert forall k :: k in s ==> KeyOf(s[k]) == KeyOf(store[k]);
    } else {
      forall a, b | a in s && b in s && KeyOf(s[a]) == KeyOf(s[b])
        ensures a == b
      {
        if a != id && b != id {
          assert KeyOf(store[a]) == KeyOf(store[b]);
        }
      }
    }
  }

  /** Saving the same key twice updates the row the first save wrote. */
  lemma SaveTwiceUpdates(store: PriceStore, item: PriceInput, again: PriceInput, id1: int, id2: int, now1: int, now2: int)
    requires InputKey(again) == InputKey(item)
    requires UniqueKeys(store)
    ensures var first := Save(store, item, id1, now1);
            var second := Save(first.0, again, id2, now2);
            second.0.Keys == first.0.Keys && second.1.id == first.1.id && second.1.price == again.price
  {
    var first := Save(store, item, id1, now1);
    SaveStoresItem(store, item, id1, now1);
    SaveKeepsUniqueKeys(store, item, id1, now1);
    var k := first.1.id;
    assert k in first.0 && KeyOf(first.0[k]) == InputKey(again);
    assert forall e :: e in first.0 && KeyOf(first.0[e]) == InputKey(again) ==> e == k;
  }

  /** `save_many`: the items are saved in order; item `i` uses `idAt(i)` and
      `nowAt(i)`. */
  function SaveMany(store: PriceStore, items: seq<PriceInput>, idAt: nat -> int, nowAt: nat -> int): (r: (PriceStore, seq<Price>))
    ensures |r.1| == |items|
    ensures forall i :: 0 <= i < |items| ==> KeyOf(r.1[i]) == InputKey(items[i]) && r.1[i].price == items[i].price
    decreases |items|
  {
    if |items| == 0 then (store, [])
    else
      var n := |items| - 1;
      var pre := SaveMany(store, items[..n], idAt, nowAt);
      var s := Save(pre.0, items[n], idAt(n), nowAt(n));
      SaveStoresItem(pre.0, items[n], idAt(n), nowAt(n));
      (s.0, pre.1 + [s.1])
  }

  /** A batch save keeps one row per natural key. */
  lemma {:induction false} SaveManyKeepsUniqueKeys(store: PriceStore, items: seq<PriceInput>, idAt: nat -> int, nowAt: nat -> int)
    requires UniqueKeys(store)
    ensures UniqueKeys(SaveMany(store, items, idAt, nowAt).0)
    decreases |items|
  {
    if |items| > 0 {
      var n := |items| - 1;
      SaveManyKeepsUniqueKeys(store, items[..n], idAt, nowAt);
      SaveKeepsUniqueKeys(SaveMany(store, items[..n], idAt, nowAt).0, items[n], idAt(n), nowAt(n));
    }
  }

  /** `update`: `KeyError` for a missing id; otherwise every column but the
      id and the creation time is overwritten, natural key included. */
  function Update(store: PriceStore, pk: int, item: PriceInput, now: int): (r: Result<(PriceStore, Price)>)
    ensures r.Err? <==> pk !in store
    ensures r.Err? ==> r.error == KeyError
    ensures r.Ok? ==> r.value.0 == store[pk := r.value.1]
    ensures r.Ok? ==> r.value.1 == Fresh(item, pk, now).(createdTs := store[pk].createdTs)
  {
    if pk !in store then Err(KeyError)
    else
      var row := store[pk].(id := pk, securityId := item.securityId, sourceId := item.sourceId, date := item.date,
                            price := item.price, marketCap := item.marketCap, notes := item.notes,
                            currency := item.currency, updatedTs := now);
      Ok((store[pk := row], row))
  }

  /** Unlike `save`, `update` does not look at the natural key, so it can
      leave two rows with the same key. */
  lemma UpdateCanDuplicateKey()
    ensures exists store: PriceStore, pk: int, item: PriceInput, now: int ::
      UniqueKeys(store) && Update(store, pk, item, now).Ok? && !UniqueKeys(Update(store, pk, item, now).value.0)
  {
    var d := Dates.Date(2024, 1, 2);
    var a := Price(1, 7, 1, d, 10.0, 0.0, None, "USD", 0, 0);
    var b := Price(2, 7, 1, Dates.Date(2024, 1, 3), 11.0, 0.0, None, "USD", 0, 0);
    var store := map[1 := a, 2 := b];
    assert UniqueKeys(store);
    var item := PriceInput(7, 1, d, 12.0, 0.0, None, "USD");
    var s := Update(store, 2, item, 5).value.0;
    assert KeyOf(s[1]) == KeyOf(s[2]);
  }

  /** `delete`: true iff a row was removed. */
  function Delete(store: PriceStore, pk: int): (r: (PriceStore, bool))
    ensures r.1 <==> pk in store
    ensures pk !in r.0 && forall k :: k != pk ==> (k in r.0 <==> k in store) && (k in r.0 ==> r.0[k] == store[k])
  {
    (store - {pk}, pk in store)
  }

  /** The optional filters of `list_by_date_range_and_ticker`: a row is listed
      when its security exists (the inner join) and it passes every filter
      that was supplied. The ticker filter compares upper-cased tickers after
      stripping the argument. */
  predicate Selected(p: Price, securities: Securities.SecurityStore,
                     from: Option<Dates.Date>, to: Option<Dates.Date>, ticker: Option<string>)
  {
    p.securityId in securities
    && (from.Some? ==> Dates.Le(from.value, p.date))
    && (to.Some? ==> Dates.Le(p.date, to.value))
    && (ticker.Some? ==> Text.Upper(securities[p.securityId].ticker) == Text.Upper(Text.Strip(ticker.value)))
  }

  /** The columns of `ORDER BY price_date ASC, ticker, name, security_id`
      for a price row joined with its security. */
  datatype SortKey = SortKey(date: Dates.Date, ticker: string, name: string, securityId: int)

  function SortKeyOf(p: Price, securities: Securities.SecurityStore): SortKey
    requires p.securityId in securities
  {
    SortKey(p.date, securities[p.securityId].ticker, securities[p.securityId].name, p.securityId)
  }

  /** Strictly before in the `ORDER BY` list, column by column; text
      columns compare by character code. */
  predicate KeyLt(x: SortKey, y: SortKey) {
    (Dates.Le(x.date, y.date) && x.date != y.date)
    || (x.date == y.date
        && (Text.Precedes(x.ticker, y.ticker)
            || (x.ticker == y.ticker
                && (Text.Precedes(x.name, y.name)
                    || (x.name == y.name && x.securityId < y.securityId)))))
  }

  /** Not after in the `ORDER BY` list. */
  predicate KeyLe(x: SortKey, y: SortKey) {
    x == y || KeyLt(x, y)
  }

  lemma KeyLtIrreflexive(x: SortKey)
    ensures !KeyLt(x, x)
  {
    Text.PrecedesIrreflexive(x.ticker);
    Text.PrecedesIrreflexive(x.name);
  }

  lemma KeyLtTransitive(x: SortKey, y: SortKey, z: SortKey)
    requires KeyLt(x, y) && KeyLt(y, z)
    ensures KeyLt(x, z)
  {
    Dates.LeTransitive(x.date, y.date, z.date);
    if x.date == z.date {
      Dates.LeAntisymmetric(x.date, y.date);
      if Text.Precedes(x.ticker, y.ticker) {
        if Text.Precedes(y.ticker, z.ticker) {
          Text.PrecedesTransitive(x.ticker, y.ticker, z.ticker);
        }
      } else if !Text.Precedes(y.ticker, z.ticker) {
        assert x.ticker == y.ticker == z.ticker;
        if Text.Precedes(x.name, y.name) {
          if Text.Precedes(y.name, z.name) {
            Text.PrecedesTransitive(x.name, y.name, z.name);
          }
        }
      }
    }
  }

  lemma KeyLtTotal(x: SortKey, y: SortKey)
    requires x != y
    ensures KeyLt(x, y) || KeyLt(y, x)
  {
    Dates.LeTotal(x.date, y.date);
    if x.ticker != y.ticker {
      Text.PrecedesTotal(x.ticker, y.ticker);
    }
    if x.name != y.name {
      Text.PrecedesTotal(x.name, y.name);
    }
  }

  /** Every id is stored and its security exists: the rows the inner join
      produces. */
  predicate Joined(store: PriceStore, securities: Securities.SecurityStore, ids: seq<int>) {
    forall i :: 0 <= i < |ids| ==> ids[i] in store && store[ids[i]].securityId in securities
  }

  /** Listing order: the `ORDER BY` columns, then the price id. The database
      leaves the order of rows equal in all four columns unspecified; the
      model fixes it by id. */
  predicate Before(store: PriceStore, securities: Securities.SecurityStore, a: int, b: int)
    requires a in store && b in store
    requires store[a].securityId in securities && store[b].securityId in securities
  {
    var x := SortKeyOf(store[a], securities);
    var y := SortKeyOf(store[b], securities);
    KeyLt(x, y) || (x == y && a < b)
  }

  predicate InOrder(store: PriceStore, securities: Securities.SecurityStore, ids: seq<int>)
    requires Joined(store, securities, ids)
  {
    forall i, j :: 0 <= i < j < |ids| ==> Before(store, securities, ids[i], ids[j])
  }

  lemma BeforeTotal(store: PriceStore, securities: Securities.SecurityStore, a: int, b: int)
    requires a in store && b in store && a != b
    requires store[a].securityId in securities && store[b].securityId in securities
    ensures Before(store, securities, a, b) || Before(store, securities, b, a)
  {
    var x := SortKeyOf(store[a], securities);
    var y := SortKeyOf(store[b], securities);
    if x != y {
      KeyLtTotal(x, y);
    }
  }

  lemma BeforeTransitive(store: PriceStore, securities: Securities.SecurityStore, a: int, b: int, c: int)
    requires a in store && b in store && c in store
    requires store[a].securityId in securities && store[b].securityId in securities && store[c].securityId in securities
    requires Before(store, securities, a, b) && Before(store, securities, b, c)
    ensures Before(store, securities, a, c)
  {
    var x := SortKeyOf(store[a], securities);
    var y := SortKeyOf(store[b], securities);
    var z := SortKeyOf(store[c], securities);
    if KeyLt(x, y) && KeyLt(y, z) {
      KeyLtTransitive(x, y, z);
    }
  }

  lemma BeforeAsymmetric(store: PriceStore, securities: Securities.SecurityStore, a: int, b: int)
    requires a in store && b in store
    requires store[a].securityId in securities && store[b].securityId in securities
    requires Before(store, securities, a, b)
    ensures !Before(store, securities, b, a) && a != b
  {
    var x := SortKeyOf(store[a], securities);
    var y := SortKeyOf(store[b], securities);
    KeyLtIrreflexive(x);
    if KeyLt(x, y) && KeyLt(y, x) {
      KeyLtTransitive(x, y, x);
    }
  }

  /** `x` placed into an ordered list of ids. */
  function Insert(store: PriceStore, securities: Securities.SecurityStore, x: int, ids: seq<int>): (r: seq<int>)
    requires x in store && store[x].securityId in securities && Joined(store, securities, ids)
    requires InOrder(store, securities, ids) && x !in ids
    ensures |r| == |ids| + 1
    ensures forall y :: y in r <==> y == x || y in ids
    ensures Joined(store, securities, r)
    ensures InOrder(store, securities, r)
  {
    if |ids| == 0 then [x]
    else if Before(store, securities, x, ids[0]) then
      forall j | 0 < j < |ids|
        ensures Before(store, securities, x, ids[j])
      {
        BeforeTransitive(store, securities, x, ids[0], ids[j]);
      }
      [x] + ids
    else
      BeforeTotal(store, securities, x, ids[0]);
      var rest := Insert(store, securities, x, ids[1..]);
      forall k | 0 <= k < |rest|
        ensures Before(store, securities, ids[0], rest[k])
      {
        assert rest[k] in rest;
        if rest[k] != x {
          var j :| 0 <= j < |ids[1..]| && ids[1..][j] == rest[k];
          assert ids[j + 1] == rest[k];
        }
      }
      [ids[0]] + rest
  }

  /** The ids sorted into listing order. */
  function Sort(store: PriceStore, securities: Securities.SecurityStore, ids: seq<int>): (r: seq<int>)
    requires Joined(store, securities, ids)
    requires Distinct(ids)
    ensures |r| == |ids|
    ensures forall y :: y in r <==> y in ids
    ensures Joined(store, securities, r)
    ensures InOrder(store, securities, r)
  {
    if |ids| == 0 then []
    else
      var rest := Sort(store, securities, ids[1..]);
      assert ids[0] !in ids[1..];
      Insert(store, securities, ids[0], rest)
  }

  /** Listing order holds only between distinct ids, so a sorted list has no
      repeats. */
  lemma InOrderIsDistinct(store: PriceStore, securities: Securities.SecurityStore, ids: seq<int>)
    requires Joined(store, securities, ids) && InOrder(store, securities, ids)
    ensures Distinct(ids)
  {
    forall i, j | 0 <= i < j < |ids|
      ensures ids[i] != ids[j]
    {
      BeforeAsymmetric(store, securities, ids[i], ids[j]);
    }
  }

  /** The ids among `ids` whose rows pass the filters, in the same order. */
  function Pick(store: PriceStore, ids: seq<int>, securities: Securities.SecurityStore,
                from: Option<Dates.Date>, to: Option<Dates.Date>, ticker: Option<string>): (r: seq<int>)
    requires forall i :: 0 <= i < |ids| ==> ids[i] in store
    ensures forall y :: y in r <==> y in ids && Selected(store[y], securities, from, to, ticker)
    ensures Joined(store, securities, r)
    ensures Distinct(ids) ==> Distinct(r)
  {
    if |ids| == 0 then []
    else
      var rest := Pick(store, ids[1..], securities, from, to, ticker);
      assert forall y :: y in ids <==> y == ids[0] || y in ids[1..];
      assert Distinct(ids) ==> ids[0] !in ids[1..];
      if Selected(store[ids[0]], securities, from, to, ticker) then [ids[0]] + rest else rest
  }

  /** Ids of the listed rows: exactly the rows that pass the filters, each
      once, in listing order. */
  function ListIds(store: PriceStore, securities: Securities.SecurityStore,
                   from: Option<Dates.Date>, to: Option<Dates.Date>, ticker: Option<string>): (r: seq<int>)
    ensures forall y :: y in r <==> y in store && Selected(store[y], securities, from, to, ticker)
    ensures Distinct(r)
    ensures Joined(store, securities, r)
    ensures InOrder(store, securities, r)
  {
    var all := Ascending(store.Keys);
    assert Distinct(all);
    var picked := Pick(store, all, securities, from, to, ticker);
    var sorted := Sort(store, securities, picked);
    InOrderIsDistinct(store, securities, sorted);
    sorted
  }

  /** The rows stored under `ids`, in the same order. */
  function RowsAt(store: PriceStore, ids: seq<int>): (r: seq<Price>)
    requires forall i :: 0 <= i < |ids| ==> ids[i] in store
    ensures |r| == |ids| && forall i :: 0 <= i < |ids| ==> r[i] == store[ids[i]]
  {
    if |ids| == 0 then [] else [store[ids[0]]] + RowsAt(store, ids[1..])
  }

  /** The ids of the stored rows that pass the filters. */
  function SelectedIds(store: PriceStore, securities: Securities.SecurityStore,
                       from: Option<Dates.Date>, to: Option<Dates.Date>, ticker: Option<string>): set<int>
  {
    set k | k in store && Selected(store[k], securities, from, to, ticker)
  }

  /** Each row is stored under its own id. */
  predicate IdsAreKeys(store: PriceStore) {
    forall k :: k in store ==> store[k].id == k
  }

  /** `list_by_date_range_and_ticker`: the rows that pass the supplied
      filters, one per selected stored row, ordered by price date, then the
      security's ticker, name and id. */
  function ListByRange(store: PriceStore, securities: Securities.SecurityStore,
                       from: Option<Dates.Date>, to: Option<Dates.Date>, ticker: Option<string>): (r: seq<Price>)
    ensures forall i :: 0 <= i < |r| ==> r[i] in store.Values && Selected(r[i], securities, from, to, ticker)
    ensures forall k :: k in store && Selected(store[k], securities, from, to, ticker) ==> store[k] in r
    ensures |r| == |SelectedIds(store, securities, from, to, ticker)|
    ensures IdsAreKeys(store) ==> Distinct(r)
    ensures forall i :: 0 <= i < |r| ==> r[i].securityId in securities
    ensures forall i, j :: 0 <= i < j < |r| ==> KeyLe(SortKeyOf(r[i], securities), SortKeyOf(r[j], securities))
  {
    var ids := ListIds(store, securities, from, to, ticker);
    ListedRows(store, securities, from, to, ticker, ids);
    RowsAt(store, ids)
  }

  /** The rows read for a sorted, duplicate-free list of exactly the
      selected ids. */
  lemma ListedRows(store: PriceStore, securities: Securities.SecurityStore,
                   from: Option<Dates.Date>, to: Option<Dates.Date>, ticker: Option<string>, ids: seq<int>)
    requires forall y :: y in ids <==> y in store && Selected(store[y], securities, from, to, ticker)
    requires Distinct(ids) && Joined(store, securities, ids) && InOrder(store, securities, ids)
    ensures var r := RowsAt(store, ids);
      && (forall i :: 0 <= i < |r| ==> r[i] in store.Values && Selected(r[i], securities, from, to, ticker))
      && (forall k :: k in store && Selected(store[k], securities, from, to, ticker) ==> store[k] in r)
      && |r| == |SelectedIds(store, securities, from, to, ticker)|
      && (IdsAreKeys(store) ==> Distinct(r))
      && (forall i :: 0 <= i < |r| ==> r[i].securityId in securities)
      && (forall i, j :: 0 <= i < j < |r| ==> KeyLe(SortKeyOf(r[i], securities), SortKeyOf(r[j], securities)))
  {
    ListedRowsSelection(store, securities, from, to, ticker, ids);
    ListedRowsShape(store, securities, ids);
  }

  /** The rows read for exactly the selected ids, each once, are the
      selected rows, all of them. */
  lemma ListedRowsSelection(store: PriceStore, securities: Securities.SecurityStore,
                            from: Option<Dates.Date>, to: Option<Dates.Date>, ticker: Option<string>, ids: seq<int>)
    requires forall y :: y in ids <==> y in store && Selected(store[y], securities, from, to, ticker)
    requires forall i :: 0 <= i < |ids| ==> ids[i] in store
    requires Distinct(ids)
    ensures var r := RowsAt(store, ids);
      && (forall i :: 0 <= i < |r| ==> r[i] in store.Values && Selected(r[i], securities, from, to, ticker))
      && (forall k :: k in store && Selected(store[k], securities, from, to, ticker) ==> store[k] in r)
      && |r| == |SelectedIds(store, securities, from, to, ticker)|
  {
    var r := RowsAt(store, ids);
    assert |r| == |SelectedIds(store, securities, from, to, ticker)| by {
      ListedRowsCount(store, securities, from, to, ticker, ids);
    }
    assert forall i :: 0 <= i < |r| ==> r[i] in store.Values && Selected(r[i], securities, from, to, ticker) by {
      assert forall i :: 0 <= i < |ids| ==> ids[i] in ids;
      ListedRowsSelected(store, securities, from, to, ticker, ids);
    }
    assert forall k :: k in store && Selected(store[k], securities, from, to, ticker) ==> store[k] in r by {
      RowsAtCovers(store, ids);
    }
  }

  /** The rows read for a sorted, duplicate-free id list are joined, in
      order, and distinct when ids are keys. */
  lemma ListedRowsShape(store: PriceStore, securities: Securities.SecurityStore, ids: seq<int>)
    requires Distinct(ids) && Joined(store, securities, ids) && InOrder(store, securities, ids)
    ensures var r := RowsAt(store, ids);
      && (IdsAreKeys(store) ==> Distinct(r))
      && (forall i :: 0 <= i < |r| ==> r[i].securityId in securities)
      && (forall i, j :: 0 <= i < j < |r| ==> KeyLe(SortKeyOf(r[i], securities), SortKeyOf(r[j], securities)))
  {
    RowsAtOrdered(store, securities, ids);
    RowsAtDistinct(store, ids);
  }

  /** As many rows are read as there are selected ids, when the list holds
      each selected id once. */
  lemma ListedRowsCount(store: PriceStore, securities: Securities.SecurityStore,
                        from: Option<Dates.Date>, to: Option<Dates.Date>, ticker: Option<string>, ids: seq<int>)
    requires forall y :: y in ids <==> y in store && Selected(store[y], securities, from, to, ticker)
    requires Distinct(ids)
    ensures |ids| == |SelectedIds(store, securities, from, to, ticker)|
  {
    var sel := SelectedIds(store, securities, from, to, ticker);
    forall y
      ensures y in sel <==> y in ids
    {
      assert y in sel <==> y in store && Selected(store[y], securities, from, to, ticker);
    }
    assert sel == set y | y in ids;
    DistinctSetSize(ids);
  }

  /** Every row read is stored and selected. */
  lemma ListedRowsSelected(store: PriceStore, securities: Securities.SecurityStore,
                           from: Option<Dates.Date>, to: Option<Dates.Date>, ticker: Option<string>, ids: seq<int>)
    requires forall i :: 0 <= i < |ids| ==> ids[i] in store && Selected(store[ids[i]], securities, from, to, ticker)
    ensures forall i :: 0 <= i < |ids| ==> RowsAt(store, ids)[i] in store.Values && Selected(RowsAt(store, ids)[i], securities, from, to, ticker)
  {
    var r := RowsAt(store, ids);
    forall i | 0 <= i < |ids|
      ensures r[i] in store.Values && Selected(r[i], securities, from, to, ticker)
    {
      assert r[i] == store[ids[i]];
    }
  }

  /** Every row stored under one of `ids` is among the rows read. */
  lemma RowsAtCovers(store: PriceStore, ids: seq<int>)
    requires forall i :: 0 <= i < |ids| ==> ids[i] in store
    ensures forall k :: k in ids ==> store[k] in RowsAt(store, ids)
  {
    var r := RowsAt(store, ids);
    forall k | k in ids
      ensures store[k] in r
    {
      var i :| 0 <= i < |ids| && ids[i] == k;
      assert r[i] == store[k];
    }
  }

  /** Rows read in listing order are ordered by the `ORDER BY` columns. */
  lemma RowsAtOrdered(store: PriceStore, securities: Securities.SecurityStore, ids: seq<int>)
    requires Joined(store, securities, ids) && InOrder(store, securities, ids)
    ensures forall i :: 0 <= i < |ids| ==> RowsAt(store, ids)[i].securityId in securities
    ensures forall i, j :: 0 <= i < j < |ids| ==>
              KeyLe(SortKeyOf(RowsAt(store, ids)[i], securities), SortKeyOf(RowsAt(store, ids)[j], securities))
  {
    var r := RowsAt(store, ids);
    forall i, j | 0 <= i < j < |ids|
      ensures KeyLe(SortKeyOf(r[i], securities), SortKeyOf(r[j], securities))
    {
      assert Before(store, securities, ids[i], ids[j]);
    }
  }

  /** Distinct ids of rows stored under their own ids read distinct rows. */
  lemma RowsAtDistinct(store: PriceStore, ids: seq<int>)
    requires forall i :: 0 <= i < |ids| ==> ids[i] in store
    requires Distinct(ids)
    ensures IdsAreKeys(store) ==> Distinct(RowsAt(store, ids))
  {
    var r := RowsAt(store, ids);
    if IdsAreKeys(store) {
      forall i, j | 0 <= i < j < |r|
        ensures r[i] != r[j]
      {
        assert r[i].id == ids[i] && r[j].id == ids[j];
      }
    }
  }

  /** Without filters every row whose security exists is listed. */
  lemma NoFilterListsJoinedRows(store: PriceStore, securities: Securities.SecurityStore, k: int)
    requires k in store && store[k].securityId in securities
    ensures store[k] in ListByRange(store, securities, None, None, None)
  {
  }

  /** A row whose security is missing is never listed, whatever the filters. */
  lemma OrphanRowsNeverListed(store: PriceStore, securities: Securities.SecurityStore,
                              from: Option<Dates.Date>, to: Option<Dates.Date>, ticker: Option<string>, k: int)
    requires k in store && store[k].securityId !in securities
    ensures k !in ListIds(store, securities, from, to, ticker)
  {
  }

  /** Stripping and upper-casing a ticker twice is the same as doing it once. */
  lemma NormalizeTickerIdempotent(t: string)
    ensures Text.Upper(Text.Strip(Text.Upper(Text.Strip(t)))) == Text.Upper(Text.Strip(t))
  {
    var s := Text.Strip(t);
    var u := Text.Upper(s);
    assert |u| == 0 || (!Text.IsSpace(u[0]) && !Text.IsSpace(u[|u| - 1]));
    Text.StripTrimmedIsIdentity(u);
    Text.UpperIdempotent(s);
  }

  /** The ticker argument is stripped and upper-cased, so passing it already
      normalised selects the same rows. */
  lemma TickerFilterNormalised(p: Price, securities: Securities.SecurityStore,
                               from: Option<Dates.Date>, to: Option<Dates.Date>, t: string)
    ensures Selected(p, securities, from, to, Some(t))
            <==> Selected(p, securities, from, to, Some(Text.Upper(Text.Strip(t))))
  {
    NormalizeTickerIdempotent(t);
  }
}

=== FILE: seqs.dfy ===
/** Generic sequence predicates shared across modules. */
module Seqs {

  /** No element occurs twice. */
  predicate Distinct<T(==)>(s: seq<T>) {
    forall i, j :: 0 <= i < j < |s| ==> s[i] != s[j]
  }

  /** Putting an element that does not occur in front keeps a sequence
      without repeats. */
  lemma DistinctCons<T>(x: T, s: seq<T>)
    requires Distinct(s) && x !in s
    ensures Distinct([x] + s)
  {
    assert forall j :: 0 <= j < |s| ==> ([x] + s)[j + 1] == s[j];
  }

  /** Some element satisfies `p`. */
  predicate Any<T>(s: seq<T>, p: T -> bool) {
    exists i :: 0 <= i < |s| && p(s[i])
  }

  /** A non-empty sequence is its front followed by its last element. */
  lemma FrontThenLast<T>(s: seq<T>)
    requires |s| > 0
    ensures s == s[..|s| - 1] + [s[|s| - 1]]
  {
  }

  /** A sequence without repeats has as many elements as its set. */
  lemma {:induction false} DistinctSetSize<T>(s: seq<T>)
    requires Distinct(s)
    ensures |set x | x in s| == |s|
  {
    if |s| > 0 {
      DistinctSetSize(s[1..]);
      assert s[0] !in s[1..];
      assert (set x | x in s) == {s[0]} + (set x | x in s[1..]);
    }
  }

  /** Growing a sequence by one element adds that element's case. */
  lemma AnyOfSnoc<T>(s: seq<T>, p: T -> bool)
    requires |s| > 0
    ensures Any(s, p) <==> Any(s[..|s| - 1], p) || p(s[|s| - 1])
  {
    var n := |s| - 1;
    if Any(s[..n], p) {
      var i :| 0 <= i < n && p(s[..n][i]);
      assert s[..n][i] == s[i];
    }
    if Any(s, p) {
      var i :| 0 <= i < |s| && p(s[i]);
      if i < n {
        assert s[..n][i] == s[i];
      }
    }
  }

  /** The elements of `s` that `p` accepts, in order, each as often as it
      occurs in `s`. */
  function Filter<T>(s: seq<T>, p: T -> bool): (r: seq<T>)
    ensures |r| <= |s|
    ensures forall i :: 0 <= i < |r| ==> p(r[i]) && r[i] in s
    decreases |s|
  {
    if |s| == 0 then []
    else Filter(s[..|s| - 1], p) + (if p(s[|s| - 1]) then [s[|s| - 1]] else [])
  }

  /** Each accepted element is kept as often as it occurs; no other element
      is kept. */
  lemma {:induction false} FilterCounts<T>(s: seq<T>, p: T -> bool)
    ensures forall x :: multiset(Filter(s, p))[x] == if p(x) then multiset(s)[x] else 0
    decreases |s|
  {
    if |s| > 0 {
      var n := |s| - 1;
      FilterCounts(s[..n], p);
      assert s == s[..n] + [s[n]];
    }
  }

  /** An element is kept exactly when it occurs and is accepted. */
  lemma FilterMembers<T>(s: seq<T>, p: T -> bool)
    ensures forall x :: x in Filter(s, p) <==> x in s && p(x)
  {
    FilterCounts(s, p);
    assert forall x :: x in Filter(s, p) <==> multiset(Filter(s, p))[x] > 0;
  }

  /** Filtering a sequence split in two filters each part and keeps them in
      that order, so the kept elements keep their relative order. */
  lemma {:induction false} FilterConcat<T>(a: seq<T>, b: seq<T>, p: T -> bool)
    ensures Filter(a + b, p) == Filter(a, p) + Filter(b, p)
    decreases |b|
  {
    if |b| == 0 {
      assert a + b == a;
    } else {
      var n := |b| - 1;
      var ab := a + b;
      var tail := if p(b[n]) then [b[n]] else [];
      assert ab[..|ab| - 1] == a + b[..n] && ab[|ab| - 1] == b[n];
      assert Filter(ab, p) == Filter(a + b[..n], p) + tail;
      FilterConcat(a, b[..n], p);
      assert Filter(b, p) == Filter(b[..n], p) + tail;
    }
  }

  /** When every element is accepted, filtering keeps the whole sequence. */
  lemma {:induction false} FilterAll<T>(s: seq<T>, p: T -> bool)
    requires forall i :: 0 <= i < |s| ==> p(s[i])
    ensures Filter(s, p) == s
    decreases |s|
  {
    if |s| > 0 {
      var n := |s| - 1;
      FilterAll(s[..n], p);
      assert s == s[..n] + [s[n]];
    }
  }

  /** `f` applied to every element of `s`, in order. */
  function Map<T, U>(s: seq<T>, f: T -> U): (r: seq<U>)
    ensures |r| == |s| && forall i :: 0 <= i < |s| ==> r[i] == f(s[i])
  {
    seq(|s|, i requires 0 <= i < |s| => f(s[i]))
  }

  /** Mapping a sequence grown by one element grows the image by its image. */
  lemma MapSnoc<T, U>(s: seq<T>, x: T, f: T -> U)
    ensures Map(s + [x], f) == Map(s, f) + [f(x)]
  {
  }

  /** Every element of `s` except the occurrences of `x`, in order. */
  function Without<T(==,!new)>(s: seq<T>, x: T): (r: seq<T>)
    ensures forall y :: y in r <==> y in s && y != x
    ensures x !in s ==> r == s
    ensures Distinct(s) ==> Distinct(r)
  {
    if |s| == 0 then []
    else
      var rest := Without(s[1..], x);
      assert forall y :: y in s <==> y == s[0] || y in s[1..];
      assert Distinct(s) ==> s[0] !in s[1..];
      if s[0] == x then rest else [s[0]] + rest
  }

  /** The position of the first occurrence of `x`. */
  function IndexOf<T(==)>(s: seq<T>, x: T): (i: nat)
    requires x in s
    ensures i < |s| && s[i] == x
    ensures forall j :: 0 <= j < i ==> s[j] != x
  {
    if s[0] == x then 0 else 1 + IndexOf(s[1..], x)
  }

  predicate IsLeast(m: int, s: set<int>) {
    m in s && forall x :: x in s ==> m <= x
  }

  /** A set of integers with an element has a least element. */
  lemma {:induction false} MinExists(s: set<int>, w: int)
    requires w in s
    ensures exists m :: IsLeast(m, s)
    decreases s
  {
    if y :| y in s && y < w {
      var rest := s - {w};
      MinExists(rest, y);
      var m :| IsLeast(m, rest);
      var least := if m < w then m else w;
      forall x | x in s
        ensures least <= x
      {
        if x != w {
          assert x in rest;
        }
      }
      assert IsLeast(least, s);
    } else {
      assert IsLeast(w, s);
    }
  }

  /** The least element of a set of integers that has one. */
  function MinOf(s: set<int>): (m: int)
    requires exists x :: x in s
    ensures IsLeast(m, s)
  {
    var w :| w in s;
    MinExists(s, w);
    var m :| IsLeast(m, s);
    m
  }

  /** Strictly increasing. */
  predicate Increasing(s: seq<int>) {
    forall i, j :: 0 <= i < j < |s| ==> s[i] < s[j]
  }

  /** The elements of a finite set of integers in increasing order. */
  function Ascending(s: set<int>): (r: seq<int>)
    ensures forall x :: x in r <==> x in s
    ensures Increasing(r)
    decreases s
  {
    if !exists x :: x in s then
      assert s == {};
      []
    else
      var m := MinOf(s);
      var rest := Ascending(s - {m});
      [m] + rest
  }
}

=== FILE: telemetry.dfy ===
/** The browser-side telemetry queue: events are sanitised, appended to a
    queue kept in local storage under one key, bounded to the newest
    entries, and cleared once an uploader accepts them. Local storage, the
    JSON engine, the clock and the uploader are parameters. */
module Telemetry {
  import opened Results
  import opened Text
  import opened Dicts
  import opened Js
  import Seqs

  /** The most events the queue keeps. */
  const QueueLimit: nat := 1000

  /** The most characters of queue text written to storage. */
  const StoredTextLimit: nat := 200000

  /** The most characters an object-valued property keeps of its JSON text. */
  const PropTextLimit: nat := 500

  /** `s.slice(0, n)` */
  function Prefix(s: string, n: nat): (r: string)
    ensures |r| == if |s| <= n then |s| else n
    ensures |r| <= |s| && r == s[..|r|]
  {
    if |s| <= n then s else s[..n]
  }

  // ---------------------------------------------------------------------
  // Properties

  /** Event properties: a JavaScript object as its entries, in order. */
  type Props = Dict<string, JsValue>

  /** Keys whose lower-case form is one of these are never recorded. */
  predicate Banned(k: string) {
    Lower(k) in {"password", "token", "email", "username"}
  }

  /** An object `JSON.stringify` cannot turn into text. */
  predicate Unserialisable(v: JsValue) {
    v.Obj? && v.json.None?
  }

  /** A property value as recorded: objects and arrays become their JSON
      text cut to 500 characters; null and primitive values stay. `None`
      when the object's `JSON.stringify` throws, or gives `undefined` and
      the `slice` on it throws. */
  function Normalize(v: JsValue): (r: Option<JsValue>)
    ensures r.None? <==> Unserialisable(v)
    ensures r.Some? ==> !r.value.Obj?
    ensures r.Some? && v.Obj? ==> var t := v.json.value;
              r.value.Str? && |r.value.s| <= PropTextLimit && |r.value.s| <= |t| && r.value.s == t[..|r.value.s|]
    ensures !v.Obj? ==> r == Some(v)
  {
    if !v.Obj? then Some(v)
    else match v.json
      case None => None
      case Some(t) => Some(Str(Prefix(t, PropTextLimit)))
  }

  /** Some key that is not banned holds an object that cannot be
      stringified, so sanitising throws. */
  predicate SanitizeThrows(es: Props) {
    exists i :: 0 <= i < |es| && !Banned(es[i].0) && Unserialisable(es[i].1)
  }

  lemma SanitizeThrowsTail(es: Props)
    requires |es| > 0
    ensures SanitizeThrows(es) <==> (!Banned(es[0].0) && Unserialisable(es[0].1)) || SanitizeThrows(es[1..])
  {
    if SanitizeThrows(es[1..]) {
      var i :| 0 <= i < |es[1..]| && !Banned(es[1..][i].0) && Unserialisable(es[1..][i].1);
      assert es[i + 1] == es[1..][i];
    }
    if SanitizeThrows(es) {
      var i :| 0 <= i < |es| && !Banned(es[i].0) && Unserialisable(es[i].1);
      if i > 0 {
        assert es[1..][i - 1] == es[i];
      }
    }
  }

  /** The entries kept, each normalised, in their order. An object's keys
      are distinct, so each assignment `out[k] = ...` appends. `None` when
      normalising a kept entry throws. */
  function SanitizeEntries(es: Props): (r: Option<Props>)
    ensures r.None? <==> SanitizeThrows(es)
    ensures r.Some? ==> |r.value| <= |es|
    ensures r.Some? ==> forall i :: 0 <= i < |r.value| ==> !Banned(r.value[i].0) && !r.value[i].1.Obj?
    ensures r.Some? ==> forall k :: k in KeysOf(r.value) <==> k in KeysOf(es) && !Banned(k)
  {
    if |es| == 0 then Some([])
    else
      SanitizeThrowsTail(es);
      KeysOfCons(es);
      var tail := SanitizeEntries(es[1..]);
      if Banned(es[0].0) then tail
      else match Normalize(es[0].1)
        case None => None
        case Some(v) =>
          match tail
          case None => None
          case Some(rest) =>
            KeysOfCons([(es[0].0, v)] + rest);
            assert ([(es[0].0, v)] + rest)[1..] == rest;
            Some([(es[0].0, v)] + rest)
  }

  /** The keys of a non-empty property list are its first key and the keys
      of the rest. */
  lemma KeysOfCons(es: Props)
    requires |es| > 0
    ensures forall k :: k in KeysOf(es) <==> k == es[0].0 || k in KeysOf(es[1..])
  {
    assert KeysOf(es) == [es[0].0] + KeysOf(es[1..]);
  }

  /** `sanitizeProps`: a missing or falsy input gives no properties;
      otherwise the entries whose key is not banned, objects normalised.
      `None` stands for a falsy input; a `None` result for a call that
      throws. */
  function SanitizeProps(input: Option<Props>): (r: Option<Props>)
    ensures input.None? ==> r == Some([])
    ensures r.None? <==> input.Some? && SanitizeThrows(input.value)
    ensures r.Some? && input.Some? ==> forall k :: k in KeysOf(r.value) <==> k in KeysOf(input.value) && !Banned(k)
    ensures r.Some? ==> forall i :: 0 <= i < |r.value| ==> !Banned(r.value[i].0) && !r.value[i].1.Obj?
  {
    match input
    case None => Some([])
    case Some(es) => SanitizeEntries(es)
  }

  /** Sanitising keeps the properties an object has in its own order and
      distinct. */
  lemma {:induction false} SanitizeKeepsDistinctKeys(es: Props)
    requires WellFormed(es)
    ensures SanitizeEntries(es).Some? ==> WellFormed(SanitizeEntries(es).value)
  {
    if |es| > 0 {
      WellFormedTail(es);
      SanitizeKeepsDistinctKeys(es[1..]);
      if !Banned(es[0].0) && Normalize(es[0].1).Some? && SanitizeEntries(es[1..]).Some? {
        var rest := SanitizeEntries(es[1..]).value;
        assert es[0].0 !in KeysOf(rest);
        WellFormedCons(es[0].0, Normalize(es[0].1).value, rest);
      }
    }
  }

  lemma WellFormedTail(es: Props)
    requires |es| > 0 && WellFormed(es)
    ensures WellFormed(es[1..]) && es[0].0 !in KeysOf(es[1..])
  {
    assert KeysOf(es[1..]) == KeysOf(es)[1..];
  }

  lemma WellFormedCons(k: string, v: JsValue, rest: Props)
    requires WellFormed(rest) && k !in KeysOf(rest)
    ensures WellFormed([(k, v)] + rest)
  {
    Seqs.DistinctCons(k, KeysOf(rest));
    assert KeysOf([(k, v)] + rest) == [k] + KeysOf(rest);
  }

  /** Reading a sanitised property: a banned key reads as absent, any other
      key as its normalised value. */
  lemma {:induction false} SanitizeGet(es: Props, k: string)
    ensures SanitizeEntries(es).Some? ==>
              Get(SanitizeEntries(es).value, k) == if Banned(k) then None
                                                   else match Get(es, k) case None => None case Some(v) => Normalize(v)
  {
    if |es| > 0 {
      SanitizeGet(es[1..], k);
      GetFirst(es, k);
      if !Banned(es[0].0) && Normalize(es[0].1).Some? && SanitizeEntries(es[1..]).Some? {
        var rest := SanitizeEntries(es[1..]).value;
        var r := [(es[0].0, Normalize(es[0].1).value)] + rest;
        GetFirst(r, k);
        assert r[1..] == rest;
      }
    }
  }

  /** Sanitising twice is sanitising once. */
  lemma {:induction false} SanitizeIdempotent(es: Props)
    ensures SanitizeEntries(es).Some? ==>
              SanitizeEntries(SanitizeEntries(es).value) == SanitizeEntries(es)
  {
    if |es| > 0 {
      SanitizeIdempotent(es[1..]);
      if !Banned(es[0].0) && Normalize(es[0].1).Some? && SanitizeEntries(es[1..]).Some? {
        var rest := SanitizeEntries(es[1..]).value;
        var r := [(es[0].0, Normalize(es[0].1).value)] + rest;
        assert r[1..] == rest;
      }
    }
  }

  // ---------------------------------------------------------------------
  // The stored queue

  datatype Event = Event(name: string, ts: string, props: Props, v: int)

  /** Local storage as the queue sees it: unavailable (every access throws)
      or available, holding the queue's item if it was ever set, with room
      for an item of at most `room` characters (a longer `setItem` throws a
      quota error). */
  datatype Storage = Unavailable | Available(item: Option<string>, room: nat)

  /** What `JSON.parse` makes of a text. */
  datatype Parsed = NotJson | JsonArray(items: seq<Event>) | JsonOther

  /** The JSON engine: `JSON.parse` and `JSON.stringify` of a queue. */
  datatype Json = Json(parse: string -> Parsed, stringify: seq<Event> -> string)

  /** `safeGetQueue`: the stored array, or no events when storage throws,
      the item is missing or empty, or the text is not a JSON array. */
  function SafeGetQueue(st: Storage, json: Json): (q: seq<Event>)
    ensures st.Unavailable? || st.item.None? || st.item == Some("") ==> q == []
    ensures q != [] ==> st.Available? && st.item.Some? && json.parse(st.item.value) == JsonArray(q)
  {
    match st
    case Unavailable => []
    case Available(item, _) =>
      if item.None? || item.value == "" then []
      else
        match json.parse(item.value)
        case JsonArray(items) => items
        case _ => []
  }

  /** The text `safeSetQueue` writes: the queue's JSON text cut to the cap. */
  function StoredText(q: seq<Event>, json: Json): (t: string)
    ensures |t| <= StoredTextLimit && |t| <= |json.stringify(q)| && t == json.stringify(q)[..|t|]
    ensures |json.stringify(q)| <= StoredTextLimit ==> t == json.stringify(q)
  {
    Prefix(json.stringify(q), StoredTextLimit)
  }

  /** `safeSetQueue`: the queue's text, cut to 200000 characters, replaces
      the item; when storage throws, whether because it is unavailable or
      because the text exceeds its room, nothing changes. */
  function SafeSetQueue(st: Storage, q: seq<Event>, json: Json): (r: Storage)
    ensures st.Unavailable? <==> r.Unavailable?
    ensures r.Available? ==> r.room == st.room
    ensures st.Available? && |StoredText(q, json)| <= st.room ==> r.item == Some(StoredText(q, json))
    ensures st.Available? && |StoredText(q, json)| > st.room ==> r == st
    ensures r != st ==> r.Available? && r.item.Some? && |r.item.value| <= StoredTextLimit
                        && |r.item.value| <= |json.stringify(q)|
                        && r.item.value == json.stringify(q)[..|r.item.value|]
  {
    if st.Unavailable? then st
    else
      var t := StoredText(q, json);
      if |t| > st.room then st else Available(Some(t), st.room)
  }

  /** A queue whose JSON text fits and parses back is read back unchanged. */
  lemma SetThenGet(st: Storage, q: seq<Event>, json: Json)
    requires st.Available? && |json.stringify(q)| <= st.room
    requires 0 < |json.stringify(q)| <= StoredTextLimit
    requires json.parse(json.stringify(q)) == JsonArray(q)
    ensures SafeGetQueue(SafeSetQueue(st, q, json), json) == q
  {
  }

  /** A write that exceeds the storage's room is dropped: the queue read
      afterwards is the one read before. */
  lemma QuotaKeepsQueue(st: Storage, q: seq<Event>, json: Json)
    requires st.Available? && |StoredText(q, json)| > st.room
    ensures SafeGetQueue(SafeSetQueue(st, q, json), json) == SafeGetQueue(st, json)
  {
  }

  /** A queue whose JSON text is longer than the cap is stored cut short;
      when the cut text does not parse as an array, every queued event is
      lost at the next read. */
  lemma TruncationLosesQueue(st: Storage, q: seq<Event>, json: Json)
    requires st.Available? && StoredTextLimit <= st.room
    requires |json.stringify(q)| > StoredTextLimit
    requires !json.parse(json.stringify(q)[..StoredTextLimit]).JsonArray?
    ensures SafeGetQueue(SafeSetQueue(st, q, json), json) == []
  {
  }

  // ---------------------------------------------------------------------
  // trackEvent

  /** `q.push(evt); if (q.length > 1000) q.shift();` */
  function Push(q: seq<Event>, evt: Event): (r: seq<Event>)
    ensures |r| == if |q| + 1 > QueueLimit then |q| else |q| + 1
    ensures |r| > 0 && r[|r| - 1] == evt
    ensures r == (q + [evt])[|q| + 1 - |r|..]
    ensures |q| <= QueueLimit ==> |r| <= QueueLimit
  {
    var p := q + [evt];
    if |p| > QueueLimit then p[1..] else p
  }

  /** The last `n` elements of `s`, or all of them. */
  function Last<T>(s: seq<T>, n: nat): (r: seq<T>)
    ensures |r| == if |s| <= n then |s| else n
    ensures r == s[|s| - |r|..]
  {
    if |s| <= n then s else s[|s| - n..]
  }

  /** Events pushed one after another. */
  function PushAll(q: seq<Event>, evts: seq<Event>): seq<Event>
    decreases |evts|
  {
    if |evts| == 0 then q else PushAll(Push(q, evts[0]), evts[1..])
  }

  /** A queue within the bound keeps exactly the newest 1000 of its events
      and the ones pushed after them. */
  lemma {:induction false} PushAllKeepsNewest(q: seq<Event>, evts: seq<Event>)
    requires |q| <= QueueLimit
    ensures PushAll(q, evts) == Last(q + evts, QueueLimit)
    decreases |evts|
  {
    if |evts| > 0 {
      PushAllKeepsNewest(Push(q, evts[0]), evts[1..]);
      PushThenRest(q, evts);
    }
  }

  /** Pushing the first event and then taking the newest 1000 of the rest
      keeps the same events as taking the newest 1000 of everything. */
  lemma PushThenRest(q: seq<Event>, evts: seq<Event>)
    requires |q| <= QueueLimit && |evts| > 0
    ensures Last(Push(q, evts[0]) + evts[1..], QueueLimit) == Last(q + evts, QueueLimit)
  {
    var p := Push(q, evts[0]);
    var all := q + evts;
    var d := |q| + 1 - |p|;
    assert evts == [evts[0]] + evts[1..];
    assert q + [evts[0]] + evts[1..] == all;
    DropThenConcat(q + [evts[0]], evts[1..], d);
    LastOfSuffix(all, d, QueueLimit);
  }

  /** Dropping from the front of `a` commutes with appending `b`. */
  lemma DropThenConcat<T>(a: seq<T>, b: seq<T>, d: nat)
    requires d <= |a|
    ensures a[d..] + b == (a + b)[d..]
  {
  }

  /** Dropping elements from the front that the last `n` do not reach
      leaves the last `n` unchanged. */
  lemma LastOfSuffix<T>(s: seq<T>, k: nat, n: nat)
    requires k == 0 || (k <= |s| && |s| - k >= n)
    ensures Last(s[k..], n) == Last(s, n)
  {
    assert s[0..] == s;
  }

  /** `trackEvent`: the sanitised event, stamped with `ts`, pushed onto the
      stored queue, and the queue written back. When sanitising throws, the
      surrounding `catch` swallows the error and nothing is recorded. */
  function TrackEvent(st: Storage, name: string, props: Option<Props>, ts: string, json: Json): (r: Storage)
    ensures st.Unavailable? <==> r.Unavailable?
    ensures props.Some? && SanitizeThrows(props.value) ==> r == st
  {
    match SanitizeProps(props)
    case None => st
    case Some(p) =>
      var evt := Event(name, ts, p, 1);
      SafeSetQueue(st, Push(SafeGetQueue(st, json), evt), json)
  }

  /** When the properties can be sanitised and the queue's JSON text fits
      the cap and the storage's room and parses back, tracking an event
      pushes it onto the queue that was read. */
  lemma TrackEventPushes(st: Storage, name: string, props: Option<Props>, ts: string, json: Json)
    requires st.Available?
    requires props.None? || !SanitizeThrows(props.value)
    requires var q := Push(SafeGetQueue(st, json), Event(name, ts, SanitizeProps(props).value, 1));
             0 < |json.stringify(q)| <= StoredTextLimit && |json.stringify(q)| <= st.room
             && json.parse(json.stringify(q)) == JsonArray(q)
    ensures SafeGetQueue(TrackEvent(st, name, props, ts, json), json)
            == Push(SafeGetQueue(st, json), Event(name, ts, SanitizeProps(props).value, 1))
  {
    var q := Push(SafeGetQueue(st, json), Event(name, ts, SanitizeProps(props).value, 1));
    SetThenGet(st, q, json);
  }

  // ---------------------------------------------------------------------
  // flushTelemetry

  datatype FlushOutcome = FlushOutcome(ok: bool, storage: Storage)

  /** `flushTelemetry`: true at once for an empty queue, false when no
      uploader function is given, otherwise the uploader's verdict; the
      queue is emptied only when the uploader reports success. */
  function FlushTelemetry(st: Storage, uploader: Option<seq<Event> -> bool>, json: Json): (r: FlushOutcome)
    ensures SafeGetQueue(st, json) == [] ==> r == FlushOutcome(true, st)
    ensures SafeGetQueue(st, json) != [] && uploader.None? ==> r == FlushOutcome(false, st)
    ensures SafeGetQueue(st, json) != [] && uploader.Some? ==>
              r.ok == uploader.value(SafeGetQueue(st, json))
    ensures !r.ok ==> r.storage == st
    ensures r.storage != st ==> r.storage == SafeSetQueue(st, [], json)
  {
    var q := SafeGetQueue(st, json);
    if q == [] then FlushOutcome(true, st)
    else if uploader.None? then FlushOutcome(false, st)
    else
      var ok := uploader.value(q);
      if ok then FlushOutcome(true, SafeSetQueue(st, [], json)) else FlushOutcome(false, st)
  }

  /** After a successful flush the queue reads back empty, provided the
      empty array's text parses as an empty array and fits in storage. */
  lemma FlushEmptiesQueue(st: Storage, uploader: Option<seq<Event> -> bool>, json: Json)
    requires json.parse(json.stringify([])) == JsonArray([]) && |json.stringify([])| <= StoredTextLimit
    requires st.Available? ==> |json.stringify([])| <= st.room
    requires FlushTelemetry(st, uploader, json).ok
    ensures SafeGetQueue(FlushTelemetry(st, uploader, json).storage, json) == []
  {
  }
}

=== FILE: text.dfy ===
/** String helpers shared by the CRUD layer, the CSV loaders, the scrapers and
    the command-line parsing.

    Strings are sequences of characters. Case mapping follows Python's
    `str.upper`/`str.lower` on ASCII letters only; every other character is
    left unchanged. Whitespace is the six characters space, tab, line feed,
    vertical tab, form feed and carriage return: the ones Python's
    `str.split`/`str.strip` and JavaScript's `trim` agree on in the ASCII
    range. Python also counts the separators U+001C to U+001F, and both
    languages count non-ASCII spaces; neither is whitespace here. */
module Text {
  import opened Results

  /** ASCII whitespace: space, tab, line feed, vertical tab, form feed, carriage return. */
  predicate IsSpace(c: char) {
    c == ' ' || c == '\t' || c == '\n' || c == '\r' || c as int == 11 || c as int == 12
  }

  predicate IsDigit(c: char) {
    '0' <= c <= '9'
  }

  /** Letters, digits and underscore: the characters a regular-expression `\w` matches. */
  predicate IsWordChar(c: char) {
    ('a' <= c <= 'z') || ('A' <= c <= 'Z') || IsDigit(c) || c == '_'
  }

  function UpperChar(c: char): char {
    if 'a' <= c <= 'z' then (c as int - 32) as char else c
  }

  function LowerChar(c: char): char {
    if 'A' <= c <= 'Z' then (c as int + 32) as char else c
  }

  /** Lower-casing leaves no upper-case letter and keeps whitespace. */
  lemma LowerCharShape(c: char)
    ensures !('A' <= LowerChar(c) <= 'Z')
    ensures IsSpace(LowerChar(c)) <==> IsSpace(c)
  {
  }

  function Upper(s: string): (r: string)
    ensures |r| == |s|
    ensures forall i :: 0 <= i < |s| ==> r[i] == UpperChar(s[i])
  {
    seq(|s|, i requires 0 <= i < |s| => UpperChar(s[i]))
  }

  function Lower(s: string): (r: string)
    ensures |r| == |s|
    ensures forall i :: 0 <= i < |s| ==> r[i] == LowerChar(s[i])
  {
    seq(|s|, i requires 0 <= i < |s| => LowerChar(s[i]))
  }

  lemma UpperIdempotent(s: string)
    ensures Upper(Upper(s)) == Upper(s)
  {
  }

  lemma LowerIdempotent(s: string)
    ensures Lower(Lower(s)) == Lower(s)
  {
  }

  /** Text without upper-case letters is its own lower-case form. */
  lemma LowerOfNoUpper(s: string)
    requires forall i :: 0 <= i < |s| ==> !('A' <= s[i] <= 'Z')
    ensures Lower(s) == s
  {
  }

  lemma LowerOfUpper(s: string)
    ensures Lower(Upper(s)) == Lower(s)
  {
  }

  lemma LowerConcat(a: string, b: string)
    ensures Lower(a + b) == Lower(a) + Lower(b)
  {
  }

  lemma UpperConcat(a: string, b: string)
    ensures Upper(a + b) == Upper(a) + Upper(b)
  {
  }

  predicate NoSpace(s: string) {
    forall i :: 0 <= i < |s| ==> !IsSpace(s[i])
  }

  /** Empty or whitespace only: what Python treats as falsy after `strip()`. */
  predicate Blank(s: string) {
    forall i :: 0 <= i < |s| ==> IsSpace(s[i])
  }

  predicate AllDigits(s: string) {
    forall i :: 0 <= i < |s| ==> IsDigit(s[i])
  }

  /** How many whitespace characters `s` starts with. */
  function LeadingSpaces(s: string): (k: nat)
    ensures k <= |s|
    ensures forall i :: 0 <= i < k ==> IsSpace(s[i])
    ensures k == |s| || !IsSpace(s[k])
  {
    if |s| > 0 && IsSpace(s[0]) then 1 + LeadingSpaces(s[1..]) else 0
  }

  function TrimLeft(s: string): (r: string)
    ensures |r| <= |s| && r == s[|s| - |r|..]
    ensures |r| == 0 || !IsSpace(r[0])
    ensures forall i :: 0 <= i < |s| - |r| ==> IsSpace(s[i])
  {
    s[LeadingSpaces(s)..]
  }

  function TrimRight(s: string): (r: string)
    ensures |r| <= |s| && r == s[..|r|]
    ensures |r| == 0 || !IsSpace(r[|r| - 1])
    ensures forall i :: |r| <= i < |s| ==> IsSpace(s[i])
  {
    if |s| > 0 && IsSpace(s[|s| - 1]) then TrimRight(s[..|s| - 1]) else s
  }

  /** Python's `str.strip()`: leading and trailing whitespace removed. */
  function Strip(s: string): (r: string)
    ensures |r| <= |s|
    ensures |r| == 0 || (!IsSpace(r[0]) && !IsSpace(r[|r| - 1]))
    ensures |r| == 0 <==> Blank(s)
  {
    var t := TrimLeft(s);
    var r := TrimRight(t);
    r
  }

  lemma NoSpaceConcat(a: string, b: string)
    requires NoSpace(a) && NoSpace(b)
    ensures NoSpace(a + b)
  {
    assert forall i :: 0 <= i < |a + b| ==> (a + b)[i] == if i < |a| then a[i] else b[i - |a|];
  }

  lemma StripNoSpaceIsIdentity(s: string)
    requires NoSpace(s)
    ensures Strip(s) == s
  {
  }

  /** A string that neither starts nor ends with whitespace is its own strip. */
  lemma StripTrimmedIsIdentity(s: string)
    requires |s| == 0 || (!IsSpace(s[0]) && !IsSpace(s[|s| - 1]))
    ensures Strip(s) == s
  {
  }

  /** Strict lexicographic order by character code, the order of a binary
      collation: a proper prefix comes first. */
  predicate Precedes(a: string, b: string)
    decreases |a|
  {
    |b| > 0 && (|a| == 0 || a[0] < b[0] || (a[0] == b[0] && Precedes(a[1..], b[1..])))
  }

  lemma {:induction false} PrecedesIrreflexive(a: string)
    ensures !Precedes(a, a)
    decreases |a|
  {
    if |a| > 0 {
      PrecedesIrreflexive(a[1..]);
    }
  }

  lemma {:induction false} PrecedesTransitive(a: string, b: string, c: string)
    requires Precedes(a, b) && Precedes(b, c)
    ensures Precedes(a, c)
    decreases |a|
  {
    if |a| > 0 && a[0] == b[0] && b[0] == c[0] {
      PrecedesTransitive(a[1..], b[1..], c[1..]);
    }
  }

  lemma {:induction false} PrecedesTotal(a: string, b: string)
    requires a != b
    ensures Precedes(a, b) || Precedes(b, a)
    decreases |a|
  {
    if |a| > 0 && |b| > 0 && a[0] == b[0] {
      assert a == [a[0]] + a[1..] && b == [b[0]] + b[1..];
      PrecedesTotal(a[1..], b[1..]);
    }
  }

  function StartsWith(s: string, prefix: string): bool {
    |prefix| <= |s| && s[..|prefix|] == prefix
  }

  function EndsWith(s: string, suffix: string): bool {
    |suffix| <= |s| && s[|s| - |suffix|..] == suffix
  }

  predicate OccursAt(s: string, sub: string, i: nat) {
    i + |sub| <= |s| && s[i..i + |sub|] == sub
  }

  function FindFrom(s: string, sub: string, from: nat): (r: Option<nat>)
    ensures r.Some? ==> from <= r.value && OccursAt(s, sub, r.value)
    ensures r.Some? ==> forall j :: from <= j < r.value ==> !OccursAt(s, sub, j)
    ensures r.None? ==> forall j :: from <= j ==> !OccursAt(s, sub, j)
    decreases |s| - from
  {
    if from + |sub| > |s| then None
    else if s[from..from + |sub|] == sub then Some(from)
    else FindFrom(s, sub, from + 1)
  }

  /** Python's `str.find`: the first index where `sub` occurs in `s`. */
  function Find(s: string, sub: string): (r: Option<nat>)
    ensures r.Some? ==> OccursAt(s, sub, r.value)
    ensures r.Some? ==> forall j :: 0 <= j < r.value ==> !OccursAt(s, sub, j)
    ensures r.None? ==> forall j :: !OccursAt(s, sub, j)
  {
    FindFrom(s, sub, 0)
  }

  /** Substring test (`sub in s` in Python, `s.includes(sub)` in JavaScript). */
  predicate Contains(s: string, sub: string) {
    Find(s, sub).Some?
  }

  lemma EmptyIsContained(s: string)
    ensures Contains(s, "")
  {
    assert OccursAt(s, "", 0);
  }

  /** Every occurrence of `a` replaced by `b`. */
  function ReplaceChar(s: string, a: char, b: char): (r: string)
    ensures |r| == |s|
    ensures forall i :: 0 <= i < |s| ==> r[i] == (if s[i] == a then b else s[i])
  {
    seq(|s|, i requires 0 <= i < |s| => if s[i] == a then b else s[i])
  }

  /** Text without `a` is left alone by replacing `a`. */
  lemma ReplaceAbsentChar(s: string, a: char, b: char)
    requires a !in s
    ensures ReplaceChar(s, a, b) == s
  {
  }

  /** Every occurrence of `a` deleted (Python `s.replace(a, "")`). */
  function RemoveChar(s: string, a: char): (r: string)
    ensures |r| <= |s|
    ensures forall i :: 0 <= i < |r| ==> r[i] != a && r[i] in s
    ensures a !in s ==> r == s
  {
    if |s| == 0 then ""
    else if s[0] == a then RemoveChar(s[1..], a)
    else [s[0]] + RemoveChar(s[1..], a)
  }

  /** Deleting a character keeps every property the remaining characters had. */
  lemma {:induction false} RemoveCharKeeps(s: string, a: char, p: char -> bool)
    requires forall i :: 0 <= i < |s| ==> p(s[i])
    ensures forall i :: 0 <= i < |RemoveChar(s, a)| ==> p(RemoveChar(s, a)[i])
    decreases |s|
  {
    if |s| > 0 {
      RemoveCharKeeps(s[1..], a, p);
    }
  }

  /** A first character other than the deleted one stays first. */
  lemma RemoveCharKeepsFirst(s: string, a: char)
    requires |s| > 0 && s[0] != a
    ensures |RemoveChar(s, a)| > 0 && RemoveChar(s, a)[0] == s[0]
    ensures RemoveChar(s, a)[1..] == RemoveChar(s[1..], a)
  {
  }

  /** Length of the leading run of non-whitespace characters. */
  function TokenLen(s: string): (n: nat)
    ensures n <= |s|
    ensures forall i :: 0 <= i < n ==> !IsSpace(s[i])
    ensures n == |s| || IsSpace(s[n])
  {
    if |s| == 0 || IsSpace(s[0]) then 0 else 1 + TokenLen(s[1..])
  }

  /** Python's `str.split()` with no separator: the maximal runs of non-whitespace. */
  function Words(s: string): (ws: seq<string>)
    ensures forall i :: 0 <= i < |ws| ==> |ws[i]| > 0 && NoSpace(ws[i])
    decreases |s|
  {
    var t := TrimLeft(s);
    if |t| == 0 then []
    else
      var n := TokenLen(t);
      var w := t[..n];
      assert |w| > 0 && NoSpace(w);
      ConsWellFormed(w, Words(t[n..]))
  }

  /** A non-empty, space-free word in front of a well-formed word list. */
  function ConsWellFormed(w: string, rest: seq<string>): (ws: seq<string>)
    requires |w| > 0 && NoSpace(w)
    requires forall i :: 0 <= i < |rest| ==> |rest[i]| > 0 && NoSpace(rest[i])
    ensures ws == [w] + rest
    ensures forall i :: 0 <= i < |ws| ==> |ws[i]| > 0 && NoSpace(ws[i])
  {
    var ws := [w] + rest;
    assert forall i :: 1 <= i < |ws| ==> ws[i] == rest[i - 1];
    ws
  }

  /** `" ".join(ws)`. */
  function JoinSpace(ws: seq<string>): string {
    if |ws| == 0 then ""
    else if |ws| == 1 then ws[0]
    else ws[0] + " " + JoinSpace(ws[1..])
  }

  /** Whitespace runs collapsed to one space and the ends trimmed: `" ".join(s.split())`. */
  function Collapse(s: string): string {
    JoinSpace(Words(s))
  }

  predicate WellFormedWords(ws: seq<string>) {
    forall i :: 0 <= i < |ws| ==> |ws[i]| > 0 && NoSpace(ws[i])
  }

  lemma {:induction false} TokenLenOfPrefix(w: string, t: string)
    requires NoSpace(w)
    ensures TokenLen(w + t) == |w| + TokenLen(t)
    decreases |w|
  {
    if |w| > 0 {
      assert (w + t)[1..] == w[1..] + t;
      TokenLenOfPrefix(w[1..], t);
    } else {
      assert w + t == t;
    }
  }

  lemma WordsSkipsLeadingSpace(c: char, t: string)
    requires IsSpace(c)
    ensures Words([c] + t) == Words(t)
  {
    assert ([c] + t)[1..] == t;
    assert LeadingSpaces([c] + t) == 1 + LeadingSpaces(t);
    assert TrimLeft([c] + t) == TrimLeft(t);
  }

  /** Splitting a space-joined list of non-empty, space-free words gives the list back. */
  lemma {:induction false} WordsOfJoin(ws: seq<string>)
    requires WellFormedWords(ws)
    ensures Words(JoinSpace(ws)) == ws
    decreases |ws|
  {
    if |ws| == 1 {
      OneWord(ws[0]);
    } else if |ws| > 1 {
      WordsOfJoin(ws[1..]);
      WordsOfJoinStep(ws);
    }
  }

  lemma JoinSpaceCons(ws: seq<string>)
    requires |ws| > 1
    ensures JoinSpace(ws) == ws[0] + ([' '] + JoinSpace(ws[1..]))
  {
    assert ws[0] + " " + JoinSpace(ws[1..]) == ws[0] + (" " + JoinSpace(ws[1..]));
  }

  lemma OneWord(w: string)
    requires |w| > 0 && NoSpace(w)
    ensures Words(w) == [w]
  {
    WordThen(w, "");
    assert w + "" == w;
  }

  lemma WordsOfJoinStep(ws: seq<string>)
    requires |ws| > 1 && |ws[0]| > 0 && NoSpace(ws[0])
    requires Words(JoinSpace(ws[1..])) == ws[1..]
    ensures Words(JoinSpace(ws)) == ws
  {
    JoinSpaceCons(ws);
    WordThenSpaceList(ws[0], JoinSpace(ws[1..]), ws[1..]);
    ConsFirstRest(ws);
  }

  /** A non-empty sequence is its head followed by its tail. */
  lemma ConsFirstRest<T>(s: seq<T>)
    requires |s| > 0
    ensures s == [s[0]] + s[1..]
  {
  }

  /** `WordThenSpace` with the rest's words already known. */
  lemma WordThenSpaceList(w: string, rest: string, tail: seq<string>)
    requires |w| > 0 && NoSpace(w) && Words(rest) == tail
    ensures Words(w + ([' '] + rest)) == [w] + tail
  {
    WordThenSpace(w, rest);
  }

  /** A word, one space and a rest split into the word and the rest's words. */
  lemma WordThenSpace(w: string, rest: string)
    requires |w| > 0 && NoSpace(w)
    ensures Words(w + ([' '] + rest)) == [w] + Words(rest)
  {
    WordThen(w, [' '] + rest);
    WordsSkipsLeadingSpace(' ', rest);
  }

  /** A word followed by whitespace or nothing is split off whole. */
  lemma WordThen(w: string, t: string)
    requires |w| > 0 && NoSpace(w)
    requires |t| == 0 || IsSpace(t[0])
    ensures Words(w + t) == [w] + Words(t)
  {
    var s := w + t;
    assert LeadingSpaces(s) == 0 by {
      assert s[0] == w[0];
    }
    assert TrimLeft(s) == s;
    assert TokenLen(s) == |w| by {
      TokenLenOfPrefix(w, t);
      assert TokenLen(t) == 0;
    }
    assert s[..|w|] == w;
    assert s[|w|..] == t;
  }

  /** Empty text collapses to empty text. */
  lemma CollapseEmpty()
    ensures Collapse([]) == []
  {
    assert TrimLeft([]) == [];
    assert Words([]) == [];
  }

  /** Collapsing whitespace twice is the same as collapsing it once. */
  lemma CollapseIdempotent(s: string)
    ensures Collapse(Collapse(s)) == Collapse(s)
  {
    WordsOfJoin(Words(s));
  }

  /** Whitespace only as single spaces between other characters. */
  predicate Collapsed(s: string) {
    forall i :: 0 <= i < |s| && IsSpace(s[i]) ==>
      s[i] == ' ' && 0 < i < |s| - 1 && !IsSpace(s[i - 1]) && !IsSpace(s[i + 1])
  }

  /** Joining non-empty, space-free words with single spaces gives collapsed
      text that starts and ends with a word character. */
  lemma {:induction false} JoinSpaceCollapsed(ws: seq<string>)
    requires WellFormedWords(ws)
    ensures Collapsed(JoinSpace(ws))
    ensures |ws| > 0 ==> |JoinSpace(ws)| > 0 && !IsSpace(JoinSpace(ws)[0])
                         && !IsSpace(JoinSpace(ws)[|JoinSpace(ws)| - 1])
    decreases |ws|
  {
    if |ws| == 1 {
      assert JoinSpace(ws) == ws[0];
    } else if |ws| > 1 {
      var w := ws[0];
      var rest := JoinSpace(ws[1..]);
      JoinSpaceCollapsed(ws[1..]);
      var s := w + " " + rest;
      assert JoinSpace(ws) == s;
      assert s[0] == w[0] && s[|s| - 1] == rest[|rest| - 1];
      forall i | 0 <= i < |s| && IsSpace(s[i])
        ensures s[i] == ' ' && 0 < i < |s| - 1 && !IsSpace(s[i - 1]) && !IsSpace(s[i + 1])
      {
        assert i > |w| ==> s[i] == rest[i - |w| - 1];
        assert i == |w| ==> s[i - 1] == w[|w| - 1] && s[i + 1] == rest[0];
        assert i > |w| + 1 ==> s[i - 1] == rest[i - |w| - 2];
        assert |w| < i < |s| - 1 ==> s[i + 1] == rest[i - |w|];
      }
    }
  }

  /** `Collapse` trims the ends and leaves single spaces between words. */
  lemma CollapseIsCollapsed(s: string)
    ensures Collapsed(Collapse(s))
  {
    JoinSpaceCollapsed(Words(s));
  }

  /** Length of the leading run of ASCII digits. */
  function DigitRun(s: string): (n: nat)
    ensures n <= |s|
    ensures AllDigits(s[..n])
    ensures n == |s| || !IsDigit(s[n])
  {
    if |s| == 0 || !IsDigit(s[0]) then 0
    else
      var k := 1 + DigitRun(s[1..]);
      assert s[..k] == [s[0]] + s[1..][..k - 1];
      k
  }

  /** Python's `int()` on a string of ASCII digits. */
  function DigitsValue(ds: string): (v: nat)
    requires AllDigits(ds)
  {
    if |ds| == 0 then 0
    else DigitsValue(ds[..|ds| - 1]) * 10 + (ds[|ds| - 1] as int - '0' as int)
  }
}

=== FILE: transactions.dfy ===
/** The transaction store of `TransactionCRUD`: type normalisation on the way
    in, id and timestamps from the caller's clock, and the missing-row errors. */
module Transactions {
  import opened Results
  import Text
  import Dates
  import Holdings
  import Seqs

  /** `TRANSACTION_TYPES`: stored codes and their display labels, in order. */
  const TypeCodes: seq<string> := ["B", "S"]
  const TypeLabels: seq<string> := ["Buy", "Sell"]

  /** `_normalize_type`: a missing or blank type means a buy; a code is
      accepted in any case and with surrounding spaces; a label ("Buy",
      "sell", ...) maps to its code; anything else is a `ValueError`. */
  function NormalizeType(t: Option<string>): (r: Result<string>)
    ensures r.Ok? ==> r.value in TypeCodes
    ensures r.Err? ==> r.error == ValueError
  {
    match t
    case None => Ok("B")
    case Some(raw) =>
      var s := Text.Strip(raw);
      if |s| == 0 then Ok("B")
      else
        var u := Text.Upper(s);
        assert Text.Upper(TypeLabels[0]) == "BUY" && Text.Upper(TypeLabels[1]) == "SELL";
        if u in TypeCodes then Ok(u)
        else if u == Text.Upper(TypeLabels[0]) then Ok(TypeCodes[0])
        else if u == Text.Upper(TypeLabels[1]) then Ok(TypeCodes[1])
        else Err(ValueError)
  }

  /** What each accepted spelling becomes, and exactly which inputs fail. */
  lemma NormalizeTypeCases(t: Option<string>)
    ensures t.None? ==> NormalizeType(t) == Ok("B")
    ensures t.Some? && Text.Blank(t.value) ==> NormalizeType(t) == Ok("B")
    ensures t.Some? && Text.Upper(Text.Strip(t.value)) in TypeCodes ==> NormalizeType(t) == Ok(Text.Upper(Text.Strip(t.value)))
    ensures t.Some? && Text.Upper(Text.Strip(t.value)) == "BUY" ==> NormalizeType(t) == Ok("B")
    ensures t.Some? && Text.Upper(Text.Strip(t.value)) == "SELL" ==> NormalizeType(t) == Ok("S")
    ensures NormalizeType(t).Err? <==> t.Some? && Text.Upper(Text.Strip(t.value)) !in {"", "B", "S", "BUY", "SELL"}
  {
    assert Text.Upper(TypeLabels[0]) == "BUY" && Text.Upper(TypeLabels[1]) == "SELL";
  }

  /** Normalising a normalised type changes nothing. */
  lemma NormalizeIdempotent(t: Option<string>)
    requires NormalizeType(t).Ok?
    ensures NormalizeType(Some(NormalizeType(t).value)) == NormalizeType(t)
  {
    CodeIsNormal(NormalizeType(t).value);
  }

  /** A stored code normalises to itself. */
  lemma CodeIsNormal(c: string)
    requires c in TypeCodes
    ensures NormalizeType(Some(c)) == Ok(c)
  {
    assert |c| == 1 && 'A' <= c[0] <= 'Z';
    assert Text.Strip(c) == c by {
      Text.StripNoSpaceIsIdentity(c);
    }
    assert Text.Upper(c) == c;
  }

  /** Every stored code is one the holdings replay recognises: "B" as a buy,
      "S" as a sell, never ignored. */
  lemma StoredTypeIsRecognised(t: Option<string>)
    requires NormalizeType(t).Ok?
    ensures NormalizeType(t).value == "B" ==> Holdings.KindOf(Some(NormalizeType(t).value)) == Holdings.Buy
    ensures NormalizeType(t).value == "S" ==> Holdings.KindOf(Some(NormalizeType(t).value)) == Holdings.Sell
    ensures Holdings.KindOf(Some(NormalizeType(t).value)) != Holdings.Ignored
  {
    var c := NormalizeType(t).value;
    assert Holdings.TypeCode(Some(c)) == c;
  }

  /** The eight fee and fee-percent columns, copied verbatim. */
  datatype Fees = Fees(
    fee: real, feePercent: real,
    carryFee: real, carryFeePercent: real,
    managementFee: real, managementFeePercent: real,
    externalManagerFee: real, externalManagerFeePercent: real)

  /** `TransactionDtlInput` */
  datatype TxnInput = TxnInput(
    portfolioId: int, securityId: int, platformId: int, date: Dates.Date,
    txnType: Option<string>, qty: real, price: real, fees: Fees)

  /** `TransactionDtl` */
  datatype Txn = Txn(
    id: int, portfolioId: int, securityId: int, platformId: int, date: Dates.Date,
    txnType: string, qty: real, price: real, fees: Fees,
    createdTs: int, updatedTs: int)

  type TxnStore = map<int, Txn>

  /** The record `save` writes: the input's fields with a normalised type,
      the given id, and both timestamps set to `now`. */
  function Build(item: TxnInput, id: int, now: int): (r: Result<Txn>)
    ensures r.Err? <==> NormalizeType(item.txnType).Err?
    ensures r.Ok? ==> r.value.id == id && r.value.createdTs == now == r.value.updatedTs
    ensures r.Ok? ==> r.value.txnType == NormalizeType(item.txnType).value
    ensures r.Ok? ==> Matches(r.value, item)
  {
    var code :- NormalizeType(item.txnType);
    Ok(Txn(id, item.portfolioId, item.securityId, item.platformId, item.date, code,
           item.qty, item.price, item.fees, now, now))
  }

  /** The stored record carries the input's fields, apart from the type, which
      is stored normalised. */
  predicate Matches(t: Txn, item: TxnInput) {
    t.portfolioId == item.portfolioId && t.securityId == item.securityId
    && t.platformId == item.platformId && t.date == item.date
    && t.qty == item.qty && t.price == item.price && t.fees == item.fees
  }

  /** `save`: an invalid type fails before anything is written. The upsert's
      conflict branch sets every column but `created_ts`, so a row already
      stored under `id` keeps its creation time; the returned record is the
      one built, with both timestamps `now`. */
  function Save(store: TxnStore, item: TxnInput, id: int, now: int): (r: Result<(TxnStore, Txn)>)
    ensures r.Err? <==> NormalizeType(item.txnType).Err?
    ensures r.Ok? ==> r.value.1.id == id && Matches(r.value.1, item) && r.value.1.txnType in TypeCodes
    ensures r.Ok? ==> r.value.1.createdTs == now == r.value.1.updatedTs
    ensures r.Ok? ==> id in r.value.0 && r.value.0[id].(createdTs := now) == r.value.1
    ensures r.Ok? ==> r.value.0[id].createdTs == if id in store then store[id].createdTs else now
    ensures r.Ok? ==> r.value.0.Keys == store.Keys + {id}
                      && forall k :: k in store && k != id ==> r.value.0[k] == store[k]
  {
    var t :- Build(item, id, now);
    var row := if id in store then t.(createdTs := store[id].createdTs) else t;
    Ok((store[id := row], t))
  }

  /** `save_many`: the items are saved one by one; item `i` gets id `idAt(i)`
      and clock `nowAt(i)`. The first invalid item raises, and the items saved
      before it stay saved. */
  function SaveMany(store: TxnStore, items: seq<TxnInput>, idAt: nat -> int, nowAt: nat -> int): (r: (TxnStore, Result<seq<Txn>>))
    ensures r.1.Ok? ==> |r.1.value| == |items|
    decreases |items|
  {
    if |items| == 0 then (store, Ok([]))
    else
      var n := |items| - 1;
      var pre := SaveMany(store, items[..n], idAt, nowAt);
      if pre.1.Err? then (pre.0, pre.1)
      else
        var s := Save(pre.0, items[n], idAt(n), nowAt(n));
        if s.Err? then (pre.0, Err(s.error))
        else (s.value.0, Ok(pre.1.value + [s.value.1]))
  }

  /** `t` is `item` as `save` stores it under `id`. */
  predicate StoredAs(t: Txn, item: TxnInput, id: int) {
    t.id == id && Matches(t, item) && t.txnType in TypeCodes
  }

  /** A successful batch returns, at position `i`, the record built from
      item `i` under `idAt(i)`, with its type normalised. */
  lemma SaveManyStoresEveryItem(store: TxnStore, items: seq<TxnInput>, idAt: nat -> int, nowAt: nat -> int)
    ensures var r := SaveMany(store, items, idAt, nowAt);
            r.1.Ok? ==> forall i :: 0 <= i < |items| ==> StoredAs(r.1.value[i], items[i], idAt(i))
  {
    var r := SaveMany(store, items, idAt, nowAt);
    if r.1.Ok? {
      SavedItemsStored(store, items, idAt, nowAt, r.1.value);
    }
  }

  /** With distinct ids, a successful batch leaves every item in the store
      under its own id, stored as `save` stores it. */
  lemma {:induction false} SaveManyWritesEveryItem(store: TxnStore, items: seq<TxnInput>, idAt: nat -> int, nowAt: nat -> int)
    requires forall i, j :: 0 <= i < j < |items| ==> idAt(i) != idAt(j)
    ensures var r := SaveMany(store, items, idAt, nowAt);
            r.1.Ok? ==> forall i :: 0 <= i < |items| ==> idAt(i) in r.0 && StoredAs(r.0[idAt(i)], items[i], idAt(i))
    decreases |items|
  {
    if |items| > 0 {
      var n := |items| - 1;
      SaveManyWritesEveryItem(store, items[..n], idAt, nowAt);
      var pre := SaveMany(store, items[..n], idAt, nowAt);
      var r := SaveMany(store, items, idAt, nowAt);
      if r.1.Ok? {
        var s := Save(pre.0, items[n], idAt(n), nowAt(n));
        assert pre.1.Ok? && s.Ok? && r.0 == s.value.0;
        forall i | 0 <= i < |items|
          ensures idAt(i) in r.0 && StoredAs(r.0[idAt(i)], items[i], idAt(i))
        {
          if i < n {
            assert items[..n][i] == items[i];
          }
        }
      }
    }
  }

  /** The induction of `SaveManyStoresEveryItem`, over the saved records. */
  lemma {:induction false} SavedItemsStored(store: TxnStore, items: seq<TxnInput>, idAt: nat -> int, nowAt: nat -> int, saved: seq<Txn>)
    requires SaveMany(store, items, idAt, nowAt).1 == Ok(saved)
    ensures |saved| == |items|
    ensures forall i :: 0 <= i < |items| ==> StoredAs(saved[i], items[i], idAt(i))
    decreases |items|
  {
    if |items| > 0 {
      var n := |items| - 1;
      SaveManyLast(store, items, idAt, nowAt, saved);
      SavedItemsStored(store, items[..n], idAt, nowAt, saved[..n]);
      StoredAsSnoc(saved, items, idAt);
    }
  }

  lemma StoredAsSnoc(saved: seq<Txn>, items: seq<TxnInput>, idAt: nat -> int)
    requires |saved| == |items| > 0
    requires forall i :: 0 <= i < |items| - 1 ==> StoredAs(saved[..|items| - 1][i], items[..|items| - 1][i], idAt(i))
    requires StoredAs(saved[|items| - 1], items[|items| - 1], idAt(|items| - 1))
    ensures forall i :: 0 <= i < |items| ==> StoredAs(saved[i], items[i], idAt(i))
  {
    var n := |items| - 1;
    assert forall i :: 0 <= i < n ==> saved[i] == saved[..n][i] && items[i] == items[..n][i];
  }

  /** A successful batch is a successful shorter batch followed by a
      successful save of the last item. */
  lemma SaveManyUnfold(store: TxnStore, items: seq<TxnInput>, idAt: nat -> int, nowAt: nat -> int)
    requires |items| > 0 && SaveMany(store, items, idAt, nowAt).1.Ok?
    ensures SaveMany(store, items[..|items| - 1], idAt, nowAt).1.Ok?
    ensures var n := |items| - 1;
            var pre := SaveMany(store, items[..n], idAt, nowAt);
            var s := Save(pre.0, items[n], idAt(n), nowAt(n));
            s.Ok? && SaveMany(store, items, idAt, nowAt).1.value == pre.1.value + [s.value.1]
  {
  }

  /** A successful batch ends with its last item stored, after the
      results of the shorter batch. */
  lemma SaveManyLast(store: TxnStore, items: seq<TxnInput>, idAt: nat -> int, nowAt: nat -> int, saved: seq<Txn>)
    requires |items| > 0 && SaveMany(store, items, idAt, nowAt).1 == Ok(saved)
    ensures |saved| == |items|
    ensures SaveMany(store, items[..|items| - 1], idAt, nowAt).1 == Ok(saved[..|items| - 1])
    ensures StoredAs(saved[|items| - 1], items[|items| - 1], idAt(|items| - 1))
  {
    SaveManyUnfold(store, items, idAt, nowAt);
  }

  lemma SaveManyLastStep(store: TxnStore, items: seq<TxnInput>, idAt: nat -> int, nowAt: nat -> int)
    requires |items| > 0
    ensures SaveMany(store, items, idAt, nowAt).1.Err?
            <==> SaveMany(store, items[..|items| - 1], idAt, nowAt).1.Err? || InvalidItem(items[|items| - 1])
  {
  }

  /** An item `save` refuses. */
  predicate InvalidItem(item: TxnInput) {
    NormalizeType(item.txnType).Err?
  }

  /** The batch fails exactly when some item's type is invalid. */
  lemma {:induction false} SaveManyFailsIffInvalid(store: TxnStore, items: seq<TxnInput>, idAt: nat -> int, nowAt: nat -> int)
    ensures SaveMany(store, items, idAt, nowAt).1.Err? <==> Seqs.Any(items, InvalidItem)
    decreases |items|
  {
    if |items| > 0 {
      var n := |items| - 1;
      Seqs.AnyOfSnoc(items, InvalidItem);
      SaveManyFailsIffInvalid(store, items[..n], idAt, nowAt);
      SaveManyLastStep(store, items, idAt, nowAt);
    }
  }

  /** `update`: `KeyError` when the row is missing, checked before the type is
      normalised; the row keeps its id and creation time. */
  function Update(store: TxnStore, pk: int, item: TxnInput, now: int): (r: Result<(TxnStore, Txn)>)
    ensures pk !in store ==> r == Err(KeyError)
    ensures pk in store && NormalizeType(item.txnType).Err? ==> r == Err(ValueError)
    ensures r.Ok? <==> pk in store && NormalizeType(item.txnType).Ok?
    ensures r.Ok? ==> r.value.0 == store[pk := r.value.1] && r.value.1.id == pk
    ensures r.Ok? ==> r.value.1.createdTs == store[pk].createdTs && r.value.1.updatedTs == now
    ensures r.Ok? ==> Matches(r.value.1, item) && r.value.1.txnType in TypeCodes
  {
    if pk !in store then Err(KeyError)
    else
      var t :- Build(item, pk, now);
      var row := t.(createdTs := store[pk].createdTs);
      Ok((store[pk := row], row))
  }

  /** `delete`: true iff a row was removed. */
  function Delete(store: TxnStore, pk: int): (r: (TxnStore, bool))
    ensures r.1 <==> pk in store
    ensures pk !in r.0
    ensures forall k :: k != pk ==> (k in r.0 <==> k in store) && (k in r.0 ==> r.0[k] == store[k])
  {
    (store - {pk}, pk in store)
  }

  /** Deleting the row a save just created under a fresh id restores the
      store. */
  lemma SaveThenDeleteRestores(store: TxnStore, item: TxnInput, id: int, now: int)
    requires id !in store && NormalizeType(item.txnType).Ok?
    ensures Save(store, item, id, now).Ok?
    ensures Delete(Save(store, item, id, now).value.0, id) == (store, true)
  {
    var saved := Save(store, item, id, now).value.0;
    assert saved - {id} == store;
  }

  /** A saved transaction, read as a ledger row, is replayed as a buy or a sell. */
  function AsLedgerRow(t: Txn): Holdings.TxnRow {
    Holdings.TxnRow(t.portfolioId, t.securityId, t.date, Some(t.txnType), Some(t.qty), Some(t.price))
  }

  lemma SavedTransactionsAreReplayed(store: TxnStore, item: TxnInput, id: int, now: int)
    requires Save(store, item, id, now).Ok?
    ensures Holdings.KindOf(AsLedgerRow(Save(store, item, id, now).value.1).txnType) != Holdings.Ignored
  {
    StoredTypeIsRecognised(item.txnType);
  }
}

=== FILE: users.dfy ===
/** The user store of `UserCRUD`: the insert statement assembled column by
    column, the conflict update that leaves absent optional columns alone,
    and the `update` that keeps a password hash when no new password comes. */
module Users {
  import opened Results

  /** `UserDtlInput`; `is_admin` is not written by `save` or `update`. */
  datatype UserInput = UserInput(firstName: string, lastName: string, email: Option<string>, password: Option<string>)

  /** `UserDtl` */
  datatype User = User(
    id: int, firstName: string, lastName: string, email: Option<string>, passwordHash: Option<string>,
    createdTs: int, updatedTs: int)

  type UserStore = map<int, User>

  /** Python truthiness of an optional string: present and non-empty. */
  predicate Truthy(s: Option<string>) {
    s.Some? && |s.value| > 0
  }

  /** The hash `save` stores: the input password if it is truthy, else none. */
  function HashOf(item: UserInput): (h: Option<string>)
    ensures h.Some? <==> Truthy(item.password)
    ensures h.Some? ==> h == item.password
  {
    if Truthy(item.password) then item.password else None
  }

  /** The object `save` builds and returns. */
  function NewUser(item: UserInput, id: int, now: int): User {
    User(id, item.firstName, item.lastName, item.email, HashOf(item), now, now)
  }

  datatype Column = UserId | FirstName | LastName | Email | PasswordHash | CreatedTs | UpdatedTs

  /** A value bound to a placeholder of the insert statement. */
  datatype Cell = IntCell(i: int) | TextCell(t: string)

  /** The value of column `c` in `u`; the optional columns only occur when present. */
  function CellOf(u: User, c: Column): Cell
    requires c == Email ==> u.email.Some?
    requires c == PasswordHash ==> u.passwordHash.Some?
  {
    match c
    case UserId => IntCell(u.id)
    case FirstName => TextCell(u.firstName)
    case LastName => TextCell(u.lastName)
    case Email => TextCell(u.email.value)
    case PasswordHash => TextCell(u.passwordHash.value)
    case CreatedTs => IntCell(u.createdTs)
    case UpdatedTs => IntCell(u.updatedTs)
  }

  /** Python's `list.insert(i, x)` for an index within the list. */
  function InsertAt<T(==,!new)>(s: seq<T>, i: nat, x: T): (r: seq<T>)
    requires i <= |s|
    ensures |r| == |s| + 1 && r[i] == x
    ensures forall j :: 0 <= j < i ==> r[j] == s[j]
    ensures forall j :: i < j < |r| ==> r[j] == s[j - 1]
    ensures forall y :: y in r <==> y == x || y in s
  {
    assert s == s[..i] + s[i..];
    s[..i] + [x] + s[i..]
  }

  /** The column list and the value list of the insert statement. */
  function InsertColumns(u: User): (r: (seq<Column>, seq<Cell>))
  {
    var cols := [UserId, FirstName, LastName, CreatedTs, UpdatedTs];
    var vals := [IntCell(u.id), TextCell(u.firstName), TextCell(u.lastName), IntCell(u.createdTs), IntCell(u.updatedTs)];
    var cols1 := if u.email.Some? then InsertAt(cols, 3, Email) else cols;
    var vals1 := if u.email.Some? then InsertAt(vals, 3, TextCell(u.email.value)) else vals;
    var pos := if u.email.Some? then 4 else 3;
    var cols2 := if u.passwordHash.Some? then InsertAt(cols1, pos, PasswordHash) else cols1;
    var vals2 := if u.passwordHash.Some? then InsertAt(vals1, pos, TextCell(u.passwordHash.value)) else vals1;
    (cols2, vals2)
  }

  /** The two lists have equal length, and each value is the user's value of
      the column at the same position. */
  lemma InsertColumnsAligned(u: User)
    ensures |InsertColumns(u).0| == |InsertColumns(u).1|
    ensures forall i :: 0 <= i < |InsertColumns(u).0| ==>
      (InsertColumns(u).0[i] == Email ==> u.email.Some?)
      && (InsertColumns(u).0[i] == PasswordHash ==> u.passwordHash.Some?)
      && InsertColumns(u).1[i] == CellOf(u, InsertColumns(u).0[i])
  {
  }

  /** The columns in statement order: id and names, then email and password
      hash when present, then the two timestamps. So email sits at index 3,
      and the hash at 4 after an email or at 3 without one. */
  lemma InsertColumnsLayout(u: User)
    ensures InsertColumns(u).0 ==
      [UserId, FirstName, LastName]
      + (if u.email.Some? then [Email] else [])
      + (if u.passwordHash.Some? then [PasswordHash] else [])
      + [CreatedTs, UpdatedTs]
  {
  }

  /** The `ON CONFLICT DO UPDATE` assignments. */
  function ConflictAssignments(u: User): (r: seq<Column>)
    ensures FirstName in r && LastName in r && UpdatedTs in r
    ensures Email in r <==> u.email.Some?
    ensures PasswordHash in r <==> u.passwordHash.Some?
    ensures UserId !in r && CreatedTs !in r
  {
    var base := [FirstName, LastName, UpdatedTs];
    var withEmail := if u.email.Some? then InsertAt(base, 2, Email) else base;
    if u.passwordHash.Some? then InsertAt(withEmail, 3, PasswordHash) else withEmail
  }

  /** Without an email, the password-hash assignment is appended after the
      update timestamp (index 3 of a three-element list). */
  lemma ConflictOrderWithoutEmail(u: User)
    requires u.email.None? && u.passwordHash.Some?
    ensures ConflictAssignments(u) == [FirstName, LastName, UpdatedTs, PasswordHash]
  {
  }

  /** `save`: inserts the new user; on an id conflict the row takes the
      assigned columns only, keeping its creation time and, when the item
      has none, its email and password hash. The built object is returned. */
  function Save(store: UserStore, item: UserInput, id: int, now: int): (r: (UserStore, User))
    ensures r.1 == NewUser(item, id, now)
    ensures id !in store ==> r.0 == store[id := r.1]
    ensures id in store ==> r.0 == store[id := store[id].(
      firstName := item.firstName, lastName := item.lastName, updatedTs := now,
      email := if item.email.Some? then item.email else store[id].email,
      passwordHash := if Truthy(item.password) then item.password else store[id].passwordHash)]
  {
    var u := NewUser(item, id, now);
    if id !in store then (store[id := u], u)
    else
      var prev := store[id];
      var setCols := ConflictAssignments(u);
      var row := prev.(firstName := u.firstName, lastName := u.lastName, updatedTs := u.updatedTs,
                      email := if Email in setCols then u.email else prev.email,
                      passwordHash := if PasswordHash in setCols then u.passwordHash else prev.passwordHash);
      (store[id := row], u)
  }

  /** `save_many`: one saved user per item, in order. */
  function SaveMany(store: UserStore, items: seq<UserInput>, idAt: nat -> int, nowAt: nat -> int): (r: (UserStore, seq<User>))
    ensures |r.1| == |items|
    ensures forall i :: 0 <= i < |items| ==> r.1[i] == NewUser(items[i], idAt(i), nowAt(i))
    decreases |items|
  {
    if |items| == 0 then (store, [])
    else
      var n := |items| - 1;
      var pre := SaveMany(store, items[..n], idAt, nowAt);
      var s := Save(pre.0, items[n], idAt(n), nowAt(n));
      (s.0, pre.1 + [s.1])
  }

  /** `update`: `KeyError` for a missing user; otherwise the names and email
      are replaced, and the password hash becomes the new password when one
      is given and stays as it was otherwise. */
  function Update(store: UserStore, pk: int, item: UserInput, now: int): (r: Result<(UserStore, User)>)
    ensures r.Err? <==> pk !in store
    ensures r.Err? ==> r.error == KeyError
    ensures r.Ok? ==> r.value.0 == store[pk := r.value.1] && r.value.1.id == pk
    ensures r.Ok? ==> r.value.1.firstName == item.firstName && r.value.1.lastName == item.lastName
                      && r.value.1.email == item.email && r.value.1.updatedTs == now
                      && r.value.1.createdTs == store[pk].createdTs
    ensures r.Ok? ==> r.value.1.passwordHash == (if Truthy(item.password) then item.password else store[pk].passwordHash)
  {
    if pk !in store then Err(KeyError)
    else
      var existing := store[pk];
      var hash := if Truthy(item.password) then item.password else existing.passwordHash;
      var row := existing.(id := pk, firstName := item.firstName, lastName := item.lastName,
                           email := item.email, passwordHash := hash, updatedTs := now);
      Ok((store[pk := row], row))
  }

  /** An update without a password (absent or empty) keeps the stored hash. */
  lemma UpdateWithoutPasswordKeepsHash(store: UserStore, pk: int, item: UserInput, now: int)
    requires pk in store && !Truthy(item.password)
    ensures Update(store, pk, item, now).value.1.passwordHash == store[pk].passwordHash
  {
  }

  /** An empty password is never stored as a hash. */
  lemma EmptyPasswordStoresNoHash(item: UserInput, id: int, now: int)
    requires item.password == Some("")
    ensures NewUser(item, id, now).passwordHash.None?
    ensures PasswordHash !in InsertColumns(NewUser(item, id, now)).0
  {
    InsertColumnsLayout(NewUser(item, id, now));
  }

  /** `delete`: true iff a row was removed. */
  function Delete(store: UserStore, pk: int): (r: (UserStore, bool))
    ensures r.1 <==> pk in store
    ensures pk !in r.0 && forall k :: k != pk ==> (k in r.0 <==> k in store) && (k in r.0 ==> r.0[k] == store[k])
  {
    (store - {pk}, pk in store)
  }
}

=== FILE: valuations_loader.dfy ===
/** `CompanyValuationsLoader`: a ForgeGlobal company export (CSV) read into
    company valuations. The as-of date comes from the file name unless one is
    given, every row is read through `csv.DictReader`, and the composite
    "Forge Price1" cell is split into price, change and change percentage by
    regular expressions. `float()` is the parameter `toFloat`, the JSON form
    of a row is the parameter `toJson`, and "today" is a parameter. */
module ValuationsLoader {
  import opened Results
  import opened Text
  import opened Dicts
  import opened Scan
  import opened Seqs
  import Dates
  import CompanyValuations

  /** The loader's default `price_source`. */
  const DefaultPriceSource := "ForgeGlobal"

  // ------------------------------------------------------------------ headers

  /** `_validate_headers`: some header, lower-cased and stripped, reads
      "company". A missing or empty header row fails. */
  function ValidateHeaders(headers: Option<seq<string>>): (ok: bool)
    ensures ok <==> headers.Some? && exists i :: 0 <= i < |headers.value| && Strip(Lower(headers.value[i])) == "company"
  {
    match headers
    case None => false
    case Some(hs) =>
      var lowered := seq(|hs|, i requires 0 <= i < |hs| => Strip(Lower(hs[i])));
      assert forall i :: 0 <= i < |hs| ==> lowered[i] == Strip(Lower(hs[i]));
      |hs| > 0 && "company" in lowered
  }

  /** Upper-casing every header does not change the verdict. */
  lemma ValidateHeadersIgnoresCase(hs: seq<string>, us: seq<string>)
    requires |us| == |hs| && forall i :: 0 <= i < |hs| ==> us[i] == Upper(hs[i])
    ensures ValidateHeaders(Some(us)) == ValidateHeaders(Some(hs))
  {
    forall i | 0 <= i < |hs|
      ensures Strip(Lower(us[i])) == Strip(Lower(hs[i]))
    {
      LowerOfUpper(hs[i]);
    }
  }

  // --------------------------------------------------------------------- rows

  /** A row as `csv.DictReader` yields it: every header name with its cell,
      `None` where the line is shorter than the header row. `overflow` says
      the line is longer than the header row; the reader keeps the extra
      cells under the key `None`, after every named key. */
  datatype CsvRow = CsvRow(cells: Dict<string, Option<string>>, overflow: bool)

  /** The assignments the reader makes, in order: `dict(zip(...))`, then
      `restval` (`None`) for every name past the end of the line. */
  function CellPairs(fieldnames: seq<string>, values: seq<string>): (ps: seq<(string, Option<string>)>)
    ensures |ps| == |fieldnames|
    ensures forall i :: 0 <= i < |ps| ==> ps[i] == (fieldnames[i], if i < |values| then Some(values[i]) else None)
  {
    seq(|fieldnames|, i requires 0 <= i < |fieldnames| => (fieldnames[i], if i < |values| then Some(values[i]) else None))
  }

  function ReaderRow(fieldnames: seq<string>, values: seq<string>): (row: CsvRow)
    ensures row.overflow <==> |values| > |fieldnames|
    ensures WellFormed(row.cells)
  {
    CsvRow(FromPairs(CellPairs(fieldnames, values)), |values| > |fieldnames|)
  }

  /** The row's keys are the header names in first-seen order, and a name
      reads the cell under its last occurrence in the header row, `None` when
      the line stops before it. */
  lemma {:induction false} ReaderRowCells(fieldnames: seq<string>, values: seq<string>, i: nat)
    requires i < |fieldnames|
    requires forall j :: i < j < |fieldnames| ==> fieldnames[j] != fieldnames[i]
    ensures KeysOf(ReaderRow(fieldnames, values).cells) == FirstSeen(fieldnames)
    ensures Get(ReaderRow(fieldnames, values).cells, fieldnames[i]) == Some(if i < |values| then Some(values[i]) else None)
  {
    var ps := CellPairs(fieldnames, values);
    FromPairsKeys(ps);
    assert KeysOf(ps) == fieldnames;
    FromPairsGet(ps, fieldnames[i]);
    var r := LastValue(ps, fieldnames[i]);
    assert ps[i].0 == fieldnames[i];
    var w :| 0 <= w < |ps| && ps[w] == (fieldnames[i], r.value) && forall j :: w < j < |ps| ==> ps[j].0 != fieldnames[i];
    assert w == i;
  }

  /** The first key equal to `column` once both are lower-cased. */
  predicate CaselessKeyAt(column: string, ks: seq<string>, j: nat) {
    j < |ks| && Lower(ks[j]) == Lower(column)
  }

  /** `_get_csv_value`: the exact key first, then the first key equal to the
      column ignoring case, in dictionary order; a missing cell reads "". The
      scan lower-cases every key it passes, so in a row with extra cells it
      fails with `AttributeError` on reaching the reader's `None` key. */
  function GetCsvValue(row: CsvRow, column: string): (r: Result<string>)
    ensures r.Err? ==> r.error == AttributeError && row.overflow
  {
    var ks := KeysOf(row.cells);
    if column in ks then Ok(Get(row.cells, column).value.GetOr(""))
    else
      var m := SearchBy(ks, column, CaselessKeyAt);
      if m.Some? then Ok(row.cells[m.value].1.GetOr(""))
      else if row.overflow then Err(AttributeError)
      else Ok("")
  }

  /** Which cell `_get_csv_value` reads: the one under the exact key; else
      the one under the first key equal to the column ignoring case; else
      "" (or the error, in a row with extra cells). */
  lemma GetCsvValueReads(row: CsvRow, column: string)
    ensures WellFormed(row.cells) ==> forall i :: 0 <= i < |row.cells| && row.cells[i].0 == column ==>
      GetCsvValue(row, column) == Ok(row.cells[i].1.GetOr(""))
    ensures column !in KeysOf(row.cells) ==> forall i ::
      (0 <= i < |row.cells| && Lower(row.cells[i].0) == Lower(column)
       && forall j :: 0 <= j < i ==> Lower(row.cells[j].0) != Lower(column)) ==> GetCsvValue(row, column) == Ok(row.cells[i].1.GetOr(""))
    ensures (forall i :: 0 <= i < |row.cells| ==> Lower(row.cells[i].0) != Lower(column)) ==>
      GetCsvValue(row, column) == if row.overflow then Err(AttributeError) else Ok("")
  {
    var ks := KeysOf(row.cells);
    assert forall j :: 0 <= j < |ks| ==> (CaselessKeyAt(column, ks, j) <==> Lower(row.cells[j].0) == Lower(column));
    if column in ks {
      var k := IndexOf(ks, column);
      assert Lower(row.cells[k].0) == Lower(column);
    } else {
      var m := SearchBy(ks, column, CaselessKeyAt);
      if m.Some? {
        assert CaselessKeyAt(column, ks, m.value);
        assert forall j :: 0 <= j < m.value ==> !CaselessKeyAt(column, ks, j);
      } else {
        assert forall j :: 0 <= j < |ks| ==> !CaselessKeyAt(column, ks, j);
      }
    }
  }

  /** The text `.strip()`ped when it is non-empty, `None` when it is empty:
      the `x.strip() if x else None` of `_parse_csv_row`. */
  function StrippedOrNone(s: string): (r: Option<string>)
    ensures r.None? <==> |s| == 0
    ensures r.Some? ==> r.value == Strip(s)
  {
    if |s| > 0 then Some(Strip(s)) else None
  }

  /** A cell of spaces only is stored as the empty string, not as `None`. */
  lemma BlankCellIsStoredEmpty(s: string)
    requires |s| > 0 && Blank(s)
    ensures StrippedOrNone(s) == Some("")
  {
  }

  // ------------------------------------------------------- the forge price cell

  predicate IsAmountChar(c: char) {
    IsDigit(c) || c == ','
  }

  predicate IsPercChar(c: char) {
    IsDigit(c) || c == '.' || c == '+' || c == '-'
  }

  /** Text of the shape `[\d,]+\.?\d*`. */
  predicate AmountShaped(t: string) {
    var n := Run(t, IsAmountChar);
    n >= 1 && (n == |t| || (t[n] == '.' && AllDigits(t[n + 1..])))
  }

  /** What the greedy `[\d,]+\.?\d*` takes from the start of `s`: the run of
      digits and commas, then a point and the digits after it if a point
      follows. */
  function AmountToken(s: string): (t: string)
    requires |s| > 0 && IsAmountChar(s[0])
    ensures |t| <= |s| && t == s[..|t|]
    ensures AmountShaped(t)
  {
    var n := Run(s, IsAmountChar);
    if n < |s| && s[n] == '.' then
      var d := DigitRun(s[n + 1..]);
      var t := s[..n + 1 + d];
      RunOfPrefix(s, IsAmountChar, n + 1 + d);
      assert t[n + 1..] == s[n + 1..][..d];
      t
    else
      RunOfPrefix(s, IsAmountChar, n);
      s[..n]
  }

  /** The token is the longest prefix of the amount's shape. */
  lemma AmountTokenIsLongest(s: string, m: nat)
    requires |s| > 0 && IsAmountChar(s[0])
    requires |AmountToken(s)| < m <= |s|
    ensures !AmountShaped(s[..m])
  {
    var n := Run(s, IsAmountChar);
    var u := s[..m];
    if n < |s| && s[n] == '.' {
      var d := DigitRun(s[n + 1..]);
      assert |AmountToken(s)| == n + 1 + d;
      RunOfPrefix(s, IsAmountChar, m);
      assert Run(u, IsAmountChar) == n;
      var v := u[n + 1..];
      assert v[d] == s[n + 1..][d];
      assert !AllDigits(v) by {
        assert !IsDigit(v[d]);
      }
    } else {
      assert |AmountToken(s)| == n;
      RunOfPrefix(s, IsAmountChar, m);
      assert Run(u, IsAmountChar) == n;
      assert u[n] == s[n];
    }
  }

  /** `\$?([\d,]+\.?\d*)` matches at `i`. */
  predicate PriceMatchAt(t: string, i: nat) {
    i < |t| && (IsAmountChar(t[i]) || (t[i] == '$' && i + 1 < |t| && IsAmountChar(t[i + 1])))
  }

  /** Where the amount group of a match at `i` starts: past the dollar sign
      when there is one. */
  function GroupStart(t: string, i: nat): (g: nat)
    requires PriceMatchAt(t, i)
    ensures g < |t| && IsAmountChar(t[g])
  {
    if IsAmountChar(t[i]) then i else i + 1
  }

  /** `([+-])\$?([\d,]+\.?\d*)` matches at `i`. */
  predicate ChangeMatchAt(t: string, i: nat) {
    i < |t| && (t[i] == '+' || t[i] == '-') && PriceMatchAt(t, i + 1)
  }

  /** `\(([\d.+-]+)%\)` matches at `i`. The class excludes '%', so the run
      is taken whole and no shorter one is tried. */
  predicate PercMatchAt(t: string, i: nat) {
    i < |t| && t[i] == '(' &&
    var n := Run(t[i + 1..], IsPercChar);
    n >= 1 && i + n + 2 < |t| && t[i + n + 1] == '%' && t[i + n + 2] == ')'
  }

  /** A parenthesised run of class characters closed by "%)" is a match,
      and its group is exactly that run. */
  lemma PercMatchOfParts(t: string, i: nat, k: nat)
    requires 1 <= k && i + k + 2 < |t| && t[i] == '('
    requires forall j :: i < j <= i + k ==> IsPercChar(t[j])
    requires t[i + k + 1] == '%' && t[i + k + 2] == ')'
    ensures PercMatchAt(t, i)
    ensures Run(t[i + 1..], IsPercChar) == k
  {
    RunIsUnique(t[i + 1..], IsPercChar, k);
  }

  /** The amount group's text as `float()` sees it, commas removed. */
  function AmountAt(t: string, g: nat, toFloat: string -> Option<real>): Option<real>
    requires g < |t| && IsAmountChar(t[g])
  {
    toFloat(RemoveChar(AmountToken(t[g..]), ','))
  }

  /** The first match of the price pattern has its group at the first digit
      or comma of the text, whether or not a dollar sign precedes it. */
  lemma PriceGroupIsFirstAmountChar(t: string)
    ensures Search(t, PriceMatchAt).None? <==> forall j :: 0 <= j < |t| ==> !IsAmountChar(t[j])
    ensures Search(t, PriceMatchAt).Some? ==>
      var g := GroupStart(t, Search(t, PriceMatchAt).value);
      forall j :: 0 <= j < g ==> !IsAmountChar(t[j])
  {
    var pm := Search(t, PriceMatchAt);
    if pm.None? {
      forall j | 0 <= j < |t|
        ensures !IsAmountChar(t[j])
      {
        assert !PriceMatchAt(t, j);
      }
    } else {
      var p := pm.value;
      forall j | 0 <= j < p
        ensures !IsAmountChar(t[j])
      {
        assert !PriceMatchAt(t, j);
      }
    }
  }

  /** The price: the amount starting at the first digit or comma. */
  function PriceOf(t: string, toFloat: string -> Option<real>): (r: Option<real>)
    ensures forall q :: 0 <= q < |t| && IsAmountChar(t[q]) && (forall j :: 0 <= j < q ==> !IsAmountChar(t[j])) ==>
      r == AmountAt(t, q, toFloat)
    ensures (forall j :: 0 <= j < |t| ==> !IsAmountChar(t[j])) ==> r.None?
  {
    PriceGroupIsFirstAmountChar(t);
    var pm := Search(t, PriceMatchAt);
    if pm.Some? then AmountAt(t, GroupStart(t, pm.value), toFloat) else None
  }

  /** The change: the first amount right after a sign, negated for '-'. */
  function ChangeOf(t: string, toFloat: string -> Option<real>): (r: Option<real>)
    ensures (forall i :: 0 <= i < |t| ==> !ChangeMatchAt(t, i)) ==> r.None?
  {
    var cm := Search(t, ChangeMatchAt);
    if cm.None? then None
    else
      var i := cm.value;
      var a := AmountAt(t, GroupStart(t, i + 1), toFloat);
      if a.None? then None else Some(if t[i] == '+' then a.value else -a.value)
  }

  /** The group of a percentage match at `i`: the run after the '('. */
  function PercGroup(t: string, i: nat): string
    requires PercMatchAt(t, i)
  {
    t[i + 1..i + 1 + Run(t[i + 1..], IsPercChar)]
  }

  /** The percentage: the run inside the first "(...%)". */
  function PercOf(t: string, toFloat: string -> Option<real>): (r: Option<real>)
    ensures forall i: nat :: PercMatchAt(t, i) && (forall j :: 0 <= j < i ==> !PercMatchAt(t, j)) ==>
      r == toFloat(PercGroup(t, i))
    ensures (forall i :: 0 <= i < |t| ==> !PercMatchAt(t, i)) ==> r.None?
  {
    var pc := Search(t, PercMatchAt);
    if pc.None? then None
    else toFloat(PercGroup(t, pc.value))
  }

  datatype ForgePrice = ForgePrice(price: Option<real>, change: Option<real>, changePerc: Option<real>)

  /** `_parse_forge_price`: nothing for blank text or "--"; otherwise the
      price, change and percentage of the stripped text, each `None` when
      its pattern is absent or `float()` refuses it. */
  function ParseForgePrice(text: string, toFloat: string -> Option<real>): (r: ForgePrice)
    ensures Strip(text) == "" || Strip(text) == "--" ==> r == ForgePrice(None, None, None)
    ensures Strip(text) != "" && Strip(text) != "--" ==>
      r == ForgePrice(PriceOf(Strip(text), toFloat), ChangeOf(Strip(text), toFloat), PercOf(Strip(text), toFloat))
  {
    var t := Strip(text);
    if t == "" || t == "--" then ForgePrice(None, None, None)
    else ForgePrice(PriceOf(t, toFloat), ChangeOf(t, toFloat), PercOf(t, toFloat))
  }

  /** The change is read at the first sign followed by an amount, and
      carries that sign. */
  lemma ChangeOfReadsFirstSignedAmount(t: string, toFloat: string -> Option<real>, i: nat)
    requires ChangeMatchAt(t, i) && forall j :: 0 <= j < i ==> !ChangeMatchAt(t, j)
    ensures var a := AmountAt(t, GroupStart(t, i + 1), toFloat);
      ChangeOf(t, toFloat) == if a.None? then None else Some(if t[i] == '+' then a.value else -a.value)
  {
    assert Search(t, ChangeMatchAt) == Some(i) by {
      SearchFindsFirst(t, ChangeMatchAt, i);
    }
  }

  /** A text without '+' or '-' has no change. */
  lemma NoSignNoChange(t: string, toFloat: string -> Option<real>)
    requires '+' !in t && '-' !in t
    ensures ChangeOf(t, toFloat).None?
  {
    forall j | 0 <= j < |t|
      ensures !ChangeMatchAt(t, j)
    {
      assert t[j] in t;
    }
  }

  /** A text without '%' has no percentage. */
  lemma NoPercentNoPercentage(t: string, toFloat: string -> Option<real>)
    requires '%' !in t
    ensures PercOf(t, toFloat).None?
  {
    forall j | 0 <= j < |t|
      ensures !PercMatchAt(t, j)
    {
    }
  }

  // ----------------------------------------------------------------- floats

  /** The text `_parse_float` hands to `float()`: stripped, then commas and
      dollar signs removed. */
  function CleanNumber(v: string): (c: string)
    ensures ',' !in c && '$' !in c
    ensures |c| <= |v|
  {
    var a := RemoveChar(Strip(v), ',');
    var c := RemoveChar(a, '$');
    assert forall i :: 0 <= i < |c| ==> c[i] in a;
    c
  }

  /** `_parse_float`: `None` for blank text and "--", else `float()` of the
      cleaned text (`None` when it refuses). */
  function ParseFloat(v: string, toFloat: string -> Option<real>): (r: Option<real>)
    ensures Strip(v) == "" || Strip(v) == "--" ==> r.None?
    ensures Strip(v) != "" && Strip(v) != "--" ==> r == toFloat(CleanNumber(v))
  {
    var t := Strip(v);
    if t == "" || t == "--" then None else toFloat(CleanNumber(v))
  }

  /** A leading dollar sign makes no difference to a plain number. */
  lemma ParseFloatIgnoresDollar(x: string, toFloat: string -> Option<real>)
    requires |x| > 0 && NoSpace(x) && ',' !in x && '$' !in x && x != "--"
    ensures ParseFloat("$" + x, toFloat) == toFloat(x)
    ensures ParseFloat(x, toFloat) == toFloat(x)
  {
    StripNoSpaceIsIdentity(x);
    DollarPlainNumber(x);
  }

  /** Cleaning a dollar sign in front of a plain number leaves the number. */
  lemma DollarPlainNumber(x: string)
    requires |x| > 0 && NoSpace(x) && ',' !in x && '$' !in x
    ensures Strip("$" + x) == "$" + x
    ensures CleanNumber("$" + x) == x
  {
    var d := "$" + x;
    assert NoSpace(d) && ',' !in d by {
      assert forall i :: 1 <= i < |d| ==> d[i] == x[i - 1];
    }
    StripNoSpaceIsIdentity(d);
    assert RemoveChar(d, ',') == d;
    assert RemoveChar(d, '$') == RemoveChar(d[1..], '$');
    assert d[1..] == x;
  }

  // -------------------------------------------------------- the file's date

  /** `os.path.basename`: the text after the last '/'. */
  function BaseName(path: string): (name: string)
    ensures '/' !in name
    ensures |name| <= |path| && name == path[|path| - |name|..]
    ensures |name| < |path| ==> path[|path| - |name| - 1] == '/'
  {
    if |path| == 0 || path[|path| - 1] == '/' then ""
    else BaseName(path[..|path| - 1]) + [path[|path| - 1]]
  }

  /** The characters at positions `lo` up to `hi` are ASCII digits. */
  predicate DigitsAt(s: string, lo: nat, hi: nat) {
    lo <= hi <= |s| && forall k :: lo <= k < hi ==> IsDigit(s[k])
  }

  /** The number those digits write. */
  function NumberAt(s: string, lo: nat, hi: nat): nat
    requires DigitsAt(s, lo, hi)
  {
    assert forall k :: 0 <= k < hi - lo ==> s[lo..hi][k] == s[lo + k];
    DigitsValue(s[lo..hi])
  }

  /** `strptime` reading a four-digit year and two-digit month and day from
      the given positions: the date when the calendar has it. */
  function DateAt(s: string, y: nat, m: nat, d: nat): (r: Option<Dates.Date>)
    requires DigitsAt(s, y, y + 4) && DigitsAt(s, m, m + 2) && DigitsAt(s, d, d + 2)
    ensures r.Some? ==> Dates.Valid(r.value)
  {
    var dt := Dates.Date(NumberAt(s, y, y + 4), NumberAt(s, m, m + 2), NumberAt(s, d, d + 2));
    if Dates.Valid(dt) then Some(dt) else None
  }

  const ForgeStem := "forge_companies_"

  /** `forge_companies_(\d{8})_\d{6}\.csv` matches at `i`, letters compared
      ignoring case. */
  predicate ForgeNameAt(s: string, i: nat) {
    i + 35 <= |s|
    && Lower(s[i..i + 16]) == ForgeStem
    && DigitsAt(s, i + 16, i + 24) && s[i + 24] == '_' && DigitsAt(s, i + 25, i + 31)
    && s[i + 31] == '.' && Lower(s[i + 32..i + 35]) == "csv"
  }

  /** The date of the first forge-style name in `name`, if it parses. */
  function ForgeDate(name: string): (r: Option<Dates.Date>)
    ensures r.Some? ==> Dates.Valid(r.value)
    ensures r.Some? ==> exists i :: ForgeNameAt(name, i)
    ensures (forall i :: 0 <= i < |name| ==> !ForgeNameAt(name, i)) ==> r.None?
  {
    var m := Search(name, ForgeNameAt);
    if m.None? then None
    else
      var p := m.value;
      DateAt(name, p + 16, p + 20, p + 22)
  }

  /** The fallback patterns: `\d{4}-\d{2}-\d{2}`, `\d{4}_\d{2}_\d{2}`, `\d{8}`. */
  datatype Fallback = Dashed | Underscored | Compact

  const Fallbacks: seq<Fallback> := [Dashed, Underscored, Compact]

  function Width(f: Fallback): nat {
    if f == Compact then 8 else 10
  }

  predicate FallbackAt(f: Fallback, s: string, i: nat) {
    i + Width(f) <= |s| &&
    match f
    case Compact => DigitsAt(s, i, i + 8)
    case _ =>
      var sep := if f == Dashed then '-' else '_';
      DigitsAt(s, i, i + 4) && s[i + 4] == sep && DigitsAt(s, i + 5, i + 7) && s[i + 7] == sep
      && DigitsAt(s, i + 8, i + 10)
  }

  /** The matched text with '_' turned into '-', read as `%Y%m%d` when eight
      characters long and as `%Y-%m-%d` otherwise. */
  function FallbackDate(f: Fallback, s: string, i: nat): (r: Option<Dates.Date>)
    requires FallbackAt(f, s, i)
    ensures r.Some? ==> Dates.Valid(r.value)
  {
    var ds := ReplaceChar(s[i..i + Width(f)], '_', '-');
    assert forall k :: 0 <= k < |ds| ==> ds[k] == if s[i + k] == '_' then '-' else s[i + k];
    if |ds| == 8 then DateAt(ds, 0, 4, 6) else DateAt(ds, 0, 5, 8)
  }

  /** The date the first match of pattern `f` in `name` reads as, if any. */
  function FirstMatchDate(name: string, f: Fallback): (r: Option<Dates.Date>)
    ensures r.Some? ==> Dates.Valid(r.value)
    ensures r.Some? ==> exists i :: FallbackAt(f, name, i)
  {
    var m := SearchBy(name, f, FallbackAt);
    if m.Some? then FallbackDate(f, name, m.value) else None
  }

  /** The fallback patterns in order: only the first match of each is
      parsed, and the first that parses wins. */
  function TryFallbacks(name: string, fs: seq<Fallback>): (r: Option<Dates.Date>)
    ensures r.Some? ==> Dates.Valid(r.value)
    ensures (forall k, i :: 0 <= k < |fs| && 0 <= i < |name| ==> !FallbackAt(fs[k], name, i)) ==> r.None?
  {
    if |fs| == 0 then None
    else
      var d := FirstMatchDate(name, fs[0]);
      if d.Some? then d
      else
        var r := TryFallbacks(name, fs[1..]);
        assert forall k :: 0 <= k < |fs| - 1 ==> fs[1..][k] == fs[k + 1];
        r
  }

  /** `_extract_date_from_filename`: the forge-style name first, then the
      fallbacks in the order dashed, underscored, eight digits, then today. */
  function ExtractDate(path: string, today: Dates.Date): (d: Dates.Date)
    ensures d == today || Dates.Valid(d)
    ensures ForgeDate(BaseName(path)).Some? ==> d == ForgeDate(BaseName(path)).value
    ensures ForgeDate(BaseName(path)).None? && TryFallbacks(BaseName(path), Fallbacks).Some? ==>
      d == TryFallbacks(BaseName(path), Fallbacks).value
    ensures ForgeDate(BaseName(path)).None? && TryFallbacks(BaseName(path), Fallbacks).None? ==> d == today
  {
    var name := BaseName(path);
    var primary := ForgeDate(name);
    if primary.Some? then primary.value
    else
      var f := TryFallbacks(name, Fallbacks);
      if f.Some? then f.value else today
  }

  /** The fallbacks are tried in their order: the first pattern whose first
      match parses decides; when none does, there is no fallback date. */
  lemma FallbackPreference(name: string)
    ensures FirstMatchDate(name, Dashed).Some? ==> TryFallbacks(name, Fallbacks) == FirstMatchDate(name, Dashed)
    ensures FirstMatchDate(name, Dashed).None? && FirstMatchDate(name, Underscored).Some? ==>
      TryFallbacks(name, Fallbacks) == FirstMatchDate(name, Underscored)
    ensures FirstMatchDate(name, Dashed).None? && FirstMatchDate(name, Underscored).None? ==>
      TryFallbacks(name, Fallbacks) == FirstMatchDate(name, Compact)
  {
    assert Fallbacks[1..] == [Underscored, Compact];
    assert Fallbacks[1..][1..] == [Compact];
    assert Fallbacks[1..][1..][1..] == [];
    assert TryFallbacks(name, [Compact]) == FirstMatchDate(name, Compact) by {
      assert [Compact][1..] == [];
    }
  }

  /** Every pattern starts with a digit, or with "forge". */
  lemma FallbackNeedsDigit(f: Fallback, s: string, i: nat)
    requires FallbackAt(f, s, i)
    ensures IsDigit(s[i])
  {
  }

  lemma ForgeNameNeedsDigit(s: string, i: nat)
    requires ForgeNameAt(s, i)
    ensures IsDigit(s[i + 16])
  {
  }

  /** A base name without any digit yields today. */
  lemma NoDigitsMeansToday(path: string, today: Dates.Date)
    requires forall j :: 0 <= j < |BaseName(path)| ==> !IsDigit(BaseName(path)[j])
    ensures ExtractDate(path, today) == today
  {
    NoDigitsNoForgeDate(BaseName(path));
    NoDigitsNoFallback(BaseName(path));
  }

  lemma NoDigitsNoForgeDate(name: string)
    requires forall j :: 0 <= j < |name| ==> !IsDigit(name[j])
    ensures ForgeDate(name).None?
  {
    forall i | 0 <= i < |name|
      ensures !ForgeNameAt(name, i)
    {
      if ForgeNameAt(name, i) {
        ForgeNameNeedsDigit(name, i);
      }
    }
  }

  lemma NoDigitsNoFallback(name: string)
    requires forall j :: 0 <= j < |name| ==> !IsDigit(name[j])
    ensures TryFallbacks(name, Fallbacks).None?
  {
    forall k, i | 0 <= k < |Fallbacks| && 0 <= i < |name|
      ensures !FallbackAt(Fallbacks[k], name, i)
    {
      if FallbackAt(Fallbacks[k], name, i) {
        FallbackNeedsDigit(Fallbacks[k], name, i);
      }
    }
  }

  lemma BaseNameAfterSlash(dir: string, name: string)
    requires '/' !in name
    ensures BaseName(dir + "/" + name) == name
  {
    var path := dir + "/" + name;
    assert path[|path| - |name| - 1] == '/';
    assert path[|path| - |name|..] == name;
  }

  /** A forge-style name with eight and six digits matches at its start. */
  lemma ForgeNameAtStart(ymd: string, hms: string)
    requires |ymd| == 8 && AllDigits(ymd) && |hms| == 6 && AllDigits(hms)
    ensures ForgeNameAt(ForgeStem + ymd + "_" + hms + ".csv", 0)
  {
    var name := ForgeStem + ymd + "_" + hms + ".csv";
    assert name[..16] == ForgeStem;
    assert name[32..35] == "csv";
    assert forall k :: 16 <= k < 24 ==> name[k] == ymd[k - 16];
    assert forall k :: 25 <= k < 31 ==> name[k] == hms[k - 25];
  }

  /** A file saved as `<dir>/forge_companies_YYYYMMDD_HHMMSS.csv` carries the
      date YYYYMMDD when the calendar has it. */
  lemma ForgeFileNameGivesItsDate(dir: string, ymd: string, hms: string, today: Dates.Date)
    requires |ymd| == 8 && AllDigits(ymd) && |hms| == 6 && AllDigits(hms)
    requires Dates.Valid(Dates.Date(DigitsValue(ymd[..4]), DigitsValue(ymd[4..6]), DigitsValue(ymd[6..])))
    ensures ExtractDate(dir + "/" + (ForgeStem + ymd + "_" + hms + ".csv"), today)
            == Dates.Date(DigitsValue(ymd[..4]), DigitsValue(ymd[4..6]), DigitsValue(ymd[6..]))
  {
    var name := ForgeStem + ymd + "_" + hms + ".csv";
    assert '/' !in name by {
      assert forall k :: 16 <= k < 24 ==> name[k] == ymd[k - 16];
      assert forall k :: 25 <= k < 31 ==> name[k] == hms[k - 25];
    }
    BaseNameAfterSlash(dir, name);
    ForgeNameAtStart(ymd, hms);
    assert name[16..20] == ymd[..4];
    assert name[20..22] == ymd[4..6];
    assert name[22..24] == ymd[6..];
  }

  // ------------------------------------------------------------- parsing rows

  /** The columns `_parse_csv_row` reads, in the order it reads them. */
  const ReadColumns: seq<string> := ["company"] + CellColumns

  /** The columns read after the company, in order. */
  const CellColumns: seq<string> := ["forge price1", "sector & subsector", "last matched price",
                                     "share class", "post-money valuation2", "price per share", "amount raised"]

  /** The text `_get_csv_value` reads for a column, "" where it fails. */
  function Cell(row: CsvRow, column: string): string {
    match GetCsvValue(row, column)
    case Ok(t) => t
    case Err(_) => ""
  }

  /** `_parse_csv_row`: a row whose company reads blank is skipped (`None`);
      otherwise the company is stripped, the forge price cell split, the
      price per share parsed, the other text cells stripped (an empty one
      becomes `None`), and the whole row kept as JSON. A lookup that raises
      makes the row fail. */
  function ParseCsvRow(row: CsvRow, asOf: Dates.Date, source: string,
                       toFloat: string -> Option<real>, toJson: CsvRow -> string): (r: Result<Option<CompanyValuations.ValuationInput>>)
    ensures r.Err? ==> r.error == AttributeError && row.overflow
    ensures !row.overflow ==> r.Ok?
    ensures r.Ok? && r.value.None? <==> GetCsvValue(row, "company").Ok? && Blank(GetCsvValue(row, "company").value)
    ensures r.Ok? && r.value.Some? ==> GetCsvValue(row, "company").Ok?
    ensures r.Ok? && r.value.Some? ==>
      var v := r.value.value;
      v.asOf == asOf && v.source == source && v.company == Some(Strip(GetCsvValue(row, "company").value))
      && v.company.value != "" && v.figures.rawDataJson == Some(toJson(row))
    ensures r.Ok? && r.value.Some? ==> ReadCells(row, ReadColumns).Ok?
  {
    var company :- GetCsvValue(row, "company");
    if Blank(company) then Ok(None)
    else
      var cells :- ReadCells(row, CellColumns);
      assert ReadColumns[1..] == CellColumns;
      var fp := ParseForgePrice(cells[0], toFloat);
      var figures := CompanyValuations.Figures(
        fp.price, fp.change, fp.changePerc, StrippedOrNone(cells[2]), StrippedOrNone(cells[3]),
        StrippedOrNone(cells[4]), ParseFloat(cells[5], toFloat), StrippedOrNone(cells[6]), Some(toJson(row)));
      Ok(Some(CompanyValuations.ValuationInput(asOf, source, Some(Strip(company)), StrippedOrNone(cells[1]), figures)))
  }

  /** A parsed valuation takes its price, change and percentage from the
      forge price cell, its price per share from that cell as a number, and
      its sector and other text figures from their stripped cells. */
  lemma ParseCsvRowReadsCells(row: CsvRow, asOf: Dates.Date, source: string,
                              toFloat: string -> Option<real>, toJson: CsvRow -> string)
    ensures var r := ParseCsvRow(row, asOf, source, toFloat, toJson);
      r.Ok? && r.value.Some? ==>
      var f := r.value.value.figures;
      var fp := ParseForgePrice(Cell(row, "forge price1"), toFloat);
      f.price == fp.price && f.changeAmt == fp.change && f.changePerc == fp.changePerc
      && f.pricePerShare == ParseFloat(Cell(row, "price per share"), toFloat)
    ensures var r := ParseCsvRow(row, asOf, source, toFloat, toJson);
      r.Ok? && r.value.Some? ==>
      var v := r.value.value;
      v.sector == StrippedOrNone(Cell(row, "sector & subsector"))
      && v.figures.lastMatchedPrice == StrippedOrNone(Cell(row, "last matched price"))
      && v.figures.shareClass == StrippedOrNone(Cell(row, "share class"))
      && v.figures.postMoneyValuation == StrippedOrNone(Cell(row, "post-money valuation2"))
      && v.figures.amountRaised == StrippedOrNone(Cell(row, "amount raised"))
  {
    var r := ParseCsvRow(row, asOf, source, toFloat, toJson);
    if r.Ok? && r.value.Some? {
      var cells := ReadCells(row, CellColumns);
      assert cells.Ok?;
      var c := cells.value;
      assert Cell(row, "forge price1") == c[0] && Cell(row, "sector & subsector") == c[1];
      assert Cell(row, "last matched price") == c[2] && Cell(row, "share class") == c[3];
      assert Cell(row, "post-money valuation2") == c[4] && Cell(row, "price per share") == c[5];
      assert Cell(row, "amount raised") == c[6];
    }
  }

  /** The cells of `columns`, read one after another with `_get_csv_value`;
      the first lookup that raises stops the reading. */
  function ReadCells(row: CsvRow, columns: seq<string>): (r: Result<seq<string>>)
    ensures r.Err? ==> r.error == AttributeError && row.overflow
    ensures r.Err? <==> exists k :: 0 <= k < |columns| && GetCsvValue(row, columns[k]).Err?
    ensures r.Ok? ==> |r.value| == |columns|
    ensures r.Ok? ==> forall k :: 0 <= k < |columns| ==> GetCsvValue(row, columns[k]) == Ok(r.value[k])
  {
    if |columns| == 0 then Ok([])
    else
      assert forall k :: 1 <= k < |columns| ==> columns[k] == columns[1..][k - 1];
      match GetCsvValue(row, columns[0])
      case Err(e) => Err(e)
      case Ok(head) =>
        match ReadCells(row, columns[1..])
        case Err(e) => Err(e)
        case Ok(rest) => Ok([head] + rest)
  }

  // ----------------------------------------------------------------- loading

  /** What `_parse_csv_row` gives for each row, in order. */
  function ParseRows(rows: seq<CsvRow>, asOf: Dates.Date, source: string,
                     toFloat: string -> Option<real>, toJson: CsvRow -> string)
    : (ps: seq<Result<Option<CompanyValuations.ValuationInput>>>)
    ensures |ps| == |rows|
    ensures forall i :: 0 <= i < |rows| ==> ps[i] == ParseCsvRow(rows[i], asOf, source, toFloat, toJson)
  {
    seq(|rows|, i requires 0 <= i < |rows| => ParseCsvRow(rows[i], asOf, source, toFloat, toJson))
  }

  /** The counters of `load_csv_file`, and the numbers of the rows that
      failed (the header is row 1). */
  datatype Tally = Tally(loaded: nat, skipped: nat, errors: nat, errorRows: seq<nat>)

  /** The row loop of `load_csv_file` over the rows' parse outcomes: each
      valuation is saved, each skipped row counted, and each row that raised
      recorded by number. Ids and clock readings of the saves come from
      `idAt` and `nowAt` by row. */
  function LoadRows(parsed: seq<Result<Option<CompanyValuations.ValuationInput>>>,
                    store: CompanyValuations.ValuationStore, idAt: nat -> int, nowAt: nat -> int)
    : (r: (CompanyValuations.ValuationStore, Tally))
    ensures r.1.loaded + r.1.skipped + r.1.errors == |parsed|
    ensures |r.1.errorRows| == r.1.errors
    decreases |parsed|
  {
    if |parsed| == 0 then (store, Tally(0, 0, 0, []))
    else
      var n := |parsed| - 1;
      var pre := LoadRows(parsed[..n], store, idAt, nowAt);
      var t := pre.1;
      match parsed[n]
      case Err(_) => (pre.0, t.(errors := t.errors + 1, errorRows := t.errorRows + [n + 2]))
      case Ok(None) => (pre.0, t.(skipped := t.skipped + 1))
      case Ok(Some(item)) => (CompanyValuations.Save(pre.0, item, idAt(n), nowAt(n)).0, t.(loaded := t.loaded + 1))
  }

  /** The recorded line numbers are, in increasing order, exactly those of
      the rows that failed, counting the header as line 1. */
  lemma {:induction false} LoadRowsRecordsFailedLines(parsed: seq<Result<Option<CompanyValuations.ValuationInput>>>,
                                                      store: CompanyValuations.ValuationStore, idAt: nat -> int, nowAt: nat -> int)
    ensures FailedLines(parsed, LoadRows(parsed, store, idAt, nowAt).1.errorRows)
    decreases |parsed|
  {
    if |parsed| > 0 {
      var n := |parsed| - 1;
      LoadRowsRecordsFailedLines(parsed[..n], store, idAt, nowAt);
      ErrorRowsExtend(parsed, parsed[..n], LoadRows(parsed[..n], store, idAt, nowAt).1.errorRows,
                      LoadRows(parsed, store, idAt, nowAt).1.errorRows);
    }
  }

  /** `lines` are the line numbers, in increasing order, of exactly the
      outcomes in `parsed` that failed (the header is line 1). */
  predicate FailedLines<T>(parsed: seq<Result<T>>, lines: seq<nat>) {
    && (forall k :: 0 <= k < |lines| ==> 2 <= lines[k] < |parsed| + 2 && parsed[lines[k] - 2].Err?)
    && (forall k, l :: 0 <= k < l < |lines| ==> lines[k] < lines[l])
    && (forall i :: 0 <= i < |parsed| && parsed[i].Err? ==> i + 2 in lines)
  }

  /** The failed rows' line numbers of all outcomes but the last, extended
      with the last one's when it failed, are those of every outcome. */
  lemma ErrorRowsExtend<T>(parsed: seq<Result<T>>, pre: seq<Result<T>>, rows: seq<nat>, all: seq<nat>)
    requires |parsed| > 0 && pre == parsed[..|parsed| - 1]
    requires FailedLines(pre, rows)
    requires all == if parsed[|parsed| - 1].Err? then rows + [|parsed| + 1] else rows
    ensures FailedLines(parsed, all)
  {
    var n := |parsed| - 1;
    FrontThenLast(parsed);
    ErrorRowsStayFailed(pre, parsed[n], rows, all);
    ErrorRowsStayComplete(pre, parsed[n], rows, all);
  }

  /** Every line number kept after the extension names a failed row. */
  lemma ErrorRowsStayFailed<T>(pre: seq<Result<T>>, last: Result<T>, rows: seq<nat>, all: seq<nat>)
    requires forall k :: 0 <= k < |rows| ==> 2 <= rows[k] < |pre| + 2 && pre[rows[k] - 2].Err?
    requires all == if last.Err? then rows + [|pre| + 2] else rows
    ensures forall k :: 0 <= k < |all| ==> 2 <= all[k] < |pre| + 3 && (pre + [last])[all[k] - 2].Err?
  {
    var parsed := pre + [last];
    forall k | 0 <= k < |all|
      ensures 2 <= all[k] < |pre| + 3 && parsed[all[k] - 2].Err?
    {
      if k < |rows| {
        assert all[k] == rows[k];
        assert parsed[rows[k] - 2] == pre[rows[k] - 2];
      }
    }
  }

  /** Every failed row's line number is kept after the extension. */
  lemma ErrorRowsStayComplete<T>(pre: seq<Result<T>>, last: Result<T>, rows: seq<nat>, all: seq<nat>)
    requires forall i :: 0 <= i < |pre| && pre[i].Err? ==> i + 2 in rows
    requires all == if last.Err? then rows + [|pre| + 2] else rows
    ensures forall i :: 0 <= i < |pre| + 1 && (pre + [last])[i].Err? ==> i + 2 in all
  {
    var parsed := pre + [last];
    forall i | 0 <= i < |parsed| && parsed[i].Err?
      ensures i + 2 in all
    {
      if i < |pre| {
        assert parsed[i] == pre[i];
        assert i + 2 in rows;
      } else {
        assert all[|all| - 1] == i + 2;
      }
    }
  }

  /** With every row skipped or failed the store is left alone. */
  lemma {:induction false} LoadRowsWithoutValuations(parsed: seq<Result<Option<CompanyValuations.ValuationInput>>>,
                                                     store: CompanyValuations.ValuationStore, idAt: nat -> int, nowAt: nat -> int)
    requires forall i :: 0 <= i < |parsed| ==> !(parsed[i].Ok? && parsed[i].value.Some?)
    ensures LoadRows(parsed, store, idAt, nowAt).0 == store
    ensures LoadRows(parsed, store, idAt, nowAt).1.loaded == 0
    decreases |parsed|
  {
    if |parsed| > 0 {
      var n := |parsed| - 1;
      assert forall i :: 0 <= i < n ==> parsed[..n][i] == parsed[i];
      LoadRowsWithoutValuations(parsed[..n], store, idAt, nowAt);
    }
  }

  /** When every row parses to a valuation, every row is loaded. */
  lemma {:induction false} LoadRowsAllValuations(parsed: seq<Result<Option<CompanyValuations.ValuationInput>>>,
                                                 store: CompanyValuations.ValuationStore, idAt: nat -> int, nowAt: nat -> int)
    requires forall i :: 0 <= i < |parsed| ==> parsed[i].Ok? && parsed[i].value.Some?
    ensures LoadRows(parsed, store, idAt, nowAt).1.loaded == |parsed|
    decreases |parsed|
  {
    if |parsed| > 0 {
      var n := |parsed| - 1;
      assert forall i :: 0 <= i < n ==> parsed[..n][i] == parsed[i];
      LoadRowsAllValuations(parsed[..n], store, idAt, nowAt);
    }
  }

  /** When no row raises, no error is counted. */
  lemma {:induction false} LoadRowsWithoutFailures(parsed: seq<Result<Option<CompanyValuations.ValuationInput>>>,
                                                   store: CompanyValuations.ValuationStore, idAt: nat -> int, nowAt: nat -> int)
    requires forall i :: 0 <= i < |parsed| ==> parsed[i].Ok?
    ensures LoadRows(parsed, store, idAt, nowAt).1.errors == 0
    decreases |parsed|
  {
    if |parsed| > 0 {
      var n := |parsed| - 1;
      assert forall i :: 0 <= i < n ==> parsed[..n][i] == parsed[i];
      LoadRowsWithoutFailures(parsed[..n], store, idAt, nowAt);
    }
  }

  /** Loading never creates a second row for a (company, date, source) key. */
  lemma {:induction false} LoadRowsKeepsUniqueKeys(parsed: seq<Result<Option<CompanyValuations.ValuationInput>>>,
                                                   store: CompanyValuations.ValuationStore, idAt: nat -> int, nowAt: nat -> int)
    requires CompanyValuations.UniqueKeys(store)
    ensures CompanyValuations.UniqueKeys(LoadRows(parsed, store, idAt, nowAt).0)
    decreases |parsed|
  {
    if |parsed| > 0 {
      var n := |parsed| - 1;
      var pre := LoadRows(parsed[..n], store, idAt, nowAt);
      LoadRowsKeepsUniqueKeys(parsed[..n], store, idAt, nowAt);
      if parsed[n].Ok? && parsed[n].value.Some? {
        CompanyValuations.SaveKeepsUniqueKeys(pre.0, parsed[n].value.value, idAt(n), nowAt(n));
      }
    }
  }

  /** The ids handed to the saves of the first `n` rows. */
  function UsedIds(idAt: nat -> int, n: nat): (ids: set<int>)
    ensures forall i :: 0 <= i < n ==> idAt(i) in ids
  {
    set i | 0 <= i < n :: idAt(i)
  }

  lemma UsedIdsGrow(idAt: nat -> int, n: nat)
    ensures UsedIds(idAt, n + 1) == UsedIds(idAt, n) + {idAt(n)}
  {
  }

  /** Rows `i` of `parsed` that parsed to a valuation. */
  predicate IsValuation(parsed: seq<Result<Option<CompanyValuations.ValuationInput>>>, i: int) {
    0 <= i < |parsed| && parsed[i].Ok? && parsed[i].value.Some?
  }

  /** With unused, distinct ids, loading keeps every (company, date, source)
      the store held, stores the one of every row that parsed to a
      valuation, and adds rows only under the ids it was given. */
  lemma {:induction false} LoadRowsStoresEveryValuation(parsed: seq<Result<Option<CompanyValuations.ValuationInput>>>,
                                                        store: CompanyValuations.ValuationStore, idAt: nat -> int, nowAt: nat -> int)
    requires forall i :: 0 <= i < |parsed| ==> idAt(i) !in store
    requires forall i, j :: 0 <= i < j < |parsed| ==> idAt(i) != idAt(j)
    ensures LoadRows(parsed, store, idAt, nowAt).0.Keys <= store.Keys + UsedIds(idAt, |parsed|)
    ensures forall c, d, src :: CompanyValuations.HasRowFor(store, c, d, src) ==>
      CompanyValuations.HasRowFor(LoadRows(parsed, store, idAt, nowAt).0, c, d, src)
    ensures forall i :: IsValuation(parsed, i) ==>
      var v := parsed[i].value.value;
      CompanyValuations.HasRowFor(LoadRows(parsed, store, idAt, nowAt).0, v.company, v.asOf, v.source)
    decreases |parsed|
  {
    if |parsed| > 0 {
      var n := |parsed| - 1;
      var front := parsed[..n];
      assert forall i :: 0 <= i < n ==> front[i] == parsed[i];
      LoadRowsStoresEveryValuation(front, store, idAt, nowAt);
      var pre := LoadRows(front, store, idAt, nowAt).0;
      assert idAt(n) !in pre by {
        assert forall i :: 0 <= i < n ==> idAt(i) != idAt(n);
      }
      if parsed[n].Ok? && parsed[n].value.Some? {
        LoadRowsSaveStep(parsed, front, pre, store, idAt, nowAt);
      }
    }
  }

  /** The step of `LoadRowsStoresEveryValuation` for a last row that parsed
      to a valuation. */
  lemma LoadRowsSaveStep(parsed: seq<Result<Option<CompanyValuations.ValuationInput>>>, front: seq<Result<Option<CompanyValuations.ValuationInput>>>,
                         pre: CompanyValuations.ValuationStore,
                         store: CompanyValuations.ValuationStore, idAt: nat -> int, nowAt: nat -> int)
    requires |parsed| > 0 && IsValuation(parsed, |parsed| - 1) && front == parsed[..|parsed| - 1]
    requires pre == LoadRows(front, store, idAt, nowAt).0
    requires idAt(|parsed| - 1) !in pre
    requires pre.Keys <= store.Keys + UsedIds(idAt, |parsed| - 1)
    requires forall c, d, src :: CompanyValuations.HasRowFor(store, c, d, src) ==> CompanyValuations.HasRowFor(pre, c, d, src)
    requires forall i :: IsValuation(front, i) ==>
      var v := front[i].value.value;
      CompanyValuations.HasRowFor(pre, v.company, v.asOf, v.source)
    ensures LoadRows(parsed, store, idAt, nowAt).0.Keys <= store.Keys + UsedIds(idAt, |parsed|)
    ensures forall c, d, src :: CompanyValuations.HasRowFor(store, c, d, src) ==>
      CompanyValuations.HasRowFor(LoadRows(parsed, store, idAt, nowAt).0, c, d, src)
    ensures forall i :: IsValuation(parsed, i) ==>
      var v := parsed[i].value.value;
      CompanyValuations.HasRowFor(LoadRows(parsed, store, idAt, nowAt).0, v.company, v.asOf, v.source)
  {
    var n := |parsed| - 1;
    var item := parsed[n].value.value;
    var post := CompanyValuations.Save(pre, item, idAt(n), nowAt(n)).0;
    assert LoadRows(parsed, store, idAt, nowAt).0 == post;
    CompanyValuations.SaveStoresItsKey(pre, item, idAt(n), nowAt(n));
    assert post.Keys <= store.Keys + UsedIds(idAt, n + 1) by {
      UsedIdsGrow(idAt, n);
    }
    forall c, d, src | CompanyValuations.HasRowFor(pre, c, d, src)
      ensures CompanyValuations.HasRowFor(post, c, d, src)
    {
      CompanyValuations.SaveKeepsRowsFor(pre, item, idAt(n), nowAt(n), c, d, src);
    }
    forall i | IsValuation(parsed, i)
      ensures var v := parsed[i].value.value; CompanyValuations.HasRowFor(post, v.company, v.asOf, v.source)
    {
      if i < n {
        assert front[i] == parsed[i];
        assert IsValuation(front, i);
        var v := parsed[i].value.value;
        CompanyValuations.SaveKeepsRowsFor(pre, item, idAt(n), nowAt(n), v.company, v.asOf, v.source);
      }
    }
  }

  /** The rows `csv.DictReader` yields for the lines after the header. */
  function ReaderRows(header: seq<string>, lines: seq<seq<string>>): (rows: seq<CsvRow>)
    ensures |rows| == |lines|
    ensures forall i :: 0 <= i < |lines| ==> rows[i] == ReaderRow(header, lines[i])
  {
    seq(|lines|, i requires 0 <= i < |lines| => ReaderRow(header, lines[i]))
  }

  /** The result `load_csv_file` returns. */
  datatype LoadResult = LoadResult(path: string, asOf: Dates.Date, tally: Tally)

  /** `load_csv_file` on the header row and the lines the reader yields:
      the date given, else the one in the file name; headers without
      "company" make the whole file fail with `RuntimeError` (the
      `ValueError` re-raised) and leave the store alone. */
  function LoadCsvFile(path: string, asOf: Option<Dates.Date>, today: Dates.Date,
                       header: Option<seq<string>>, lines: seq<seq<string>>, source: string,
                       toFloat: string -> Option<real>, toJson: CsvRow -> string,
                       store: CompanyValuations.ValuationStore, idAt: nat -> int, nowAt: nat -> int)
    : (r: Result<(CompanyValuations.ValuationStore, LoadResult)>)
    ensures r.Err? <==> !ValidateHeaders(header)
    ensures r.Err? ==> r.error == RuntimeError
    ensures r.Ok? ==> r.value.1.asOf == (if asOf.Some? then asOf.value else ExtractDate(path, today))
    ensures r.Ok? ==> var t := r.value.1.tally; t.loaded + t.skipped + t.errors == |lines|
  {
    var date := if asOf.Some? then asOf.value else ExtractDate(path, today);
    if !ValidateHeaders(header) then Err(RuntimeError)
    else
      var parsed := ParseRows(ReaderRows(header.value, lines), date, source, toFloat, toJson);
      var loaded := LoadRows(parsed, store, idAt, nowAt);
      Ok((loaded.0, LoadResult(path, date, loaded.1)))
  }

  /** A file none of whose lines is longer than its header row has no
      failed rows. */
  lemma NoLongLinesNoErrors(path: string, asOf: Option<Dates.Date>, today: Dates.Date,
                            header: Option<seq<string>>, lines: seq<seq<string>>, source: string,
                            toFloat: string -> Option<real>, toJson: CsvRow -> string,
                            store: CompanyValuations.ValuationStore, idAt: nat -> int, nowAt: nat -> int)
    requires ValidateHeaders(header)
    requires forall i :: 0 <= i < |lines| ==> |lines[i]| <= |header.value|
    ensures LoadCsvFile(path, asOf, today, header, lines, source, toFloat, toJson, store, idAt, nowAt).value.1.tally.errors == 0
  {
    var date := if asOf.Some? then asOf.value else ExtractDate(path, today);
    var rows := ReaderRows(header.value, lines);
    var parsed := ParseRows(rows, date, source, toFloat, toJson);
    assert forall i :: 0 <= i < |parsed| ==> !rows[i].overflow && parsed[i].Ok?;
    LoadRowsWithoutFailures(parsed, store, idAt, nowAt);
  }

  /** With unused, distinct ids, every line that parses to a valuation has
      its company stored under the file's date and the loader's source, and
      nothing the store held before is lost. */
  lemma LoadCsvFileStoresEveryValuation(path: string, asOf: Option<Dates.Date>, today: Dates.Date,
                                        header: Option<seq<string>>, lines: seq<seq<string>>, source: string,
                                        toFloat: string -> Option<real>, toJson: CsvRow -> string,
                                        store: CompanyValuations.ValuationStore, idAt: nat -> int, nowAt: nat -> int)
    requires ValidateHeaders(header)
    requires forall i :: 0 <= i < |lines| ==> idAt(i) !in store
    requires forall i, j :: 0 <= i < j < |lines| ==> idAt(i) != idAt(j)
    ensures var r := LoadCsvFile(path, asOf, today, header, lines, source, toFloat, toJson, store, idAt, nowAt).value;
      forall i :: 0 <= i < |lines| ==>
        var p := ParseCsvRow(ReaderRow(header.value, lines[i]), r.1.asOf, source, toFloat, toJson);
        p.Ok? && p.value.Some? ==> CompanyValuations.HasRowFor(r.0, p.value.value.company, r.1.asOf, source)
    ensures var r := LoadCsvFile(path, asOf, today, header, lines, source, toFloat, toJson, store, idAt, nowAt).value;
      forall c, d, src :: CompanyValuations.HasRowFor(store, c, d, src) ==> CompanyValuations.HasRowFor(r.0, c, d, src)
  {
    var date := if asOf.Some? then asOf.value else ExtractDate(path, today);
    var rows := ReaderRows(header.value, lines);
    var parsed := ParseRows(rows, date, source, toFloat, toJson);
    LoadRowsStoresEveryValuation(parsed, store, idAt, nowAt);
    assert forall i :: 0 <= i < |lines| ==> parsed[i] == ParseCsvRow(ReaderRow(header.value, lines[i]), date, source, toFloat, toJson);
  }
}
